=== FILE: README.md ===
# parrot and the document layer, modelled in Dafny

This project models the storage core of the `orange` document database. That core is the LSM
key-value engine `parrot` and the document layer on top of it.

The engine parts modelled are:

- the key and value types and their ordering;
- the memtable and the memtable store: writes, deletes, point reads, full scans and WAL
  recovery;
- the SSTable layout `utils.Encode` writes and the cache that reads tables back by binary
  search;
- the manifest's file naming;
- the size-tiered compactor: its threshold, its k-way merge, its bracketed file operations and
  its crash `rollback`;
- the `Storage` facade.

The document-layer parts modelled are:

- the `internal/types` converters;
- the schema verifier and the data caster of `internal/schema`;
- the query-language parser of `pkg/oql`.

Every operation is a pure function, or a method over immutable values. A store is a value:
its memtables oldest first, its levels, its decoder cache, and the files it can open. A file is
a sequence of cells. Every operation returns the new value.

How Go's behaviour is stated:

- **Integers.** Integers are unbounded. Go's fixed widths are written out where the code
  depends on them:
  - the `uintptr` soft-limit test of `Memtable.Write`, with its wrap-around for negative
    limits;
  - the `int64` product of the compaction threshold, which wraps;
  - `int32(val)` in `toInt32`;
  - the `int64` range of `strconv.ParseInt`.
- **Strings.** A key or value string is a sequence of Unicode code points. Go's `<` on
  strings compares UTF-8 bytes, which orders valid UTF-8 exactly as code-point order does.
  Go's `len` of a string, which `StringValue.SizeOf` reports, is the UTF-8 byte count
  (`Keys.Utf8Len`). In the document layer a Go string is taken as its bytes, one byte per
  character.
- **gob.** gob is abstracted. An encoded payload is a head cell carrying the payload, followed
  by filler cells. An index record is one head cell. Decoding reads the first record of a slice.
  The proofs rely on exactly two properties: the encoding is self-delimiting, and a record
  decodes back to what was encoded.
- **Go map order.** Go leaves the iteration order of a map unspecified.
  - A schema or a document is modelled as an explicit listing of its entries. Every statement
    whose outcome could depend on the order is made for every listing.
  - A memtable's map walk in `BuildPayloadList` and `ReadAll` is any listing of its entries.
  - The compactor's `range` over a level's tables is taken in ascending id order. The store's
    read path sorts ids in descending order, as the source does.
- **Regular expressions.** Each regular expression of the parser is a function. It says where a
  match starting at a position ends and what its group captures. The contracts state this the
  way Go's leftmost-first matcher resolves it: the leftmost match wins; greedy `+` and `*` take
  as much as they can; lazy `+?` takes as little as it can. `.` does not match a newline, as in
  Go's default mode, so `extractOutermost` rejects a body that spans lines.
- **Upper-casing.** `strings.ToUpper` maps the dotless `ı` to `I` and the long `ſ` to `S`, so
  `ıNSERT` is dispatched as an INSERT. Case-insensitive matching folds `ſ` with `s` but does
  not fold `ı` with `i`, so the INSERT name pattern does not match at the start of such a
  statement. This is recorded as behaviour, not as a finding.
- **Compaction log.** `SizeTiredCompaction.Run` brackets only the data file of the new table
  with write events; the index file is never logged. After a fatal `Encode` error, `rollback`
  therefore deletes the partial data file and leaves the partial index file in place.
- **Loading tables.** A table that is empty when the compactor loads it makes `sstList[i][0]`
  panic. The model reports this as a panic of the compaction.
- **lsm.go.** parrot/metadata/lsm.go is not part of this model. The behaviour of its operations
  is assumed as follows:
  - `GetLevel` returns the level at a position and fails past the last one;
  - `AppendLevel` adds an empty level;
  - `GetNextId` hands out a level's counter and advances it;
  - `SetSSTable` records a table under an id;
  - `Clear` drops the listed ids;
  - `SizeInBytes` is the summed size of a level's tables.
- **File manager.** The file manager of parrot/utils/io is not part of this model. `Delete` is
  assumed to fail exactly when the path does not exist. `OpenForWrite` is assumed to create an
  empty file.

Where the source has a bug (see Findings), the model keeps both versions. A mode `AsWritten`
or `Corrected`, or a separate as-written member, selects the version. The store's reads and
deletes, WAL recovery and the `Storage` facade all take the mode, and their properties are
stated for both modes where both hold. As written, a store read looks a key up in each
SSTable with the `right = len` search, which panics on a key above the table's last key
and on any key of an empty table. It also takes the zero payload of a failed lookup for
the zero key. Corrected, it uses the `right = len - 1` search and skips a table whose
lookup failed. A Go runtime panic in a lookup ends the read in both modes, since nothing
on the read path recovers it. The same holds for the full scan `ReadAll`: a table whose
index points at a negative offset or size panics in `getDecodedForAll`, and the scan then
returns no values. Lemmas named `AsWritten…`, and the ones the Findings
table names, exhibit the discrepancy on a concrete input.

## Model

| member | source | states |
|---|---|---|
| Keys.LexLessIrreflexive | parrot/types/types.go:33-39 | no string key is below itself under `StringKey.Less` |
| Keys.LexLessTransitive | parrot/types/types.go:33-39 | `StringKey.Less` is transitive |
| Keys.LexLessTotal | parrot/types/types.go:33-39 | of two different strings one is below the other |
| Keys.LexLessIsLexOrder | parrot/types/types.go:33-39 | Go's string `<` holds exactly when one string is a proper prefix of the other or the first differing character is smaller: code-point order, which is the UTF-8 byte order Go compares |
| Keys.LessIrreflexive | parrot/types/types.go:21-39 | `Key.Less` never holds between a key and itself |
| Keys.LessTransitive | parrot/types/types.go:21-39 | `Key.Less` is transitive |
| Keys.LessTrichotomous | parrot/types/types.go:21-39 | for two keys of one kind exactly one of `a < b`, `a == b`, `b < a` holds |
| Keys.LessAcrossKinds | parrot/types/types.go:22-25 | an `IntKey` and a `StringKey` are below each other in neither direction, because the type assertion fails |
| Keys.NotLessTransitive | parrot/types/types.go:21-39 | "not below" is transitive among keys of one kind, the property `sort.Slice` needs |
| Keys.MarkDeleted | parrot/types/types.go:62-81 | marking a value deleted sets its tombstone flag and keeps its contents and its `SizeOf` |
| Keys.FreshValueIsLive | parrot/types/types.go:53-85 | a new value is not deleted; an `IntValue` has size 4 and a `StringValue` the UTF-8 byte length of its string, between one and four bytes per character |
| Keys.Utf8LenBounds | parrot/types/types.go:83-85 | `len` of a string counts between one and four bytes per character |
| Keys.Utf8LenAscii | parrot/types/types.go:83-85 | `len` of a string equals its character count exactly when every character is ASCII |
| Keys.Utf8LenConcat | parrot/types/types.go:83-85 | `len` of a concatenation is the sum of the lengths |
| Keys.SizeOfCountsBytes | parrot/types/types.go:83-85 | the `StringValue` "é" has size 2 and "e" size 1 |
| Memtable.NewMemtable | parrot/memtable/memtable.go:69-83 | every key of a new memtable reads as not found, nothing is logged, and the options are kept |
| Memtable.Write | parrot/memtable/memtable.go:105-121 | the write is accepted exactly when `uintptr(len+1) * SizeOf` does not exceed `uintptr(limit)`; only an accepted write changes the data, storing the value under the key; the event is logged either way when the WAL is on |
| Memtable.Delete | parrot/memtable/memtable.go:123-138 | the key ends up present and marked deleted, keeping the old value's contents or taking the tombstone when absent; no other key changes; with the WAL on exactly one delete event for the key is appended, without a value as written and carrying the tombstone corrected |
| Memtable.Read | parrot/memtable/memtable.go:140-152 | not found exactly for an absent key, deleted exactly for a present tombstone, found exactly for a present live value; the stored value is returned whenever present |
| Memtable.OverflowsPlain | parrot/memtable/memtable.go:116 | for a non-negative limit and a product that does not wrap, the `uintptr` test is the plain comparison |
| Memtable.AcceptedWriteWithinLimit | parrot/memtable/memtable.go:116-120 | after an accepted write `len(data) * SizeOf(value)` is within the soft limit |
| Memtable.NegativeLimitAcceptsAll | parrot/memtable/memtable.go:116 | a negative soft limit converts to a huge `uintptr`, so every write of a non-wrapping size is accepted |
| Memtable.ReadAfterDelete | parrot/memtable/memtable.go:123-152 | after a delete the key reads as deleted, present before or not, and every other key reads as before |
| Memtable.ReadAfterWrite | parrot/memtable/memtable.go:105-152 | after an accepted write of a live value a read of the key finds that value |
| Memtable.MultiByteStringOverLimit | parrot/memtable/memtable.go:105-121 | with a soft limit of 1 an empty memtable rejects the two-byte string "é" and accepts "e" |
| Memtable.Insert | parrot/memtable/memtable.go:99-101 | inserting one payload into a list adds exactly that payload |
| Memtable.SortByKey | parrot/memtable/memtable.go:99-101 | the sort returns a permutation of its input |
| Memtable.InsertStrictlySorted | parrot/memtable/memtable.go:99-101 | inserting a new key of the same kind into a strictly increasing list keeps it strictly increasing |
| Memtable.SortByKeyStrictlySorted | parrot/memtable/memtable.go:99-101 | sorting a list of distinct keys of one kind makes it strictly increasing under `Key.Less` |
| Memtable.TotalSizePermutation | parrot/memtable/memtable.go:94-97 | the summed size of a list does not depend on its order |
| Memtable.ListEntries | parrot/memtable/memtable.go:93-98 | the map walk lists every entry exactly once, in whatever order the walk picks, with the summed size |
| Memtable.BuildPayloadList | parrot/memtable/memtable.go:90-103 | every entry of the memtable exactly once, strictly ascending when the keys share one type, with the size equal to the sum of the values' `SizeOf` |
| Memtable.SortedEntries | parrot/memtable/memtable.go:95-101 | sorting the listing keeps exactly the memtable's entries and orders them |
| Memtable.DistinctKeysPermutation | parrot/memtable/memtable.go:99-101 | a permutation of a list with distinct keys has distinct keys |
| Memtable.DistinctKeysCardinality | parrot/memtable/memtable.go:90-103 | a list with distinct keys has as many entries as keys, so the payload list is as long as the map |
| SstLayout.Record | parrot/utils/utils.go:34-40 | one payload's record is `RecordWidth` cells long and starts with the payload's head cell |
| SstLayout.Entries | parrot/utils/utils.go:45-49 | one index entry per payload written |
| SstLayout.IndexCells | parrot/utils/utils.go:50 | the index file body holds one cell per entry |
| SstLayout.DecodePayload | parrot/cache/v2/index.go:162-166 | decoding a slice of the data file succeeds exactly when it starts with a payload record, and yields that payload |
| SstLayout.DecodeIndex | parrot/cache/v2/index.go:116-137 | decoding the index file succeeds exactly when every record in it is an index entry, and yields those entries in file order |
| SstLayout.Put | parrot/utils/utils.go:40 | writing a cell past the end of a file grows it to that offset plus one; writing inside it keeps its length |
| SstLayout.WriteAtCompose | parrot/utils/utils.go:40 | two writes back to back equal one write of their concatenation |
| SstLayout.WriteAtEnd | parrot/utils/utils.go:40 | writing at the end of a file appends |
| SstLayout.EncodeItem | parrot/utils/utils.go:28-53 | one loop iteration stops with the error of the first failing step (seek, buffer encode, data write, index encode); a record is kept when only the index encode failed; otherwise the record and the entry at the current offset both follow what was written |
| SstLayout.EncodeItems | parrot/utils/utils.go:28-53 | the loop writes the records of the payloads before the first failure to the data file and their entries, with offsets and lengths, to the index file, and reports that failure's error |
| SstLayout.StopsAt | parrot/utils/utils.go:28-53 | the loop stops at the first payload whose step fails, with that step's error |
| SstLayout.RunsThrough | parrot/utils/utils.go:28-53 | when no step fails every payload is stored and indexed and no error is reported |
| SstLayout.Encode | parrot/utils/utils.go:25-61 | the data file receives the records and the index file the entries of the payloads written before the first failure; the error names the failing step; on success both files are rewound to offset 0 |
| SstLayout.ErrorOfCases | parrot/utils/utils.go:28-60 | the error of `Encode` is that of the loop, else that of the data-file rewind, else that of the index-file rewind, else none |
| SstLayout.EntryLocatesRecord | parrot/utils/utils.go:29-49 | the offset and size recorded for payload `j` delimit exactly that payload's record in the data file |
| SstLayout.HeadAt | parrot/utils/utils.go:29-40 | the record of payload `j` starts at the offset of its entry with the payload's head cell |
| SstCache.SearchAsWritten | parrot/cache/v2/index.go:149-178 | the binary search as written, starting with `right = len(index)`: a hit names an entry carrying the key; it runs off the end of the index only when the whole range is searched and the key is above the last entry (or the index is empty); on a sorted index a miss means no entry in the range has the key |
| SstCache.SearchAsWrittenRunsOff | parrot/cache/v2/index.go:149-154 | when every remaining entry is below the key the search keeps moving right and reads `index[len]` |
| SstCache.SearchAsWrittenExact | parrot/cache/v2/index.go:149-178 | on a sorted index the as-written search runs off the end exactly when the key is above every entry, and otherwise misses exactly when no entry has the key |
| SstCache.BelowLast | parrot/cache/v2/index.go:149-156 | in a sorted index a key above the last entry is above every entry |
| SstCache.SearchIn | parrot/cache/v2/index.go:151-178 | the binary search over `left..right` inside the index never reads outside it; a hit has the key; on a sorted index a miss means no entry in the range has the key |
| SstCache.Search | parrot/cache/v2/index.go:149-180 | the search over the whole index with `right = len(index) - 1` never goes out of range, and on a sorted index it misses exactly when no entry has the key |
| SstCache.Fetch | parrot/cache/v2/index.go:157-173 | reading the record an entry points at fails exactly when the range leaves the data file, is empty or negative (Go's slice panics or the decode fails), or does not start with a record; otherwise the payload comes back, as a tombstone when it is marked deleted |
| SstCache.FetchAll | parrot/cache/v2/index.go:187-213 | the full decode returns one payload per index entry, each the one its entry points at, or fails |
| SstCache.IndexCellsDecode | parrot/cache/v2/index.go:116-137 | the index file `Encode` writes decodes back to exactly its entries |
| SstCache.FetchWritten | parrot/cache/v2/index.go:157-173 | every entry `Encode` wrote leads back to its payload |
| SstCache.FetchRecord | parrot/cache/v2/index.go:158-173 | an entry spanning exactly one payload's record fetches that payload |
| SstCache.DecodeAllAfterEncode | parrot/cache/v2/index.go:187-213 | decoding a freshly written SSTable gives back exactly the payloads written, in order |
| SstCache.LookupAfterEncode | parrot/cache/v2/index.go:142-181 | a point lookup in a freshly written table of key-sorted payloads never errs, reports not found exactly when the table lacks the key, and otherwise returns the payload with that key |
| SstCache.LookupAfterEncodeAsWritten | parrot/cache/v2/index.go:142-181 | the as-written lookup in such a table panics exactly when the key is above every key of the table (any key, for an empty table), fails in no other way, is not found exactly when the key is absent and not above them all, and otherwise returns the payload with that key |
| SstCache.WrittenIndexOrder | parrot/utils/utils.go:28-53 | the index `Encode` writes lists the payloads' keys in their order, so a sorted table has a sorted index |
| SstCache.AsWrittenPanicsAboveLastKey | parrot/cache/v2/index.go:149-153 | on a one-entry table a key above its key panics as written and is not found with the corrected bound |
| SstCache.AsWrittenPanicsOnEmptyTable | parrot/cache/v2/index.go:149-153 | on an empty table every key panics as written and is not found with the corrected bound |
| SstCache.Load | parrot/cache/v2/index.go:39-62 | a cached data path returns its unit without opening files; otherwise both files are opened, a missing one is an error that caches nothing, and the new unit is remembered |
| SstCache.Get | parrot/cache/v2/index.go:38-65 | the point lookup of the mode runs on the unit of the data path: the `right = len` search as written, the corrected one otherwise; a unit that cannot be opened is an error; units already cached are kept; only the data path may be added |
| SstCache.GetFullPayload | parrot/cache/v2/index.go:68-96 | the full decode runs on the unit of the data path; units already cached are kept; only the data path may be added |
| SstCache.CachedUnitIgnoresFiles | parrot/cache/v2/index.go:39-43 | once a data path is cached, what the files now hold does not change what a read returns |
| GoPath.SplitConcat | parrot/metadata/manifest.go:104-109 | the elements of `a/b` are those of `a` followed by those of `b` |
| GoPath.CleanChild | parrot/metadata/manifest.go:104-109 | cleaning a path with one plain name appended appends that name to the cleaned path |
| GoPath.JoinChild | parrot/metadata/manifest.go:104-109 | `path.Join` of one more plain name is the child of the join of the others |
| GoPath.Itoa | parrot/metadata/manifest.go:107-108 | `%d` of a non-negative number is a non-empty run of decimal digits |
| GoPath.ParseItoa | parrot/metadata/manifest.go:107-108 | reading the digits back gives the number |
| GoPath.ItoaInjective | parrot/metadata/manifest.go:107-108 | distinct numbers print differently |
| GoPath.SplitAtSlash | parrot/metadata/manifest.go:104-109 | a path `x/y` whose first part has no slash determines both parts |
| GoPath.RenderChild | parrot/metadata/manifest.go:104-109 | putting the kept elements back with one more plain name appends it as a child |
| GoPath.ReduceChild | parrot/metadata/manifest.go:104-109 | a path with a plain name appended reduces to the reduced path followed by that name |
| Manifest.PathShape | parrot/metadata/manifest.go:99-131 | the level directory is `level-<l>` under `<dir>/<lsm name>`, and the data and index files of table `i` are `sst-<i>.db` and `sst-<i>.index` inside it |
| Manifest.NegativeGivesEmpty | parrot/metadata/manifest.go:100-102 | a negative level or id gives the empty path |
| Manifest.PathParts | parrot/metadata/manifest.go:104-122 | the paths of table `i` of level `l` are a fixed prefix followed by the level number, a slash and the table's file name |
| Manifest.PathsInjective | parrot/metadata/manifest.go:99-123 | two different (level, id) pairs never share a data file path, nor an index file path |
| Manifest.DbPathIsNotIndexPath | parrot/metadata/manifest.go:99-123 | a data file path is never an index file path |
| Manifest.NamesArePlain | parrot/metadata/manifest.go:107-108 | the level and file names are plain path elements, so `path.Join` keeps them whole |
| Levels.GetLevel | parrot/memtable/memtable.go:314-317 | a level exists exactly at positions below the number of levels, so the read loop stops past the last one |
| Levels.Descending | parrot/memtable/memtable.go:320-328 | the read path lists exactly a level's table ids, largest first |
| Levels.Ascending | parrot/compactor/gc.go:161 | the compaction load lists exactly a level's table ids, in one fixed order standing for Go's map order |
| Levels.GetNextId | parrot/compactor/gc.go:219 | the next id handed out is the level's counter, the counter moves past it and the tables stay |
| Levels.SetSSTable | parrot/compactor/gc.go:244 | the table is recorded under the id and nothing else changes |
| Levels.Clear | parrot/compactor/gc.go:247 | exactly the listed ids are dropped and the other tables are kept unchanged |
| MemStore.NewStore | parrot/memtable/memtable.go:175-198 | a new store holds one empty active memtable |
| MemStore.Write | parrot/memtable/memtable.go:267-291 | the result is true exactly when the active memtable rejects the pair; then a fresh memtable is pushed, offered the pair, and becomes active while the old one keeps its data; otherwise the active memtable stores the pair; nothing else changes |
| MemStore.Delete | parrot/memtable/memtable.go:358-361 | only the active memtable changes: the key is present and marked deleted there, its other keys are kept, and it logs the delete as the memtable's `Delete` does in the mode |
| MemStore.ReadMems | parrot/memtable/memtable.go:300-309 | the memtables decide the read exactly when one of them holds the key, and never panic; a found value is live |
| MemStore.ReadTables | parrot/memtable/memtable.go:330-350 | the tables of a level are tried in order through the cache, which only grows; a found value is live; corrected, a found answer always carries a value |
| MemStore.ReadTablesCached | parrot/memtable/memtable.go:330-349 | a read whose first table is cached takes that table's verdict (a panic among them) or moves on to the next table, whatever the files hold |
| MemStore.ReadLevels | parrot/memtable/memtable.go:314-353 | the levels are tried from the given one on; a found value is live; corrected, a found answer always carries a value |
| MemStore.ReadIn | parrot/memtable/memtable.go:294-356 | a read looks at the memtables newest first and answers from them, without a panic, when they hold the key, then at the levels; only the cache changes; a found value is live, and corrected a found answer always carries a value |
| MemStore.ReadMemsNewest | parrot/memtable/memtable.go:300-309 | the newest memtable holding the key decides the memtable part of a read |
| MemStore.ReadMemsByKey | parrot/memtable/memtable.go:300-309 | memtables that agree on a key read it alike |
| MemStore.ReadMemsSkips | parrot/memtable/memtable.go:300-309 | a memtable without the key is passed over |
| MemStore.WriteThenRead | parrot/memtable/memtable.go:267-309 | once a memtable has taken the pair, a read of the key returns the value, or not found for a value marked deleted, whatever the levels hold |
| MemStore.OversizedValueIsDropped | parrot/memtable/memtable.go:267-291 | a value too wide even for a fresh memtable rolls the store over but is stored nowhere, so every read answers as before |
| MemStore.WriteKeepsOtherKeys | parrot/memtable/memtable.go:267-309 | a write leaves every read of another key as it was |
| MemStore.DeleteThenRead | parrot/memtable/memtable.go:294-361 | after a delete, logged in either mode, the key reads as not found in either read mode whatever any memtable or level holds, and every other key reads as before |
| MemStore.RolledEmptyReadsAlike | parrot/memtable/memtable.go:272-286 | pushing an empty memtable changes no read |
| MemStore.ReadInByMems | parrot/memtable/memtable.go:294-356 | stores over the same levels and files whose memtables read a key alike read it alike |
| MemStore.ActiveAgrees | parrot/memtable/memtable.go:300-309 | replacing the active memtable by one that agrees on a key leaves reads of that key alone |
| MemStore.ReadMissingTables | parrot/memtable/memtable.go:332-349 | for tables whose files are missing, as written the zero key is reported found with a nil value; corrected, or for any other key, the tables are skipped |
| MemStore.AsWrittenZeroKeyFoundOnFailure | parrot/memtable/memtable.go:332-344 | the key `IntKey{0}` read against a table whose files are missing is found with a nil value as written and not found corrected |
| MemStore.ReadFromWrittenTable | parrot/memtable/memtable.go:330-349 | a read reaching a table written by `Encode` answers from it in both modes: the stored value when live, not found for a tombstone; when the table lacks the key the later tables answer, except that as written a key above every key of the table (any key, for an empty table) panics |
| MemStore.OneIdDescending | parrot/memtable/memtable.go:318-328 | a level holding only table 0 is searched at that table alone |
| MemStore.OneCachedTableReadIn | parrot/memtable/memtable.go:294-356 | a read of a store with one cached table and empty memtables is that table's verdict, or not found |
| MemStore.OneCachedTableReads | parrot/memtable/memtable.go:330-349 | the table holding only `IntKey{1}` answers `IntKey{1}` with its value in both modes, and `IntKey{2}` with a panic as written and a miss corrected |
| MemStore.AsWrittenReadPanicsAboveLastKey | parrot/cache/v2/index.go:149-153 | a store read of `IntKey{2}` over a cached table holding only `IntKey{1}` panics as written, through `CacheManager.Get` at memtable.go:332, and is not found corrected; `IntKey{1}` is found in both modes |
| StoreScan.Keep | parrot/memtable/memtable.go:376-382 | exactly the live payloads whose key is not hidden are kept |
| StoreScan.CollectAsWritten | parrot/memtable/memtable.go:372-419 | as written the scan keeps exactly the live payloads of every source |
| StoreScan.Collect | parrot/memtable/memtable.go:370-419 | with the tombstoned keys applied, a live payload is kept exactly when no newer source holds a tombstone for its key |
| StoreScan.TablePayloads | parrot/memtable/memtable.go:406-416 | one payload list per table, read through the cache, which only grows; a panicking read stops the scan at that table, the flag is set, and the cache then holds that table's unit, whose full decode panics; without a panic every unit the cache gained decodes without one |
| StoreScan.NoPanicPersists | parrot/cache/v2/index.go:67-73 | a table whose cached read does not panic still does not once the cache has only gained units that decode without a panic |
| StoreScan.TablePayloadsNoPanic | parrot/memtable/memtable.go:406-416 | a scan of one level that did not panic read none of its tables with a panic |
| StoreScan.LevelPayloads | parrot/memtable/memtable.go:390-419 | the tables of every level from the given one on, read through the cache, which only grows; the flag is set only when some table of those levels panics through the cache that is left |
| StoreScan.LevelStaysSafe | parrot/memtable/memtable.go:392-416 | every table of a level whose listed tables read without a panic still reads so after the cache grew safely |
| StoreScan.LevelPayloadsNoPanic | parrot/memtable/memtable.go:390-419 | a scan of the levels that did not panic read no table of those levels with a panic |
| StoreScan.ListMemtables | parrot/memtable/memtable.go:372-385 | each memtable is listed entry by entry, newest memtable first |
| StoreScan.ListSources | parrot/memtable/memtable.go:364-419 | the sources are the memtables newest first, then every table of every level up to the first whose read panics, which sets the flag |
| StoreScan.ReadAll | parrot/memtable/memtable.go:364-422 | `ReadAll` returns no values exactly when some table of some level panics through the cache the scan leaves; otherwise it returns the values the scan keeps of its sources, and as written every live value of every memtable is among them |
| StoreScan.LiveMemtablesReported | parrot/memtable/memtable.go:376-382 | as written every live value of every memtable is reported |
| StoreScan.ListedLiveIsReported | parrot/memtable/memtable.go:376-382 | a live entry of any listed memtable is reported as written |
| StoreScan.AsWrittenReportsDeletedValue | parrot/memtable/memtable.go:370-413 | a value under a newer tombstone is reported as written and hidden once the tombstones are applied |
| StoreRecovery.InsertFile | parrot/memtable/memtable.go:218-227 | inserting a file into an ordered list keeps it ordered and adds exactly that file |
| StoreRecovery.SortFiles | parrot/memtable/memtable.go:218-227 | the WAL files are permuted into descending number order by the comparator as written, ascending by the corrected one |
| StoreRecovery.ReplayEvent | parrot/memtable/memtable.go:241-249 | a write event goes through the store's `Write`, a delete through its `Delete`, which logs in the mode; an event carrying a value never panics |
| StoreRecovery.ReplayEvents | parrot/memtable/memtable.go:236-251 | the events of one file are replayed in log order, keeping the store valid and its levels and options |
| StoreRecovery.ReplayFiles | parrot/memtable/memtable.go:229-231 | the files are replayed in the given order, an unreadable one skipped, keeping the store valid |
| StoreRecovery.RollbackAll | parrot/memtable/memtable.go:205-234 | recovery reports the WAL-disabled error exactly when the WAL is off, and otherwise replays the files sorted as the mode says |
| StoreRecovery.OperationsLogValues | parrot/memtable/memtable.go:105-138 | with the delete corrected, the store's writes and deletes log only events that carry values; as written, a delete with the WAL on logs one without a value |
| StoreRecovery.ValuedLogReplays | parrot/memtable/memtable.go:236-251 | a log whose events all carry values replays without a panic |
| StoreRecovery.AsWrittenDeleteLogPanics | parrot/memtable/memtable.go:129-137 | a delete on a fresh store logs the event without a value as written, and that event panics when replayed into a fresh store; corrected it logs the tombstone, which replays to a store that reads the key as not found |
| StoreRecovery.ReplayOneWrite | parrot/memtable/memtable.go:244-245 | replaying one write event is the store's `Write` of it |
| StoreRecovery.NewestWalReplayedFirst | parrot/memtable/memtable.go:218-231 | with `wal-1.log` writing `a` and `wal-2.log` writing `b` under one key, recovery as written reads back `a`, corrected `b` |
| StoreRecovery.TwoWalsSorted | parrot/memtable/memtable.go:218-227 | the two files are sorted newest first as written and oldest first corrected |
| StoreRecovery.ReplayTwoWrites | parrot/memtable/memtable.go:229-251 | of two files writing the same key, the one replayed last decides what is read back |
| Compaction.WrapInt64 | parrot/compactor/gc.go:141 | Go `int64` arithmetic: the result is in range, congruent to the exact value modulo 2^64, and equal to it when it fits |
| Compaction.ThresholdPlain | parrot/compactor/gc.go:117-124 | without wrap-around the threshold of level `l` is `Level0MaxSizeInBytes * max(l * growth, 1)`, the formula of the options' doc comment |
| Compaction.ThresholdLevelZero | parrot/compactor/gc.go:141 | level 0 is held to `Level0MaxSizeInBytes` whatever the growth factor |
| Compaction.ThresholdGrows | parrot/compactor/gc.go:117-124 | with a positive growth factor and no wrap-around the threshold never decreases from one level to the next |
| Compaction.ThresholdWraps | parrot/compactor/gc.go:141 | with `Level0MaxSizeInBytes = 2^62` and growth 2 the product wraps to `-2^63`, so level 1 is compacted even when empty |
| Compaction.PoolUpdate | parrot/compactor/gc.go:191-201 | taking the head off one table takes exactly that payload out of the merge's pool |
| Compaction.PoolMember | parrot/compactor/gc.go:152-175 | every payload of the pool sits in one of the loaded tables |
| Compaction.MinHead | parrot/compactor/gc.go:183-193 | the heap pops from some non-empty table, and from none exactly when every table is spent |
| Compaction.MinHeadIsLeast | parrot/compactor/gc.go:183-193 | the head popped is not above any other table's head |
| Compaction.Merge | parrot/compactor/gc.go:182-202 | the merged list is a permutation of all the loaded payloads, duplicate keys across tables included |
| Compaction.MergeSorted | parrot/compactor/gc.go:182-202 | with key-sorted input tables of one key type the merged list is sorted |
| Compaction.RollbackPathsExact | parrot/compactor/gc.go:69-83 | `rollback` deletes a path exactly when its last delete event is a start without a completion, or its last write event is |
| Compaction.Rollback | parrot/compactor/gc.go:69-92 | the files left are exactly those whose paths `rollback` does not delete, unchanged |
| Compaction.BracketIsNeutral | parrot/compactor/gc.go:69-83 | a started and completed step takes its path out of the partial set and changes nothing else |
| Compaction.DeleteBracketsNeutral | parrot/compactor/gc.go:252-266 | completed deletes never add to what `rollback` deletes |
| Compaction.LoadTables | parrot/compactor/gc.go:160-180 | the tables of the level are read in the listed order through the cache, which only grows; each loaded list is the full decode of its table; the first failure aborts |
| Compaction.TablePaths | parrot/compactor/gc.go:173-175 | the data paths, or the index paths, of the listed tables in order |
| Compaction.DeleteAll | parrot/compactor/gc.go:252-266 | each path is deleted between a logged start and completion; the run succeeds exactly when every path exists and none repeats, and then exactly those files are gone; a missing file panics with its start logged |
| Compaction.WriteTable | parrot/compactor/gc.go:218-233 | both table files are created, the write start is logged, the merged payloads are encoded into them and the completion is logged only when `Encode` succeeded; other files are untouched |
| Compaction.NextLevel | parrot/compactor/gc.go:211-216 | the compaction writes to level `l + 1`, or to a new empty level appended when it is missing |
| Compaction.Install | parrot/compactor/gc.go:211-247 | level `l + 1` records the new table under its next id and level `l` drops its tables |
| Compaction.Reserve | parrot/compactor/gc.go:211-231 | when `Encode` fails, the levels are those after `AppendLevel` and `GetNextId` only: level `l + 1` keeps its tables with its counter advanced, and level `l` and every other level are unchanged |
| Compaction.CompactLevel | parrot/compactor/gc.go:139-266 | one compaction reads every table of the level, merges all their payloads into one table of level `l + 1`, installs it and deletes the old files; an `Encode` error stops it with the new data file left for `rollback` to delete, no new table recorded and level `l` untouched |
| Compaction.WriteMerged | parrot/compactor/gc.go:204-266 | after the merge: an `Encode` error stops with the new data file left for `rollback`, no table recorded and level `l` untouched; otherwise the table is installed and the old files deleted |
| Compaction.DeletionsCompact | parrot/compactor/gc.go:252-266 | deleting the data files and then the index files leaves the new table's files and removes exactly the level's files |
| Compaction.CompactionLogIsNeutral | parrot/compactor/gc.go:228-266 | the log of a completed compaction adds nothing for `rollback` to delete |
| Compaction.Run | parrot/compactor/gc.go:133-275 | nothing happens for a missing level or one within its threshold; a run that completes, cascading through the levels, leaves nothing new for `rollback` to delete and never loses a level |
| Compaction.NewPathsAreFresh | parrot/compactor/gc.go:219-221 | the new table's file paths are never those of a table of the level being compacted |
| Compaction.CompactedTableReadsBack | parrot/compactor/gc.go:218-244 | after a completed compaction the new table of level `l + 1` reads back, through a cache that has not seen it, as exactly the merged payloads |
| Storage.Get | parrot/storage.go:138-181 | a key the store does not find is a not-found error with a nil value; a value returned without error is live; corrected a read without error always has a value, while as written it can be nil; when the store's read panics no status is returned |
| Storage.Put | parrot/storage.go:142-209 | the store's rollover flag is dropped and no error is ever reported |
| Storage.Delete | parrot/storage.go:146-214 | no error is ever reported; the delete is logged as the mode says |
| Storage.PutThenGet | parrot/storage.go:138-209 | in either mode a live value that fits is read back without error, and other keys read as before |
| Storage.DeleteThenGet | parrot/storage.go:138-214 | in either mode, after a delete the key is a not-found error whatever the store held, and other keys read as before |
| Storage.PutGetDeleteScenario | parrot/storage_test.go:38-49 | in either mode, on a fresh store with a 2048-byte limit, key 278 put with value 278 reads back without error, as the test checks; the delete that follows, after which the key reads as an error, is an extension of that test |
| Storage.AsWrittenGetNilValue | parrot/memtable/memtable.go:330-349 | as written, `Get` of `IntKey{0}` over a table whose files are missing returns a nil value and no error; corrected it is a not-found error |
| Storage.AsWrittenGetPanicsAboveLastKey | parrot/storage.go:174-180 | as written, `Get` of `IntKey{2}` over a table holding only `IntKey{1}` panics and returns no status; corrected it is a not-found error |
| Converters.SizeOf | internal/types/types.go:71-222 | `int64` 8, `int32` 4, `int16` 2, `int8` 1, bool 8, byte 1, date 4, time 3, datetime and timestamp 8, both float kinds 8, UUID 16, and each width holds every value of its whole-number kind; a string-backed value reports its length |
| Converters.FitsInWidths | internal/types/types.go:94-115 | the widths 1, 2, 4 and 8 hold exactly the int8, int16, int32 and int64 ranges |
| Converters.Wrap32 | internal/types/types.go:242 | `int32(val)` keeps an int that fits 32 bits unchanged |
| Converters.ToInt64 | internal/types/types.go:224-235 | succeeds exactly on an `int64` or an `int`, returning it unchanged; anything else is a type-cast error |
| Converters.ToInt32 | internal/types/types.go:237-248 | succeeds exactly on an `int32` or an `int`; an `int32` is unchanged, an `int` is unchanged exactly when it fits 32 bits |
| Converters.ToInt16 | internal/types/types.go:250-267 | succeeds exactly on an `int16`, or an `int` in [-32768, 32767], returning it unchanged; anything else is a type-cast error |
| Converters.ToInt8 | internal/types/types.go:269-286 | succeeds exactly on an `int8`, or an `int` in [-128, 127], returning it unchanged; anything else is a type-cast error |
| Converters.IntCastsMatchWidths | internal/types/types.go:224-286 | on an `int` each cast returns the int itself exactly when it fits the width its native kind reports; only `toInt32` accepts the rest, by wrapping |
| Converters.ToInt32Wraps | internal/types/types.go:241-242 | `toInt32` of 2^31 gives -2^31, while `toInt16` of 2^15 is an error |
| Converters.ToBool | internal/types/types.go:312-324 | succeeds exactly on a bool or the strings "true" and "false", and is true exactly for `true` and "true" |
| Converters.ToString | internal/types/types.go:326-339 | succeeds exactly on a string, a bool, an int or a byte slice; a string is unchanged and a byte slice keeps its length |
| Converters.BoolTextRoundTrip | internal/types/types.go:312-331 | a bool rendered by `toString` reads back through `toBool`, and the strings `toBool` accepts are exactly the renderings |
| Converters.IntTextRoundTrip | internal/types/types.go:332-333 | an int rendered in base 10 reads back as the same int |
| Converters.BytesTextRoundTrip | internal/types/types.go:334-335 | a byte slice rendered as a string converts back to the same bytes |
| Converters.DecimalScanIsPattern | internal/types/types.go:492 | the scanner accepts exactly the strings of `^-?\d+(\.\d+)?$` |
| Converters.ToDECIMAL | internal/types/types.go:491-503 | succeeds exactly when the value's `toString` matches the decimal pattern, keeping that text; a string that does not match is a format error |
| Converters.TwoPointsNotDecimal | internal/types/types.go:492 | a string with two points is never a decimal |
| Converters.DecimalExampleAccepted | internal/schema/schema_test.go:192-208 | "16282929292.192" is a decimal |
| Converters.DecimalExampleRejected | internal/schema/schema_test.go:174-190 | "16282929292.19191.1092" is rejected with the format error |
| Converters.IntIsDecimal | internal/types/types.go:491-503 | every int converts to a decimal |
| Converters.ToID | internal/types/types.go:365-371 | succeeds exactly on an `int64` or an `int`, giving an `ID` of the same number; anything else is the type-cast error |
| Converters.ToBLOB | internal/types/types.go:527-536 | succeeds exactly on a byte slice, kept as is, or a string, kept as its bytes; anything else is a type-cast error |
| Converters.KnownCast | internal/types/types.go:374-511 | a cast named by a schema type succeeds exactly when the converter behind that name does, and is tagged with the name |
| Schema.Lookup | internal/schema/schema.go:160 | `m[key]` is present exactly when some entry has the key, and is that entry's value |
| Schema.LoadSchemaId | internal/schema/schema.go:48-63 | errs exactly when `_ID` is present, not nil, and not a map, or is a map whose `auto_increment` is present and not a bool; corrected it returns the map exactly when `_ID` is one |
| Schema.LoadSchemaIdLosesSettings | internal/schema/schema.go:49-62 | as written a well-formed `_ID` map comes back nil; corrected it comes back |
| Schema.VerifyFieldsExact | internal/schema/schema.go:70-88 | the corrected loop accepts exactly the field lists whose every remaining field has a valid type |
| Schema.VerifyMapExact | internal/schema/schema.go:65-89 | the corrected verifier accepts exactly the valid schemas: non-empty, every field but `_ID` a known type name or a valid nested schema, whatever the order of the listing |
| Schema.AsWrittenAcceptsMore | internal/schema/schema.go:65-89 | every schema the corrected verifier accepts is accepted as written |
| Schema.VerifySchema | internal/schema/schema.go:38-46 | a bad `_ID` is reported first; otherwise the verdict is that of the field verifier |
| Schema.VerifierDependsOnOrder | internal/schema/schema.go:70-86 | as written a nested map followed by an unknown type name passes in one listing and fails in the other; corrected both fail |
| Schema.VerifierAcceptsExample | internal/schema/schema_test.go:17-25 | the valid schema of the verifier tests passes |
| Schema.VerifierFlatExamples | internal/schema/schema_test.go:26-56 | the other verifier test schemas give the tests' verdicts and error texts |
| Schema.VerifierRejectsAutoIncrement | internal/schema/schema_test.go:113-126 | a non-bool `auto_increment` is rejected before any field is looked at |
| Schema.CastFields | internal/schema/schema.go:143-177 | the caster's loop keeps every field name and its position |
| Schema.CastMap | internal/schema/schema.go:138-178 | the cast document keeps every field name and its position |
| Schema.CastStepPasses | internal/schema/schema.go:144-167 | a field that casts without error hands on to the next |
| Schema.NestedStepPasses | internal/schema/schema.go:168-175 | a nested document that casts without error ends the loop as written and hands on when corrected |
| Schema.CastFieldsExact | internal/schema/schema.go:143-177 | the corrected loop succeeds exactly when the remaining fields have a cast, and then returns it |
| Schema.CastMapExact | internal/schema/schema.go:142-178 | the corrected caster succeeds exactly on the documents that have a cast, and returns that cast |
| Schema.AsWrittenCastsWithoutError | internal/schema/schema.go:142-178 | whatever the corrected caster casts without error also passes as written |
| Schema.CasterSkipsFieldsAfterNested | internal/schema/schema.go:168-175 | as written a field after a nested document is neither cast nor checked; corrected it is rejected |
| Schema.FlatCastAgrees | internal/schema/schema.go:143-177 | on a document without nested documents both casters agree |
| Schema.CasterAcceptsExample | internal/schema/schema_test.go:154-171 | the caster tests' valid document casts without error |
| Schema.CasterRejectsTwoPoints | internal/schema/schema_test.go:174-190 | the document with a two-point decimal fails with the format error |
| Schema.CasterAcceptsDecimal | internal/schema/schema_test.go:192-208 | with one point the same document casts |
| Schema.CasterRejectsTextAsInt | internal/schema/schema_test.go:210-224 | a string that is no number does not cast to INT |
| Oql.TrimSpace | pkg/oql/parser.go:29 | the trimmed text neither starts nor ends with a space |
| Oql.TrimSpacePlacement | pkg/oql/parser.go:196 | `strings.TrimSpace` returns the slice between the leading and the trailing spaces it drops |
| Oql.TrimSpacePadded | pkg/oql/parser.go:214 | trimming a trimmed text padded with spaces gives that text back, whatever the padding |
| Oql.SplitOn | pkg/oql/parser.go:211 | `strings.Split` on a comma gives at least one piece, none holding a comma |
| Oql.JoinSplit | pkg/oql/parser.go:211 | joining the pieces with the separator gives the text back |
| Oql.SplitJoin | pkg/oql/parser.go:211 | splitting pieces joined by the separator gives them back when none holds it |
| Oql.FindFirstLeftmost | pkg/oql/parser.go:52-55 | `FindStringSubmatch` finds a group exactly when the pattern matches at some position, and then reports the group of the leftmost match |
| Oql.ChainComplete | pkg/oql/parser.go:92 | a chain of keywords separated by runs of spaces, not followed by another space, is the one the matcher finds |
| Oql.NameAtExact | pkg/oql/parser.go:92-93 | the name patterns match at a position exactly when a keyword chain and a word follow it, and the group is the longest run of word characters, as the backtracking matcher reports it |
| Oql.IdAtExact | pkg/oql/parser.go:193-194 | `_ID\s*=\s*(\d+)` matches at a position exactly when the text there has that shape, and the group holds all the digits that follow |
| Oql.FromAfterExact | pkg/oql/parser.go:207 | the tail `\s+FROM` follows a position exactly when a run of spaces and the keyword FROM, in any case, follow it |
| Oql.ColumnsAtExact | pkg/oql/parser.go:207-208 | `SELECT\s+(.+?)\s+FROM` matches at a position exactly when the text has that shape, and the group is the one the leftmost-first matcher reports: the greedy run of spaces as long as possible, then the lazy group as short as possible |
| Oql.BracesAtExact | pkg/oql/parser.go:49-52 | `\{(.*)\}` matches at a position exactly when a `{` there has a `}` after it on its line, and the group runs to the last such `}` |
| Oql.Group | pkg/oql/parser.go:52-55 | a group is found exactly when the pattern matches at some position, and it is the group of the leftmost such position |
| Oql.ExtractOutermostExact | pkg/oql/parser.go:45-57 | fails with "failed to extract fields" exactly when no `{` has a `}` after it on its line; otherwise returns the text after the first such `{` up to the last `}` of its line |
| Oql.NameGroupExact | pkg/oql/parser.go:91-98 | the CREATE, INSERT and SELECT name extractors find a name exactly when their pattern matches somewhere, and report the full word of the leftmost match |
| Oql.ParseId | pkg/oql/parser.go:196-201 | `strconv.ParseInt` on a run of digits succeeds exactly when the value fits an `int64`, returning it; otherwise the overflow error |
| Oql.ExtractIdExact | pkg/oql/parser.go:192-204 | `extractID` fails with "failed to extract _ID" exactly when `_ID\s*=\s*(\d+)` matches nowhere; otherwise it parses all the digits of the leftmost match |
| Oql.IdUnique | pkg/oql/parser.go:192-204 | with a single `=` in the query, the `_ID` match around it is the one parsed |
| Oql.TrimAll | pkg/oql/parser.go:213-215 | every column piece is trimmed, one result per piece |
| Oql.ParseCreateQuery | pkg/oql/parser.go:67-89 | a successful parse yields a CREATE operation |
| Oql.ParseInsertQuery | pkg/oql/parser.go:121-143 | a successful parse yields an INSERT operation |
| Oql.ParseSelectQuery | pkg/oql/parser.go:171-190 | a successful parse yields a SELECT operation |
| Oql.ParseDeleteQuery | pkg/oql/parser.go:237-252 | a successful parse yields a DELETE operation |
| Oql.UpperRune | pkg/oql/parser.go:29 | upper-casing keeps a character's being a space, and gives an ASCII capital only for that capital, its lower-case letter, the dotless i or the long s |
| Oql.Upper | pkg/oql/parser.go:29 | upper-casing keeps the length and the spaces, leaves no ASCII lower-case letter, and yields an ASCII capital exactly for a capital, its lower-case letter, the dotless i or the long s |
| Oql.UpperIdempotent | pkg/oql/parser.go:29 | upper-casing an upper-cased statement changes nothing |
| Oql.HasPrefixExact | pkg/oql/parser.go:29-38 | the trimmed, upper-cased statement starts with a keyword exactly when the statement does after its leading spaces, up to case |
| Oql.LeadingKeywordUnique | pkg/oql/parser.go:31-39 | a statement leads with at most one of the four statement keywords |
| Oql.Parse | pkg/oql/parser.go:23-43 | a successful parse yields one of the four operations |
| Oql.ParseDispatch | pkg/oql/parser.go:28-43 | a statement is handed to the parser of the keyword it leads with, and one leading with none of them is rejected as "unsupported statement" |
| OqlRoundTrip.ChainAt | pkg/oql/parser.go:92 | keywords written with single spaces form a chain ending where the text after them starts |
| OqlRoundTrip.NameFound | pkg/oql/parser.go:92-95 | a chain followed by a whole word is the match the name pattern finds |
| OqlRoundTrip.GroupAt | pkg/oql/parser.go:52-55 | a match with none before it is the one `FindStringSubmatch` reports |
| OqlRoundTrip.GroupOfLeftmost | pkg/oql/parser.go:52-55 | the group of a match with none before it is what `Group` returns |
| OqlRoundTrip.OutermostIs | pkg/oql/parser.go:45-57 | with the first `{` and a closing `}` at the end and no line break between, `extractOutermost` returns what lies between |
| OqlRoundTrip.DeleteParses | pkg/oql/parser.go:237-261 | `DELETE DOCUMENT FROM <name> WHERE _ID = <digits>` parses to that name and number, or to the overflow error |
| OqlRoundTrip.DeleteRoundTrip | pkg/oql/parser.go:230-252 | printing a delete operation as a statement and parsing it gives the operation back |
| OqlRoundTrip.DeleteExample | pkg/oql/parser_test.go:179 | the DELETE test statement parses to document `user` and `_ID` 12 |
| OqlRoundTrip.DeleteWithoutValueRejected | pkg/oql/parser.go:254-261 | a DELETE whose only `=` is followed by nothing but spaces fails to yield a document name |
| OqlRoundTrip.DeleteExampleWithoutValue | pkg/oql/parser_test.go:187 | the DELETE test statement ending after `_ID = ` is rejected |
| OqlRoundTrip.DeleteWithoutDigits | pkg/oql/parser.go:254-261 | a DELETE ending after `_ID = ` is rejected, whatever the document name |
| OqlRoundTrip.SelectParses | pkg/oql/parser.go:171-228 | `SELECT <columns> FROM <name> WHERE _ID=<digits>` parses to the name, the columns split at commas and trimmed, and the number, or to the overflow error |
| OqlRoundTrip.SelectRoundTrip | pkg/oql/parser.go:171-219 | printing a select operation with its columns joined by commas and parsing it gives the operation back |
| OqlRoundTrip.ColumnsBack | pkg/oql/parser.go:210-216 | trimmed columns without commas come back from the split and trim |
| OqlRoundTrip.SelectExample | pkg/oql/parser_test.go:131 | the SELECT test statement parses to document `users`, columns `name.game` and `abc`, and its `_ID` |
| OqlRoundTrip.SelectWithoutIdRejected | pkg/oql/parser.go:171-204 | a SELECT without any `=` is rejected for want of a name or of an `_ID`, and of an `_ID` when it has a name |
| OqlRoundTrip.SelectExampleWithoutId | pkg/oql/parser_test.go:143 | the SELECT test statement without `_ID` is rejected |
| OqlRoundTrip.InsertParses | pkg/oql/parser.go:121-161 | `INSERT VALUE INTO <name> {<body>}` parses to the name and the decoded `{<body>}`, or to the JSON error |
| OqlRoundTrip.InsertQueryOf | pkg/oql/parser.go:121-143 | a statement leading with INSERT whose braces and name are found parses to that name and the decoded body |
| OqlRoundTrip.CreateParses | pkg/oql/parser.go:67-107 | `CREATE DOCUMENT <name> {<body>}` parses to the name and the decoded `{<body>}`, or to the JSON error |
| OqlRoundTrip.CreateQueryOf | pkg/oql/parser.go:67-89 | a statement leading with CREATE whose braces and name are found parses to that name and the decoded schema |
| OqlRoundTrip.InsertWithoutIntoRejected | pkg/oql/parser.go:121-131 | an INSERT without `INTO` is rejected, for want of braces or of a name, and of a name when it has braces |
| OqlRoundTrip.InsertNameNeedsInto | pkg/oql/parser.go:145-152 | without `INTO` the INSERT name pattern finds nothing |

## Left out

- File I/O is not modelled: memory-mapped reads, `Seek`, `Sync`, closing, directory listing with `filepath.Glob`, and WAL file names built from `time.Now`. Files are values in a map from path to contents. A recovery run is given its WAL files as records, each with the number in its name and its decoded events, or none when the file cannot be read.
- parrot/wal/wal.go is not part of this model beyond what recovery needs. Its background writer and the flush ticker are concurrency. `Replay` appends an entry even after a decode error other than end of file; that case is folded into "unreadable file".
- Concurrency is not modelled: the memtable mutexes, `sync.Once` and `sync.Map` in the cache, the flusher goroutine and its queue (parrot/memtable/flush.go), the compactor's ticker loop `GC.Run`, and the races the source comments mention. Every operation is one sequential step.
- The flusher, which turns full memtables into level-0 tables, is not modelled; a store is read over whatever levels and files it is given.
- `MemtableStore.Clear` is a test helper and is not modelled.
- Values are immutable records. Go stores `*IntValue` and `*StringValue` pointers, and `Memtable.Delete` flips the stored object in place with `MarkDeleted`. So a value object put under two keys, or still queued on the WAL channel, is seen as deleted through every other reference. That sharing is not modelled: a delete here changes only the entry of its own key, and an event is logged with the value as it was when it was logged.
- Go strings may hold invalid UTF-8; model strings are sequences of code points, so `Keys.Utf8Len` and the string order are stated for valid UTF-8 only.
- `NewGC` opening and replaying `gc-wal.log` is I/O; the `rollback` it calls is modelled.
- The manifest's `Load` and `Sync` methods and `GetLSM`, and the JSON they read and write, are I/O and are not modelled.
- `NewStorage` and `createOrLoadCollection` are setup and are not modelled.
- `SchemaHandler.SavetoCatalog` and `LoadFromCatalog` store schemas in the database; they are not modelled.
- JSON decoding (`json.Unmarshal` in `unmarshallSchema` and `unmarshallValue`) is the parameter `decode` of the parser.
- `types.TypeCast` and `types.AllTypes` are generated code that is not part of this model. They are the parameters `cast` and `allTypes` of the schema functions. `Converters.KnownCast` is one such `cast`, covering the names whose converters are modelled.
- Floating point is not modelled: the `float64` cases of `toInt64`, `toInt32`, `toInt16` and `toInt8`, and `toFloat64`, `toFloat32`, `ToFLOAT32` and `ToFLOAT64`. The dynamic values have no float variant. Go's JSON decoder produces `float64` for every number, so numbers that come from a parsed query reach these paths; the model covers the Go `int` values the package's own tests pass.
- `toTime`, `ToDATE`, `ToTIME`, `ToDATETIME`, `ToTIMESTAMP` and `ToUUID` are not modelled; time values and UUIDs are opaque, and `Converters.KnownCast` fails on those type names.
- Logging and the `fmt.Println` on a deleted key are left out.
- Compaction.Run: its parameter `faults` lists the `Encode` outcome of each compaction in turn and bounds the cascade to `l + 1`, `l + 2`, …; a cascade longer than the list is cut short. The source recurses until a level is within its threshold.
- Compaction.Merge: the merge heap's type `MergerHeap` is not part of this model, so its order among equal keys is unknown. The model pops the first least head. The contracts state the permutation and, for sorted inputs, sortedness, which hold for any tie order.
- Oql.ParseCreateQuery: its own contract states only the kind of operation; what it returns for a statement is stated by OqlRoundTrip.CreateParses and OqlRoundTrip.CreateQueryOf.
- Oql.ParseInsertQuery: its own contract states only the kind of operation; the content is stated by OqlRoundTrip.InsertParses, OqlRoundTrip.InsertQueryOf and OqlRoundTrip.InsertWithoutIntoRejected.
- Oql.ParseSelectQuery: its own contract states only the kind of operation; the content is stated by OqlRoundTrip.SelectParses, OqlRoundTrip.SelectRoundTrip and OqlRoundTrip.SelectWithoutIdRejected.
- Oql.ParseDeleteQuery: its own contract states only the kind of operation; the content is stated by OqlRoundTrip.DeleteParses, OqlRoundTrip.DeleteRoundTrip and OqlRoundTrip.DeleteWithoutValueRejected.
- Oql.Parse: its own contract states only the kind of operation; the dispatch is Oql.ParseDispatch.
- OqlRoundTrip.SelectParses: the round-trip lemmas cover statements written with single spaces and `\w+` names; statements laid out otherwise are covered only by the general regular-expression lemmas of Oql.
- Schema.CastFields: its own contract states the shape of the result; what it computes is stated by Schema.CastFieldsExact for the corrected loop and Schema.NestedStepPasses for the early return.
- Schema.CastMap: its own contract states the shape of the result; what it computes is stated by Schema.CastMapExact.
- StoreRecovery.ReplayEvent: its own contract states validity and the no-panic case; the effect of a replayed write is StoreRecovery.ReplayOneWrite.
- StoreRecovery.ReplayFiles: its own contract states validity; the effect of the file order is StoreRecovery.ReplayTwoWrites.
- Storage.Put: its own contract states only the status; the effect on reads is Storage.PutThenGet.
- Storage.Delete: its own contract states only the status; the effect on reads is Storage.DeleteThenGet.
- Oql.Upper: maps only `a`-`z`, `ı` and `ſ`, and keeps every other character, where `strings.ToUpper` also upper-cases other letters ("é" to "É"); the dispatch tests only ASCII keyword prefixes of the result and the sub-parsers get the original text, so `Parse` is unaffected.
- Converters.Wrap32: states the result only for values that fit 32 bits; the wrap of larger values is shown by Converters.ToInt32Wraps.
- SstLayout.EncodeItem: a failed `dbFile.Write` is modelled as writing nothing, whereas `*os.File.Write` may write a prefix of the record before it returns the error; the data file can then end with a partial record. Neither caller reads that file afterwards: a flush calls `log.Panicf` (parrot/memtable/flush.go:90-93), and a compaction calls `log.Fatalf` after logging `WriteStarted`, so `rollback` deletes the file on the next start (parrot/compactor/gc.go:228-232, 69-89).
- SstLayout.EncodeItems: inherits the whole-or-nothing data write of SstLayout.EncodeItem, so after a failed write the data file holds exactly the earlier records, not a possible partial one.
- SstLayout.Encode: inherits the whole-or-nothing data write of SstLayout.EncodeItem.
- StoreScan.TablePayloads: states the count, the cache growth and where a panic stops the scan; which payloads are read is stated through StoreScan.ListSources and StoreScan.ReadAll.
- StoreScan.ReadAll: a panic in `getDecodedForAll` (parrot/cache/v2/index.go:203) crashes the Go program; the model returns `None` in its place, and no claim about values is made for that outcome.

## Findings

| source | as written | input that shows it | evidently intended | confidence | as-written member | corrected member |
|---|---|---|---|---|---|---|
| parrot/cache/v2/index.go:149 | the binary search starts with `right = len(dc.indexDecoded)`, so `mid` can reach `len` and `dc.indexDecoded[mid]` is read out of range | a table holding only `IntKey{1}`, read with `IntKey{2}`; or any key read from an empty table | `right = len - 1`: a key above every key is not found | not executed | MemStore.AsWrittenReadPanicsAboveLastKey | SstCache.LookupAfterEncode |
| parrot/memtable/memtable.go:218-227 | the `sort.Slice` comparator names its parameters `(j, i)` and answers `num(files[i]) < num(files[j])`, so the WAL files are replayed newest first | `wal-1.log` writing `a` and `wal-2.log` writing `b` under one key: recovery leaves `a` | oldest first, so the latest write wins | not executed | StoreRecovery.NewestWalReplayedFirst | StoreRecovery.ReplayTwoWrites |
| internal/schema/schema.go:85 | `recursiveSchemaVerifier` returns the verdict of the first nested map it meets, so fields visited after it are never checked and the verdict depends on map order | `{"a": {"x": "INT"}, "b": "COUNTRY"}` passes when `a` is visited first | check every field and every nested map | not executed | Schema.VerifierDependsOnOrder | Schema.VerifyMapExact |
| internal/schema/schema.go:174 | `recursiveDataCaster` returns after the first nested document, so fields visited after it are neither cast nor checked | schema `{"a": {"x": "INT"}, "b": "INT"}`, data `{"a": {"x": 1}, "b": "false"}` with `a` first: no error and `b` uncast | cast every field and report the first error | not executed | Schema.CasterSkipsFieldsAfterNested | Schema.CastMapExact |
| parrot/memtable/memtable.go:129 | the delete event is logged without its tombstone; on replay `Delete(key, nil)` stores nil for an absent key and `MarkDeleted` on it dereferences nil | a delete of any key on a fresh store with the WAL on, whose log is then replayed into a fresh store | log the tombstone, so replay marks the key deleted | not executed | StoreRecovery.AsWrittenDeleteLogPanics | StoreRecovery.OperationsLogValues |
| parrot/memtable/memtable.go:333-344 | a cache error other than not-found or deleted falls through with the zero payload, whose key equals the zero key | `IntKey{0}` read against a table whose files are missing: found, with a nil value | skip the table on any error | not executed | MemStore.AsWrittenZeroKeyFoundOnFailure | MemStore.ReadMissingTables |
| parrot/memtable/memtable.go:370-413 | `ReadAll` gathers tombstoned keys in `keysMap` but never consults it, so a value deleted in a newer source is still reported | a key live in a table and deleted in a newer memtable | leave out values whose key a newer source deleted | not executed | StoreScan.AsWrittenReportsDeletedValue | StoreScan.Collect |
| internal/schema/schema.go:51 | `id_map, ok := …` declares a new `id_map` inside the `if`, shadowing the outer one, so `loadSchemaId` always returns nil | `{"_ID": {"auto_increment": true}}` gives back nil | return the `_ID` map | not executed | Schema.LoadSchemaIdLosesSettings | Schema.LoadSchemaId |

=== FILE: compaction.dfy ===
/**
 Size-tiered compaction (parrot/compactor/gc.go): when a level outgrows its threshold, all
 of its tables are read, merged into one key-sorted table on the next level, and deleted,
 with every file write and delete bracketed by events in the compaction log; `rollback`
 replays that log after a crash and deletes the files an interrupted run left behind.
 The ticker loop (`GC.Run`) and the WAL's background writer are left out; the log is the
 sequence of events appended. File deletion (`FileManager.Delete`) is assumed to fail
 exactly when the path does not exist, and `OpenForWrite` to create an empty file.
 */
module Compaction {
  import opened Keys
  import opened Wrappers
  import opened Levels
  import opened SstLayout
  import opened SstCache
  import opened Manifest

  // ---------------------------------------------------------------- threshold

  const Two63: int := 0x8000_0000_0000_0000
  const Two64: int := 0x1_0000_0000_0000_0000

  /** Go `int64` arithmetic: the two's-complement wrap of `x`. */
  function WrapInt64(x: int): (r: int)
    ensures -Two63 <= r < Two63
    ensures (r - x) % Two64 == 0
    ensures -Two63 <= x < Two63 ==> r == x
  {
    var m := x % Two64;
    if m >= Two63 then m - Two64 else m
  }

  /** `SizeTiredCompactionOpts`: `Level0MaxSizeInBytes` (`int64`) and `MaxSizeInBytesGrowthFactor` (`int32`). */
  datatype CompactionOpts = CompactionOpts(l0Max: int, growth: int)

  /** The size level `l` may reach, computed in `int64` as Go does: `l0Max * max(l * growth, 1)`. */
  function Threshold(opts: CompactionOpts, l: nat): int
  {
    var factor := WrapInt64(l * opts.growth);
    WrapInt64(opts.l0Max * (if factor > 1 then factor else 1))
  }

  /** Level `l` is compacted exactly when its size exceeds its threshold. */
  predicate ShouldCompact(opts: CompactionOpts, l: nat, size: int)
  {
    WrapInt64(size) > Threshold(opts, l)
  }

  /** Without wrap-around the threshold is the plain formula of the options' doc comment. */
  lemma ThresholdPlain(opts: CompactionOpts, l: nat)
    requires -Two63 <= l * opts.growth < Two63
    requires -Two63 <= opts.l0Max * (if l * opts.growth > 1 then l * opts.growth else 1) < Two63
    ensures Threshold(opts, l) == opts.l0Max * (if l * opts.growth > 1 then l * opts.growth else 1)
  {
  }

  /** Level 0 is held to `Level0MaxSizeInBytes` itself, whatever the growth factor. */
  lemma ThresholdLevelZero(opts: CompactionOpts)
    requires -Two63 <= opts.l0Max < Two63
    ensures Threshold(opts, 0) == opts.l0Max
  {
  }

  /**
   With a positive growth factor and no wrap-around, a deeper level may grow larger: the
   threshold never decreases from one level to the next.
   */
  lemma ThresholdGrows(opts: CompactionOpts, l: nat)
    requires opts.growth > 0 && opts.l0Max >= 0
    requires (l + 1) * opts.growth < Two63 && opts.l0Max * ((l + 1) * opts.growth) < Two63
    ensures Threshold(opts, l) <= Threshold(opts, l + 1)
  {
    var a, b := l * opts.growth, (l + 1) * opts.growth;
    MulMonotone(opts.growth, 0, l);
    MulMonotone(opts.growth, l, l + 1);
    assert 0 <= a <= b && 1 <= b;
    var f := if a > 1 then a else 1;
    var g := if b > 1 then b else 1;
    assert 1 <= f <= g == b;
    MulMonotone(opts.l0Max, 0, f);
    MulMonotone(opts.l0Max, f, g);
    ThresholdPlain(opts, l);
    ThresholdPlain(opts, l + 1);
  }

  lemma MulMonotone(x: int, f: int, g: int)
    requires 0 <= x && f <= g
    ensures x * f <= x * g
  {
    assert x * g - x * f == x * (g - f);
  }

  /**
   The product wraps for large options: with `Level0MaxSizeInBytes = 2^62` and growth 2 the
   threshold of level 1 is `-2^63`, so level 1 is compacted even when empty.
   */
  lemma ThresholdWraps()
    ensures Threshold(CompactionOpts(0x4000_0000_0000_0000, 2), 1) == -Two63
    ensures ShouldCompact(CompactionOpts(0x4000_0000_0000_0000, 2), 1, 0)
  {
  }

  // ---------------------------------------------------------------- k-way merge

  /** All payloads of all tables, with multiplicity. */
  function Pool(tables: seq<seq<Payload>>): multiset<Payload>
  {
    if |tables| == 0 then multiset{}
    else Pool(tables[..|tables| - 1]) + multiset(tables[|tables| - 1])
  }

  /** Taking the head off table `i` takes exactly that payload out of the pool. */
  lemma {:induction false} PoolUpdate(tables: seq<seq<Payload>>, i: nat)
    requires i < |tables| && |tables[i]| > 0
    ensures Pool(tables[i := tables[i][1..]]) + multiset{tables[i][0]} == Pool(tables)
    decreases |tables|
  {
    var n := |tables|;
    if i == n - 1 {
      PoolUpdateLast(tables);
    } else {
      var t' := tables[i := tables[i][1..]];
      assert t'[n - 1] == tables[n - 1];
      assert t'[..n - 1] == tables[..n - 1][i := tables[i][1..]];
      PoolLast(t');
      PoolLast(tables);
      PoolUpdate(tables[..n - 1], i);
    }
  }

  lemma PoolUpdateLast(tables: seq<seq<Payload>>)
    requires |tables| > 0 && |tables[|tables| - 1]| > 0
    ensures var i := |tables| - 1; Pool(tables[i := tables[i][1..]]) + multiset{tables[i][0]} == Pool(tables)
  {
    var i := |tables| - 1;
    var t' := tables[i := tables[i][1..]];
    assert t'[..i] == tables[..i];
    PoolLast(t');
    PoolLast(tables);
    MultisetCons(tables[i]);
  }

  lemma PoolLast(tables: seq<seq<Payload>>)
    requires |tables| > 0
    ensures Pool(tables) == Pool(tables[..|tables| - 1]) + multiset(tables[|tables| - 1])
  {
  }

  lemma MultisetCons(s: seq<Payload>)
    requires |s| > 0
    ensures multiset(s) == multiset(s[1..]) + multiset{s[0]}
  {
    assert s == [s[0]] + s[1..];
  }

  /** Every payload of the pool sits in one of the tables. */
  lemma {:induction false} PoolMember(tables: seq<seq<Payload>>, x: Payload) returns (j: nat, a: nat)
    requires x in Pool(tables)
    ensures j < |tables| && a < |tables[j]| && tables[j][a] == x
    decreases |tables|
  {
    var n := |tables|;
    if x in multiset(tables[n - 1]) {
      j := n - 1;
      a :| 0 <= a < |tables[n - 1]| && tables[n - 1][a] == x;
    } else {
      j, a := PoolMember(tables[..n - 1], x);
      assert tables[j] == tables[..n - 1][j];
    }
  }

  /** A non-empty pool has a non-empty table. */
  lemma {:induction false} PoolNonEmpty(tables: seq<seq<Payload>>)
    requires |Pool(tables)| > 0
    ensures exists j | 0 <= j < |tables| :: |tables[j]| > 0
    decreases |tables|
  {
    var n := |tables|;
    if |tables[n - 1]| == 0 {
      PoolNonEmpty(tables[..n - 1]);
      var j :| 0 <= j < n - 1 && |tables[..n - 1][j]| > 0;
      assert tables[j] == tables[..n - 1][j];
    }
  }

  /**
   The table the merge heap pops from: among the non-empty tables from `from` on, the one
   whose head is least by `Less`, the first such on ties.
   */
  function MinHead(tables: seq<seq<Payload>>, from: nat): (r: Option<nat>)
    requires from <= |tables|
    ensures r.None? <==> forall j | from <= j < |tables| :: |tables[j]| == 0
    ensures r.Some? ==> from <= r.value < |tables| && |tables[r.value]| > 0
    decreases |tables| - from
  {
    if from == |tables| then None
    else
      var rest := MinHead(tables, from + 1);
      if |tables[from]| == 0 then rest
      else if rest.Some? && Less(tables[rest.value][0].key, tables[from][0].key) then rest
      else Some(from)
  }

  /** Every key of every table has the same dynamic type. */
  predicate OneKind(tables: seq<seq<Payload>>, intKeys: bool)
  {
    forall j, a | 0 <= j < |tables| && 0 <= a < |tables[j]| :: tables[j][a].key.IntKey? == intKeys
  }

  /** The head `MinHead` picks is not above any other head. */
  lemma {:induction false} MinHeadIsLeast(tables: seq<seq<Payload>>, from: nat, intKeys: bool)
    requires from <= |tables| && OneKind(tables, intKeys)
    ensures var r := MinHead(tables, from);
      r.Some? ==> forall j | from <= j < |tables| && |tables[j]| > 0 :: !Less(tables[j][0].key, tables[r.value][0].key)
    decreases |tables| - from
  {
    if from < |tables| {
      MinHeadIsLeast(tables, from + 1, intKeys);
      var rest := MinHead(tables, from + 1);
      var r := MinHead(tables, from);
      if |tables[from]| > 0 && r == Some(from) {
        var h := tables[from][0].key;
        LessIrreflexive(h);
        if rest.Some? {
          var m := tables[rest.value][0].key;
          forall j | from < j < |tables| && |tables[j]| > 0 ensures !Less(tables[j][0].key, h) {
            NotLessTransitive(h, m, tables[j][0].key);
          }
        }
      } else if |tables[from]| > 0 {
        var h := tables[from][0].key;
        var m := tables[rest.value][0].key;
        LessTrichotomous(m, h);
      }
    }
  }

  /**
   The k-way merge: pop the least head, advance that table, until every table is spent.
   The output is a permutation of the tables' payloads, so it has exactly their summed
   length and keeps duplicate keys.
   */
  function Merge(tables: seq<seq<Payload>>): (r: seq<Payload>)
    ensures multiset(r) == Pool(tables)
    ensures |r| == |Pool(tables)|
    decreases |Pool(tables)|
  {
    match MinHead(tables, 0)
    case None =>
      assert |Pool(tables)| == 0 by {
        if |Pool(tables)| > 0 { PoolNonEmpty(tables); }
      }
      []
    case Some(i) =>
      PoolUpdate(tables, i);
      [tables[i][0]] + Merge(tables[i := tables[i][1..]])
  }

  /** A suffix of a sorted table is sorted. */
  lemma SortedTail(ps: seq<Payload>)
    requires |ps| > 0 && Sorted(ps)
    ensures Sorted(ps[1..])
  {
  }

  /** Every payload still in the tables is at least the head `MinHead` picks. */
  lemma PoolAboveHead(tables: seq<seq<Payload>>, i: nat, intKeys: bool)
    requires i < |tables| && |tables[i]| > 0 && LeastHead(tables, tables[i][0].key)
    requires OneKind(tables, intKeys) && forall j | 0 <= j < |tables| :: Sorted(tables[j])
    ensures forall x | x in Pool(tables) :: !Less(x.key, tables[i][0].key)
  {
    forall x | x in Pool(tables) ensures !Less(x.key, tables[i][0].key) {
      var j, a := PoolMember(tables, x);
      AboveHeadAt(tables, i, j, a, intKeys);
    }
  }

  /** No head of the tables is below `h`. */
  predicate LeastHead(tables: seq<seq<Payload>>, h: Key)
  {
    forall j | 0 <= j < |tables| && |tables[j]| > 0 :: !Less(tables[j][0].key, h)
  }

  lemma AboveHeadAt(tables: seq<seq<Payload>>, i: nat, j: nat, a: nat, intKeys: bool)
    requires i < |tables| && |tables[i]| > 0 && LeastHead(tables, tables[i][0].key)
    requires j < |tables| && a < |tables[j]|
    requires OneKind(tables, intKeys) && Sorted(tables[j])
    ensures !Less(tables[j][a].key, tables[i][0].key)
  {
    assert SameKind(tables[i][0].key, tables[j][0].key) && SameKind(tables[j][0].key, tables[j][a].key);
    BelowHead(tables[i][0].key, tables[j], a);
  }

  /** Every payload of a sorted table is at least a key its head is at least. */
  lemma BelowHead(h: Key, t: seq<Payload>, a: nat)
    requires a < |t| && Sorted(t)
    requires SameKind(h, t[0].key) && SameKind(t[0].key, t[a].key)
    requires !Less(t[0].key, h)
    ensures !Less(t[a].key, h)
  {
    if a > 0 {
      NotLessTransitive(h, t[0].key, t[a].key);
    }
  }

  /** Popping the head of table `i` keeps the tables of one kind and sorted. */
  lemma PopKeeps(tables: seq<seq<Payload>>, i: nat, intKeys: bool)
    requires i < |tables| && |tables[i]| > 0
    requires OneKind(tables, intKeys) && forall j | 0 <= j < |tables| :: Sorted(tables[j])
    ensures var t' := tables[i := tables[i][1..]];
      OneKind(t', intKeys) && forall j | 0 <= j < |t'| :: Sorted(t'[j])
  {
    var t': seq<seq<Payload>> := tables[i := tables[i][1..]];
    forall j, a | 0 <= j < |t'| && 0 <= a < |t'[j]| ensures t'[j][a].key.IntKey? == intKeys {
      if j == i { assert t'[j][a] == tables[i][a + 1]; }
    }
    SortedTail(tables[i]);
  }

  /** A payload not above any of a sorted sequence can precede it. */
  lemma ConsSorted(h: Payload, rest: seq<Payload>)
    requires Sorted(rest) && forall k | 0 <= k < |rest| :: !Less(rest[k].key, h.key)
    ensures Sorted([h] + rest)
  {
    var s := [h] + rest;
    forall i, j | 0 <= i < j < |s| ensures !Less(s[j].key, s[i].key) {
      assert s[j] == rest[j - 1];
      if i > 0 { assert s[i] == rest[i - 1]; }
    }
  }

  /**
   With key-sorted input tables of one key type the merge is sorted, duplicate keys across
   tables included.
   */
  lemma {:induction false} MergeSorted(tables: seq<seq<Payload>>, intKeys: bool)
    requires OneKind(tables, intKeys) && forall j | 0 <= j < |tables| :: Sorted(tables[j])
    ensures Sorted(Merge(tables))
    decreases |Pool(tables)|
  {
    match MinHead(tables, 0)
    case None =>
    case Some(i) =>
      var t' := tables[i := tables[i][1..]];
      var h := tables[i][0];
      PoolUpdate(tables, i);
      PopKeeps(tables, i, intKeys);
      MergeSorted(t', intKeys);
      MinHeadIsLeast(tables, 0, intKeys);
      PoolAboveHead(tables, i, intKeys);
      var rest := Merge(t');
      forall k | 0 <= k < |rest| ensures !Less(rest[k].key, h.key) {
        assert rest[k] in multiset(rest);
      }
      ConsSorted(h, rest);
  }

  // ---------------------------------------------------------------- the compaction log

  datatype GcOp = DeleteStarted | DeleteCompleted | WriteStarted | WriteCompleted

  /** `Event`: one entry of the compaction log. */
  datatype Event = Event(path: string, op: GcOp)

  /** The partial deletes and partial writes `rollback` collects, scanning the log in order. */
  function Partial(events: seq<Event>): (r: (set<string>, set<string>))
  {
    if |events| == 0 then ({}, {})
    else
      var prev := Partial(events[..|events| - 1]);
      var e := events[|events| - 1];
      match e.op
      case DeleteCompleted => (prev.0 - {e.path}, prev.1)
      case WriteCompleted => (prev.0, prev.1 - {e.path})
      case DeleteStarted => (prev.0 + {e.path}, prev.1)
      case WriteStarted => (prev.0, prev.1 + {e.path})
  }

  /** The paths `rollback` deletes. */
  function RollbackPaths(events: seq<Event>): set<string>
  {
    Partial(events).0 + Partial(events).1
  }

  /** The last operation of the given pair the log records for `path`. */
  function LastOf(events: seq<Event>, path: string, started: GcOp, completed: GcOp): Option<GcOp>
  {
    if |events| == 0 then None
    else
      var e := events[|events| - 1];
      if e.path == path && (e.op == started || e.op == completed) then Some(e.op)
      else LastOf(events[..|events| - 1], path, started, completed)
  }

  /**
   `rollback` deletes a path exactly when its last delete-type event is a start without a
   completion, or its last write-type event is.
   */
  lemma {:induction false} RollbackPathsExact(events: seq<Event>, path: string)
    ensures path in Partial(events).0 <==> LastOf(events, path, DeleteStarted, DeleteCompleted) == Some(DeleteStarted)
    ensures path in Partial(events).1 <==> LastOf(events, path, WriteStarted, WriteCompleted) == Some(WriteStarted)
    ensures path in RollbackPaths(events) <==>
      LastOf(events, path, DeleteStarted, DeleteCompleted) == Some(DeleteStarted)
      || LastOf(events, path, WriteStarted, WriteCompleted) == Some(WriteStarted)
    decreases |events|
  {
    if |events| > 0 {
      RollbackPathsExact(events[..|events| - 1], path);
    }
  }

  /** `rollback`: the files left are those whose paths it does not delete (its own delete errors are ignored). */
  function Rollback(fs: FileSystem, events: seq<Event>): (r: FileSystem)
    ensures r.Keys == fs.Keys - RollbackPaths(events)
    ensures forall p | p in r :: r[p] == fs[p]
  {
    map p | p in fs && p !in RollbackPaths(events) :: fs[p]
  }

  /** A start and its completion for one path, as the compactor logs them around each step. */
  function Bracket(path: string, started: GcOp, completed: GcOp): seq<Event>
  {
    [Event(path, started), Event(path, completed)]
  }

  /** A completed step leaves the paths `rollback` deletes as they were, but for that path. */
  lemma BracketIsNeutral(events: seq<Event>, path: string, write: bool)
    ensures var b := if write then Bracket(path, WriteStarted, WriteCompleted) else Bracket(path, DeleteStarted, DeleteCompleted);
      Partial(events + b) == (if write then (Partial(events).0, Partial(events).1 - {path}) else (Partial(events).0 - {path}, Partial(events).1))
  {
    var b := if write then Bracket(path, WriteStarted, WriteCompleted) else Bracket(path, DeleteStarted, DeleteCompleted);
    var e1 := events + [b[0]];
    assert e1[..|events|] == events;
    var p := Partial(events);
    assert Partial(e1) == (if write then (p.0, p.1 + {path}) else (p.0 + {path}, p.1));
    assert (events + b)[..|events| + 1] == e1;
    assert (events + b)[|events| + 1] == b[1];
    if write {
      assert Partial(events + b) == (p.0, p.1 + {path} - {path});
      assert p.1 + {path} - {path} == p.1 - {path};
    } else {
      assert Partial(events + b) == (p.0 + {path} - {path}, p.1);
      assert p.0 + {path} - {path} == p.0 - {path};
    }
  }

  /** The log lines deleting each of `paths` in turn. */
  function DeleteBrackets(paths: seq<string>): seq<Event>
  {
    if |paths| == 0 then [] else Bracket(paths[0], DeleteStarted, DeleteCompleted) + DeleteBrackets(paths[1..])
  }

  /** Completed deletes never add to what `rollback` deletes. */
  lemma {:induction false} DeleteBracketsNeutral(events: seq<Event>, paths: seq<string>)
    ensures RollbackPaths(events + DeleteBrackets(paths)) <= RollbackPaths(events)
    decreases |paths|
  {
    if |paths| > 0 {
      var b := Bracket(paths[0], DeleteStarted, DeleteCompleted);
      BracketIsNeutral(events, paths[0], false);
      assert RollbackPaths(events + b) <= RollbackPaths(events);
      DeleteBracketsNeutral(events + b, paths[1..]);
      assert events + DeleteBrackets(paths) == (events + b) + DeleteBrackets(paths[1..]);
      assert RollbackPaths(events + DeleteBrackets(paths)) == RollbackPaths((events + b) + DeleteBrackets(paths[1..]));
    } else {
      assert events + DeleteBrackets(paths) == events;
    }
  }


  // ---------------------------------------------------------------- one compaction

  /** The compactor's view: the manifest's naming, the levels, the decoder cache, the files and the compaction log. */
  datatype Gc = Gc(mf: Manifest, lsm: Lsm, cache: CacheManager, fs: FileSystem, log: seq<Event>)

  /** How a run stopped the process: `log.Panicf` or `log.Fatalf`. */
  datatype Crash = PanicCrash | FatalCrash

  /** A run finishes, or stops the process; `gc` is the state left behind either way. */
  datatype Outcome = Done(gc: Gc) | Crashed(gc: Gc, why: Crash)

  /** The tables of a level, in the listed id order, through the cache; the first failure aborts. */
  function LoadTables(level: Level, ids: seq<nat>, cache: CacheManager, fs: FileSystem): (r: (CacheManager, Option<seq<seq<Payload>>>))
    requires forall i | 0 <= i < |ids| :: ids[i] in level.tables
    ensures Extends(cache, r.0)
    ensures r.1.Some? ==> |r.1.value| == |ids|
    ensures r.1.Some? ==> forall i | 0 <= i < |ids| :: (level.tables[ids[i]].dbPath in r.0.units
      && GetDecodedForAll(r.0.units[level.tables[ids[i]].dbPath]) == Ok(r.1.value[i]))
    decreases |ids|
  {
    if |ids| == 0 then (cache, Some([]))
    else
      var t := level.tables[ids[0]];
      var (c, got) := GetFullPayload(cache, fs, t.dbPath, t.indexPath);
      if got.Err? then (c, None)
      else
        var (c', rest) := LoadTables(level, ids[1..], c, fs);
        ExtendsTransitive(cache, c, c');
        if rest.None? then (c', None)
        else
          LoadedCons(level, ids, c, c', got.value, rest.value);
          (c', Some([got.value] + rest.value))
  }

  lemma ExtendsTransitive(a: CacheManager, b: CacheManager, c: CacheManager)
    requires Extends(a, b) && Extends(b, c)
    ensures Extends(a, c)
  {
  }

  /** The first table's payloads, loaded before the rest, stay in the cache with them. */
  lemma LoadedCons(level: Level, ids: seq<nat>, c: CacheManager, c': CacheManager, v: seq<Payload>, rest: seq<seq<Payload>>)
    requires |ids| > 0 && forall i | 0 <= i < |ids| :: ids[i] in level.tables
    requires Extends(c, c')
    requires level.tables[ids[0]].dbPath in c.units && GetDecodedForAll(c.units[level.tables[ids[0]].dbPath]) == Ok(v)
    requires |rest| == |ids| - 1
    requires forall i | 0 <= i < |ids| - 1 :: (level.tables[ids[1..][i]].dbPath in c'.units
      && GetDecodedForAll(c'.units[level.tables[ids[1..][i]].dbPath]) == Ok(rest[i]))
    ensures forall i | 0 <= i < |ids| :: (level.tables[ids[i]].dbPath in c'.units
      && GetDecodedForAll(c'.units[level.tables[ids[i]].dbPath]) == Ok(([v] + rest)[i]))
  {
    forall i | 0 <= i < |ids| ensures level.tables[ids[i]].dbPath in c'.units
      && GetDecodedForAll(c'.units[level.tables[ids[i]].dbPath]) == Ok(([v] + rest)[i])
    {
      if i > 0 {
        assert ids[1..][i - 1] == ids[i];
        assert ([v] + rest)[i] == rest[i - 1];
      }
    }
  }

  /** The data paths, then the index paths, of the listed tables: the files a compaction deletes. */
  function TablePaths(level: Level, ids: seq<nat>, index: bool): (r: seq<string>)
    requires forall i | 0 <= i < |ids| :: ids[i] in level.tables
    ensures |r| == |ids|
    ensures forall i | 0 <= i < |ids| :: r[i] == if index then level.tables[ids[i]].indexPath else level.tables[ids[i]].dbPath
  {
    if |ids| == 0 then []
    else
      var t := level.tables[ids[0]];
      [if index then t.indexPath else t.dbPath] + TablePaths(level, ids[1..], index)
  }

  /** Where a run of deletions got to. */
  datatype Deletion = Deletion(fs: FileSystem, log: seq<Event>, ok: bool)

  /**
   Deleting each path in turn, logging its start and its completion; deleting a missing
   file panics right after its start was logged.
   */
  function DeleteAll(fs: FileSystem, log: seq<Event>, paths: seq<string>): (r: Deletion)
    ensures r.ok <==> forall i | 0 <= i < |paths| :: paths[i] in fs && paths[i] !in paths[..i]
    ensures r.ok ==> r.log == log + DeleteBrackets(paths)
    ensures r.ok ==> r.fs.Keys == fs.Keys - set i | 0 <= i < |paths| :: paths[i]
    ensures r.fs.Keys <= fs.Keys && forall p | p in r.fs :: r.fs[p] == fs[p]
    ensures !r.ok ==> |r.log| > |log| && r.log[|r.log| - 1].op == DeleteStarted && r.log[|r.log| - 1].path !in r.fs
    decreases |paths|
  {
    if |paths| == 0 then Deletion(fs, log, true)
    else
      var started := log + [Event(paths[0], DeleteStarted)];
      if paths[0] !in fs then Deletion(fs, started, false)
      else
        var rest := DeleteAll(map p | p in fs && p != paths[0] :: fs[p], started + [Event(paths[0], DeleteCompleted)], paths[1..]);
        DeleteAllStep(fs, paths, rest.ok);
        DeleteKeysStep(fs, paths, rest.ok, rest.fs.Keys);
        DeleteLogStep(log, paths, rest.ok, rest.log);
        rest
  }

  lemma DeleteKeysStep(fs: FileSystem, paths: seq<string>, ok: bool, keys: set<string>)
    requires |paths| > 0 && paths[0] in fs
    requires ok ==> keys == (map p | p in fs && p != paths[0] :: fs[p]).Keys - set i | 0 <= i < |paths| - 1 :: paths[1..][i]
    ensures ok ==> keys == fs.Keys - set i | 0 <= i < |paths| :: paths[i]
  {
    if ok {
      var later := set i | 0 <= i < |paths| - 1 :: paths[1..][i];
      var all := set i | 0 <= i < |paths| :: paths[i];
      assert all == later + {paths[0]} by {
        forall x | x in all ensures x in later + {paths[0]} {
          var i :| 0 <= i < |paths| && paths[i] == x;
          if i > 0 { assert paths[1..][i - 1] == x; }
        }
      }
    }
  }

  lemma DeleteLogStep(log: seq<Event>, paths: seq<string>, ok: bool, log': seq<Event>)
    requires |paths| > 0
    requires ok ==> log' == log + [Event(paths[0], DeleteStarted)] + [Event(paths[0], DeleteCompleted)] + DeleteBrackets(paths[1..])
    ensures ok ==> log' == log + DeleteBrackets(paths)
  {
    var b, d := Bracket(paths[0], DeleteStarted, DeleteCompleted), DeleteBrackets(paths[1..]);
    var x := log + [Event(paths[0], DeleteStarted)] + [Event(paths[0], DeleteCompleted)];
    assert x == log + b;
    AppendAssoc(log, b, d);
  }

  lemma AppendAssoc<T>(a: seq<T>, b: seq<T>, c: seq<T>)
    ensures a + b + c == a + (b + c)
  {
  }

  lemma DeleteAllStep(fs: FileSystem, paths: seq<string>, ok: bool)
    requires |paths| > 0 && paths[0] in fs
    requires var fs' := map p | p in fs && p != paths[0] :: fs[p];
      ok <==> forall i | 0 <= i < |paths| - 1 :: paths[1..][i] in fs' && paths[1..][i] !in paths[1..][..i]
    ensures ok <==> forall i | 0 <= i < |paths| :: paths[i] in fs && paths[i] !in paths[..i]
  {
    assert forall i | 1 <= i < |paths| :: paths[1..][i - 1] == paths[i] && paths[..i] == [paths[0]] + paths[1..][..i - 1];
  }

  /**
   Creating both table files, logging the start of the data file's write, encoding the
   merged payloads into them and logging its completion. An encoding error stops the
   process (`log.Fatalf`) with the start logged and the files as far as they were written.
   */
  method WriteTable(fs: FileSystem, log: seq<Event>, dbPath: string, indexPath: string, merged: seq<Payload>, fault: Option<Fault>)
    returns (fs': FileSystem, log': seq<Event>, err: Option<EncodeError>)
    requires dbPath != indexPath
    ensures err == ErrorOf(fault, |merged|)
    ensures log' == log + [Event(dbPath, WriteStarted)] + (if err == None then [Event(dbPath, WriteCompleted)] else [])
    ensures fs'.Keys == fs.Keys + {dbPath, indexPath}
    ensures forall p | p in fs' && p != dbPath && p != indexPath :: fs'[p] == fs[p]
    ensures fs'[dbPath] == Records(merged[..Stored(fault, |merged|)])
    ensures fs'[indexPath] == IndexCells(Entries(0, merged[..Indexed(fault, |merged|)]))
    ensures err == None ==> fs'[dbPath] == Records(merged) && fs'[indexPath] == IndexCells(Entries(0, merged))
  {
    log' := log + [Event(dbPath, WriteStarted)];
    var db, index;
    db, index, err := Encode(File([], 0), File([], 0), merged, fault);
    WriteAtEnd([], Records(merged[..Stored(fault, |merged|)]));
    WriteAtEnd([], IndexCells(Entries(0, merged[..Indexed(fault, |merged|)])));
    fs' := fs[dbPath := db.content][indexPath := index.content];
    if err == None {
      RunsThrough(fault, |merged|);
      assert merged[..|merged|] == merged;
      log' := log' + [Event(dbPath, WriteCompleted)];
    }
  }

  /** The level `l + 1` a compaction of level `l` writes to: the existing one, or a new empty one. */
  function NextLevel(lsm: Lsm, l: nat): (r: Level)
    ensures l + 1 < |lsm.levels| ==> r == lsm.levels[l + 1]
    ensures l + 1 >= |lsm.levels| ==> r == EmptyLevel
  {
    match GetLevel(lsm, l + 1)
    case Some(level) => level
    case None => EmptyLevel
  }

  /** All data and index paths of a level's tables. */
  function LevelPaths(level: Level): set<string>
  {
    (set id | id in level.tables :: level.tables[id].dbPath) + (set id | id in level.tables :: level.tables[id].indexPath)
  }

  /**
   The levels once a compaction of level `l` is recorded: level `l + 1`, appended when
   missing, has handed out its next id to the table `t`, and level `l` has dropped its tables.
   */
  function Install(lsm: Lsm, l: nat, t: SSTable): (r: Lsm)
    requires l < |lsm.levels|
    ensures LevelsCompacted(lsm, r, l, t)
  {
    var levels := if l + 1 < |lsm.levels| then lsm.levels else lsm.levels + [EmptyLevel];
    var (id, next) := GetNextId(NextLevel(lsm, l));
    var level := lsm.levels[l];
    var ids := Ascending(level.tables.Keys);
    var cleared := Clear(level, ids);
    assert cleared.tables.Keys == {};
    Lsm(levels[l + 1 := SetSSTable(next, id, t)][l := cleared])
  }

  /**
   The levels once the next level has been found and its id taken (`AppendLevel` and
   `GetNextId`) but before anything is recorded: level `l + 1`, appended when missing,
   keeps its tables and has its counter moved past the id; every other level, level `l`
   included, is as it was.
   */
  predicate LevelReserved(lsm: Lsm, lsm': Lsm, l: nat)
    requires l < |lsm.levels|
  {
    var next := NextLevel(lsm, l);
    && |lsm'.levels| == (if l + 1 < |lsm.levels| then |lsm.levels| else l + 2)
    && lsm'.levels[l] == lsm.levels[l]
    && lsm'.levels[l + 1] == Level(next.tables, next.nextId + 1)
    && (forall k | 0 <= k < |lsm.levels| && k != l + 1 :: lsm'.levels[k] == lsm.levels[k])
  }

  /** The levels when `Encode` fails: `log.Fatalf` exits before `SetSSTable` and `Clear`. */
  function Reserve(lsm: Lsm, l: nat): (r: Lsm)
    requires l < |lsm.levels|
    ensures LevelReserved(lsm, r, l)
  {
    var levels := if l + 1 < |lsm.levels| then lsm.levels else lsm.levels + [EmptyLevel];
    var (_, next) := GetNextId(NextLevel(lsm, l));
    Lsm(levels[l + 1 := next])
  }

  /**
   Level `l` without tables; on level `l + 1` (appended when missing) the table `t` at its
   old `nextId`; every other level as it was.
   */
  predicate LevelsCompacted(lsm: Lsm, lsm': Lsm, l: nat, t: SSTable)
    requires l < |lsm.levels|
  {
    var next := NextLevel(lsm, l);
    && |lsm'.levels| == (if l + 1 < |lsm.levels| then |lsm.levels| else l + 2)
    && lsm'.levels[l] == Level(map[], lsm.levels[l].nextId)
    && lsm'.levels[l + 1] == Level(next.tables[next.nextId := t], next.nextId + 1)
    && (forall k | 0 <= k < |lsm.levels| && k != l && k != l + 1 :: lsm'.levels[k] == lsm.levels[k])
  }

  /**
   The files once a compaction is done: the new files are there, holding the merged
   payloads unless a deleted path named them; the level's files are deleted; every other
   file is untouched.
   */
  predicate FilesCompacted(fs: FileSystem, fs': FileSystem, gone: set<string>, db: string, index: string, merged: seq<Payload>)
  {
    && fs'.Keys == (fs.Keys + {db, index}) - gone
    && (forall p | p in fs' && p != db && p != index :: fs'[p] == fs[p])
    && (db in fs' ==> fs'[db] == Records(merged))
    && (index in fs' ==> fs'[index] == IndexCells(Entries(0, merged)))
  }

  /** What a completed compaction of level `l` leaves behind. */
  predicate CompactedLevel(g: Gc, g': Gc, l: nat, merged: seq<Payload>)
    requires l < |g.lsm.levels|
  {
    var level := g.lsm.levels[l];
    var id := NextLevel(g.lsm, l).nextId;
    var db := FormatDBPath(g.mf, l + 1, id);
    var index := FormatIndexPath(g.mf, l + 1, id);
    && g'.mf == g.mf
    && LevelsCompacted(g.lsm, g'.lsm, l, SSTable(db, index, SizeInBytes(level)))
    && FilesCompacted(g.fs, g'.fs, LevelPaths(level), db, index, merged)
    && RollbackPaths(g'.log) <= RollbackPaths(g.log)
  }

  /**
   One compaction of level `l` (the body of `SizeTiredCompaction.Run` once the threshold is
   exceeded): every table of the level is read through the cache and the k-way merge of
   their payloads is written as table `nextId` of level `l + 1`, created when missing, with
   the level's size; level `l` is emptied and its files deleted, data files first. `fault`
   is the I/O failure, if any, that `Encode` meets. Reading a table that fails, or an
   empty table (its first payload is pushed on the heap), panics before anything is logged.
   The tables are listed in ascending id order, the order this model gives Go's map.
   */
  method CompactLevel(g: Gc, l: nat, fault: Option<Fault>) returns (o: Outcome, tables: seq<seq<Payload>>, merged: seq<Payload>)
    requires l < |g.lsm.levels|
    ensures Extends(g.cache, o.gc.cache) && o.gc.mf == g.mf
    ensures var ids := Ascending(g.lsm.levels[l].tables.Keys);
      (o.Done? || o.why == FatalCrash) ==> |tables| == |ids| && forall i | 0 <= i < |ids| ::
        var t := g.lsm.levels[l].tables[ids[i]]; t.dbPath in o.gc.cache.units && GetDecodedForAll(o.gc.cache.units[t.dbPath]) == Ok(tables[i])
    ensures (o.Done? || o.why == FatalCrash) ==> forall j | 0 <= j < |tables| :: |tables[j]| > 0
    ensures multiset(merged) == Pool(tables)
    ensures o.Crashed? && o.why == FatalCrash <==> (o.Done? || o.why == FatalCrash) && ErrorOf(fault, |merged|) != None
    ensures o.Crashed? && o.why == PanicCrash && |o.gc.log| == |g.log| ==> o.gc.fs == g.fs && o.gc.lsm == g.lsm
    ensures o.Crashed? && o.why == FatalCrash ==>
      FormatDBPath(g.mf, l + 1, NextLevel(g.lsm, l).nextId) in RollbackPaths(o.gc.log)
    ensures o.Crashed? && o.why == FatalCrash ==> LevelReserved(g.lsm, o.gc.lsm, l)
    ensures o.Done? ==> CompactedLevel(g, o.gc, l, merged)
  {
    var level := g.lsm.levels[l];
    var ids := Ascending(level.tables.Keys);
    var (cache, loaded) := LoadTables(level, ids, g.cache, g.fs);
    if loaded.None? {
      return Crashed(g.(cache := cache), PanicCrash), [], [];
    }
    tables := loaded.value;
    if exists j | 0 <= j < |tables| :: |tables[j]| == 0 {
      return Crashed(g.(cache := cache), PanicCrash), tables, Merge(tables);
    }
    merged := Merge(tables);
    o := WriteMerged(g, l, cache, merged, fault);
  }

  /**
   The part of a compaction after the merge: writing the merged table to level `l + 1`,
   recording it, and deleting the files of level `l`.
   */
  method WriteMerged(g: Gc, l: nat, cache: CacheManager, merged: seq<Payload>, fault: Option<Fault>) returns (o: Outcome)
    requires l < |g.lsm.levels|
    ensures o.gc.cache == cache && o.gc.mf == g.mf
    ensures o.Crashed? && o.why == FatalCrash <==> ErrorOf(fault, |merged|) != None
    ensures o.Crashed? ==> |o.gc.log| > |g.log|
    ensures o.Crashed? && o.why == FatalCrash ==>
      FormatDBPath(g.mf, l + 1, NextLevel(g.lsm, l).nextId) in RollbackPaths(o.gc.log)
    ensures o.Crashed? && o.why == FatalCrash ==> LevelReserved(g.lsm, o.gc.lsm, l)
    ensures o.Done? ==> CompactedLevel(g, o.gc, l, merged)
  {
    var level := g.lsm.levels[l];
    var ids := Ascending(level.tables.Keys);
    var id := NextLevel(g.lsm, l).nextId;
    var dbPath := FormatDBPath(g.mf, l + 1, id);
    var indexPath := FormatIndexPath(g.mf, l + 1, id);
    DbPathIsNotIndexPath(g.mf, l + 1, id, l + 1, id);
    var fs, log, err := WriteTable(g.fs, g.log, dbPath, indexPath, merged, fault);
    if err != None {
      RollbackPathsExact(log, dbPath);
      return Crashed(Gc(g.mf, Reserve(g.lsm, l), cache, fs, log), FatalCrash);
    }
    var lsm := Install(g.lsm, l, SSTable(dbPath, indexPath, SizeInBytes(level)));
    var dbs := DeleteAll(fs, log, TablePaths(level, ids, false));
    if !dbs.ok {
      return Crashed(Gc(g.mf, lsm, cache, dbs.fs, dbs.log), PanicCrash);
    }
    var idxs := DeleteAll(dbs.fs, dbs.log, TablePaths(level, ids, true));
    if !idxs.ok {
      return Crashed(Gc(g.mf, lsm, cache, idxs.fs, idxs.log), PanicCrash);
    }
    o := Done(Gc(g.mf, lsm, cache, idxs.fs, idxs.log));
    assert log == g.log + Bracket(dbPath, WriteStarted, WriteCompleted);
    CompactionLogIsNeutral(g.log, dbPath, TablePaths(level, ids, false), TablePaths(level, ids, true));
    DeletionsCompact(g.fs, fs, dbs.fs, idxs.fs, level, ids, dbPath, indexPath, merged);
  }

  /** The two runs of deletions after the write leave the files `FilesCompacted` describes. */
  lemma DeletionsCompact(fs0: FileSystem, fs1: FileSystem, fs2: FileSystem, fs3: FileSystem, level: Level, ids: seq<nat>,
                         db: string, index: string, merged: seq<Payload>)
    requires forall x :: x in ids <==> x in level.tables
    requires fs1.Keys == fs0.Keys + {db, index}
    requires forall p | p in fs1 && p != db && p != index :: fs1[p] == fs0[p]
    requires fs1[db] == Records(merged) && fs1[index] == IndexCells(Entries(0, merged))
    requires var dbs := TablePaths(level, ids, false); fs2.Keys == fs1.Keys - (set i | 0 <= i < |dbs| :: dbs[i])
    requires fs2.Keys <= fs1.Keys && forall p | p in fs2 :: fs2[p] == fs1[p]
    requires var idxs := TablePaths(level, ids, true); fs3.Keys == fs2.Keys - (set i | 0 <= i < |idxs| :: idxs[i])
    requires fs3.Keys <= fs2.Keys && forall p | p in fs3 :: fs3[p] == fs2[p]
    ensures FilesCompacted(fs0, fs3, LevelPaths(level), db, index, merged)
  {
    DeletedPaths(level, ids, TablePaths(level, ids, false), TablePaths(level, ids, true));
  }

  /** The log of a completed compaction adds nothing for `rollback` to delete. */
  lemma CompactionLogIsNeutral(log: seq<Event>, db: string, dbs: seq<string>, idxs: seq<string>)
    ensures RollbackPaths(log + Bracket(db, WriteStarted, WriteCompleted) + DeleteBrackets(dbs) + DeleteBrackets(idxs)) <= RollbackPaths(log)
  {
    var w := log + Bracket(db, WriteStarted, WriteCompleted);
    BracketIsNeutral(log, db, true);
    DeleteBracketsNeutral(w, dbs);
    DeleteBracketsNeutral(w + DeleteBrackets(dbs), idxs);
  }

  lemma DeletedPaths(level: Level, ids: seq<nat>, dbs: seq<string>, idxs: seq<string>)
    requires forall x :: x in ids <==> x in level.tables
    requires dbs == TablePaths(level, ids, false) && idxs == TablePaths(level, ids, true)
    ensures (set i | 0 <= i < |dbs| :: dbs[i]) + (set i | 0 <= i < |idxs| :: idxs[i]) == LevelPaths(level)
  {
    forall p | p in LevelPaths(level) ensures p in (set i | 0 <= i < |dbs| :: dbs[i]) + (set i | 0 <= i < |idxs| :: idxs[i]) {
      if id :| id in level.tables && level.tables[id].dbPath == p {
        var i :| 0 <= i < |ids| && ids[i] == id;
        assert dbs[i] == p;
      } else {
        var id :| id in level.tables && level.tables[id].indexPath == p;
        var i :| 0 <= i < |ids| && ids[i] == id;
        assert idxs[i] == p;
      }
    }
  }

  // ---------------------------------------------------------------- the cascade

  /**
   `SizeTiredCompaction.Run` from level `l`: nothing happens when the level is missing or
   within its threshold; otherwise the level is compacted and the run goes on with level
   `l + 1`. `faults` gives the `Encode` failure of each compaction in turn and bounds the
   cascade, which nothing in the source bounds.
   */
  method Run(g: Gc, opts: CompactionOpts, l: nat, faults: seq<Option<Fault>>) returns (o: Outcome)
    ensures Extends(g.cache, o.gc.cache) && o.gc.mf == g.mf
    ensures l >= |g.lsm.levels| || |faults| == 0 ==> o == Done(g)
    ensures l < |g.lsm.levels| && !ShouldCompact(opts, l, SizeInBytes(g.lsm.levels[l])) ==> o == Done(g)
    ensures o.Done? ==> RollbackPaths(o.gc.log) <= RollbackPaths(g.log)
    ensures o.Done? ==> |o.gc.lsm.levels| >= |g.lsm.levels|
    decreases |faults|
  {
    if l >= |g.lsm.levels| || |faults| == 0 || !ShouldCompact(opts, l, SizeInBytes(g.lsm.levels[l])) {
      return Done(g);
    }
    var step, _, _ := CompactLevel(g, l, faults[0]);
    if step.Crashed? {
      return step;
    }
    o := Run(step.gc, opts, l + 1, faults[1..]);
  }

  /** Every table of level `l` is named as the manifest names table `id` of level `l`. */
  predicate WellNamed(mf: Manifest, level: Level, l: nat)
  {
    forall id | id in level.tables :: level.tables[id].dbPath == FormatDBPath(mf, l, id) && level.tables[id].indexPath == FormatIndexPath(mf, l, id)
  }

  /** The files of a well-named level `l` are never those of a table of level `l + 1`. */
  lemma NewPathsAreFresh(mf: Manifest, level: Level, l: nat, id: nat)
    requires WellNamed(mf, level, l)
    ensures FormatDBPath(mf, l + 1, id) !in LevelPaths(level)
    ensures FormatIndexPath(mf, l + 1, id) !in LevelPaths(level)
  {
    var db, index := FormatDBPath(mf, l + 1, id), FormatIndexPath(mf, l + 1, id);
    forall k | k in level.tables ensures level.tables[k].dbPath != db && level.tables[k].dbPath != index
      && level.tables[k].indexPath != db && level.tables[k].indexPath != index
    {
      if level.tables[k].dbPath == db { PathsInjective(mf, l, k, l + 1, id); }
      if level.tables[k].indexPath == index { PathsInjective(mf, l, k, l + 1, id); }
      DbPathIsNotIndexPath(mf, l, k, l + 1, id);
      DbPathIsNotIndexPath(mf, l + 1, id, l, k);
    }
  }

  /**
   After a completed compaction of a well-named level, the new table of level `l + 1`
   reads back, through any cache that has not seen its path, as exactly the merged payloads.
   */
  lemma CompactedTableReadsBack(g: Gc, g': Gc, l: nat, merged: seq<Payload>, c: CacheManager)
    requires l < |g.lsm.levels| && WellNamed(g.mf, g.lsm.levels[l], l)
    requires CompactedLevel(g, g', l, merged)
    ensures var t := g'.lsm.levels[l + 1].tables[NextLevel(g.lsm, l).nextId];
      t.dbPath !in c.units ==> GetFullPayload(c, g'.fs, t.dbPath, t.indexPath).1 == Ok(merged)
  {
    var id := NextLevel(g.lsm, l).nextId;
    NewPathsAreFresh(g.mf, g.lsm.levels[l], l, id);
    DecodeAllAfterEncode(merged);
  }
}

=== FILE: converters.dfy ===
/**
 The value converters of the document layer (internal/types/types.go): the dynamic values
 that decoded documents hold, the native values the store keeps, and the `to*`/`To*`
 functions that turn the one into the other.

 A Go string is a sequence of bytes; here it is a `string` whose characters each hold one
 byte (`Text`), so `len` is the sequence length. Go's `int` is taken to be 64 bits wide.
 Floating-point values, `time.Time` and UUIDs appear only as opaque variants.
 */
module Converters {
  import opened Wrappers
  import GoPath

  type I64 = x: int | -0x8000_0000_0000_0000 <= x < 0x8000_0000_0000_0000
  type I32 = x: int | -0x8000_0000 <= x < 0x8000_0000
  type I16 = x: int | -0x8000 <= x < 0x8000
  type I8 = x: int | -0x80 <= x < 0x80
  type Byte = x: int | 0 <= x < 0x100

  predicate IsByteString(s: string)
  {
    forall i | 0 <= i < |s| :: s[i] as int < 0x100
  }

  /** A Go string: one character per byte. */
  type Text = s: string | IsByteString(s) witness ""

  /** The value of a native struct (`int64Value`, `stringValue`, ...); time and float payloads are left abstract. */
  datatype Native =
    | Int64Value(v64: I64)
    | Int32Value(v32: I32)
    | Int16Value(v16: I16)
    | Int8Value(v8: I8)
    | Float64Value
    | Float32Value
    | BoolValue(b: bool)
    | StringValue(s: Text)
    | ByteValue(x: Byte)
    | DateValue
    | TimeValue
    | DatetimeValue
    | TimestampValue
    | DecimalValue(digits: Text)
    | NumericValue(text: Text)
    | UuidValue(uuid: seq<Byte>)
    | BlobValue(blob: seq<Byte>)

  /**
   A value of Go's `interface{}` as the document layer sees it: the dynamic types the
   converters switch on, a nested document (`map[string]interface{}`, its entries in the
   order one `range` over it visits them), nil, any other dynamic type, and the results of a
   cast (`ID` and the named native types such as `INT`).
   */
  datatype Dyn =
    | GoInt(n: I64)
    | GoInt64(n64: I64)
    | GoInt32(n32: I32)
    | GoInt16(n16: I16)
    | GoInt8(n8: I8)
    | GoBool(b: bool)
    | GoString(s: Text)
    | GoBytes(bytes: seq<Byte>)
    | GoMap(entries: seq<(string, Dyn)>)
    | GoNil
    | GoOther
    | Id(k: I64)
    | Typed(name: string, native: Native)

  /** The errors of this file: `errors.TypeCastError`, and the `fmt.Errorf` of `ToDECIMAL`. */
  datatype CastError = TypeCastError | InvalidDecimal(s: Text)

  // ---------------------------------------------------------------- sizes

  /** `x` can be held in `bytes` bytes of two's complement. */
  predicate FitsIn(x: int, bytes: nat)
  {
    bytes > 0 && var half: int := Pow2(8 * bytes - 1); -half <= x < half
  }

  function Pow2(e: nat): (r: nat)
    ensures r > 0
  {
    if e == 0 then 1 else 2 * Pow2(e - 1)
  }

  /** The bytes a native value carries, for the kinds whose size is their length. */
  function Content(n: Native): Option<nat>
  {
    match n
    case StringValue(s) => Some(|s|)
    case DecimalValue(s) => Some(|s|)
    case NumericValue(s) => Some(|s|)
    case BlobValue(b) => Some(|b|)
    case _ => None
  }

  /**
   `SizeOf` of each native struct: a whole number reports its width in bytes, which holds
   every value of its kind, a string-backed value reports its length, and the other
   fixed-size kinds report their constant (`float32Value` included, which reports 8 like
   `float64Value`).
   */
  function SizeOf(n: Native): (r: nat)
    ensures Content(n).Some? ==> r == Content(n).value
    ensures n.Int64Value? ==> FitsIn(n.v64, r)
    ensures n.Int32Value? ==> FitsIn(n.v32, r)
    ensures n.Int16Value? ==> FitsIn(n.v16, r)
    ensures n.Int8Value? ==> FitsIn(n.v8, r)
    ensures n.ByteValue? ==> 0 <= n.x < Pow2(8 * r)
    ensures n.Int64Value? ==> r == 8
    ensures n.Int32Value? ==> r == 4
    ensures n.Int16Value? ==> r == 2
    ensures n.Int8Value? ==> r == 1
    ensures n.BoolValue? ==> r == 8
    ensures n.ByteValue? ==> r == 1
    ensures n.DateValue? ==> r == 4
    ensures n.TimeValue? ==> r == 3
    ensures n.DatetimeValue? || n.TimestampValue? ==> r == 8
    ensures n.Float32Value? || n.Float64Value? ==> r == 8
    ensures n.UuidValue? ==> r == 16
  {
    match n
    case Int64Value(x) => FitsInWidths(x); 8
    case Int32Value(x) => FitsInWidths(x); 4
    case Int16Value(x) => FitsInWidths(x); 2
    case Int8Value(x) => FitsInWidths(x); 1
    case Float64Value => 8
    case Float32Value => 8
    case BoolValue(_) => 8
    case StringValue(s) => |s|
    case ByteValue(_) => Pow2Byte(); 1
    case DateValue => 4
    case TimeValue => 3
    case DatetimeValue => 8
    case TimestampValue => 8
    case DecimalValue(s) => |s|
    case NumericValue(s) => |s|
    case UuidValue(_) => 16
    case BlobValue(b) => |b|
  }

  /** `FitsIn` for the widths of the native whole numbers. */
  lemma FitsInWidths(x: int)
    ensures FitsIn(x, 1) <==> -0x80 <= x < 0x80
    ensures FitsIn(x, 2) <==> -0x8000 <= x < 0x8000
    ensures FitsIn(x, 4) <==> -0x8000_0000 <= x < 0x8000_0000
    ensures FitsIn(x, 8) <==> -0x8000_0000_0000_0000 <= x < 0x8000_0000_0000_0000
  {
    Pow2Table();
  }

  lemma Pow2Byte()
    ensures Pow2(8 * 1) == 0x100
  {
    assert Pow2(8) == 0x100;
  }

  lemma Pow2Table()
    ensures Pow2(7) == 0x80 && Pow2(8) == 0x100 && Pow2(15) == 0x8000
    ensures Pow2(31) == 0x8000_0000 && Pow2(63) == 0x8000_0000_0000_0000
  {
    assert Pow2(8) == 0x100;
    assert Pow2(16) == 0x1_0000 by { Pow2Add(8, 8); }
    assert Pow2(15) == 0x8000 by { assert Pow2(16) == 2 * Pow2(15); }
    assert Pow2(32) == 0x1_0000_0000 by { Pow2Add(16, 16); }
    assert Pow2(31) == 0x8000_0000 by { assert Pow2(32) == 2 * Pow2(31); }
    assert Pow2(64) == 0x1_0000_0000_0000_0000 by { Pow2Add(32, 32); }
    assert Pow2(63) == 0x8000_0000_0000_0000 by { assert Pow2(64) == 2 * Pow2(63); }
  }

  lemma {:induction false} Pow2Add(a: nat, b: nat)
    ensures Pow2(a + b) == Pow2(a) * Pow2(b)
    decreases a
  {
    if a > 0 {
      Pow2Add(a - 1, b);
    }
  }

  // ---------------------------------------------------------------- whole numbers

  /** Go's `int32(val)`: the low 32 bits of the integer, read as two's complement. */
  function Wrap32(x: int): (r: I32)
    ensures -0x8000_0000 <= x < 0x8000_0000 ==> r == x
  {
    (x + 0x8000_0000) % 0x1_0000_0000 - 0x8000_0000
  }

  /** `toInt64`: an `int64` or an `int`, unchanged. */
  function ToInt64(v: Dyn): (r: Result<I64, CastError>)
    ensures r.Ok? <==> v.GoInt64? || v.GoInt?
    ensures r.Err? ==> r.error == TypeCastError
    ensures v.GoInt64? ==> r.value == v.n64
    ensures v.GoInt? ==> r.value == v.n
  {
    match v
    case GoInt64(x) => Ok(x)
    case GoInt(x) => Ok(x)
    case _ => Err(TypeCastError)
  }

  /** `toInt32`: an `int32` unchanged, or an `int` converted with `int32(val)`, which keeps its low 32 bits. */
  function ToInt32(v: Dyn): (r: Result<I32, CastError>)
    ensures r.Ok? <==> v.GoInt32? || v.GoInt?
    ensures r.Err? ==> r.error == TypeCastError
    ensures v.GoInt32? ==> r.value == v.n32
    ensures v.GoInt? ==> (r.value == v.n <==> FitsIn(v.n, 4))
  {
    match v
    case GoInt32(x) => Ok(x)
    case GoInt(x) => FitsInWidths(x); Ok(Wrap32(x))
    case _ => Err(TypeCastError)
  }

  /** `toInt16`: an `int16` unchanged, or an `int` in [-32768, 32767]. */
  function ToInt16(v: Dyn): (r: Result<I16, CastError>)
    ensures r.Ok? <==> v.GoInt16? || (v.GoInt? && -32768 <= v.n <= 32767)
    ensures r.Err? ==> r.error == TypeCastError
    ensures v.GoInt16? ==> r.value == v.n16
    ensures r.Ok? && v.GoInt? ==> r.value == v.n
  {
    match v
    case GoInt16(x) => Ok(x)
    case GoInt(x) => if x < -32768 || x > 32767 then Err(TypeCastError) else Ok(x)
    case _ => Err(TypeCastError)
  }

  /** `toInt8`: an `int8` unchanged, or an `int` in [-128, 127]. */
  function ToInt8(v: Dyn): (r: Result<I8, CastError>)
    ensures r.Ok? <==> v.GoInt8? || (v.GoInt? && -128 <= v.n <= 127)
    ensures r.Err? ==> r.error == TypeCastError
    ensures v.GoInt8? ==> r.value == v.n8
    ensures r.Ok? && v.GoInt? ==> r.value == v.n
  {
    match v
    case GoInt8(x) => Ok(x)
    case GoInt(x) => if x < -128 || x > 127 then Err(TypeCastError) else Ok(x)
    case _ => Err(TypeCastError)
  }

  /**
   On a Go `int`, each cast succeeds with the int itself exactly when the int fits the width
   `SizeOf` reports for the native kind it produces; only `toInt32` (and `toInt64`, whose
   width every int fits) also accepts the rest, `toInt32` by wrapping.
   */
  lemma IntCastsMatchWidths(x: I64)
    ensures ToInt64(GoInt(x)) == Ok(x) && FitsIn(x, SizeOf(Int64Value(0)))
    ensures ToInt32(GoInt(x)).Ok?
    ensures ToInt32(GoInt(x)).value == x <==> FitsIn(x, SizeOf(Int32Value(0)))
    ensures ToInt16(GoInt(x)) == Ok(x) <==> FitsIn(x, SizeOf(Int16Value(0)))
    ensures ToInt16(GoInt(x)).Err? <==> !FitsIn(x, SizeOf(Int16Value(0)))
    ensures ToInt8(GoInt(x)) == Ok(x) <==> FitsIn(x, SizeOf(Int8Value(0)))
    ensures ToInt8(GoInt(x)).Err? <==> !FitsIn(x, SizeOf(Int8Value(0)))
  {
    FitsInWidths(x);
  }

  /** `int32(val)` on an int just past the int32 range gives the most negative int32. */
  lemma ToInt32Wraps()
    ensures ToInt32(GoInt(0x8000_0000)) == Ok(-0x8000_0000)
    ensures ToInt16(GoInt(0x8000)).Err?
  {
  }

  // ---------------------------------------------------------------- text

  predicate IsDigit(c: char)
  {
    '0' <= c <= '9'
  }

  predicate AllDigits(s: string)
  {
    forall i | 0 <= i < |s| :: IsDigit(s[i])
  }

  /** `\d+`: one or more ASCII digits. */
  predicate Digits(s: string)
  {
    |s| > 0 && AllDigits(s)
  }

  /** `string(b)` of a byte slice. */
  function BytesToText(bs: seq<Byte>): (r: Text)
    ensures |r| == |bs|
  {
    var t := seq(|bs|, i requires 0 <= i < |bs| => bs[i] as char);
    assert IsByteString(t);
    t
  }

  /** `[]byte(s)` of a string. */
  function TextToBytes(s: Text): (r: seq<Byte>)
    ensures |r| == |s|
  {
    seq(|s|, i requires 0 <= i < |s| => s[i] as int)
  }

  /** `strconv.FormatInt(x, 10)`. */
  function FormatInt(x: int): (r: Text)
    ensures |r| > 0
  {
    var t := if x < 0 then "-" + GoPath.Itoa(-x) else GoPath.Itoa(x);
    assert IsByteString(t);
    t
  }

  /** The value of an optionally signed string of digits, `None` for any other string. */
  function ParseInt(s: string): (r: Option<int>)
  {
    if |s| > 0 && s[0] == '-' then
      if Digits(s[1..]) then Some(-GoPath.ParseDigits(s[1..])) else None
    else if Digits(s) then Some(GoPath.ParseDigits(s))
    else None
  }

  /** `toBool`: a bool, or exactly "true" or "false". */
  function ToBool(v: Dyn): (r: Result<bool, CastError>)
    ensures r.Ok? <==> v.GoBool? || (v.GoString? && (v.s == "true" || v.s == "false"))
    ensures r.Err? ==> r.error == TypeCastError
    ensures r.Ok? ==> (r.value <==> v == GoBool(true) || v == GoString("true"))
  {
    match v
    case GoBool(b) => Ok(b)
    case GoString(s) => if s == "true" then Ok(true) else if s == "false" then Ok(false) else Err(TypeCastError)
    case _ => Err(TypeCastError)
  }

  /** `toString`: a string unchanged, a bool as "true" or "false", an int in base 10, a byte slice as its bytes. */
  function ToString(v: Dyn): (r: Result<Text, CastError>)
    ensures r.Ok? <==> v.GoString? || v.GoBool? || v.GoInt? || v.GoBytes?
    ensures r.Err? ==> r.error == TypeCastError
    ensures v.GoString? ==> r.value == v.s
    ensures v.GoBytes? ==> |r.value| == |v.bytes|
  {
    match v
    case GoString(s) => Ok(s)
    case GoBool(b) => Ok(if b then "true" else "false")
    case GoInt(x) => Ok(FormatInt(x))
    case GoBytes(bs) => Ok(BytesToText(bs))
    case _ => Err(TypeCastError)
  }

  /** A bool rendered by `toString` reads back through `toBool`, and the strings `toBool` accepts are the renderings. */
  lemma BoolTextRoundTrip(b: bool, s: Text)
    ensures ToBool(GoString(ToString(GoBool(b)).value)) == Ok(b)
    ensures ToBool(GoString(s)).Ok? ==> ToString(GoBool(ToBool(GoString(s)).value)) == Ok(s)
  {
  }

  /** An int rendered by `toString` reads back as the same int. */
  lemma IntTextRoundTrip(x: I64)
    ensures ParseInt(ToString(GoInt(x)).value) == Some(x)
  {
    assert ToString(GoInt(x)).value == FormatInt(x);
    FormatIntParses(x);
  }

  lemma FormatIntParses(x: int)
    ensures ParseInt(FormatInt(x)) == Some(x)
  {
    var n: nat := if x < 0 then -x else x;
    var d := GoPath.Itoa(n);
    FormatIntShape(x);
    GoPath.ParseItoa(n);
    ItoaDigits(n);
    SignedParses(d);
  }

  lemma FormatIntShape(x: int)
    ensures x < 0 ==> FormatInt(x) == "-" + GoPath.Itoa(-x)
    ensures x >= 0 ==> FormatInt(x) == GoPath.Itoa(x)
  {
  }

  /** Digits read as their value, and with a minus sign in front as its negation. */
  lemma SignedParses(d: string)
    requires Digits(d)
    ensures ParseInt(d) == Some(GoPath.ParseDigits(d))
    ensures ParseInt("-" + d) == Some(-GoPath.ParseDigits(d))
  {
    assert ("-" + d)[1..] == d;
    assert d[0] != '-';
  }

  lemma ItoaDigits(n: nat)
    ensures Digits(GoPath.Itoa(n))
  {
    var d := GoPath.Itoa(n);
    forall i | 0 <= i < |d| ensures IsDigit(d[i]) {
    }
  }

  /** A byte slice rendered by `toString` converts back to the same bytes. */
  lemma BytesTextRoundTrip(bs: seq<Byte>)
    ensures TextToBytes(ToString(GoBytes(bs)).value) == bs
  {
  }

  // ---------------------------------------------------------------- decimals

  /** `\d+(\.\d+)?` */
  predicate Unsigned(s: string)
  {
    Digits(s) || exists k | 0 < k < |s| :: s[k] == '.' && Digits(s[..k]) && Digits(s[k + 1..])
  }

  /** The strings the pattern `^-?\d+(\.\d+)?$` of `ToDECIMAL` matches (`$` is the end of the text in Go). */
  predicate IsDecimal(s: string)
  {
    Unsigned(s) || (|s| > 0 && s[0] == '-' && Unsigned(s[1..]))
  }

  /** The states of a scanner for that pattern. */
  datatype Scan = Start | Signed | Whole | Point | Fraction | Dead

  function Step(q: Scan, c: char): Scan
  {
    match q
    case Start => if c == '-' then Signed else if IsDigit(c) then Whole else Dead
    case Signed => if IsDigit(c) then Whole else Dead
    case Whole => if IsDigit(c) then Whole else if c == '.' then Point else Dead
    case Point => if IsDigit(c) then Fraction else Dead
    case Fraction => if IsDigit(c) then Fraction else Dead
    case Dead => Dead
  }

  function Run(q: Scan, s: string): Scan
    decreases |s|
  {
    if |s| == 0 then q else Run(Step(q, s[0]), s[1..])
  }

  predicate Accepts(q: Scan)
  {
    q == Whole || q == Fraction
  }

  /** `validDecimal.MatchString(s)`, by one left-to-right scan. */
  predicate MatchesDecimal(s: string)
  {
    Accepts(Run(Start, s))
  }

  /** What may follow the first digit of a decimal: more digits, then optionally a dot and digits. */
  predicate AfterDigit(s: string)
  {
    AllDigits(s) || exists k | 0 <= k < |s| :: DotAt(s, k)
  }

  /** Digits, a dot at `k`, then digits. */
  predicate DotAt(s: string, k: int)
  {
    0 <= k < |s| && s[k] == '.' && AllDigits(s[..k]) && Digits(s[k + 1..])
  }

  lemma {:induction false} DeadStays(s: string)
    ensures Run(Dead, s) == Dead
    decreases |s|
  {
    if |s| > 0 {
      DeadStays(s[1..]);
    }
  }

  lemma {:induction false} FractionScan(s: string)
    ensures Accepts(Run(Fraction, s)) <==> AllDigits(s)
    decreases |s|
  {
    if |s| > 0 {
      if IsDigit(s[0]) {
        FractionScan(s[1..]);
        assert AllDigits(s) <==> AllDigits(s[1..]) by {
          if AllDigits(s[1..]) {
            forall i | 0 <= i < |s| ensures IsDigit(s[i]) {
              if i > 0 { assert s[i] == s[1..][i - 1]; }
            }
          }
        }
      } else {
        DeadStays(s[1..]);
      }
    }
  }

  lemma PointScan(s: string)
    ensures Accepts(Run(Point, s)) <==> Digits(s)
  {
    if |s| > 0 {
      if IsDigit(s[0]) {
        FractionScan(s[1..]);
        assert AllDigits(s) <==> AllDigits(s[1..]) by {
          if AllDigits(s[1..]) {
            forall i | 0 <= i < |s| ensures IsDigit(s[i]) {
              if i > 0 { assert s[i] == s[1..][i - 1]; }
            }
          }
        }
      } else {
        DeadStays(s[1..]);
      }
    }
  }

  /** After a leading digit, `AfterDigit` moves one digit along. */
  lemma AfterDigitShift(s: string)
    requires |s| > 0 && IsDigit(s[0])
    ensures AfterDigit(s) <==> AfterDigit(s[1..])
  {
    AllDigitsShift(s);
    if k :| 0 <= k < |s| && DotAt(s, k) {
      DotDown(s, k);
    }
    if k :| 0 <= k < |s| - 1 && DotAt(s[1..], k) {
      DotUp(s, k);
    }
  }

  lemma AllDigitsShift(s: string)
    requires |s| > 0 && IsDigit(s[0])
    ensures AllDigits(s) <==> AllDigits(s[1..])
  {
    var t := s[1..];
    if AllDigits(t) {
      forall i | 0 <= i < |s| ensures IsDigit(s[i]) {
        if i > 0 { assert s[i] == t[i - 1]; }
      }
    }
  }

  lemma DotDown(s: string, k: int)
    requires |s| > 0 && IsDigit(s[0]) && DotAt(s, k)
    ensures DotAt(s[1..], k - 1)
  {
    var t := s[1..];
    assert k > 0;
    assert t[k - 1] == '.' && t[..k - 1] == s[1..k] && t[k..] == s[k + 1..];
  }

  lemma DotUp(s: string, k: int)
    requires |s| > 0 && IsDigit(s[0]) && DotAt(s[1..], k)
    ensures DotAt(s, k + 1)
  {
    var t := s[1..];
    assert s[k + 1] == '.' && s[k + 2..] == t[k + 1..];
    var u := s[..k + 1];
    forall i | 0 <= i < |u| ensures IsDigit(u[i]) {
      if i > 0 { assert u[i] == t[..k][i - 1]; }
    }
  }

  /** A string that does not start with a digit follows a digit only when it is a dot and digits. */
  lemma AfterDigitNonDigit(s: string)
    requires |s| > 0 && !IsDigit(s[0])
    ensures AfterDigit(s) <==> s[0] == '.' && Digits(s[1..])
  {
    if s[0] == '.' && Digits(s[1..]) {
      assert s[..0] == [];
      assert s[0 + 1..] == s[1..];
      assert DotAt(s, 0);
    }
  }

  lemma {:induction false} WholeScan(s: string)
    ensures Accepts(Run(Whole, s)) <==> AfterDigit(s)
    decreases |s|
  {
    if |s| > 0 {
      if IsDigit(s[0]) {
        WholeScan(s[1..]);
        AfterDigitShift(s);
      } else {
        AfterDigitNonDigit(s);
        if s[0] == '.' {
          PointScan(s[1..]);
        } else {
          DeadStays(s[1..]);
        }
      }
    }
  }

  /** An unsigned decimal is a digit and what may follow it. */
  lemma UnsignedSplit(s: string)
    ensures Unsigned(s) <==> |s| > 0 && IsDigit(s[0]) && AfterDigit(s[1..])
  {
    if |s| > 0 {
      var t := s[1..];
      if k :| 0 < k < |s| && s[k] == '.' && Digits(s[..k]) && Digits(s[k + 1..]) {
        assert s[..k][0] == s[0];
        assert DotAt(s, k);
        DotDown(s, k);
      }
      if IsDigit(s[0]) {
        AllDigitsShift(s);
        if k :| 0 <= k < |t| && DotAt(t, k) {
          DotUp(s, k);
        }
      }
    }
  }

  /** The scanner matches exactly the strings of the pattern. */
  lemma DecimalScanIsPattern(s: string)
    ensures MatchesDecimal(s) <==> IsDecimal(s)
  {
    UnsignedSplit(s);
    if |s| > 0 {
      assert Run(Start, s) == Run(Step(Start, s[0]), s[1..]);
      if s[0] == '-' {
        var t := s[1..];
        UnsignedSplit(t);
        if |t| > 0 {
          assert Run(Signed, t) == Run(Step(Signed, t[0]), t[1..]);
          if IsDigit(t[0]) {
            WholeScan(t[1..]);
          } else {
            DeadStays(t[1..]);
          }
        }
      } else if IsDigit(s[0]) {
        WholeScan(s[1..]);
      } else {
        DeadStays(s[1..]);
      }
    }
  }

  /** `ToDECIMAL`: the `toString` of the value, when it matches the decimal pattern. */
  function ToDECIMAL(v: Dyn): (r: Result<Native, CastError>)
    ensures r.Ok? <==> ToString(v).Ok? && IsDecimal(ToString(v).value)
    ensures r.Ok? ==> r.value == DecimalValue(ToString(v).value)
    ensures r.Err? && ToString(v).Ok? ==> r.error == InvalidDecimal(ToString(v).value)
  {
    match ToString(v)
    case Err(e) => Err(e)
    case Ok(s) =>
      DecimalScanIsPattern(s);
      if MatchesDecimal(s) then Ok(DecimalValue(s)) else Err(InvalidDecimal(s))
  }

  /** Between two points of an unsigned decimal candidate there is no room for the digits either side needs. */
  lemma TwoPointsNotUnsigned(t: string, i: nat, j: nat)
    requires i < j < |t| && t[i] == '.' && t[j] == '.'
    ensures !Unsigned(t)
  {
    assert !IsDigit(t[i]);
    forall k | 0 < k < |t| && t[k] == '.' && Digits(t[..k]) ensures !Digits(t[k + 1..]) {
      if i == k {
        assert t[k + 1..][j - k - 1] == t[j];
      } else if i > k {
        assert t[k + 1..][i - k - 1] == t[i];
      }
    }
  }

  /** A string with two points is never a decimal. */
  lemma TwoPointsNotDecimal(s: string, i: nat, j: nat)
    requires i < j < |s| && s[i] == '.' && s[j] == '.'
    ensures !IsDecimal(s)
  {
    TwoPointsNotUnsigned(s, i, j);
    if s[0] == '-' {
      assert s[1..][i - 1] == s[i] && s[1..][j - 1] == s[j];
      TwoPointsNotUnsigned(s[1..], i - 1, j - 1);
    }
  }

  /** The decimal of the caster's tests, with one point, passes. */
  lemma DecimalExampleAccepted(s: Text)
    requires s == "16282929292.192"
    ensures ToDECIMAL(GoString(s)) == Ok(DecimalValue(s))
  {
    assert s[11] == '.' && Digits(s[..11]) && Digits(s[12..]);
  }

  /** The string of the caster's tests with a second point fails. */
  lemma DecimalExampleRejected(s: Text)
    requires s == "16282929292.19191.1092"
    ensures ToDECIMAL(GoString(s)) == Err(InvalidDecimal(s))
  {
    TwoPointsNotDecimal(s, 11, 17);
  }

  /** Every int `toString` renders is a decimal. */
  lemma IntIsDecimal(x: I64)
    ensures ToDECIMAL(GoInt(x)).Ok?
  {
    var t := FormatInt(x);
    var d := GoPath.Itoa(if x < 0 then -(x as int) else x);
    assert AllDigits(d);
    var u := if x < 0 then t[1..] else t;
    assert u == d;
    assert Unsigned(u);
  }

  // ---------------------------------------------------------------- the named casts

  /**
   `ToID`: an `int64` or an `int` becomes an `ID` holding the same number; anything else is
   the type-cast error of `toInt64`.
   */
  function ToID(v: Dyn): (r: Result<Dyn, CastError>)
    ensures r.Ok? <==> v.GoInt64? || v.GoInt?
    ensures v.GoInt64? ==> r.value == Id(v.n64)
    ensures v.GoInt? ==> r.value == Id(v.n)
    ensures r.Err? ==> r.error == TypeCastError
  {
    match ToInt64(v)
    case Ok(k) => Ok(Id(k))
    case Err(e) => Err(e)
  }

  /** `ToBLOB`: a byte slice, or the bytes of a string. */
  function ToBLOB(v: Dyn): (r: Result<Native, CastError>)
    ensures r.Ok? <==> v.GoBytes? || v.GoString?
    ensures v.GoBytes? ==> r.value == BlobValue(v.bytes)
    ensures v.GoString? ==> r.value.BlobValue? && BytesToText(r.value.blob) == v.s
    ensures r.Err? ==> r.error == TypeCastError
  {
    match v
    case GoBytes(bs) => Ok(BlobValue(bs))
    case GoString(s) => Ok(BlobValue(TextToBytes(s)))
    case _ => Err(TypeCastError)
  }

  /**
   The casts named by the schema's type names that this model covers: `INT`, `INT64` and
   `FLOAT` through `toInt64`, `INT32`, `INT16` and `INT8` through their range casts, `BOOL`,
   `STRING`, `DECIMAL`, `NUMERIC` (the `toString` of the value) and `BLOB`; every other name
   fails. The generated `types.TypeCast` is not part of this model; this is the dispatch it
   is assumed to perform for these names.
   */
  function KnownCast(name: string, v: Dyn): (r: Result<Dyn, CastError>)
    ensures r.Ok? ==> r.value.Typed? && r.value.name == name
    ensures name == "INT" ==> (r.Ok? <==> ToInt64(v).Ok?)
    ensures name == "INT8" ==> (r.Ok? <==> ToInt8(v).Ok?)
    ensures name == "BOOL" ==> (r.Ok? <==> ToBool(v).Ok?)
    ensures name == "STRING" ==> (r.Ok? <==> ToString(v).Ok?)
    ensures name == "DECIMAL" ==> (r.Ok? <==> ToDECIMAL(v).Ok?)
  {
    var native: Result<Native, CastError> :=
      if name == "INT" || name == "INT64" || name == "FLOAT" then Lift(ToInt64(v), x => Int64Value(x))
      else if name == "INT32" then Lift(ToInt32(v), x => Int32Value(x))
      else if name == "INT16" then Lift(ToInt16(v), x => Int16Value(x))
      else if name == "INT8" then Lift(ToInt8(v), x => Int8Value(x))
      else if name == "BOOL" then Lift(ToBool(v), b => BoolValue(b))
      else if name == "STRING" then Lift(ToString(v), s => StringValue(s))
      else if name == "DECIMAL" then ToDECIMAL(v)
      else if name == "NUMERIC" then Lift(ToString(v), s => NumericValue(s))
      else if name == "BLOB" then ToBLOB(v)
      else Err(TypeCastError);
    match native
    case Ok(n) => Ok(Typed(name, n))
    case Err(e) => Err(e)
  }

  /** A converter's result wrapped as a native value; its error passed on. */
  function Lift<T>(r: Result<T, CastError>, wrap: T -> Native): (r': Result<Native, CastError>)
    ensures r'.Ok? <==> r.Ok?
    ensures r'.Err? ==> r'.error == r.error
  {
    match r
    case Ok(x) => Ok(wrap(x))
    case Err(e) => Err(e)
  }
}

=== FILE: gopath.dfy ===
/**
 Go's `path.Join` and `path.Clean` on slash-separated paths, which the SSTable path formats
 are built with, and `fmt.Sprintf("%d", n)` for the non-negative numbers in them.

 `Clean` is described by path elements: split on '/', drop empty and "." elements, let ".."
 remove the element before it when that is a name, drop ".." at the root of a rooted path
 and keep it otherwise; put the elements back with '/', a leading '/' for a rooted path and
 "." for an empty result. This is the rule set of Go's `path.Clean`.
 */
module GoPath {

  // ---------------------------------------------------------------- splitting

  /** The elements of a path between its slashes; "/a" splits into "" and "a". */
  function Split(p: string): (r: seq<string>)
    ensures |r| > 0
  {
    if |p| == 0 then [""]
    else if p[0] == '/' then [""] + Split(p[1..])
    else var rest := Split(p[1..]); [[p[0]] + rest[0]] + rest[1..]
  }

  predicate NoSlash(s: string)
  {
    forall i | 0 <= i < |s| :: s[i] != '/'
  }

  /** A name that `Clean` keeps as it is: not empty, no slash, not "." or "..". */
  predicate Plain(n: string)
  {
    |n| > 0 && NoSlash(n) && n != "." && n != ".."
  }

  lemma {:induction false} SplitNoSlash(n: string)
    requires NoSlash(n)
    ensures Split(n) == [n]
    decreases |n|
  {
    if |n| > 0 {
      SplitNoSlash(n[1..]);
      assert [n[0]] + n[1..] == n;
    }
  }

  lemma {:induction false} SplitConcat(a: string, b: string)
    ensures Split(a + "/" + b) == Split(a) + Split(b)
    decreases |a|
  {
    if |a| == 0 {
      assert a + "/" + b == "/" + b;
      assert ("/" + b)[1..] == b;
    } else {
      assert (a + "/" + b)[0] == a[0];
      assert (a + "/" + b)[1..] == a[1..] + "/" + b;
      SplitConcat(a[1..], b);
    }
  }

  // ---------------------------------------------------------------- reducing

  /** Processing one element onto the elements kept so far. */
  function Step(kept: seq<string>, e: string, rooted: bool): seq<string>
  {
    if e == "" || e == "." then kept
    else if e == ".." then
      if |kept| > 0 && kept[|kept| - 1] != ".." then kept[..|kept| - 1]
      else if rooted then kept
      else kept + [".."]
    else kept + [e]
  }

  function Reduce(es: seq<string>, rooted: bool): seq<string>
  {
    if |es| == 0 then [] else Step(Reduce(es[..|es| - 1], rooted), es[|es| - 1], rooted)
  }

  /** The kept elements are never empty or "."; those are always dropped. */
  predicate Kept(es: seq<string>)
  {
    forall i | 0 <= i < |es| :: es[i] != "" && es[i] != "." && NoSlash(es[i])
  }

  lemma {:induction false} SplitElements(p: string)
    ensures forall i | 0 <= i < |Split(p)| :: NoSlash(Split(p)[i])
    decreases |p|
  {
    if |p| > 0 {
      SplitElements(p[1..]);
    }
  }

  lemma {:induction false} ReduceKept(es: seq<string>, rooted: bool)
    requires forall i | 0 <= i < |es| :: NoSlash(es[i])
    ensures Kept(Reduce(es, rooted))
    decreases |es|
  {
    if |es| > 0 {
      ReduceKept(es[..|es| - 1], rooted);
    }
  }

  function Intercalate(es: seq<string>): string
  {
    if |es| == 0 then "" else if |es| == 1 then es[0] else Intercalate(es[..|es| - 1]) + "/" + es[|es| - 1]
  }

  function Render(rooted: bool, es: seq<string>): string
  {
    var s := (if rooted then "/" else "") + Intercalate(es);
    if s == "" then "." else s
  }

  /** `path.Clean`. */
  function Clean(p: string): string
  {
    if p == "" then "." else Render(p[0] == '/', Reduce(Split(p), p[0] == '/'))
  }

  /** The path of the child `n` of the clean path `c`, as `Clean` writes it. */
  function Child(c: string, n: string): string
  {
    if c == "" || c == "." then n else if c == "/" then "/" + n else c + "/" + n
  }

  lemma IntercalateNonEmpty(es: seq<string>)
    requires |es| > 0 && Kept(es)
    ensures |Intercalate(es)| > 0 && Intercalate(es) != "."
  {
    if |es| > 1 {
      assert |Intercalate(es)| >= |es[|es| - 1]| + 1;
    }
  }

  lemma IntercalateNotRoot(es: seq<string>)
    requires |es| > 0 && Kept(es)
    ensures Intercalate(es) != "/"
  {
    if |es| > 1 {
      assert |Intercalate(es)| >= |es[|es| - 1]| + 1;
    } else {
      assert es[0][0] != '/';
    }
  }

  lemma IntercalateSnoc(kept: seq<string>, n: string)
    requires |kept| > 0
    ensures Intercalate(kept + [n]) == Intercalate(kept) + "/" + n
  {
    assert (kept + [n])[..|kept|] == kept;
  }

  lemma RenderBody(rooted: bool, es: seq<string>)
    requires |Intercalate(es)| > 0
    ensures Render(rooted, es) == (if rooted then "/" else "") + Intercalate(es)
  {
  }

  lemma ChildOfBody(rooted: bool, body: string, n: string)
    requires |body| > 0 && body != "." && body != "/"
    ensures Child((if rooted then "/" else "") + body, n) == (if rooted then "/" else "") + (body + "/" + n)
  {
    if rooted {
      var c := "/" + body;
      assert |c| >= 2;
      assert c != "" && c != "." && c != "/";
      assert c + "/" + n == "/" + (body + "/" + n);
    } else {
      assert "" + body == body;
    }
  }

  /** Rendering one more kept name appends it as a child. */
  lemma RenderChild(rooted: bool, kept: seq<string>, n: string)
    requires Kept(kept) && Plain(n)
    ensures Render(rooted, kept + [n]) == Child(Render(rooted, kept), n)
  {
    if |kept| == 0 {
      assert Intercalate([n]) == n;
    } else {
      IntercalateNonEmpty(kept);
      IntercalateNotRoot(kept);
      IntercalateSnoc(kept, n);
      RenderBody(rooted, kept);
      RenderBody(rooted, kept + [n]);
      ChildOfBody(rooted, Intercalate(kept), n);
    }
  }

  /** The elements a path with a plain name appended reduces to. */
  lemma ReduceChild(a: string, n: string, rooted: bool)
    requires Plain(n)
    ensures Reduce(Split(a + "/" + n), rooted) == Reduce(Split(a), rooted) + [n]
  {
    SplitConcat(a, n);
    SplitNoSlash(n);
    var es := Split(a);
    assert (es + [n])[..|es|] == es;
  }

  /** Cleaning a path with one plain name appended appends the name to the cleaned path. */
  lemma CleanChild(a: string, n: string)
    requires a != "" && Plain(n)
    ensures Clean(a + "/" + n) == Child(Clean(a), n)
  {
    var rooted := a[0] == '/';
    assert (a + "/" + n)[0] == a[0];
    ReduceChild(a, n, rooted);
    SplitElements(a);
    ReduceKept(Split(a), rooted);
    RenderChild(rooted, Reduce(Split(a), rooted), n);
  }

  // ---------------------------------------------------------------- joining

  function NonEmpty(elems: seq<string>): (r: seq<string>)
    ensures forall i | 0 <= i < |r| :: r[i] != ""
  {
    if |elems| == 0 then []
    else if elems[|elems| - 1] == "" then NonEmpty(elems[..|elems| - 1])
    else NonEmpty(elems[..|elems| - 1]) + [elems[|elems| - 1]]
  }

  /** `path.Join`: the non-empty elements joined with '/', then cleaned; "" when all are empty. */
  function Join(elems: seq<string>): string
  {
    var ne := NonEmpty(elems);
    if |ne| == 0 then "" else Clean(Intercalate(ne))
  }

  /** Joining one more plain name gives the child of the join of the others. */
  lemma JoinChild(elems: seq<string>, n: string)
    requires Plain(n)
    ensures Join(elems + [n]) == Child(Join(elems), n)
  {
    var ne := NonEmpty(elems);
    NonEmptyAppend(elems, n);
    if |ne| == 0 {
      JoinLone(n);
    } else {
      JoinMore(ne, n);
    }
  }

  lemma NonEmptyAppend(elems: seq<string>, n: string)
    requires n != ""
    ensures NonEmpty(elems + [n]) == NonEmpty(elems) + [n]
  {
    assert (elems + [n])[..|elems|] == elems;
  }

  lemma JoinLone(n: string)
    requires Plain(n)
    ensures Clean(Intercalate([n])) == n
  {
    assert Intercalate([n]) == n;
    SplitNoSlash(n);
    assert Reduce([n], false) == [n] by { assert [n][..0] == []; }
  }

  lemma JoinMore(ne: seq<string>, n: string)
    requires Plain(n) && |ne| > 0 && forall i | 0 <= i < |ne| :: ne[i] != ""
    ensures Clean(Intercalate(ne + [n])) == Child(Clean(Intercalate(ne)), n)
  {
    assert (ne + [n])[..|ne|] == ne;
    assert Intercalate(ne + [n]) == Intercalate(ne) + "/" + n;
    IntercalateOfNonEmpty(ne);
    CleanChild(Intercalate(ne), n);
  }

  lemma IntercalateOfNonEmpty(es: seq<string>)
    requires |es| > 0 && forall i | 0 <= i < |es| :: es[i] != ""
    ensures Intercalate(es) != ""
  {
    if |es| > 1 {
      assert |Intercalate(es)| >= |es[|es| - 1]|;
    }
  }

  // ---------------------------------------------------------------- decimal numbers

  function DigitChar(d: nat): char
    requires d < 10
  {
    "0123456789"[d]
  }

  function DigitValue(c: char): int
  {
    c as int - '0' as int
  }

  /** `fmt.Sprintf("%d", n)` for `n >= 0`. */
  function Itoa(n: nat): (r: string)
    ensures |r| > 0
    ensures forall i | 0 <= i < |r| :: '0' <= r[i] <= '9'
  {
    if n < 10 then [DigitChar(n)] else Itoa(n / 10) + [DigitChar(n % 10)]
  }

  /** The value of a string of decimal digits. */
  function ParseDigits(s: string): int
  {
    if |s| == 0 then 0 else ParseDigits(s[..|s| - 1]) * 10 + DigitValue(s[|s| - 1])
  }

  lemma {:induction false} ParseItoa(n: nat)
    ensures ParseDigits(Itoa(n)) == n
    decreases n
  {
    if n >= 10 {
      ParseItoa(n / 10);
      var s := Itoa(n);
      assert s[..|s| - 1] == Itoa(n / 10);
    }
  }

  lemma ItoaInjective(m: nat, n: nat)
    requires Itoa(m) == Itoa(n)
    ensures m == n
  {
    ParseItoa(m);
    ParseItoa(n);
  }

  lemma ItoaNoSlash(n: nat)
    ensures NoSlash(Itoa(n))
  {
  }

  /** The index of the first '/' of `s`, or `|s|` when there is none. */
  function FirstSlash(s: string): (r: nat)
    ensures r <= |s|
  {
    if |s| == 0 || s[0] == '/' then 0 else 1 + FirstSlash(s[1..])
  }

  lemma {:induction false} FirstSlashAfter(x: string, y: string)
    requires NoSlash(x)
    ensures FirstSlash(x + "/" + y) == |x|
    decreases |x|
  {
    if |x| > 0 {
      assert (x + "/" + y)[1..] == x[1..] + "/" + y;
      FirstSlashAfter(x[1..], y);
    }
  }

  /** Splitting at the first slash: names without a slash are recovered from `x + "/" + y`. */
  lemma SplitAtSlash(x: string, y: string, x': string, y': string)
    requires NoSlash(x) && NoSlash(x')
    requires x + "/" + y == x' + "/" + y'
    ensures x == x' && y == y'
  {
    FirstSlashAfter(x, y);
    FirstSlashAfter(x', y');
    assert x == (x + "/" + y)[..|x|];
    assert x' == (x' + "/" + y')[..|x|];
    assert y == (x + "/" + y)[|x| + 1..];
    assert y' == (x' + "/" + y')[|x| + 1..];
  }
}

=== FILE: keys.dfy ===
/**
 Keys, values and payloads of the key-value engine (parrot/types/types.go).

 Go instantiates the engine with one key type `K` (`IntKey` or `StringKey`) and one
 value type `V` (`*IntValue` or `*StringValue`); here both kinds live in one datatype,
 and `Uniform` states that a collection uses one kind only, which Go's type parameter
 guarantees.
 */
module Keys {

  /** Go `int32`, the type of `IntValue.V`. */
  newtype Int32 = x: int | -0x8000_0000 <= x < 0x8000_0000

  datatype Key = IntKey(k: int) | StringKey(s: string)

  /** A stored value together with its tombstone flag `D`. */
  datatype Value =
    | IntValue(v: Int32, deleted: bool)
    | StringValue(s: string, deleted: bool)

  datatype Payload = Payload(key: Key, val: Value)

  /** Go's `<` on strings: lexicographic order on characters. */
  predicate LexLess(a: string, b: string)
    decreases |a|
  {
    if |a| == 0 then |b| > 0
    else if |b| == 0 then false
    else if a[0] != b[0] then a[0] < b[0]
    else LexLess(a[1..], b[1..])
  }

  /** `Key.Less`: a key of the other dynamic type is never less. */
  predicate Less(a: Key, b: Key)
  {
    match (a, b)
    case (IntKey(x), IntKey(y)) => x < y
    case (StringKey(x), StringKey(y)) => LexLess(x, y)
    case _ => false
  }

  predicate SameKind(a: Key, b: Key)
  {
    a.IntKey? == b.IntKey?
  }

  /** Every key of `ks` has the same dynamic type. */
  predicate Uniform(ks: set<Key>)
  {
    (forall k | k in ks :: k.IntKey?) || (forall k | k in ks :: k.StringKey?)
  }

  function KeysOf(ps: seq<Payload>): set<Key>
  {
    set i | 0 <= i < |ps| :: ps[i].key
  }

  /** Non-decreasing by `Less`: no later key is less than an earlier one. */
  predicate Sorted(ps: seq<Payload>)
  {
    forall i, j | 0 <= i < j < |ps| :: !Less(ps[j].key, ps[i].key)
  }

  /** Strictly increasing by `Less`. */
  predicate StrictlySorted(ps: seq<Payload>)
  {
    forall i, j | 0 <= i < j < |ps| :: Less(ps[i].key, ps[j].key)
  }

  /** The declarative lexicographic order: a common prefix, then a smaller character or the end of `a`. */
  ghost predicate LexOrder(a: string, b: string)
  {
    exists k | 0 <= k <= |a| && k <= |b| ::
      a[..k] == b[..k] && (if k == |a| then k < |b| else k < |b| && a[k] < b[k])
  }

  // ---------------------------------------------------------------- ordering

  lemma {:induction false} LexLessIrreflexive(a: string)
    ensures !LexLess(a, a)
    decreases |a|
  {
    if |a| > 0 {
      LexLessIrreflexive(a[1..]);
    }
  }

  lemma {:induction false} LexLessTransitive(a: string, b: string, c: string)
    requires LexLess(a, b) && LexLess(b, c)
    ensures LexLess(a, c)
    decreases |a|
  {
    if |a| > 0 && a[0] == b[0] && b[0] == c[0] {
      LexLessTransitive(a[1..], b[1..], c[1..]);
    }
  }

  lemma {:induction false} LexLessTotal(a: string, b: string)
    ensures a == b || LexLess(a, b) || LexLess(b, a)
    decreases |a|
  {
    if |a| > 0 && |b| > 0 && a[0] == b[0] {
      LexLessTotal(a[1..], b[1..]);
      if a[1..] == b[1..] {
        assert a == [a[0]] + a[1..] && b == [b[0]] + b[1..];
      }
    }
  }

  /** `StringKey.Less` is the lexicographic order of Go strings, in both directions. */
  lemma {:induction false} LexLessIsLexOrder(a: string, b: string)
    ensures LexLess(a, b) <==> LexOrder(a, b)
    decreases |a|
  {
    if |a| == 0 {
      if |b| > 0 { assert a[..0] == b[..0]; }
    } else if |b| == 0 {
    } else if a[0] != b[0] {
      if a[0] < b[0] { assert a[..0] == b[..0]; }
      if LexOrder(a, b) {
        var k :| 0 <= k <= |a| && k <= |b| && a[..k] == b[..k] &&
          (if k == |a| then k < |b| else k < |b| && a[k] < b[k]);
      }
    } else {
      LexLessIsLexOrder(a[1..], b[1..]);
      if LexOrder(a[1..], b[1..]) { LexOrderUp(a, b); }
      if LexOrder(a, b) { LexOrderDown(a, b); }
    }
  }

  /** A common first character extends a lexicographic witness of the tails. */
  lemma LexOrderUp(a: string, b: string)
    requires |a| > 0 && |b| > 0 && a[0] == b[0] && LexOrder(a[1..], b[1..])
    ensures LexOrder(a, b)
  {
    var a', b' := a[1..], b[1..];
    var k :| 0 <= k <= |a'| && k <= |b'| && a'[..k] == b'[..k] &&
      (if k == |a'| then k < |b'| else k < |b'| && a'[k] < b'[k]);
    assert a[..k + 1] == b[..k + 1] by {
      forall i | 0 <= i < k + 1 ensures a[i] == b[i] {
        if i > 0 { assert a[i] == a'[..k][i - 1] && b[i] == b'[..k][i - 1]; }
      }
    }
    assert k + 1 < |a| ==> a[k + 1] == a'[k] && b[k + 1] == b'[k];
  }

  /** A lexicographic witness of two strings with a common first character, less one, is one of the tails. */
  lemma LexOrderDown(a: string, b: string)
    requires |a| > 0 && |b| > 0 && a[0] == b[0] && LexOrder(a, b)
    ensures LexOrder(a[1..], b[1..])
  {
    var k :| 0 <= k <= |a| && k <= |b| && a[..k] == b[..k] &&
      (if k == |a| then k < |b| else k < |b| && a[k] < b[k]);
    assert k > 0;
    assert a[1..][..k - 1] == a[..k][1..] && b[1..][..k - 1] == b[..k][1..];
    assert k < |a| ==> a[1..][k - 1] == a[k] && b[1..][k - 1] == b[k];
  }

  /** `Less` is irreflexive. */
  lemma LessIrreflexive(a: Key)
    ensures !Less(a, a)
  {
    if a.StringKey? { LexLessIrreflexive(a.s); }
  }

  /** `Less` is transitive. */
  lemma LessTransitive(a: Key, b: Key, c: Key)
    requires Less(a, b) && Less(b, c)
    ensures Less(a, c)
  {
    if a.StringKey? { LexLessTransitive(a.s, b.s, c.s); }
  }

  /** For two distinct keys of the same kind exactly one direction of `Less` holds. */
  lemma LessTrichotomous(a: Key, b: Key)
    requires SameKind(a, b)
    ensures a != b ==> (Less(a, b) <==> !Less(b, a))
    ensures a == b ==> !Less(a, b)
  {
    LessIrreflexive(a);
    if a.StringKey? {
      LexLessTotal(a.s, b.s);
      if LexLess(a.s, b.s) && LexLess(b.s, a.s) {
        LexLessTransitive(a.s, b.s, a.s);
      }
    }
  }

  /** Keys of different dynamic types are incomparable. */
  lemma LessAcrossKinds(a: Key, b: Key)
    requires !SameKind(a, b)
    ensures !Less(a, b) && !Less(b, a)
  {
  }

  /** `!Less(b, a)` is a total preorder on keys of one kind: transitive through `Less`. */
  lemma NotLessTransitive(a: Key, b: Key, c: Key)
    requires SameKind(a, b) && SameKind(b, c)
    requires !Less(b, a) && !Less(c, b)
    ensures !Less(c, a)
  {
    LessTrichotomous(a, b);
    LessTrichotomous(b, c);
    if Less(c, a) {
      if a != b { LessTransitive(c, a, b); LessTrichotomous(c, b); }
      else { LessIrreflexive(a); }
    }
  }

  // ---------------------------------------------------------------- values

  function IsDeleted(v: Value): bool
  {
    v.deleted
  }

  /** The number of bytes UTF-8 (RFC 3629, section 3) spends on one character. */
  function Utf8Width(c: char): nat
  {
    if c as int < 0x80 then 1
    else if c as int < 0x800 then 2
    else if c as int < 0x1_0000 then 3
    else 4
  }

  /** Go's `len` of a string: the length of its UTF-8 encoding in bytes. */
  function Utf8Len(s: string): nat
    decreases |s|
  {
    if |s| == 0 then 0 else Utf8Width(s[0]) + Utf8Len(s[1..])
  }

  /**
   `SizeOf`: the width the memtable budget charges for a value, 4 for an `IntValue` and
   `len(V)`, the UTF-8 byte count, for a `StringValue`.
   */
  function SizeOf(v: Value): nat
  {
    match v
    case IntValue(_, _) => 4
    case StringValue(s, _) => Utf8Len(s)
  }

  /** A string takes between one and four bytes per character. */
  lemma {:induction false} Utf8LenBounds(s: string)
    ensures |s| <= Utf8Len(s) <= 4 * |s|
    decreases |s|
  {
    if |s| > 0 {
      Utf8LenBounds(s[1..]);
    }
  }

  /** The byte count equals the character count exactly when every character is ASCII. */
  lemma {:induction false} Utf8LenAscii(s: string)
    ensures Utf8Len(s) == |s| <==> forall i | 0 <= i < |s| :: s[i] as int < 0x80
    decreases |s|
  {
    if |s| > 0 {
      Utf8LenAscii(s[1..]);
      Utf8LenBounds(s[1..]);
      if forall i | 0 <= i < |s| :: s[i] as int < 0x80 {
        forall i | 0 <= i < |s| - 1 ensures s[1..][i] as int < 0x80 {
          assert s[1..][i] == s[i + 1];
        }
      } else if s[0] as int < 0x80 {
        var j :| 0 <= j < |s| && s[j] as int >= 0x80;
        assert s[1..][j - 1] == s[j];
      }
    }
  }

  /** The byte count of a concatenation is the sum of the byte counts. */
  lemma {:induction false} Utf8LenConcat(s: string, t: string)
    ensures Utf8Len(s + t) == Utf8Len(s) + Utf8Len(t)
    decreases |s|
  {
    if |s| > 0 {
      assert (s + t)[0] == s[0] && (s + t)[1..] == s[1..] + t;
      Utf8LenConcat(s[1..], t);
    } else {
      assert s + t == t;
    }
  }

  /** `MarkDeleted` turns a value into a tombstone that keeps its contents and size. */
  function MarkDeleted(v: Value): (r: Value)
    ensures IsDeleted(r)
    ensures r.IntValue? == v.IntValue?
    ensures r.IntValue? ==> r.v == v.v
    ensures r.StringValue? ==> r.s == v.s
    ensures SizeOf(r) == SizeOf(v)
  {
    match v
    case IntValue(x, _) => IntValue(x, true)
    case StringValue(s, _) => StringValue(s, true)
  }

  /** A freshly constructed value (`&IntValue{V: x}`, `&StringValue{V: s}`) is live. */
  lemma FreshValueIsLive(x: Int32, s: string)
    ensures !IsDeleted(IntValue(x, false)) && !IsDeleted(StringValue(s, false))
    ensures SizeOf(IntValue(x, false)) == 4 && SizeOf(StringValue(s, false)) == Utf8Len(s)
    ensures |s| <= SizeOf(StringValue(s, false)) <= 4 * |s|
  {
    Utf8LenBounds(s);
  }

  /** `len("é")` is 2 in Go: one character, two bytes. */
  lemma SizeOfCountsBytes()
    ensures SizeOf(StringValue("\U{E9}", false)) == 2 && SizeOf(StringValue("e", false)) == 1
  {
  }
}

=== FILE: levels.dfy ===
/**
 The level structure of the LSM tree as the store and the compactor use it: a sequence of
 levels, each a map from table id to the SSTable record of parrot/metadata/sst.go.
 parrot/metadata/lsm.go is not part of this model; the behaviour of its level operations
 (`GetLevel`, `AppendLevel`, `GetNextId`, `SetSSTable`, `Clear`, `SizeInBytes`) is stated
 here as an assumption and listed in README.
 */
module Levels {
  import opened Wrappers

  /** `SSTable`: the two file paths of one table and its size in bytes. */
  datatype SSTable = SSTable(dbPath: string, indexPath: string, sizeInBytes: int)

  /** One level: its tables by id and the id the next new table receives. */
  datatype Level = Level(tables: map<nat, SSTable>, nextId: nat)

  datatype Lsm = Lsm(levels: seq<Level>)

  const EmptyLevel: Level := Level(map[], 0)

  /** `LSM.GetLevel`: the level at position `l`, absent past the last one. */
  function GetLevel(lsm: Lsm, l: nat): (r: Option<Level>)
    ensures r.Some? <==> l < |lsm.levels|
    ensures r.Some? ==> r.value == lsm.levels[l]
  {
    if l < |lsm.levels| then Some(lsm.levels[l]) else None
  }

  // ---------------------------------------------------------------- table ids in order

  /** A finite non-empty set of naturals has a largest element. */
  lemma {:induction false} MaxExists(s: set<nat>)
    requires s != {}
    ensures exists m :: m in s && forall y | y in s :: y <= m
    decreases |s|
  {
    var x :| x in s;
    if s - {x} != {} {
      MaxExists(s - {x});
      var m :| m in s - {x} && forall y | y in s - {x} :: y <= m;
      var top := if m < x then x else m;
      forall y | y in s ensures y <= top {
        if y != x { assert y in s - {x}; }
      }
    } else {
      assert s == {x};
    }
  }

  /** A number above every element of `s`. */
  function Bound(s: set<nat>): (b: nat)
    ensures forall x | x in s :: x < b
  {
    if s == {} then 0
    else
      MaxExists(s);
      var m :| m in s && forall y | y in s :: y <= m;
      m + 1
  }

  /** The elements of `s` below `n`, largest first. */
  function DescendingBelow(s: set<nat>, n: nat): (r: seq<nat>)
    ensures forall i | 0 <= i < |r| :: r[i] in s && r[i] < n
    ensures forall x | x in s && x < n :: x in r
    ensures forall i, j | 0 <= i < j < |r| :: r[i] > r[j]
  {
    if n == 0 then []
    else (if n - 1 in s then [n - 1] else []) + DescendingBelow(s, n - 1)
  }

  /** The elements of `s` below `n`, smallest first. */
  function AscendingBelow(s: set<nat>, n: nat): (r: seq<nat>)
    ensures forall i | 0 <= i < |r| :: r[i] in s && r[i] < n
    ensures forall x | x in s && x < n :: x in r
    ensures forall i, j | 0 <= i < j < |r| :: r[i] < r[j]
  {
    if n == 0 then []
    else AscendingBelow(s, n - 1) + (if n - 1 in s then [n - 1] else [])
  }

  /**
   The table ids of a level sorted largest first, as the store's read path sorts them
   (parrot/memtable/memtable.go, `sort.Slice` with `sortedKeys[i] > sortedKeys[j]`).
   */
  function Descending(s: set<nat>): (r: seq<nat>)
    ensures forall x :: x in r <==> x in s
    ensures forall i, j | 0 <= i < j < |r| :: r[i] > r[j]
  {
    DescendingBelow(s, Bound(s))
  }

  /** The table ids of a level smallest first: the order this model gives Go's map iteration. */
  function Ascending(s: set<nat>): (r: seq<nat>)
    ensures forall x :: x in r <==> x in s
    ensures forall i, j | 0 <= i < j < |r| :: r[i] < r[j]
  {
    AscendingBelow(s, Bound(s))
  }

  // ---------------------------------------------------------------- sizes

  /** The summed sizes of the listed tables (Go adds them up in `int`; overflow is not modelled). */
  function SizeOfTables(tables: map<nat, SSTable>, ids: seq<nat>): int
    requires forall i | 0 <= i < |ids| :: ids[i] in tables
  {
    if |ids| == 0 then 0
    else SizeOfTables(tables, ids[..|ids| - 1]) + tables[ids[|ids| - 1]].sizeInBytes
  }

  /** `Level.SizeInBytes`: assumed to be the summed size of the level's tables. */
  function SizeInBytes(level: Level): int
  {
    SizeOfTables(level.tables, Ascending(level.tables.Keys))
  }

  // ---------------------------------------------------------------- level updates

  /** `Level.GetNextId`: hands out `nextId` and moves it on. */
  function GetNextId(level: Level): (r: (nat, Level))
    ensures r.0 == level.nextId && r.1.tables == level.tables && r.1.nextId > r.0
  {
    (level.nextId, level.(nextId := level.nextId + 1))
  }

  /** `Level.SetSSTable`: records a table under an id. */
  function SetSSTable(level: Level, id: nat, t: SSTable): (r: Level)
    ensures r.tables == level.tables[id := t] && r.nextId == level.nextId
  {
    level.(tables := level.tables[id := t])
  }

  /** `Level.Clear`: drops the listed table ids. */
  function Clear(level: Level, ids: seq<nat>): (r: Level)
    ensures r.tables.Keys == level.tables.Keys - set i | 0 <= i < |ids| :: ids[i]
    ensures forall id | id in r.tables :: r.tables[id] == level.tables[id]
    ensures r.nextId == level.nextId
  {
    level.(tables := map id | id in level.tables && id !in ids :: level.tables[id])
  }
}

=== FILE: manifest.dfy ===
/**
 The SSTable file naming of the manifest (parrot/metadata/manifest.go): every level has a
 directory `<dir>/<lsm name>/level-<l>` and every table `<id>` in it a data file
 `sst-<id>.db` and an index file `sst-<id>.index`, all built with Go's `path.Join`.
 Loading and syncing the manifest JSON is I/O and is not modelled.
 */
module Manifest {
  import opened GoPath

  /** The manifest's directory option and the name of its LSM. */
  datatype Manifest = Manifest(dir: string, name: string)

  function LevelName(l: nat): string
  {
    "level-" + Itoa(l)
  }

  function DbName(i: nat): string
  {
    "sst-" + Itoa(i) + ".db"
  }

  function IndexName(i: nat): string
  {
    "sst-" + Itoa(i) + ".index"
  }

  /** `Manifest.FormatLevelPath`: "" for a negative level. */
  function FormatLevelPath(m: Manifest, l: int): string
  {
    if l < 0 then "" else Join([m.dir, m.name, LevelName(l)])
  }

  /** `Manifest.FormatDBPath`: "" when the level or the id is negative. */
  function FormatDBPath(m: Manifest, l: int, i: int): string
  {
    if l < 0 || i < 0 then "" else Join([m.dir, m.name, LevelName(l), DbName(i)])
  }

  /** `Manifest.FormatIndexPath`: "" when the level or the id is negative. */
  function FormatIndexPath(m: Manifest, l: int, i: int): string
  {
    if l < 0 || i < 0 then "" else Join([m.dir, m.name, LevelName(l), IndexName(i)])
  }

  /** What precedes a child name in `Child(c, n)`. */
  function ChildPrefix(c: string): string
  {
    if c == "" || c == "." then "" else if c == "/" then "/" else c + "/"
  }

  lemma ChildIsPrefixed(c: string, n: string)
    ensures Child(c, n) == ChildPrefix(c) + n
  {
  }

  lemma NamesArePlain(l: nat, i: nat)
    ensures Plain(LevelName(l)) && Plain(DbName(i)) && Plain(IndexName(i))
  {
    ItoaNoSlash(l);
    ItoaNoSlash(i);
    assert NoSlash("level-");
    assert NoSlash("sst-");
    assert NoSlash(".db");
    assert NoSlash(".index");
    NoSlashConcat("level-", Itoa(l));
    NoSlashConcat("sst-", Itoa(i));
    NoSlashConcat("sst-" + Itoa(i), ".db");
    NoSlashConcat("sst-" + Itoa(i), ".index");
  }

  lemma NoSlashConcat(a: string, b: string)
    requires NoSlash(a) && NoSlash(b)
    ensures NoSlash(a + b)
  {
    forall i | 0 <= i < |a + b| ensures (a + b)[i] != '/' {
      if i < |a| { assert (a + b)[i] == a[i]; } else { assert (a + b)[i] == b[i - |a|]; }
    }
  }

  /**
   The shape of the paths: the level directory is the level's name under `<dir>/<name>`, and
   a table's data and index files are its two names inside the level directory.
   */
  lemma PathShape(m: Manifest, l: nat, i: nat)
    ensures FormatLevelPath(m, l) == ChildPrefix(Join([m.dir, m.name])) + LevelName(l)
    ensures FormatDBPath(m, l, i) == FormatLevelPath(m, l) + "/" + DbName(i)
    ensures FormatIndexPath(m, l, i) == FormatLevelPath(m, l) + "/" + IndexName(i)
  {
    NamesArePlain(l, i);
    JoinChild([m.dir, m.name], LevelName(l));
    assert [m.dir, m.name] + [LevelName(l)] == [m.dir, m.name, LevelName(l)];
    JoinChild([m.dir, m.name, LevelName(l)], DbName(i));
    assert [m.dir, m.name, LevelName(l)] + [DbName(i)] == [m.dir, m.name, LevelName(l), DbName(i)];
    JoinChild([m.dir, m.name, LevelName(l)], IndexName(i));
    assert [m.dir, m.name, LevelName(l)] + [IndexName(i)] == [m.dir, m.name, LevelName(l), IndexName(i)];
    var lp := FormatLevelPath(m, l);
    assert |lp| >= |LevelName(l)| >= 7;
  }

  /** A negative level or id gives the empty path. */
  lemma NegativeGivesEmpty(m: Manifest, l: int, i: int)
    requires l < 0 || i < 0
    ensures FormatDBPath(m, l, i) == "" && FormatIndexPath(m, l, i) == ""
    ensures l < 0 ==> FormatLevelPath(m, l) == ""
  {
  }

  /** The paths of table `i` of level `l` cut into the parts that vary and those that do not. */
  lemma PathParts(m: Manifest, l: nat, i: nat)
    ensures var pre := ChildPrefix(Join([m.dir, m.name])) + "level-";
      && FormatDBPath(m, l, i) == pre + (Itoa(l) + "/" + ("sst-" + Itoa(i) + ".db"))
      && FormatIndexPath(m, l, i) == pre + (Itoa(l) + "/" + ("sst-" + Itoa(i) + ".index"))
  {
    PathShape(m, l, i);
    var c := ChildPrefix(Join([m.dir, m.name]));
    Reassociate(c, Itoa(l), DbName(i));
    Reassociate(c, Itoa(l), IndexName(i));
  }

  lemma Reassociate(c: string, x: string, n: string)
    ensures (c + ("level-" + x)) + "/" + n == (c + "level-") + (x + "/" + n)
  {
  }

  /** Distinct (level, id) pairs never share a data file, nor an index file. */
  lemma PathsInjective(m: Manifest, l1: nat, i1: nat, l2: nat, i2: nat)
    requires FormatDBPath(m, l1, i1) == FormatDBPath(m, l2, i2) || FormatIndexPath(m, l1, i1) == FormatIndexPath(m, l2, i2)
    ensures l1 == l2 && i1 == i2
  {
    PathParts(m, l1, i1);
    PathParts(m, l2, i2);
    var pre := ChildPrefix(Join([m.dir, m.name])) + "level-";
    var ext := if FormatDBPath(m, l1, i1) == FormatDBPath(m, l2, i2) then ".db" else ".index";
    var t1 := "sst-" + Itoa(i1) + ext;
    var t2 := "sst-" + Itoa(i2) + ext;
    StripPrefix(pre, Itoa(l1) + "/" + t1, Itoa(l2) + "/" + t2);
    ItoaNoSlash(l1);
    ItoaNoSlash(l2);
    SplitAtSlash(Itoa(l1), t1, Itoa(l2), t2);
    ItoaInjective(l1, l2);
    IdFromName(i1, ext);
    IdFromName(i2, ext);
    ItoaInjective(i1, i2);
  }

  lemma StripPrefix(pre: string, x: string, y: string)
    requires pre + x == pre + y
    ensures x == y
  {
    assert x == (pre + x)[|pre|..];
    assert y == (pre + y)[|pre|..];
  }

  lemma IdFromName(i: nat, ext: string)
    ensures var t := "sst-" + Itoa(i) + ext; |t| >= 4 + |ext| && Itoa(i) == t[4..|t| - |ext|]
  {
  }

  /** A data file path is never an index file path. */
  lemma DbPathIsNotIndexPath(m: Manifest, l1: nat, i1: nat, l2: nat, i2: nat)
    ensures FormatDBPath(m, l1, i1) != FormatIndexPath(m, l2, i2)
  {
    PathShape(m, l1, i1);
    PathShape(m, l2, i2);
    var d := FormatDBPath(m, l1, i1);
    var x := FormatIndexPath(m, l2, i2);
    assert d[|d| - 1] == 'b';
    assert x[|x| - 1] == 'x';
  }
}

=== FILE: memstore.dfy ===
/**
 The memtable store (parrot/memtable/memtable.go, `MemtableStore`): a queue of memtables,
 oldest first, whose last element is the active one that takes writes, over the SSTable
 levels of the LSM tree. The flusher that turns full memtables into level-0 tables runs in
 the background and is not part of this model; the store's reads see whatever levels and
 files it is given.
 */
module MemStore {
  import opened Keys
  import opened Wrappers
  import MT = Memtable
  import opened Levels
  import opened SstCache

  datatype Store = Store(mems: seq<MT.Memtable>, lsm: Lsm, cache: CacheManager, fs: FileSystem, opts: MT.MemtableOpts)

  /** The queue always holds the active memtable, and every memtable uses the store's options. */
  predicate Valid(s: Store)
  {
    |s.mems| > 0 && forall i | 0 <= i < |s.mems| :: s.mems[i].opts == s.opts
  }

  function Active(s: Store): MT.Memtable
    requires Valid(s)
  {
    s.mems[|s.mems| - 1]
  }

  /** The memtables before the active one. */
  function Older(s: Store): seq<MT.Memtable>
    requires Valid(s)
  {
    s.mems[..|s.mems| - 1]
  }

  /** `NewMemtableStore` before its WAL recovery: one empty active memtable. */
  function NewStore(opts: MT.MemtableOpts, lsm: Lsm, fs: FileSystem): (s: Store)
    ensures Valid(s) && |s.mems| == 1 && Active(s).data == map[]
  {
    Store([MT.NewMemtable(opts)], lsm, CacheManager(map[]), fs, opts)
  }

  // ---------------------------------------------------------------- writes

  /**
   `MemtableStore.Write`: the active memtable takes the pair unless it is over its soft
   limit; then a fresh memtable is pushed, is offered the pair (its own verdict is ignored)
   and becomes active, and the result is true.
   */
  function Write(s: Store, key: Key, value: Value): (r: (Store, bool))
    requires Valid(s)
    ensures Valid(r.0)
    ensures r.1 <==> MT.Overflows(|Active(s).data|, SizeOf(value), s.opts.softLimit)
    ensures !r.1 ==> |r.0.mems| == |s.mems| && Older(r.0) == Older(s)
                     && Active(r.0).data == Active(s).data[key := value]
    ensures r.1 ==> |r.0.mems| == |s.mems| + 1 && r.0.mems[..|s.mems| - 1] == Older(s)
                    && r.0.mems[|s.mems| - 1].data == Active(s).data
                    && Active(r.0).data == (if MT.Overflows(0, SizeOf(value), s.opts.softLimit) then map[] else map[key := value])
    ensures r.0.lsm == s.lsm && r.0.cache == s.cache && r.0.fs == s.fs && r.0.opts == s.opts
  {
    var (m, ok) := MT.Write(Active(s), key, value);
    if ok then
      (s.(mems := Older(s) + [m]), false)
    else
      var newer := MT.Write(MT.NewMemtable(s.opts), key, value).0;
      (s.(mems := Older(s) + [m, newer]), true)
  }

  /**
   `MemtableStore.Delete`: the active memtable records the tombstone, and logs the delete
   as the mode says; the result is always nil.
   */
  function Delete(s: Store, key: Key, tombstone: Value, mode: Mode): (r: Store)
    requires Valid(s)
    ensures Valid(r) && |r.mems| == |s.mems| && Older(r) == Older(s)
    ensures Active(r).data.Keys == Active(s).data.Keys + {key} && IsDeleted(Active(r).data[key])
    ensures forall k | k in Active(s).data && k != key :: Active(r).data[k] == Active(s).data[k]
    ensures r.lsm == s.lsm && r.cache == s.cache && r.fs == s.fs && r.opts == s.opts
    ensures Active(r).log == MT.Delete(Active(s), key, tombstone, mode).log
  {
    s.(mems := Older(s) + [MT.Delete(Active(s), key, tombstone, mode)])
  }

  // ---------------------------------------------------------------- reads

  /**
   What a store read answers: the value (nil as `None`) and whether it counts as found, or
   a Go runtime panic in a table lookup, which ends the read (nothing in the read path
   recovers it).
   */
  datatype Answer = Answer(value: Option<Value>, ok: bool) | ReadPanic

  const Absent: Answer := Answer(None, false)

  /** The answer a memtable holding `v` under the key gives. */
  function Settle(v: Value): Answer
  {
    if IsDeleted(v) then Absent else Answer(Some(v), true)
  }

  /** The memtable that last holds `key`, scanning from the newest. */
  predicate NewestHolder(mems: seq<MT.Memtable>, key: Key, i: int)
  {
    0 <= i < |mems| && key in mems[i].data && forall j | i < j < |mems| :: key !in mems[j].data
  }

  /**
   The memtable part of `MemtableStore.Read`: from the newest memtable back, the first one
   that holds the key decides: a live value is found, a tombstone is not found.
   */
  function ReadMems(mems: seq<MT.Memtable>, key: Key): (r: Option<Answer>)
    ensures r.None? <==> forall i | 0 <= i < |mems| :: key !in mems[i].data
    ensures r.Some? ==> r.value.Answer?
    ensures r.Some? && r.value.ok ==> r.value.value.Some? && !IsDeleted(r.value.value.value)
  {
    if |mems| == 0 then None
    else
      var last := mems[|mems| - 1];
      match MT.Read(last, key)
      case (v, KeyFound) => Some(Answer(v, true))
      case (_, KeyDeleted) => Some(Absent)
      case (_, KeyNotFound) => ReadMems(mems[..|mems| - 1], key)
  }

  /*
   The read mode decides two things in the SSTable part of a read. The table lookup uses the
   binary search as written, which panics on a key above a table's last key and on any key
   of an empty table, or the corrected one. And a lookup that failed for any reason other
   than not-found, deleted or a panic is, as written, a zero payload compared with the key,
   so a read of the zero key counts it as found with a nil value; corrected, the table is
   skipped like a miss. A panic ends the read in both modes.
   */

  /** The zero value of the key's type: `IntKey{0}` or `StringKey{""}`. */
  function ZeroLike(key: Key): Key
  {
    if key.IntKey? then IntKey(0) else StringKey("")
  }

  /** The verdict of one table lookup; `None` moves on to the next table. */
  function TableVerdict(look: Lookup, key: Key, mode: Mode): (r: Option<Answer>)
  {
    match look
    case Failed(Panic) => Some(ReadPanic)
    case NotFound => None
    case Deleted(p) => Some(Answer(Some(p.val), false))
    case Found(p) => if p.key == key then Some(Answer(Some(p.val), true)) else None
    case Failed(_) => if mode == AsWritten && key == ZeroLike(key) then Some(Answer(None, true)) else None
  }

  /** One level's tables, in the listed id order, through the decoder cache. */
  function ReadTables(level: Level, ids: seq<nat>, cache: CacheManager, fs: FileSystem, key: Key, mode: Mode): (r: (CacheManager, Option<Answer>))
    requires forall i | 0 <= i < |ids| :: ids[i] in level.tables
    ensures Extends(cache, r.0)
    ensures r.1.Some? && r.1.value.Answer? && r.1.value.ok && r.1.value.value.Some? ==> !IsDeleted(r.1.value.value.value)
    ensures mode == Corrected && r.1.Some? && r.1.value.Answer? && r.1.value.ok ==> r.1.value.value.Some?
  {
    if |ids| == 0 then (cache, None)
    else
      var t := level.tables[ids[0]];
      var (c, look) := Get(cache, fs, t.dbPath, t.indexPath, key, mode);
      match TableVerdict(look, key, mode)
      case Some(a) => (c, Some(a))
      case None => ReadTables(level, ids[1..], c, fs, key, mode)
  }

  /** Levels `l`, `l + 1`, … in turn, each with its highest table id first. */
  function ReadLevels(lsm: Lsm, l: nat, cache: CacheManager, fs: FileSystem, key: Key, mode: Mode): (r: (CacheManager, Option<Answer>))
    ensures Extends(cache, r.0)
    ensures r.1.Some? && r.1.value.Answer? && r.1.value.ok && r.1.value.value.Some? ==> !IsDeleted(r.1.value.value.value)
    ensures mode == Corrected && r.1.Some? && r.1.value.Answer? && r.1.value.ok ==> r.1.value.value.Some?
    decreases |lsm.levels| - l
  {
    match GetLevel(lsm, l)
    case None => (cache, None)
    case Some(level) =>
      var (c, a) := ReadTables(level, Descending(level.tables.Keys), cache, fs, key, mode);
      if a.Some? then (c, a) else ReadLevels(lsm, l + 1, c, fs, key, mode)
  }

  /**
   `MemtableStore.Read`: the memtables newest first, then the SSTable levels; a key found
   nowhere is not found, and a panicking table lookup ends the read. Only the decoder cache
   of the store changes.
   */
  function ReadIn(s: Store, key: Key, mode: Mode): (r: (Store, Answer))
    ensures r.0.mems == s.mems && r.0.lsm == s.lsm && r.0.fs == s.fs && r.0.opts == s.opts
    ensures Extends(s.cache, r.0.cache)
    ensures ReadMems(s.mems, key).Some? ==> r == (s, ReadMems(s.mems, key).value)
    ensures r.1.Answer? && r.1.ok && r.1.value.Some? ==> !IsDeleted(r.1.value.value)
    ensures mode == Corrected && r.1.Answer? && r.1.ok ==> r.1.value.Some?
  {
    match ReadMems(s.mems, key)
    case Some(a) => (s, a)
    case None =>
      var (c, a) := ReadLevels(s.lsm, 0, s.cache, s.fs, key, mode);
      (s.(cache := c), if a.Some? then a.value else Absent)
  }

  function Read(s: Store, key: Key): (Store, Answer)
  {
    ReadIn(s, key, Corrected)
  }

  function ReadAsWritten(s: Store, key: Key): (Store, Answer)
  {
    ReadIn(s, key, AsWritten)
  }

  // ---------------------------------------------------------------- properties

  /** Shadowing: the newest memtable that holds the key decides the memtable part of a read. */
  lemma {:induction false} ReadMemsNewest(mems: seq<MT.Memtable>, key: Key, i: int)
    requires NewestHolder(mems, key, i)
    ensures ReadMems(mems, key) == Some(Settle(mems[i].data[key]))
    decreases |mems|
  {
    if i < |mems| - 1 {
      var init := mems[..|mems| - 1];
      assert NewestHolder(init, key, i);
      ReadMemsNewest(init, key, i);
    }
  }

  /** Two queues whose memtables agree on the key read it alike: logs and other keys do not matter. */
  lemma {:induction false} ReadMemsByKey(a: seq<MT.Memtable>, b: seq<MT.Memtable>, key: Key)
    requires |a| == |b|
    requires forall i | 0 <= i < |a| :: (key in a[i].data <==> key in b[i].data)
    requires forall i | 0 <= i < |a| && key in a[i].data :: a[i].data[key] == b[i].data[key]
    ensures ReadMems(a, key) == ReadMems(b, key)
    decreases |a|
  {
    if |a| > 0 {
      ReadMemsByKey(a[..|a| - 1], b[..|b| - 1], key);
    }
  }

  /** A memtable that does not hold the key is transparent to a read of it. */
  lemma ReadMemsSkips(ms: seq<MT.Memtable>, m: MT.Memtable, key: Key)
    requires key !in m.data
    ensures ReadMems(ms + [m], key) == ReadMems(ms, key)
  {
    assert (ms + [m])[..|ms|] == ms;
  }

  /**
   Write then read: once the pair has been taken, by the active memtable or by the fresh
   one a rollover pushes, a read of the key returns the value (or not-found for a value
   already marked deleted), whatever the levels hold.
   */
  lemma WriteThenRead(s: Store, key: Key, value: Value, mode: Mode)
    requires Valid(s)
    requires !MT.Overflows(|Active(s).data|, SizeOf(value), s.opts.softLimit) || !MT.Overflows(0, SizeOf(value), s.opts.softLimit)
    ensures ReadIn(Write(s, key, value).0, key, mode).1 == Settle(value)
  {
    var s' := Write(s, key, value).0;
    ReadMemsNewest(s'.mems, key, |s'.mems| - 1);
  }

  /**
   A value too wide even for a fresh memtable is dropped: the write rolls the store over but
   no memtable takes the pair, so every read answers as before.
   */
  lemma OversizedValueIsDropped(s: Store, key: Key, value: Value, k: Key, mode: Mode)
    requires Valid(s)
    requires MT.Overflows(|Active(s).data|, SizeOf(value), s.opts.softLimit) && MT.Overflows(0, SizeOf(value), s.opts.softLimit)
    ensures Write(s, key, value).1
    ensures ReadIn(Write(s, key, value).0, k, mode).1 == ReadIn(s, k, mode).1
  {
    var r := Write(s, key, value);
    RolledEmptyReadsAlike(s.mems, r.0.mems, k);
    ReadInByMems(s, r.0, k, mode);
  }

  /** Memtables that only gain an empty newest memtable read every key as before. */
  lemma RolledEmptyReadsAlike(a: seq<MT.Memtable>, b: seq<MT.Memtable>, k: Key)
    requires 0 < |a| && |b| == |a| + 1
    requires b[..|a| - 1] == a[..|a| - 1] && b[|a| - 1].data == a[|a| - 1].data
    requires b[|a|].data == map[]
    ensures ReadMems(b, k) == ReadMems(a, k)
  {
    var n := |a|;
    assert b == b[..n] + [b[n]];
    ReadMemsSkips(b[..n], b[n], k);
    ReadMemsByKey(b[..n], a, k);
  }

  /** Two stores over the same levels, cache and files whose memtables read a key alike read it alike. */
  lemma ReadInByMems(s: Store, s': Store, k: Key, mode: Mode)
    requires s'.lsm == s.lsm && s'.cache == s.cache && s'.fs == s.fs
    requires ReadMems(s'.mems, k) == ReadMems(s.mems, k)
    ensures ReadIn(s', k, mode).1 == ReadIn(s, k, mode).1
  {
  }

  /** Replacing the active memtable by one that agrees with it on `k` leaves reads of `k` alone. */
  lemma ActiveAgrees(older: seq<MT.Memtable>, a: MT.Memtable, b: MT.Memtable, k: Key)
    requires k in a.data <==> k in b.data
    requires k in a.data ==> a.data[k] == b.data[k]
    ensures ReadMems(older + [a], k) == ReadMems(older + [b], k)
  {
    ReadMemsByKey(older + [a], older + [b], k);
  }

  /** A write leaves every read of another key as it was. */
  lemma WriteKeepsOtherKeys(s: Store, key: Key, value: Value, k: Key, mode: Mode)
    requires Valid(s) && k != key
    ensures ReadIn(Write(s, key, value).0, k, mode).1 == ReadIn(s, k, mode).1
  {
    var s' := Write(s, key, value).0;
    var n := |s.mems|;
    assert s.mems == Older(s) + [Active(s)];
    if Write(s, key, value).1 {
      var m := s'.mems[n - 1];
      assert s'.mems == (Older(s) + [m]) + [s'.mems[n]];
      ReadMemsSkips(Older(s) + [m], s'.mems[n], k);
      ActiveAgrees(Older(s), m, Active(s), k);
    } else {
      assert s'.mems == Older(s) + [Active(s')];
      ActiveAgrees(Older(s), Active(s'), Active(s), k);
    }
    ReadInByMems(s, s', k, mode);
  }

  /**
   Delete then read: the key reads as not found whatever any memtable or level holds, and
   every other key reads as before.
   */
  lemma DeleteThenRead(s: Store, key: Key, tombstone: Value, k: Key, mode: Mode, logMode: Mode)
    requires Valid(s)
    ensures ReadIn(Delete(s, key, tombstone, logMode), key, mode).1 == Absent
    ensures k != key ==> ReadIn(Delete(s, key, tombstone, logMode), k, mode).1 == ReadIn(s, k, mode).1
  {
    var s' := Delete(s, key, tombstone, logMode);
    ReadMemsNewest(s'.mems, key, |s'.mems| - 1);
    if k != key {
      assert s'.mems == Older(s) + [Active(s')];
      assert s.mems == Older(s) + [Active(s)];
      if k in Active(s).data {
        ReadMemsByKey(s'.mems, s.mems, k);
      } else {
        ReadMemsSkips(Older(s), Active(s'), k);
        ReadMemsSkips(Older(s), Active(s), k);
      }
    }
  }

  /**
   Tables whose files are neither cached nor on disk: as written the zero key is reported
   found with a nil value at the first of them, corrected every one of them is skipped.
   */
  lemma {:induction false} ReadMissingTables(level: Level, ids: seq<nat>, cache: CacheManager, fs: FileSystem, key: Key, mode: Mode)
    requires forall i | 0 <= i < |ids| :: ids[i] in level.tables
    requires forall i | 0 <= i < |ids| :: level.tables[ids[i]].dbPath !in cache.units && level.tables[ids[i]].dbPath !in fs
    ensures mode == AsWritten && key == ZeroLike(key) && |ids| > 0 ==> ReadTables(level, ids, cache, fs, key, mode) == (cache, Some(Answer(None, true)))
    ensures mode == Corrected || key != ZeroLike(key) ==> ReadTables(level, ids, cache, fs, key, mode) == (cache, None)
  {
    if |ids| > 0 {
      ReadMissingTables(level, ids[1..], cache, fs, key, mode);
    }
  }

  /** A store whose only level holds one table, id 0, whose files are missing. */
  function OneMissingTable(): (s: Store)
    ensures Valid(s)
  {
    Store([MT.NewMemtable(MT.MemtableOpts(1024, false))],
          Lsm([Level(map[0 := SSTable("sst-0.db", "sst-0.index", 0)], 1)]), CacheManager(map[]), map[],
          MT.MemtableOpts(1024, false))
  }

  /**
   The zero key read against a table whose files are missing: as written the failed lookup
   is reported as found with a nil value, corrected it is not found.
   */
  lemma AsWrittenZeroKeyFoundOnFailure()
    ensures ReadAsWritten(OneMissingTable(), IntKey(0)).1 == Answer(None, true)
    ensures Read(OneMissingTable(), IntKey(0)).1 == Absent
  {
    var s := OneMissingTable();
    var level := s.lsm.levels[0];
    var ids := Descending(level.tables.Keys);
    assert 0 in ids;
    ReadMissingTables(level, ids, s.cache, s.fs, IntKey(0), AsWritten);
    ReadMissingTables(level, ids, s.cache, s.fs, IntKey(0), Corrected);
    assert ReadLevels(s.lsm, 1, s.cache, s.fs, IntKey(0), Corrected) == (s.cache, None);
  }

  /**
   A read that falls through the memtables to a table written by `Encode` from key-sorted
   payloads of one kind answers from that table: the stored value when it is live, not
   found for a tombstone and, when the key is not in the table, whatever the tables after
   it answer, except that as written a key above every key of the table makes the search
   run off the end of the index and the read panics.
   */
  lemma ReadFromWrittenTable(level: Level, ids: seq<nat>, cache: CacheManager, fs: FileSystem, key: Key, kv: seq<Payload>, mode: Mode)
    requires |ids| > 0 && forall i | 0 <= i < |ids| :: ids[i] in level.tables
    requires level.tables[ids[0]].dbPath in cache.units
    requires cache.units[level.tables[ids[0]].dbPath] == Written(kv)
    requires Sorted(kv) && forall i | 0 <= i < |kv| :: SameKind(kv[i].key, key)
    ensures key in KeysOf(kv) ==> exists j | 0 <= j < |kv| && kv[j].key == key ::
      ReadTables(level, ids, cache, fs, key, mode).1 == Some(Answer(Some(kv[j].val), !IsDeleted(kv[j].val)))
    ensures key !in KeysOf(kv) && (mode == Corrected || !KeysBelow(kv, key)) ==>
      ReadTables(level, ids, cache, fs, key, mode) == ReadTables(level, ids[1..], cache, fs, key, mode)
    ensures mode == AsWritten && KeysBelow(kv, key) ==> ReadTables(level, ids, cache, fs, key, mode) == (cache, Some(ReadPanic))
  {
    var look := GetDecodedForKeyIn(Written(kv), key, mode);
    ReadTablesCached(level, ids, cache, fs, key, mode);
    if mode == AsWritten {
      LookupAfterEncodeAsWritten(kv, key);
    } else {
      LookupAfterEncode(kv, key);
    }
    if look.Found? || look.Deleted? {
      var j :| 0 <= j < |kv| && kv[j] == look.entry;
    }
  }

  /** A read whose first table is cached takes that table's verdict, or moves on. */
  lemma ReadTablesCached(level: Level, ids: seq<nat>, cache: CacheManager, fs: FileSystem, key: Key, mode: Mode)
    requires |ids| > 0 && forall i | 0 <= i < |ids| :: ids[i] in level.tables
    requires level.tables[ids[0]].dbPath in cache.units
    ensures var v := TableVerdict(GetDecodedForKeyIn(cache.units[level.tables[ids[0]].dbPath], key, mode), key, mode);
      ReadTables(level, ids, cache, fs, key, mode) == if v.Some? then (cache, v) else ReadTables(level, ids[1..], cache, fs, key, mode)
  {
    var t := level.tables[ids[0]];
    CachedUnitIgnoresFiles(cache, fs, fs, t.dbPath, t.indexPath, key, mode);
  }

  /** A store whose only level holds one table, id 0, already cached: the one-entry table keyed 1. */
  function OneCachedTable(): (s: Store)
    ensures Valid(s)
  {
    Store([MT.NewMemtable(MT.MemtableOpts(1024, false))],
          Lsm([Level(map[0 := SSTable("sst-0.db", "sst-0.index", 0)], 1)]), CacheManager(map["sst-0.db" := OneEntryTable()]), map[],
          MT.MemtableOpts(1024, false))
  }

  /**
   A store read of a key above the only table's last key: as written the search runs off
   the end of the index and the read panics, corrected it is not found; the key the table
   holds is found in both modes.
   */
  lemma AsWrittenReadPanicsAboveLastKey(mode: Mode)
    ensures ReadAsWritten(OneCachedTable(), IntKey(2)).1 == ReadPanic
    ensures Read(OneCachedTable(), IntKey(2)).1 == Absent
    ensures ReadIn(OneCachedTable(), IntKey(1), mode).1 == Answer(Some(IntValue(7, false)), true)
  {
    OneCachedTableReadIn(IntKey(2), AsWritten);
    OneCachedTableReadIn(IntKey(2), Corrected);
    OneCachedTableReadIn(IntKey(1), mode);
    OneCachedTableReads(IntKey(2), AsWritten);
    OneCachedTableReads(IntKey(2), Corrected);
    OneCachedTableReads(IntKey(1), mode);
  }

  /** A read of `OneCachedTable` is the verdict of its one table, or not found. */
  lemma OneCachedTableReadIn(key: Key, mode: Mode)
    ensures var s := OneCachedTable();
      var t := ReadTables(s.lsm.levels[0], [0], s.cache, s.fs, key, mode).1;
      ReadIn(s, key, mode).1 == if t.Some? then t.value else Absent
  {
    var s := OneCachedTable();
    OneIdDescending();
    assert ReadMems(s.mems, key) == None;
    assert ReadLevels(s.lsm, 1, ReadTables(s.lsm.levels[0], [0], s.cache, s.fs, key, mode).0, s.fs, key, mode).1 == None;
  }

  /** The level of `OneCachedTable` is read at table 0 alone. */
  lemma OneIdDescending()
    ensures Descending(OneCachedTable().lsm.levels[0].tables.Keys) == [0]
  {
    var ids := Descending(OneCachedTable().lsm.levels[0].tables.Keys);
    assert 0 in ids;
  }

  /** The one cached table answers a read of an integer key as `ReadFromWrittenTable` says. */
  lemma OneCachedTableReads(key: Key, mode: Mode)
    requires key.IntKey?
    ensures var s := OneCachedTable();
      var kv := [Payload(IntKey(1), IntValue(7, false))];
      && (key in KeysOf(kv) <==> key == IntKey(1))
      && (key == IntKey(1) ==> ReadTables(s.lsm.levels[0], [0], s.cache, s.fs, key, mode).1 == Some(Answer(Some(IntValue(7, false)), true)))
      && (key == IntKey(2) && mode == AsWritten ==> ReadTables(s.lsm.levels[0], [0], s.cache, s.fs, key, mode).1 == Some(ReadPanic))
      && (key == IntKey(2) && mode == Corrected ==> ReadTables(s.lsm.levels[0], [0], s.cache, s.fs, key, mode).1 == None)
  {
    var s := OneCachedTable();
    var kv := [Payload(IntKey(1), IntValue(7, false))];
    assert KeysOf(kv) == {IntKey(1)};
    ReadFromWrittenTable(s.lsm.levels[0], [0], s.cache, s.fs, key, kv, mode);
  }
}

=== FILE: memtable.dfy ===
/**
 One memtable (parrot/memtable/memtable.go, type `Memtable`): a map from keys to values
 with a soft size limit, tombstones for deleted keys, and an optional write-ahead log.
 The mutex is left out: every operation is one sequential step.
 */
module Memtable {
  import opened Keys
  import opened Wrappers

  /** The options the memtable logic reads: `MemtableSoftLimit` (Go `int64`) and `TurnOnWal`. */
  datatype MemtableOpts = MemtableOpts(softLimit: int, turnOnWal: bool)

  datatype Op = WriteOp | DeleteOp

  /** `MemTableEvent`; `value` is `None` where Go logs a nil value. */
  datatype MemEvent = MemEvent(key: Key, value: Option<Value>, op: Op)

  /** `log` is the sequence of events this memtable appended to its own WAL file. */
  datatype Memtable = Memtable(data: map<Key, Value>, log: seq<MemEvent>, opts: MemtableOpts)

  /** The three read flags of parrot/flags. */
  datatype Flag = KeyFound | KeyDeleted | KeyNotFound

  /** Go's `uintptr` is 64 bits wide. */
  const UintptrModulus: int := 0x1_0000_0000_0000_0000

  function Uintptr(x: int): nat
  {
    x % UintptrModulus
  }

  /** The soft-limit test of `Memtable.Write`, evaluated in `uintptr` as Go does. */
  predicate Overflows(count: nat, size: nat, limit: int)
  {
    Uintptr((count + 1) * size) > Uintptr(limit)
  }

  /** `NewMemtable`: every key reads as not found, nothing is logged yet, and the options are kept. */
  function NewMemtable(opts: MemtableOpts): (m: Memtable)
    ensures forall k :: Read(m, k) == (None, KeyNotFound)
    ensures |m.data| == 0 && m.log == [] && m.opts == opts
  {
    Memtable(map[], [], opts)
  }

  /** The log after appending `ev`: only when the WAL is on. */
  function Logged(m: Memtable, ev: MemEvent): seq<MemEvent>
  {
    if m.opts.turnOnWal then m.log + [ev] else m.log
  }

  /**
   `Memtable.Write`: rejects the pair, leaving the data as it was, exactly when
   `(len(data) + 1) * SizeOf(value)` exceeds the soft limit; an overwrite of a present key
   is charged as one more entry all the same. The event is logged either way.
   */
  function Write(m: Memtable, key: Key, value: Value): (r: (Memtable, bool))
    ensures r.1 <==> !Overflows(|m.data|, SizeOf(value), m.opts.softLimit)
    ensures r.1 ==> r.0.data == m.data[key := value]
    ensures !r.1 ==> r.0.data == m.data
    ensures r.0.opts == m.opts
    ensures r.0.log == Logged(m, MemEvent(key, Some(value), WriteOp))
  {
    var ok := !Overflows(|m.data|, SizeOf(value), m.opts.softLimit);
    (m.(data := if ok then m.data[key := value] else m.data,
        log := Logged(m, MemEvent(key, Some(value), WriteOp))), ok)
  }

  /** The WAL event of a corrected delete: it carries the tombstone. */
  function DeleteEvent(key: Key, tombstone: Value): MemEvent
  {
    MemEvent(key, Some(tombstone), DeleteOp)
  }

  /** The WAL event the source logs for a delete: the value field is left nil. */
  function DeleteEventAsWritten(key: Key): MemEvent
  {
    MemEvent(key, None, DeleteOp)
  }

  /** The delete event logged in each mode. */
  function DeleteEventIn(key: Key, tombstone: Value, mode: Mode): MemEvent
  {
    if mode == AsWritten then DeleteEventAsWritten(key) else DeleteEvent(key, tombstone)
  }

  /**
   `Memtable.Delete`: the key ends up present and marked deleted; a present value keeps its
   contents, an absent key gets the tombstone; no other key changes. With the WAL on, the
   source logs the key and the operation only; corrected, the event carries the tombstone.
   */
  function Delete(m: Memtable, key: Key, tombstone: Value, mode: Mode): (r: Memtable)
    ensures r.data.Keys == m.data.Keys + {key}
    ensures IsDeleted(r.data[key])
    ensures key in m.data ==> r.data[key] == MarkDeleted(m.data[key])
    ensures key !in m.data ==> r.data[key] == MarkDeleted(tombstone)
    ensures forall k | k in m.data && k != key :: r.data[k] == m.data[k]
    ensures r.opts == m.opts
    ensures !m.opts.turnOnWal ==> r.log == m.log
    ensures m.opts.turnOnWal ==> |r.log| == |m.log| + 1 && r.log[..|m.log|] == m.log
    ensures m.opts.turnOnWal ==> r.log[|m.log|].key == key && r.log[|m.log|].op == DeleteOp
    ensures m.opts.turnOnWal ==> (r.log[|m.log|].value.None? <==> mode == AsWritten)
    ensures m.opts.turnOnWal && mode == Corrected ==> r.log[|m.log|].value == Some(tombstone)
  {
    var stored := if key in m.data then m.data[key] else tombstone;
    m.(data := m.data[key := MarkDeleted(stored)], log := Logged(m, DeleteEventIn(key, tombstone, mode)))
  }

  /**
   `Memtable.Read`: not found for an absent key, deleted for a tombstone, found otherwise;
   the stored value is returned whenever the key is present.
   */
  function Read(m: Memtable, key: Key): (r: (Option<Value>, Flag))
    ensures r.1 == KeyNotFound <==> key !in m.data
    ensures r.1 == KeyDeleted <==> key in m.data && IsDeleted(m.data[key])
    ensures r.1 == KeyFound <==> key in m.data && !IsDeleted(m.data[key])
    ensures key in m.data ==> r.0 == Some(m.data[key])
    ensures key !in m.data ==> r.0 == None
  {
    if key !in m.data then (None, KeyNotFound)
    else if IsDeleted(m.data[key]) then (Some(m.data[key]), KeyDeleted)
    else (Some(m.data[key]), KeyFound)
  }

  // ---------------------------------------------------------------- properties

  /**
   For a non-negative limit and a product that does not wrap, the `uintptr` test is the
   plain comparison `(count + 1) * size > limit`.
   */
  lemma OverflowsPlain(count: nat, size: nat, limit: int)
    requires 0 <= limit < 0x8000_0000_0000_0000
    requires (count + 1) * size < UintptrModulus
    ensures Overflows(count, size, limit) <==> (count + 1) * size > limit
  {
  }

  /** An accepted write keeps `len(data) * SizeOf(value)` within the soft limit. */
  lemma AcceptedWriteWithinLimit(m: Memtable, key: Key, value: Value)
    requires 0 <= m.opts.softLimit < 0x8000_0000_0000_0000
    requires (|m.data| + 1) * SizeOf(value) < UintptrModulus
    requires Write(m, key, value).1
    ensures |Write(m, key, value).0.data| * SizeOf(value) <= m.opts.softLimit
  {
    var m' := Write(m, key, value).0;
    OverflowsPlain(|m.data|, SizeOf(value), m.opts.softLimit);
    assert m'.data.Keys == m.data.Keys + {key};
    assert |m'.data| <= |m.data| + 1 by {
      assert |m.data.Keys + {key}| <= |m.data.Keys| + |{key}|;
    }
    MulMonotone(|m'.data|, |m.data| + 1, SizeOf(value));
  }

  lemma MulMonotone(a: nat, b: nat, c: nat)
    requires a <= b
    ensures a * c <= b * c
  {
  }

  /** A negative soft limit wraps to a huge `uintptr`: every write of a non-wrapping size is accepted. */
  lemma NegativeLimitAcceptsAll(m: Memtable, key: Key, value: Value)
    requires -0x8000_0000_0000_0000 <= m.opts.softLimit < 0
    requires (|m.data| + 1) * SizeOf(value) < 0x8000_0000_0000_0000
    ensures Write(m, key, value).1
  {
  }

  /** After `Delete(k, t)` a read of `k` reports a tombstone, whether or not `k` was present. */
  lemma ReadAfterDelete(m: Memtable, key: Key, tombstone: Value, other: Key, mode: Mode)
    requires other != key
    ensures Read(Delete(m, key, tombstone, mode), key).1 == KeyDeleted
    ensures Read(Delete(m, key, tombstone, mode), other) == Read(m, other)
  {
  }

  /**
   The budget counts bytes: with a soft limit of 1, an empty memtable rejects the
   one-character string "é", which is two bytes long, and accepts "e".
   */
  lemma MultiByteStringOverLimit(opts: MemtableOpts, key: Key)
    requires opts.softLimit == 1
    ensures !Write(NewMemtable(opts), key, StringValue("\U{E9}", false)).1
    ensures Write(NewMemtable(opts), key, StringValue("e", false)).1
  {
    SizeOfCountsBytes();
  }

  /** After an accepted write, a read of the key returns the written value. */
  lemma ReadAfterWrite(m: Memtable, key: Key, value: Value)
    requires !IsDeleted(value)
    requires Write(m, key, value).1
    ensures Read(Write(m, key, value).0, key) == (Some(value), KeyFound)
  {
  }

  // ---------------------------------------------------------------- payload list

  /** The summed `SizeOf` of a payload list. */
  function TotalSize(ps: seq<Payload>): nat
  {
    if |ps| == 0 then 0 else TotalSize(ps[..|ps| - 1]) + SizeOf(ps[|ps| - 1].val)
  }

  /** Insertion of one payload into a list sorted by key. */
  function Insert(p: Payload, s: seq<Payload>): (r: seq<Payload>)
    ensures multiset(r) == multiset(s) + multiset{p}
    ensures |r| == |s| + 1
  {
    if |s| == 0 then [p]
    else if Less(s[0].key, p.key) then
      assert s == [s[0]] + s[1..];
      [s[0]] + Insert(p, s[1..])
    else [p] + s
  }

  /** `sort.Slice` by `Key.Less`, as a stable insertion sort: a permutation of its input. */
  function SortByKey(s: seq<Payload>): (r: seq<Payload>)
    ensures multiset(r) == multiset(s)
    ensures |r| == |s|
  {
    if |s| == 0 then []
    else
      assert s == [s[0]] + s[1..];
      Insert(s[0], SortByKey(s[1..]))
  }

  predicate DistinctKeys(ps: seq<Payload>)
  {
    forall i, j | 0 <= i < j < |ps| :: ps[i].key != ps[j].key
  }

  lemma KeysOfPermutation(r: seq<Payload>, s: seq<Payload>)
    requires multiset(r) == multiset(s)
    ensures KeysOf(r) == KeysOf(s)
  {
    forall k | k in KeysOf(r) ensures k in KeysOf(s) {
      var i :| 0 <= i < |r| && r[i].key == k;
      assert r[i] in multiset(s);
      var j :| 0 <= j < |s| && s[j] == r[i];
    }
    forall k | k in KeysOf(s) ensures k in KeysOf(r) {
      var i :| 0 <= i < |s| && s[i].key == k;
      assert s[i] in multiset(r);
      var j :| 0 <= j < |r| && r[j] == s[i];
    }
  }

  lemma {:induction false} InsertStrictlySorted(p: Payload, s: seq<Payload>)
    requires Uniform(KeysOf(s) + {p.key})
    requires StrictlySorted(s)
    requires p.key !in KeysOf(s)
    ensures StrictlySorted(Insert(p, s))
    decreases |s|
  {
    if |s| > 0 {
      assert s[0].key in KeysOf(s);
      if Less(s[0].key, p.key) {
        var t := Insert(p, s[1..]);
        TailOf(s);
        assert KeysOf(s[1..]) + {p.key} <= KeysOf(s) + {p.key};
        InsertStrictlySorted(p, s[1..]);
        KeysOfPermutation(t, s[1..] + [p]);
        TailAbove(s, p, t);
        ConsStrictlySorted(s[0], t);
      } else {
        assert p.key != s[0].key;
        assert SameKind(p.key, s[0].key);
        LessTrichotomous(p.key, s[0].key);
        HeadBelowAll(p, s);
        ConsStrictlySorted(p, s);
      }
    }
  }

  /** Dropping the head keeps a list strictly increasing and takes no new keys. */
  lemma TailOf(s: seq<Payload>)
    requires |s| > 0
    ensures KeysOf(s[1..]) <= KeysOf(s)
    ensures StrictlySorted(s) ==> StrictlySorted(s[1..])
  {
    forall k | k in KeysOf(s[1..]) ensures k in KeysOf(s) {
      var i :| 0 <= i < |s[1..]| && s[1..][i].key == k;
      assert s[i + 1].key == k;
    }
    if StrictlySorted(s) {
      forall i, j | 0 <= i < j < |s[1..]| ensures Less(s[1..][i].key, s[1..][j].key) {
        assert s[1..][i] == s[i + 1] && s[1..][j] == s[j + 1];
      }
    }
  }

  /** A head below every key of a strictly increasing list extends it. */
  lemma ConsStrictlySorted(h: Payload, t: seq<Payload>)
    requires StrictlySorted(t)
    requires forall j | 0 <= j < |t| :: Less(h.key, t[j].key)
    ensures StrictlySorted([h] + t)
  {
    var r := [h] + t;
    forall i, j | 0 <= i < j < |r| ensures Less(r[i].key, r[j].key) {
      if i > 0 { assert r[i] == t[i - 1] && r[j] == t[j - 1]; }
      else { assert r[j] == t[j - 1]; }
    }
  }

  /** Every key of the tail of a strictly increasing list, and any key above its head, lies above the head. */
  lemma TailAbove(s: seq<Payload>, p: Payload, t: seq<Payload>)
    requires |s| > 0 && StrictlySorted(s) && Less(s[0].key, p.key)
    requires KeysOf(t) == KeysOf(s[1..] + [p])
    ensures forall j | 0 <= j < |t| :: Less(s[0].key, t[j].key)
  {
    forall j | 0 <= j < |t| ensures Less(s[0].key, t[j].key) {
      assert t[j].key in KeysOf(t);
      var i :| 0 <= i < |s[1..] + [p]| && (s[1..] + [p])[i].key == t[j].key;
      if i < |s[1..]| { assert (s[1..] + [p])[i] == s[i + 1]; }
    }
  }

  /** A key below the head of a strictly increasing list is below all of it. */
  lemma HeadBelowAll(p: Payload, s: seq<Payload>)
    requires |s| > 0 && StrictlySorted(s) && Less(p.key, s[0].key)
    ensures forall j | 0 <= j < |s| :: Less(p.key, s[j].key)
  {
    forall j | 0 <= j < |s| ensures Less(p.key, s[j].key) {
      if j > 0 { LessTransitive(p.key, s[0].key, s[j].key); }
    }
  }

  /** Sorting a uniformly keyed list with distinct keys yields a strictly increasing list. */
  lemma {:induction false} SortByKeyStrictlySorted(s: seq<Payload>)
    requires Uniform(KeysOf(s))
    requires DistinctKeys(s)
    ensures StrictlySorted(SortByKey(s))
    decreases |s|
  {
    if |s| > 0 {
      var tail := s[1..];
      assert KeysOf(tail) + {s[0].key} == KeysOf(s) by {
        forall k | k in KeysOf(s) ensures k in KeysOf(tail) + {s[0].key} {
          var i :| 0 <= i < |s| && s[i].key == k;
          if i > 0 { assert tail[i - 1] == s[i]; }
        }
        forall k | k in KeysOf(tail) ensures k in KeysOf(s) {
          var i :| 0 <= i < |tail| && tail[i].key == k;
          assert s[i + 1] == tail[i];
        }
      }
      assert DistinctKeys(tail) by {
        forall i, j | 0 <= i < j < |tail| ensures tail[i].key != tail[j].key {
          assert tail[i] == s[i + 1] && tail[j] == s[j + 1];
        }
      }
      SortByKeyStrictlySorted(tail);
      KeysOfPermutation(SortByKey(tail), tail);
      assert s[0].key !in KeysOf(tail) by {
        forall i | 0 <= i < |tail| ensures tail[i].key != s[0].key {
          assert tail[i] == s[i + 1];
        }
      }
      InsertStrictlySorted(s[0], SortByKey(tail));
    }
  }

  lemma TotalSizeConcat(a: seq<Payload>, b: seq<Payload>)
    ensures TotalSize(a + b) == TotalSize(a) + TotalSize(b)
    decreases |b|
  {
    if |b| > 0 {
      assert (a + b)[..|a + b| - 1] == a + b[..|b| - 1];
      TotalSizeConcat(a, b[..|b| - 1]);
    } else {
      assert a + b == a;
    }
  }

  /** The summed size does not depend on the order of the list. */
  lemma {:induction false} TotalSizePermutation(a: seq<Payload>, b: seq<Payload>)
    requires multiset(a) == multiset(b)
    ensures TotalSize(a) == TotalSize(b)
    decreases |a|
  {
    if |a| > 0 {
      var x := a[|a| - 1];
      assert x in multiset(b);
      var i :| 0 <= i < |b| && b[i] == x;
      var b' := b[..i] + b[i + 1..];
      assert b == b[..i] + [x] + b[i + 1..];
      assert a == a[..|a| - 1] + [x];
      assert multiset(b) == multiset(b[..i]) + multiset{x} + multiset(b[i + 1..]);
      assert multiset(a) == multiset(a[..|a| - 1]) + multiset{x};
      assert b' == b[..i] + b[i + 1..];
      assert multiset(b') == multiset(b[..i]) + multiset(b[i + 1..]);
      assert multiset(b') == multiset(b) - multiset{x};
      assert multiset(a[..|a| - 1]) == multiset(a) - multiset{x};
      TotalSizePermutation(a[..|a| - 1], b');
      TotalSizeConcat(b[..i] + [x], b[i + 1..]);
      TotalSizeConcat(b[..i], [x]);
      TotalSizeConcat(b[..i], b[i + 1..]);
      assert TotalSize([x]) == SizeOf(x.val) by { assert [x][..0] == []; }
    }
  }

  lemma KeysOfAppend(acc: seq<Payload>, p: Payload)
    ensures KeysOf(acc + [p]) == KeysOf(acc) + {p.key}
  {
    forall x | x in KeysOf(acc + [p]) ensures x in KeysOf(acc) + {p.key} {
      var i :| 0 <= i < |acc + [p]| && (acc + [p])[i].key == x;
      if i < |acc| { assert (acc + [p])[i] == acc[i]; }
    }
    forall x | x in KeysOf(acc) ensures x in KeysOf(acc + [p]) {
      var i :| 0 <= i < |acc| && acc[i].key == x;
      assert (acc + [p])[i] == acc[i];
    }
    assert (acc + [p])[|acc|] == p;
  }

  lemma DistinctKeysAppend(acc: seq<Payload>, p: Payload)
    requires DistinctKeys(acc)
    requires p.key !in KeysOf(acc)
    ensures DistinctKeys(acc + [p])
  {
    forall i, j | 0 <= i < j < |acc + [p]| ensures (acc + [p])[i].key != (acc + [p])[j].key {
      assert (acc + [p])[i] == acc[i];
      if j < |acc| { assert (acc + [p])[j] == acc[j]; }
    }
  }

  /** One step of the listing loop of `BuildPayloadList` keeps its invariant. */
  lemma ListingStep(data: map<Key, Value>, rest: set<Key>, acc: seq<Payload>, k: Key)
    requires rest <= data.Keys && k in rest
    requires forall i | 0 <= i < |acc| :: acc[i].key in data && acc[i].val == data[acc[i].key]
    requires KeysOf(acc) == data.Keys - rest
    requires DistinctKeys(acc)
    ensures var acc' := acc + [Payload(k, data[k])];
      && (forall i | 0 <= i < |acc'| :: acc'[i].key in data && acc'[i].val == data[acc'[i].key])
      && KeysOf(acc') == data.Keys - (rest - {k})
      && DistinctKeys(acc')
      && TotalSize(acc') == TotalSize(acc) + SizeOf(data[k])
  {
    var p := Payload(k, data[k]);
    assert (acc + [p])[..|acc|] == acc;
    KeysOfAppend(acc, p);
    DistinctKeysAppend(acc, p);
  }

  /** The map walk of `BuildPayloadList`: every entry once, in the order the walk picks, with the summed size. */
  method ListEntries(m: Memtable) returns (acc: seq<Payload>, size: nat)
    ensures forall i | 0 <= i < |acc| :: acc[i].key in m.data && acc[i].val == m.data[acc[i].key]
    ensures KeysOf(acc) == m.data.Keys
    ensures DistinctKeys(acc)
    ensures size == TotalSize(acc)
  {
    var rest := m.data.Keys;
    acc := [];
    size := 0;
    while rest != {}
      invariant rest <= m.data.Keys
      invariant forall i | 0 <= i < |acc| :: acc[i].key in m.data && acc[i].val == m.data[acc[i].key]
      invariant KeysOf(acc) == m.data.Keys - rest
      invariant DistinctKeys(acc)
      invariant size == TotalSize(acc)
      decreases rest
    {
      var k :| k in rest;
      var p := Payload(k, m.data[k]);
      ListingStep(m.data, rest, acc, k);
      acc := acc + [p];
      size := size + SizeOf(p.val);
      rest := rest - {k};
    }
  }

  /**
   `Memtable.BuildPayloadList`: every entry of the memtable exactly once, strictly ascending
   by `Key.Less` when the keys share one type, with the size equal to the summed `SizeOf`.
   The map is walked in an arbitrary order, as Go's map iteration is.
   */
  method BuildPayloadList(m: Memtable) returns (pl: seq<Payload>, size: nat)
    ensures |pl| == |m.data|
    ensures forall i | 0 <= i < |pl| :: pl[i].key in m.data && pl[i].val == m.data[pl[i].key]
    ensures KeysOf(pl) == m.data.Keys
    ensures DistinctKeys(pl)
    ensures Uniform(m.data.Keys) ==> StrictlySorted(pl)
    ensures size == TotalSize(pl)
  {
    var acc;
    acc, size := ListEntries(m);
    DistinctKeysCardinality(acc);
    pl := SortByKey(acc);
    SortedEntries(m.data, acc, pl);
    TotalSizePermutation(acc, pl);
  }

  /** What `BuildPayloadList` concludes from the listing it built and its sorted permutation. */
  lemma SortedEntries(data: map<Key, Value>, acc: seq<Payload>, pl: seq<Payload>)
    requires forall i | 0 <= i < |acc| :: acc[i].key in data && acc[i].val == data[acc[i].key]
    requires KeysOf(acc) == data.Keys
    requires DistinctKeys(acc)
    requires pl == SortByKey(acc)
    ensures forall i | 0 <= i < |pl| :: pl[i].key in data && pl[i].val == data[pl[i].key]
    ensures KeysOf(pl) == data.Keys
    ensures DistinctKeys(pl)
    ensures Uniform(data.Keys) ==> StrictlySorted(pl)
  {
    KeysOfPermutation(pl, acc);
    forall i | 0 <= i < |pl| ensures pl[i].key in data && pl[i].val == data[pl[i].key] {
      assert pl[i] in multiset(acc);
      var j :| 0 <= j < |acc| && acc[j] == pl[i];
    }
    DistinctKeysPermutation(pl, acc);
    if Uniform(data.Keys) {
      SortByKeyStrictlySorted(acc);
    }
  }

  /** With distinct keys no payload occurs twice. */
  lemma {:induction false} DistinctKeysOccurrence(s: seq<Payload>, x: Payload)
    requires DistinctKeys(s)
    ensures multiset(s)[x] <= 1
    decreases |s|
  {
    if |s| > 0 {
      var tail := s[1..];
      assert s == [s[0]] + tail;
      assert DistinctKeys(tail) by {
        forall i, j | 0 <= i < j < |tail| ensures tail[i].key != tail[j].key {
          assert tail[i] == s[i + 1] && tail[j] == s[j + 1];
        }
      }
      DistinctKeysOccurrence(tail, x);
      if x == s[0] {
        forall i | 0 <= i < |tail| ensures tail[i] != x {
          assert tail[i] == s[i + 1];
        }
        assert x !in tail;
      }
    }
  }

  /** Distinct keys survive any permutation. */
  lemma DistinctKeysPermutation(r: seq<Payload>, s: seq<Payload>)
    requires multiset(r) == multiset(s)
    requires DistinctKeys(s)
    ensures DistinctKeys(r)
  {
    forall i, j | 0 <= i < j < |r| ensures r[i].key != r[j].key {
      assert r[i] in multiset(s) && r[j] in multiset(s);
      var a :| 0 <= a < |s| && s[a] == r[i];
      var b :| 0 <= b < |s| && s[b] == r[j];
      if r[i].key == r[j].key {
        assert a == b;
        assert r == r[..i] + [r[i]] + r[i + 1..j] + [r[j]] + r[j + 1..];
        assert multiset(r)[r[i]] >= 2;
        DistinctKeysOccurrence(s, r[i]);
      }
    }
  }

  /** A list with distinct keys has as many entries as keys. */
  lemma {:induction false} DistinctKeysCardinality(ps: seq<Payload>)
    requires DistinctKeys(ps)
    ensures |KeysOf(ps)| == |ps|
    decreases |ps|
  {
    if |ps| > 0 {
      var init := ps[..|ps| - 1];
      assert DistinctKeys(init) by {
        forall i, j | 0 <= i < j < |init| ensures init[i].key != init[j].key {
          assert init[i] == ps[i] && init[j] == ps[j];
        }
      }
      DistinctKeysCardinality(init);
      assert KeysOf(ps) == KeysOf(init) + {ps[|ps| - 1].key} by {
        forall x | x in KeysOf(ps) ensures x in KeysOf(init) + {ps[|ps| - 1].key} {
          var i :| 0 <= i < |ps| && ps[i].key == x;
          if i < |ps| - 1 { assert init[i] == ps[i]; }
        }
      }
      assert ps[|ps| - 1].key !in KeysOf(init);
    }
  }
}

=== FILE: oql.dfy ===
/**
 The query-language parser (pkg/oql/parser.go). A statement is dispatched on its first
 keyword and then taken apart with regular expressions: the document name, the `_ID`, the
 selected columns and the JSON body.

 Go's `regexp` works on the runes of its input, and a query is taken here as the sequence of
 those runes. Every regular expression of the parser is modelled as a function that says
 where a match starting at a given position ends and which part of the input its group
 captures. Between the matches that start at one position Go picks the one a backtracking
 matcher would find first (greedy `+` and `*` take as much as they can, lazy `+?` as little),
 and `FindStringSubmatch` takes the match that starts leftmost. The keywords are spelled as
 the parser's tests write them (`CREATE DOCUMENT`, `INSERT VALUE INTO`, `SELECT ... FROM`,
 `DELETE DOCUMENT FROM`). Decoding the JSON body is the parameter `decode`.
 */
module Oql {
  import opened Wrappers
  import GoPath
  import Converters
  import Schema

  // ---------------------------------------------------------------- keywords

  const KwCreate: string := "CREATE"
  const KwDocument: string := "DOCUMENT"
  const KwInsert: string := "INSERT"
  const KwInto: string := "INTO"
  const KwValue: string := "VALUE"
  const KwSelect: string := "SELECT"
  const KwFrom: string := "FROM"
  const KwDelete: string := "DELETE"
  const KwWhere: string := "WHERE"
  const KwId: string := "_ID"

  /** A keyword of a pattern: upper-case ASCII letters and `_`. */
  predicate IsKeyword(kw: string)
  {
    |kw| > 0 && forall i | 0 <= i < |kw| :: 'A' <= kw[i] <= 'Z' || kw[i] == '_'
  }

  predicate AreKeywords(kws: seq<string>)
  {
    forall i | 0 <= i < |kws| :: IsKeyword(kws[i])
  }

  lemma KeywordsAreKeywords()
    ensures IsKeyword(KwCreate) && IsKeyword(KwDocument) && IsKeyword(KwInsert) && IsKeyword(KwInto)
    ensures IsKeyword(KwValue) && IsKeyword(KwSelect) && IsKeyword(KwFrom) && IsKeyword(KwDelete)
    ensures IsKeyword(KwWhere) && IsKeyword(KwId)
  {
  }

  // ---------------------------------------------------------------- character classes

  /** The classes the parser's patterns use. `FoldedWord` is `\w` under `(?i)`. */
  datatype Class = Space | Word | FoldedWord | Digit | AnyButNewline

  predicate IsAsciiWord(c: char)
  {
    'a' <= c <= 'z' || 'A' <= c <= 'Z' || '0' <= c <= '9' || c == '_'
  }

  /**
   Membership: `\s` is `[\t\n\f\r ]`, `\w` is `[0-9A-Za-z_]`, and under `(?i)` the class is
   closed under simple case folding, which adds the long s (U+017F, folding with `s`) and
   the Kelvin sign (U+212A, folding with `k`); `\d` is `[0-9]`; `.` is anything but a newline.
   */
  predicate In(cls: Class, c: char)
  {
    match cls
    case Space => c == '\t' || c == '\n' || c == '\U{C}' || c == '\r' || c == ' '
    case Word => IsAsciiWord(c)
    case FoldedWord => IsAsciiWord(c) || c == '\U{17F}' || c == '\U{212A}'
    case Digit => '0' <= c <= '9'
    case AnyButNewline => c != '\n'
  }

  /** Every character of `s[i..j]` is in `cls`. */
  predicate All(s: string, i: nat, j: nat, cls: Class)
    requires i <= j <= |s|
  {
    forall k | i <= k < j :: In(cls, s[k])
  }

  /** The end of the longest run of `cls` characters that starts at `p`. */
  function RunEnd(s: string, p: nat, cls: Class): (e: nat)
    requires p <= |s|
    ensures p <= e <= |s| && All(s, p, e, cls)
    ensures e == |s| || !In(cls, s[e])
    decreases |s| - p
  {
    if p == |s| || !In(cls, s[p]) then p else RunEnd(s, p + 1, cls)
  }

  /** A run of `cls` characters that cannot be extended is the longest one. */
  lemma RunEndIs(s: string, p: nat, e: nat, cls: Class)
    requires p <= e <= |s| && All(s, p, e, cls)
    requires e == |s| || !In(cls, s[e])
    ensures RunEnd(s, p, cls) == e
  {
  }

  /**
   The characters `(?i)` lets match the pattern character `k`: `k` itself and the rest of its
   simple case-folding orbit, which for `S` includes U+017F and for `K` U+212A.
   */
  predicate Folds(c: char, k: char)
  {
    c == k || ('A' <= k <= 'Z' && c as int == k as int + 32)
    || (k == 'S' && c == '\U{17F}') || (k == 'K' && c == '\U{212A}')
  }

  /** The literal `kw` occurs at `p`, case-insensitively when `fold`. */
  predicate KeywordAt(s: string, p: nat, kw: string, fold: bool)
  {
    p + |kw| <= |s| && forall i | 0 <= i < |kw| :: if fold then Folds(s[p + i], kw[i]) else s[p + i] == kw[i]
  }

  /** The keyword occurs nowhere in `s`. */
  predicate NoKeyword(s: string, kw: string, fold: bool)
  {
    forall p: nat | p <= |s| :: !KeywordAt(s, p, kw, fold)
  }

  /** No character that can stand for a keyword character is a space. */
  lemma KeywordCharNotSpace(c: char, k: char)
    requires 'A' <= k <= 'Z' || k == '_'
    requires Folds(c, k)
    ensures !In(Space, c) && c != '='
  {
  }

  /** A keyword found in the middle of a text, with the text around it. */
  lemma KeywordHere(x: string, kw: string, y: string, fold: bool)
    requires IsKeyword(kw)
    ensures KeywordAt(x + kw + y, |x|, kw, fold)
  {
    var s := x + kw + y;
    forall i | 0 <= i < |kw| ensures s[|x| + i] == kw[i] {
    }
  }

  /** A run in the middle of a text ends where the text after it starts with a character outside the class. */
  lemma RunHere(x: string, run: string, y: string, cls: Class)
    requires forall k | 0 <= k < |run| :: In(cls, run[k])
    requires |y| == 0 || !In(cls, y[0])
    ensures RunEnd(x + run + y, |x|, cls) == |x| + |run|
  {
    var s := x + run + y;
    forall k | |x| <= k < |x| + |run| ensures In(cls, s[k]) {
      assert s[k] == run[k - |x|];
    }
    if |y| > 0 {
      assert s[|x| + |run|] == y[0];
    }
    RunEndIs(s, |x|, |x| + |run|, cls);
  }

  /**
   A keyword whose later characters never match the first character of `y` cannot occur
   across the end of `x`: occurrences in `x + y` that start in `x` lie inside `x`.
   */
  lemma NotAcross(x: string, y: string, kw: string, fold: bool)
    requires IsKeyword(kw) && |y| > 0
    requires forall j | 1 <= j < |kw| :: !(if fold then Folds(y[0], kw[j]) else y[0] == kw[j])
    requires NoKeyword(x, kw, fold)
    ensures forall p: nat | p < |x| :: !KeywordAt(x + y, p, kw, fold)
  {
    var s := x + y;
    forall p: nat | p < |x| ensures !KeywordAt(s, p, kw, fold) {
      if p + |kw| <= |x| {
        KeywordInside(x, y, p, kw, fold);
      } else {
        KeywordAcross(x, y, p, kw, fold);
      }
    }
  }

  lemma KeywordInside(x: string, y: string, p: nat, kw: string, fold: bool)
    requires p + |kw| <= |x|
    ensures KeywordAt(x + y, p, kw, fold) == KeywordAt(x, p, kw, fold)
  {
    var s := x + y;
    forall k | p <= k < p + |kw| ensures s[k] == x[k] {
    }
  }

  lemma KeywordAcross(x: string, y: string, p: nat, kw: string, fold: bool)
    requires p < |x| < p + |kw| && |y| > 0
    ensures KeywordAt(x + y, p, kw, fold) ==> if fold then Folds(y[0], kw[|x| - p]) else y[0] == kw[|x| - p]
  {
    var s := x + y;
    assert s[p + (|x| - p)] == y[0];
  }

  // ---------------------------------------------------------------- strings package

  /** `unicode.IsSpace`, the test `strings.TrimSpace` strips by. */
  predicate IsUnicodeSpace(c: char)
  {
    c == '\t' || c == '\n' || c == '\U{B}' || c == '\U{C}' || c == '\r' || c == ' ' || c == '\U{85}' || c == '\U{A0}'
    || c == '\U{1680}' || ('\U{2000}' <= c <= '\U{200A}') || c == '\U{2028}' || c == '\U{2029}'
    || c == '\U{202F}' || c == '\U{205F}' || c == '\U{3000}'
  }

  /** Nothing but spaces. */
  predicate Blank(s: string)
  {
    forall k | 0 <= k < |s| :: IsUnicodeSpace(s[k])
  }

  /** Neither starts nor ends with a space. */
  predicate Trimmed(s: string)
  {
    |s| == 0 || (!IsUnicodeSpace(s[0]) && !IsUnicodeSpace(s[|s| - 1]))
  }

  /** Where the run of spaces starting at `k` ends. */
  function SpacesEnd(s: string, k: nat): (n: nat)
    requires k <= |s|
    ensures k <= n <= |s| && (n == |s| || !IsUnicodeSpace(s[n]))
    ensures forall j | k <= j < n :: IsUnicodeSpace(s[j])
    decreases |s| - k
  {
    if k == |s| || !IsUnicodeSpace(s[k]) then k else SpacesEnd(s, k + 1)
  }

  /** Where the run of spaces ending at `k` starts. */
  function SpacesStart(s: string, k: nat): (n: nat)
    requires k <= |s|
    ensures n <= k && (n == 0 || !IsUnicodeSpace(s[n - 1]))
    ensures forall j | n <= j < k :: IsUnicodeSpace(s[j])
  {
    if k == 0 || !IsUnicodeSpace(s[k - 1]) then k else SpacesStart(s, k - 1)
  }

  /** The text with its leading spaces removed. */
  function TrimLeft(s: string): (r: string)
    ensures |r| <= |s| && r == s[|s| - |r|..]
    ensures Blank(s[..|s| - |r|])
    ensures |r| == 0 || !IsUnicodeSpace(r[0])
  {
    var n := SpacesEnd(s, 0);
    assert forall j | 0 <= j < n :: s[..n][j] == s[j];
    s[n..]
  }

  /** The text with its trailing spaces removed. */
  function TrimRight(s: string): (r: string)
    ensures |r| <= |s| && r == s[..|r|]
    ensures Blank(s[|r|..])
    ensures |r| == 0 || !IsUnicodeSpace(r[|r| - 1])
  {
    var n := SpacesStart(s, |s|);
    assert forall j | 0 <= j < |s| - n :: s[n..][j] == s[n + j];
    s[..n]
  }

  /** `strings.TrimSpace`: the text between the leading and the trailing spaces. */
  function TrimSpace(s: string): (r: string)
    ensures Trimmed(r)
  {
    TrimRight(TrimLeft(s))
  }

  /** `TrimSpace` keeps the text between the leading spaces it drops and the trailing spaces it drops. */
  lemma TrimSpacePlacement(s: string)
    ensures var i, r := |s| - |TrimLeft(s)|, TrimSpace(s);
      i + |r| <= |s| && r == s[i..i + |r|] && Blank(s[..i]) && Blank(s[i + |r|..])
  {
    TrimKeepsMiddle(s, TrimLeft(s));
    TrimDropsTail(s, TrimLeft(s));
  }

  lemma TrimKeepsMiddle(s: string, l: string)
    requires l == TrimLeft(s)
    ensures |s| - |l| + |TrimRight(l)| <= |s| && TrimRight(l) == s[|s| - |l|..|s| - |l| + |TrimRight(l)|]
  {
    PrefixOfSuffix(s, l, TrimRight(l));
  }

  /** A prefix of a suffix is a middle slice. */
  lemma PrefixOfSuffix<T>(s: seq<T>, l: seq<T>, r: seq<T>)
    requires |l| <= |s| && l == s[|s| - |l|..] && |r| <= |l| && r == l[..|r|]
    ensures r == s[|s| - |l|..|s| - |l| + |r|]
  {
  }

  lemma TrimDropsTail(s: string, l: string)
    requires l == TrimLeft(s)
    ensures |s| - |l| + |TrimRight(l)| <= |s| && Blank(s[|s| - |l| + |TrimRight(l)|..])
  {
    SuffixOfSuffix(s, l, |TrimRight(l)|);
  }

  /** A suffix of a suffix is a suffix. */
  lemma SuffixOfSuffix<T>(s: seq<T>, l: seq<T>, n: nat)
    requires |l| <= |s| && l == s[|s| - |l|..] && n <= |l|
    ensures s[|s| - |l| + n..] == l[n..]
  {
  }

  /** Leading spaces in front of a text that does not start with one are exactly what `TrimLeft` drops. */
  lemma TrimLeftPadded(a: string, u: string)
    requires Blank(a) && (|u| == 0 || !IsUnicodeSpace(u[0]))
    ensures TrimLeft(a + u) == u
  {
    var s := a + u;
    var n := SpacesEnd(s, 0);
    assert s[|a|..] == u;
  }

  /** Trailing spaces behind a text that does not end with one are exactly what `TrimRight` drops. */
  lemma TrimRightPadded(u: string, b: string)
    requires Blank(b) && (|u| == 0 || !IsUnicodeSpace(u[|u| - 1]))
    ensures TrimRight(u + b) == u
  {
    var s := u + b;
    var n := SpacesStart(s, |s|);
    assert s[..|u|] == u;
  }

  /** Trimming a text padded with spaces gives the text back, whatever the padding. */
  lemma TrimSpacePadded(a: string, t: string, b: string)
    requires Blank(a) && Trimmed(t) && Blank(b)
    ensures TrimSpace(a + t + b) == t
  {
    assert a + t + b == a + (t + b);
    if |t| == 0 {
      assert t + b == b;
      TrimLeftPadded(a + b, "");
      assert a + b + "" == a + b;
      assert a + (t + b) == a + b;
    } else {
      TrimLeftPadded(a, t + b);
      TrimRightPadded(t, b);
    }
  }

  /** `strings.Split(s, sep)` for a one-character separator: the pieces between the separators. */
  function SplitOn(s: string, sep: char): (r: seq<string>)
    ensures |r| >= 1
    ensures forall i | 0 <= i < |r| :: sep !in r[i]
    decreases |s|
  {
    if |s| == 0 then [""]
    else
      var rest := SplitOn(s[1..], sep);
      if s[0] == sep then [""] + rest else [[s[0]] + rest[0]] + rest[1..]
  }

  /** `strings.Join`. */
  function JoinWith(parts: seq<string>, sep: string): string
  {
    if |parts| == 0 then "" else if |parts| == 1 then parts[0] else parts[0] + sep + JoinWith(parts[1..], sep)
  }

  /** Joining the pieces with the separator gives the text back. */
  lemma {:induction false} JoinSplit(s: string, sep: char)
    ensures JoinWith(SplitOn(s, sep), [sep]) == s
    decreases |s|
  {
    if |s| > 0 {
      var rest := SplitOn(s[1..], sep);
      JoinSplit(s[1..], sep);
      if s[0] == sep {
        assert s == [sep] + s[1..];
      } else if |rest| == 1 {
        assert s == [s[0]] + s[1..];
      } else {
        assert rest == [rest[0]] + rest[1..];
        assert JoinWith(rest, [sep]) == rest[0] + [sep] + JoinWith(rest[1..], [sep]);
        assert s == [s[0]] + s[1..];
      }
    }
  }

  /** A piece without the separator stays whole in front of what follows it. */
  lemma {:induction false} SplitFront(a: string, b: string, sep: char)
    requires sep !in a
    ensures SplitOn(a + b, sep) == [a + SplitOn(b, sep)[0]] + SplitOn(b, sep)[1..]
    decreases |a|
  {
    if |a| > 0 {
      assert (a + b)[1..] == a[1..] + b;
      assert a[0] != sep;
      SplitFront(a[1..], b, sep);
      assert [a[0]] + (a[1..] + SplitOn(b, sep)[0]) == a + SplitOn(b, sep)[0];
    } else {
      var r := SplitOn(b, sep);
      assert a + b == b;
      assert a + r[0] == r[0];
      assert r == [r[0]] + r[1..];
    }
  }

  /** Splitting the joined pieces gives the pieces back when none holds the separator. */
  lemma {:induction false} SplitJoin(parts: seq<string>, sep: char)
    requires |parts| >= 1
    requires forall i | 0 <= i < |parts| :: sep !in parts[i]
    ensures SplitOn(JoinWith(parts, [sep]), sep) == parts
    decreases |parts|
  {
    if |parts| == 1 {
      SplitFront(parts[0], "", sep);
      assert parts[0] + "" == parts[0];
    } else {
      var rest := JoinWith(parts[1..], [sep]);
      SplitJoin(parts[1..], sep);
      assert parts[0] + [sep] + rest == parts[0] + ([sep] + rest);
      SplitFront(parts[0], [sep] + rest, sep);
      assert ([sep] + rest)[1..] == rest;
      assert SplitOn([sep] + rest, sep) == [""] + parts[1..];
      assert parts[0] + "" == parts[0];
    }
  }

  // ---------------------------------------------------------------- the patterns

  /**
   `kws[0]\s+kws[1]\s+…\s+` under `(?i)` from `p`: where the last run of spaces ends. A run
   of `\s+` in front of a keyword can only end where the keyword starts, so it takes all the
   spaces there are.
   */
  function ChainEnd(s: string, p: nat, kws: seq<string>): (r: Option<nat>)
    requires p <= |s|
    ensures r.Some? ==> p <= r.value <= |s|
    decreases |kws|
  {
    if |kws| == 0 then Some(p)
    else if !KeywordAt(s, p, kws[0], true) then None
    else
      var q := p + |kws[0]|;
      var e := RunEnd(s, q, Space);
      if e == q then None else ChainEnd(s, e, kws[1..])
  }

  /** The keywords, each followed by at least one space, span `s[p..a]`. */
  predicate Chain(s: string, p: nat, kws: seq<string>, a: nat)
    decreases |kws|
  {
    if |kws| == 0 then a == p
    else
      KeywordAt(s, p, kws[0], true)
      && exists m | p + |kws[0]| < m <= |s| :: All(s, p + |kws[0]|, m, Space) && Chain(s, m, kws[1..], a)
  }

  /** `kws…\s+(\w+)` under `(?i)` at `p`: the span of the name, as long as the run of word characters. */
  function NameAt(s: string, p: nat, kws: seq<string>): (r: Option<(nat, nat)>)
    requires p <= |s|
    ensures r.Some? ==> p <= r.value.0 < r.value.1 <= |s|
  {
    match ChainEnd(s, p, kws)
    case None => None
    case Some(a) =>
      var b := RunEnd(s, a, FoldedWord);
      if b == a then None else Some((a, b))
  }

  /** A match of `kws…\s+(\w+)` at `p` whose group is `s[a..b]`. */
  predicate NameMatch(s: string, p: nat, kws: seq<string>, a: nat, b: nat)
  {
    Chain(s, p, kws, a) && a < b <= |s| && All(s, a, b, FoldedWord)
  }

  /** `\s*=\s*` from `q`: where the spaces after the `=` end. */
  function AssignAt(s: string, q: nat): (r: Option<nat>)
    requires q <= |s|
    ensures r.Some? ==> q < r.value <= |s|
  {
    var g := RunEnd(s, q, Space);
    if g < |s| && s[g] == '=' then Some(RunEnd(s, g + 1, Space)) else None
  }

  /** `\s+WHERE\s+_ID\s*=\s*[\w\d]+` under `(?i)` from `b`, the tail of the DELETE pattern. */
  predicate DeleteTail(s: string, b: nat)
    requires b <= |s|
  {
    var e := RunEnd(s, b, Space);
    e > b && match ChainEnd(s, e, [KwWhere])
      case None => false
      case Some(f) =>
        KeywordAt(s, f, KwId, true) && match AssignAt(s, f + |KwId|)
          case None => false
          case Some(h) => h < |s| && In(FoldedWord, s[h])
  }

  /** `_ID\s*=\s*(\d+)`, case-sensitive, at `p`: the span of the digits, as many as there are. */
  function IdAt(s: string, p: nat): (r: Option<(nat, nat)>)
    requires p <= |s|
    ensures r.Some? ==> p < r.value.0 < r.value.1 <= |s|
  {
    if !KeywordAt(s, p, KwId, false) then None
    else match AssignAt(s, p + |KwId|)
      case None => None
      case Some(h) =>
        var d := RunEnd(s, h, Digit);
        if d == h then None else Some((h, d))
  }

  /** A match of `_ID\s*=\s*(\d+)` at `p` with its `=` at `g` and its group `s[h..d]`. */
  predicate IdMatch(s: string, p: nat, g: nat, h: nat, d: nat)
  {
    KeywordAt(s, p, KwId, false) && p + |KwId| <= g < h < d <= |s|
    && All(s, p + |KwId|, g, Space) && s[g] == '=' && All(s, g + 1, h, Space) && All(s, h, d, Digit)
  }

  /** `\s+FROM` under `(?i)` from `b`. */
  predicate FromAfter(s: string, b: nat)
    requires b <= |s|
  {
    var e := RunEnd(s, b, Space);
    e > b && KeywordAt(s, e, KwFrom, true)
  }

  /**
   The lazy `(.+?)` of the column pattern, started at `m` and tried up to `b`: the first end
   after which `\s+FROM` follows, the text before it holding no newline.
   */
  function LazyEnd(s: string, m: nat, b: nat): (r: Option<nat>)
    requires m < b <= |s| && All(s, m, b - 1, AnyButNewline)
    ensures r.Some? ==> b <= r.value <= |s| && All(s, m, r.value, AnyButNewline) && FromAfter(s, r.value)
    ensures r.Some? ==> forall b' | b <= b' < r.value :: !FromAfter(s, b')
    ensures r.None? ==> forall b' | b <= b' <= |s| && All(s, m, b', AnyButNewline) :: !FromAfter(s, b')
    decreases |s| - b
  {
    if s[b - 1] == '\n' then None
    else if FromAfter(s, b) then Some(b)
    else if b == |s| then None
    else LazyEnd(s, m, b + 1)
  }

  /**
   The greedy `\s+` after SELECT ends at `m` or earlier: each end is tried from the longest
   run down, and the first one the lazy group can follow wins.
   */
  function GreedyThenLazy(s: string, q: nat, m: nat): (r: Option<(nat, nat)>)
    requires q < m <= |s|
    ensures r.Some? ==> q < r.value.0 <= m && r.value.0 < r.value.1 <= |s|
    ensures r.Some? ==> All(s, r.value.0, r.value.1, AnyButNewline) && FromAfter(s, r.value.1)
    ensures r.Some? ==> forall b' | r.value.0 < b' < r.value.1 :: !FromAfter(s, b')
    ensures r.Some? ==> forall m', b' | r.value.0 < m' <= m && m' < b' <= |s| && All(s, m', b', AnyButNewline) :: !FromAfter(s, b')
    ensures r.None? ==> forall m', b' | q < m' <= m && m' < b' <= |s| && All(s, m', b', AnyButNewline) :: !FromAfter(s, b')
    decreases m
  {
    var lazy := if m < |s| then LazyEnd(s, m, m + 1) else None;
    if lazy.Some? then Some((m, lazy.value))
    else if m == q + 1 then None
    else GreedyThenLazy(s, q, m - 1)
  }

  /** `SELECT\s+(.+?)\s+FROM` under `(?i)` at `p`: the span of the column text. */
  function ColumnsAt(s: string, p: nat): (r: Option<(nat, nat)>)
    requires p <= |s|
    ensures r.Some? ==> p < r.value.0 < r.value.1 <= |s|
  {
    if !KeywordAt(s, p, KwSelect, true) then None
    else
      var q := p + |KwSelect|;
      var m := RunEnd(s, q, Space);
      if m == q then None else GreedyThenLazy(s, q, m)
  }

  /** A match of `SELECT\s+(.+?)\s+FROM` at `p` whose group is `s[m..b]`. */
  predicate ColumnsMatch(s: string, p: nat, m: nat, b: nat)
  {
    KeywordAt(s, p, KwSelect, true) && p + |KwSelect| < m < b <= |s|
    && All(s, p + |KwSelect|, m, Space) && All(s, m, b, AnyButNewline) && FromAfter(s, b)
  }

  /** The last `}` in `s[lo..hi]`. */
  function LastClose(s: string, lo: nat, hi: nat): (r: Option<nat>)
    requires lo <= hi <= |s|
    ensures r.Some? ==> lo <= r.value < hi && s[r.value] == '}'
    ensures r.Some? ==> forall q | r.value < q < hi :: s[q] != '}'
    ensures r.None? ==> forall q | lo <= q < hi :: s[q] != '}'
    decreases hi
  {
    if hi == lo then None
    else if s[hi - 1] == '}' then Some(hi - 1)
    else LastClose(s, lo, hi - 1)
  }

  /** `\{(.*)\}` at `p`: the span between the `{` and the last `}` on its line. */
  function BracesAt(s: string, p: nat): (r: Option<(nat, nat)>)
    requires p <= |s|
    ensures r.Some? ==> r.value.0 == p + 1 <= r.value.1 < |s|
  {
    if p < |s| && s[p] == '{' then
      match LastClose(s, p + 1, RunEnd(s, p + 1, AnyButNewline))
      case None => None
      case Some(q) => Some((p + 1, q))
    else None
  }

  /** A match of `\{(.*)\}` at `p` whose `}` is at `q`. */
  predicate BraceMatch(s: string, p: nat, q: nat)
  {
    p < q < |s| && s[p] == '{' && s[q] == '}' && All(s, p + 1, q, AnyButNewline)
  }

  /** The regular expressions of the parser. */
  datatype Pattern = CreateName | InsertName | SelectName | DeleteName | IdDigits | ColumnList | Braces

  /** The span of the group of the match of `pat` that starts at `p`, if there is one. */
  function MatchAt(pat: Pattern, s: string, p: nat): (r: Option<(nat, nat)>)
    requires p <= |s|
    ensures r.Some? ==> r.value.0 <= r.value.1 <= |s|
  {
    match pat
    case CreateName => NameAt(s, p, NameKeywords(pat))
    case InsertName => NameAt(s, p, NameKeywords(pat))
    case SelectName => NameAt(s, p, NameKeywords(pat))
    case DeleteName =>
      var g := NameAt(s, p, NameKeywords(pat));
      if g.Some? && DeleteTail(s, g.value.1) then g else None
    case IdDigits => IdAt(s, p)
    case ColumnList => ColumnsAt(s, p)
    case Braces => BracesAt(s, p)
  }

  /** `FindStringSubmatch`: the group of the leftmost match that starts at `p` or later. */
  function FindFirst(pat: Pattern, s: string, p: nat): (r: Option<(nat, nat)>)
    requires p <= |s|
    ensures r.Some? ==> r.value.0 <= r.value.1 <= |s|
  {
    var ms := MatchList(pat, s);
    FirstSomeLeftmost(ms, p);
    FirstSome(ms, p)
  }

  /** The leftmost `Some` of `ms` at index `p` or later. */
  function FirstSome<T>(ms: seq<Option<T>>, p: nat): (r: Option<T>)
    requires p <= |ms|
    decreases |ms| - p
  {
    if p == |ms| then None
    else if ms[p].Some? then ms[p]
    else FirstSome(ms, p + 1)
  }

  lemma {:induction false} FirstSomeLeftmost<T>(ms: seq<Option<T>>, p: nat)
    requires p <= |ms|
    ensures FirstSome(ms, p).Some? <==> exists q | p <= q < |ms| :: ms[q].Some?
    ensures FirstSome(ms, p).Some? ==>
      exists q | p <= q < |ms| :: ms[q] == FirstSome(ms, p) && forall q' | p <= q' < q :: ms[q'].None?
    decreases |ms| - p
  {
    if p < |ms| && ms[p].None? {
      FirstSomeLeftmost(ms, p + 1);
      if FirstSome(ms, p + 1).Some? {
        var q :| p + 1 <= q < |ms| && ms[q] == FirstSome(ms, p + 1) && forall q' | p + 1 <= q' < q :: ms[q'].None?;
        assert forall q' | p <= q' < q :: ms[q'].None?;
      }
    }
  }

  /** The first `Some` from `p` on is the one at `q` when every entry in between is `None`. */
  lemma {:induction false} FirstSomeAt<T>(ms: seq<Option<T>>, p: nat, q: nat)
    requires p <= q < |ms| && ms[q].Some?
    requires forall j | p <= j < q :: ms[j].None?
    ensures FirstSome(ms, p) == ms[q]
    decreases q - p
  {
    if p < q {
      FirstSomeAt(ms, p + 1, q);
    }
  }

  /** The matches of `pat` at every position of `s`, the end included. */
  function MatchList(pat: Pattern, s: string): (ms: seq<Option<(nat, nat)>>)
    ensures |ms| == |s| + 1
  {
    seq(|s| + 1, (q: int) requires 0 <= q <= |s| => MatchAt(pat, s, q))
  }

  /** `FindFirst` finds a group exactly when some position matches, and then it is the leftmost one's. */
  lemma FindFirstLeftmost(pat: Pattern, s: string, p: nat)
    requires p <= |s|
    ensures FindFirst(pat, s, p).Some? <==> exists p' | p <= p' <= |s| :: MatchAt(pat, s, p').Some?
    ensures FindFirst(pat, s, p).Some? ==>
      exists p' | p <= p' <= |s| :: MatchAt(pat, s, p') == FindFirst(pat, s, p)
        && forall p'' | p <= p'' < p' :: MatchAt(pat, s, p'').None?
  {
    var ms := MatchList(pat, s);
    FirstSomeLeftmost(ms, p);
    assert forall q | 0 <= q <= |s| :: ms[q] == MatchAt(pat, s, q);
  }

  // ---------------------------------------------------------------- the patterns read as regular expressions

  /** A run of `cls` characters reaches at least as far as any stretch of them. */
  lemma RunCovers(s: string, p: nat, e: nat, cls: Class)
    requires p <= e <= |s| && All(s, p, e, cls)
    ensures e <= RunEnd(s, p, cls)
  {
  }

  lemma {:induction false} ChainSound(s: string, p: nat, kws: seq<string>)
    requires p <= |s| && ChainEnd(s, p, kws).Some?
    ensures Chain(s, p, kws, ChainEnd(s, p, kws).value)
    decreases |kws|
  {
    if |kws| > 0 {
      var e := RunEnd(s, p + |kws[0]|, Space);
      ChainSound(s, e, kws[1..]);
    }
  }

  /** A chain whose last run of spaces is not followed by another space is the one `ChainEnd` finds. */
  lemma {:induction false} ChainComplete(s: string, p: nat, kws: seq<string>, a: nat)
    requires AreKeywords(kws) && p <= a <= |s| && Chain(s, p, kws, a)
    requires a == |s| || !In(Space, s[a])
    ensures ChainEnd(s, p, kws) == Some(a)
    decreases |kws|
  {
    if |kws| > 0 {
      var q := p + |kws[0]|;
      var m :| q < m <= |s| && All(s, q, m, Space) && Chain(s, m, kws[1..], a);
      if |kws| > 1 {
        assert KeywordAt(s, m, kws[1], true);
        assert IsKeyword(kws[1]);
        KeywordCharNotSpace(s[m + 0], kws[1][0]);
      }
      RunEndIs(s, q, m, Space);
      assert AreKeywords(kws[1..]) by {
        forall i | 0 <= i < |kws| - 1 ensures IsKeyword(kws[1..][i]) {
          assert kws[1..][i] == kws[i + 1];
        }
      }
      if |kws| > 1 {
        ChainBounded(s, m, kws[1..], a);
      }
      ChainComplete(s, m, kws[1..], a);
    }
  }

  /** A chain ends no earlier than it starts. */
  lemma {:induction false} ChainBounded(s: string, p: nat, kws: seq<string>, a: nat)
    requires Chain(s, p, kws, a)
    ensures p <= a
    decreases |kws|
  {
    if |kws| > 0 {
      var m :| p + |kws[0]| < m <= |s| && All(s, p + |kws[0]|, m, Space) && Chain(s, m, kws[1..], a);
      ChainBounded(s, m, kws[1..], a);
    }
  }

  /**
   `NameAt` finds a match exactly when `kws…\s+(\w+)` matches at `p`, and its group is the one
   Go reports: every match at `p` starts its group at the same place, and the group found is
   the longest.
   */
  lemma NameAtExact(s: string, p: nat, kws: seq<string>)
    requires p <= |s| && AreKeywords(kws)
    ensures NameAt(s, p, kws).Some? <==> exists a: nat, b: nat :: NameMatch(s, p, kws, a, b)
    ensures NameAt(s, p, kws).Some? ==>
      var g := NameAt(s, p, kws).value;
      NameMatch(s, p, kws, g.0, g.1) && (g.1 == |s| || !In(FoldedWord, s[g.1]))
      && forall a: nat, b: nat | NameMatch(s, p, kws, a, b) :: a == g.0 && b <= g.1
  {
    forall a: nat, b: nat | NameMatch(s, p, kws, a, b)
      ensures ChainEnd(s, p, kws) == Some(a) && b <= RunEnd(s, a, FoldedWord)
    {
      ChainBounded(s, p, kws, a);
      assert In(FoldedWord, s[a]);
      ChainComplete(s, p, kws, a);
      RunCovers(s, a, b, FoldedWord);
    }
    if NameAt(s, p, kws).Some? {
      ChainSound(s, p, kws);
      var g := NameAt(s, p, kws).value;
      assert NameMatch(s, p, kws, g.0, g.1);
    }
  }

  /** `IdAt` finds a match exactly when `_ID\s*=\s*(\d+)` matches at `p`, and its group is the longest. */
  lemma IdAtExact(s: string, p: nat)
    requires p <= |s|
    ensures IdAt(s, p).Some? <==> exists g: nat, h: nat, d: nat :: IdMatch(s, p, g, h, d)
    ensures IdAt(s, p).Some? ==>
      var r := IdAt(s, p).value;
      (exists g: nat :: IdMatch(s, p, g, r.0, r.1)) && (r.1 == |s| || !In(Digit, s[r.1]))
      && forall g: nat, h: nat, d: nat | IdMatch(s, p, g, h, d) :: h == r.0 && d <= r.1
  {
    if IdAt(s, p).Some? {
      var g := RunEnd(s, p + |KwId|, Space);
      assert IdMatch(s, p, g, IdAt(s, p).value.0, IdAt(s, p).value.1);
    }
    forall g: nat, h: nat, d: nat | IdMatch(s, p, g, h, d)
      ensures AssignAt(s, p + |KwId|) == Some(h) && d <= RunEnd(s, h, Digit)
    {
      RunEndIs(s, p + |KwId|, g, Space);
      RunEndIs(s, g + 1, h, Space);
      RunCovers(s, h, d, Digit);
    }
  }

  /** `FromAfter` reads `\s+FROM`. */
  lemma FromAfterExact(s: string, b: nat)
    requires b <= |s|
    ensures FromAfter(s, b) <==> exists e | b < e <= |s| :: All(s, b, e, Space) && KeywordAt(s, e, KwFrom, true)
  {
    forall e | b < e <= |s| && All(s, b, e, Space) && KeywordAt(s, e, KwFrom, true)
      ensures RunEnd(s, b, Space) == e
    {
      KeywordCharNotSpace(s[e + 0], KwFrom[0]);
      RunEndIs(s, b, e, Space);
    }
  }

  /**
   `ColumnsAt` finds a match exactly when `SELECT\s+(.+?)\s+FROM` matches at `p`, and its group
   is the one Go reports: no match has a longer run of spaces after SELECT, and none with
   this run has a shorter group.
   */
  lemma ColumnsAtExact(s: string, p: nat)
    requires p <= |s|
    ensures ColumnsAt(s, p).Some? <==> exists m: nat, b: nat :: ColumnsMatch(s, p, m, b)
    ensures ColumnsAt(s, p).Some? ==>
      var r := ColumnsAt(s, p).value;
      ColumnsMatch(s, p, r.0, r.1)
      && (forall m: nat, b: nat | ColumnsMatch(s, p, m, b) :: m <= r.0)
      && (forall b: nat | ColumnsMatch(s, p, r.0, b) :: r.1 <= b)
  {
    forall m: nat, b: nat | ColumnsMatch(s, p, m, b)
      ensures m <= RunEnd(s, p + |KwSelect|, Space)
    {
      RunCovers(s, p + |KwSelect|, m, Space);
    }
    if ColumnsAt(s, p).Some? {
      var q := p + |KwSelect|;
      var r := ColumnsAt(s, p).value;
      assert All(s, q, r.0, Space);
      assert ColumnsMatch(s, p, r.0, r.1);
    }
  }

  /** `BracesAt` finds a match exactly when `\{(.*)\}` matches at `p`, and takes the last `}` it can. */
  lemma BracesAtExact(s: string, p: nat)
    requires p <= |s|
    ensures BracesAt(s, p).Some? <==> exists q: nat :: BraceMatch(s, p, q)
    ensures BracesAt(s, p).Some? ==>
      var q := BracesAt(s, p).value.1;
      BraceMatch(s, p, q) && forall q': nat | BraceMatch(s, p, q') :: q' <= q
  {
    forall q: nat | BraceMatch(s, p, q)
      ensures q < RunEnd(s, p + 1, AnyButNewline)
    {
      RunCovers(s, p + 1, q, AnyButNewline);
      assert In(AnyButNewline, s[q]);
    }
    if BracesAt(s, p).Some? {
      var q := BracesAt(s, p).value.1;
      assert BraceMatch(s, p, q);
    }
  }

  /** The leftmost match of a pattern, with the text before it free of matches. */
  lemma FirstMatch(pat: Pattern, s: string)
    requires FindFirst(pat, s, 0).Some?
    ensures exists p | 0 <= p <= |s| :: MatchAt(pat, s, p) == FindFirst(pat, s, 0)
              && forall p' | 0 <= p' < p :: MatchAt(pat, s, p').None?
  {
    FindFirstLeftmost(pat, s, 0);
  }

  // ---------------------------------------------------------------- extraction

  /** `errors.OQLSyntaxError` with its message. */
  datatype OqlError = SyntaxError(msg: string)

  const NoFields: string := "failed to extract fields"
  const NoName: string := "failed to extract document name"
  const NoDeleteName: string := "failed to extract document name from DELETE query"
  const NoId: string := "failed to extract _ID"
  const IdOverflow: string := "failed to parse _ID to int64"
  const BadJson: string := "invalid JSON schema: "
  const Unsupported: string := "unsupported statement"

  /**
   `FindStringSubmatch(s)[1]`: a group is found exactly when the pattern matches at some
   position, and it is the group of the leftmost such position.
   */
  function Group(s: string, pat: Pattern): (r: Option<string>)
    ensures r.Some? <==> exists p | 0 <= p <= |s| :: MatchAt(pat, s, p).Some?
    ensures r.Some? ==>
      exists p | 0 <= p <= |s| ::
        && MatchAt(pat, s, p).Some?
        && (forall q | 0 <= q < p :: MatchAt(pat, s, q).None?)
        && r.value == s[MatchAt(pat, s, p).value.0..MatchAt(pat, s, p).value.1]
    ensures r.Some? <==> FindFirst(pat, s, 0).Some?
    ensures r.Some? ==> r.value == s[FindFirst(pat, s, 0).value.0..FindFirst(pat, s, 0).value.1]
  {
    FindFirstLeftmost(pat, s, 0);
    match FindFirst(pat, s, 0)
    case None => None
    case Some(g) => Some(s[g.0..g.1])
  }

  /** `extractOutermost(input, '{', '}')`. */
  function ExtractOutermost(s: string): Result<string, OqlError>
  {
    match Group(s, Braces)
    case None => Err(SyntaxError(NoFields))
    case Some(body) => Ok(body)
  }

  /**
   `extractOutermost` fails exactly when no `{` has a `}` after it on the same line; otherwise
   it returns the text after the first such `{` up to the last `}` of that line.
   */
  lemma ExtractOutermostExact(s: string)
    ensures ExtractOutermost(s).Err? <==> forall p: nat, q: nat :: !BraceMatch(s, p, q)
    ensures ExtractOutermost(s).Err? ==> ExtractOutermost(s).error == SyntaxError(NoFields)
    ensures ExtractOutermost(s).Ok? ==>
      exists p: nat, q: nat :: BraceMatch(s, p, q) && ExtractOutermost(s).value == s[p + 1..q]
        && (forall p': nat, q': nat | p' < p :: !BraceMatch(s, p', q'))
        && forall q': nat | BraceMatch(s, p, q') :: q' <= q
  {
    if FindFirst(Braces, s, 0).Some? {
      OutermostFound(s);
    } else {
      OutermostMissing(s);
    }
  }

  lemma OutermostFound(s: string)
    requires FindFirst(Braces, s, 0).Some?
    ensures exists p: nat, q: nat ::
      BraceMatch(s, p, q) && ExtractOutermost(s) == Ok(s[p + 1..q])
      && (forall p': nat, q': nat | p' < p :: !BraceMatch(s, p', q'))
      && forall q': nat | BraceMatch(s, p, q') :: q' <= q
  {
    FirstMatch(Braces, s);
    var p :| 0 <= p <= |s| && MatchAt(Braces, s, p) == FindFirst(Braces, s, 0)
      && forall p' | 0 <= p' < p :: MatchAt(Braces, s, p').None?;
    var q := OutermostAt(s, p);
  }

  /** The leftmost match of `\{(.*)\}`, at `p`, is the one `extractOutermost` reports. */
  lemma OutermostAt(s: string, p: nat) returns (q: nat)
    requires p <= |s| && MatchAt(Braces, s, p).Some? && MatchAt(Braces, s, p) == FindFirst(Braces, s, 0)
    requires forall p' | 0 <= p' < p :: MatchAt(Braces, s, p').None?
    ensures BraceMatch(s, p, q) && ExtractOutermost(s) == Ok(s[p + 1..q])
    ensures forall p': nat, q': nat | p' < p :: !BraceMatch(s, p', q')
    ensures forall q': nat | BraceMatch(s, p, q') :: q' <= q
  {
    BracesAtExact(s, p);
    q := BracesAt(s, p).value.1;
    forall p': nat, q': nat | p' < p ensures !BraceMatch(s, p', q') {
      assert MatchAt(Braces, s, p').None?;
      BracesAtExact(s, p');
    }
  }

  lemma OutermostMissing(s: string)
    requires FindFirst(Braces, s, 0).None?
    ensures forall p: nat, q: nat :: !BraceMatch(s, p, q)
  {
    FindFirstLeftmost(Braces, s, 0);
    forall p: nat, q: nat ensures !BraceMatch(s, p, q) {
      if p <= |s| {
        assert MatchAt(Braces, s, p).None?;
        BracesAtExact(s, p);
      }
    }
  }

  /** The keywords of the name patterns. */
  function NameKeywords(pat: Pattern): seq<string>
  {
    match pat
    case CreateName => [KwCreate, KwDocument]
    case InsertName => [KwInsert, KwValue, KwInto]
    case DeleteName => [KwDelete, KwDocument, KwFrom]
    case _ => [KwFrom]
  }

  /**
   `extractDocumentNameFromCreateQuery`, `…FromInsertQuery` and `…FromSelectQuery` find a name
   exactly when their pattern matches somewhere, and report the group of the leftmost match,
   as long as its run of word characters.
   */
  lemma NameGroupExact(s: string, pat: Pattern)
    requires pat == CreateName || pat == InsertName || pat == SelectName
    ensures Group(s, pat).Some? <==> exists p: nat, a: nat, b: nat :: NameMatch(s, p, NameKeywords(pat), a, b)
    ensures Group(s, pat).Some? ==>
      exists p: nat, a: nat, b: nat :: NameMatch(s, p, NameKeywords(pat), a, b) && Group(s, pat).value == s[a..b]
        && (b == |s| || !In(FoldedWord, s[b]))
        && (forall p': nat, a': nat, b': nat | p' < p :: !NameMatch(s, p', NameKeywords(pat), a', b'))
  {
    var kws := NameKeywords(pat);
    KeywordsAreKeywords();
    assert AreKeywords(kws);
    forall p: nat | p <= |s| ensures MatchAt(pat, s, p) == NameAt(s, p, kws) {
    }
    if FindFirst(pat, s, 0).Some? {
      FirstMatch(pat, s);
      var p :| 0 <= p <= |s| && MatchAt(pat, s, p) == FindFirst(pat, s, 0)
        && forall p' | 0 <= p' < p :: MatchAt(pat, s, p').None?;
      NameAtExact(s, p, kws);
      var g := NameAt(s, p, kws).value;
      assert NameMatch(s, p, kws, g.0, g.1);
      forall p': nat, a': nat, b': nat | p' < p ensures !NameMatch(s, p', kws, a', b') {
        NameAtExact(s, p', kws);
      }
    } else {
      FindFirstLeftmost(pat, s, 0);
      forall p: nat, a: nat, b: nat ensures !NameMatch(s, p, kws, a, b) {
        if NameMatch(s, p, kws, a, b) {
          ChainBounded(s, p, kws, a);
          NameAtExact(s, p, kws);
        }
      }
    }
  }

  const MaxI64: int := 0x7FFF_FFFF_FFFF_FFFF

  /** A text of digits is trimmed and its value is not negative. */
  lemma {:induction false} DigitsValue(d: string)
    requires IsDigits(d)
    ensures Trimmed(d) && GoPath.ParseDigits(d) >= 0
    decreases |d|
  {
    if |d| > 0 {
      DigitsValue(d[..|d| - 1]);
    }
  }

  /** Every character is a decimal digit. */
  predicate IsDigits(t: string)
  {
    forall k | 0 <= k < |t| :: '0' <= t[k] <= '9'
  }

  /**
   `strconv.ParseInt(text, 10, 64)` on the text of a `\d+` group: its value, unless that
   overflows an `int64`.
   */
  function ParseId(text: string): (r: Result<Converters.I64, OqlError>)
    ensures r.Ok? <==> IsDigits(text) && GoPath.ParseDigits(text) <= MaxI64
    ensures r.Ok? ==> r.value == GoPath.ParseDigits(text)
    ensures r.Err? ==> r.error == SyntaxError(IdOverflow)
  {
    if IsDigits(text) then
      DigitsValue(text);
      var n := GoPath.ParseDigits(text);
      if n <= MaxI64 then Ok(n) else Err(SyntaxError(IdOverflow))
    else Err(SyntaxError(IdOverflow))
  }

  /**
   `extractID`: the digits of the leftmost `_ID\s*=\s*(\d+)` as an `int64`; `strconv.ParseInt`
   rejects a value above the largest `int64`.
   */
  function ExtractId(s: string): Result<Converters.I64, OqlError>
  {
    match FindFirst(IdDigits, s, 0)
    case None => Err(SyntaxError(NoId))
    case Some(g) => ParseId(TrimSpace(s[g.0..g.1]))
  }

  /** Where the leftmost match of `_ID\s*=\s*(\d+)` starts. */
  function IdStart(s: string): (p: nat)
    requires FindFirst(IdDigits, s, 0).Some?
    ensures p <= |s| && MatchAt(IdDigits, s, p) == FindFirst(IdDigits, s, 0)
    ensures forall p' | 0 <= p' < p :: MatchAt(IdDigits, s, p').None?
  {
    FirstMatch(IdDigits, s);
    var p :| 0 <= p <= |s| && MatchAt(IdDigits, s, p) == FindFirst(IdDigits, s, 0)
      && forall p' | 0 <= p' < p :: MatchAt(IdDigits, s, p').None?;
    p
  }

  /**
   `extractID` fails with "failed to extract _ID" exactly when `_ID\s*=\s*(\d+)` matches
   nowhere; otherwise it parses all the digits of the leftmost match.
   */
  lemma ExtractIdExact(s: string)
    ensures ExtractId(s) == Err(SyntaxError(NoId)) <==> forall p: nat, g: nat, h: nat, d: nat :: !IdMatch(s, p, g, h, d)
    ensures ExtractId(s) != Err(SyntaxError(NoId)) ==>
      exists p: nat, g: nat, h: nat, d: nat ::
        (IdMatch(s, p, g, h, d) && (d == |s| || !In(Digit, s[d]))
        && (forall p': nat, g': nat, h': nat, d': nat | p' < p :: !IdMatch(s, p', g', h', d'))
        && ExtractId(s) == ParseId(s[h..d]))
  {
    assert |NoId| != |IdOverflow|;
    if FindFirst(IdDigits, s, 0).Some? {
      var g, h, d := IdFound(s);
    } else {
      FindFirstLeftmost(IdDigits, s, 0);
      forall p: nat, g: nat, h: nat, d: nat ensures !IdMatch(s, p, g, h, d) {
        if p <= |s| {
          assert MatchAt(IdDigits, s, p).None?;
          IdAtExact(s, p);
        }
      }
    }
  }

  lemma IdFound(s: string) returns (g: nat, h: nat, d: nat)
    requires FindFirst(IdDigits, s, 0).Some?
    ensures IdMatch(s, IdStart(s), g, h, d) && (d == |s| || !In(Digit, s[d]))
    ensures forall p': nat, g': nat, h': nat, d': nat | p' < IdStart(s) :: !IdMatch(s, p', g', h', d')
    ensures ExtractId(s) == ParseId(s[h..d])
  {
    var p := IdStart(s);
    IdAtExact(s, p);
    h, d := IdAt(s, p).value.0, IdAt(s, p).value.1;
    g :| IdMatch(s, p, g, h, d);
    forall p': nat, g': nat, h': nat, d': nat | p' < p ensures !IdMatch(s, p', g', h', d') {
      assert MatchAt(IdDigits, s, p').None?;
      IdAtExact(s, p');
    }
    assert FindFirst(IdDigits, s, 0) == Some((h, d));
    assert IsDigits(s[h..d]) by {
      forall k | 0 <= k < d - h ensures '0' <= s[h..d][k] <= '9' {
        assert s[h..d][k] == s[h + k] && In(Digit, s[h + k]);
      }
    }
    IdGroupParsed(s, h, d);
  }

  /** The group of the leftmost match is all digits, so trimming it changes nothing. */
  lemma IdGroupParsed(s: string, h: nat, d: nat)
    requires FindFirst(IdDigits, s, 0) == Some((h, d)) && h <= d <= |s| && IsDigits(s[h..d])
    ensures ExtractId(s) == ParseId(s[h..d])
  {
    DigitsValue(s[h..d]);
    TrimSpacePadded("", s[h..d], "");
    assert "" + s[h..d] + "" == s[h..d];
  }

  /**
   When the query has a single `=` and `_ID\s*=\s*(\d+)` matches around it, that match is the
   one `extractID` parses.
   */
  lemma IdUnique(s: string, p: nat, g: nat, h: nat, d: nat)
    requires IdMatch(s, p, g, h, d) && (d == |s| || !In(Digit, s[d]))
    requires forall k | 0 <= k < |s| && s[k] == '=' :: k == g
    ensures ExtractId(s) == ParseId(s[h..d])
  {
    IdAtExact(s, p);
    assert MatchAt(IdDigits, s, p).Some?;
    FindFirstLeftmost(IdDigits, s, 0);
    var g', h', d' := IdFound(s);
    var p' := IdStart(s);
    assert g' == g;
    assert p' == p by {
      IdKeywordAt(s, p, p', g);
    }
    assert h' == h by {
      RunEndIs(s, g + 1, h, Space);
      RunEndIs(s, g + 1, h', Space);
    }
    assert d' == d by {
      RunEndIs(s, h, d, Digit);
      RunEndIs(s, h, d', Digit);
    }
  }

  /** Two `_ID`s followed by spaces up to the same `=` start at the same place. */
  lemma IdKeywordAt(s: string, p: nat, p': nat, g: nat)
    requires KeywordAt(s, p, KwId, false) && p + |KwId| <= g <= |s| && All(s, p + |KwId|, g, Space)
    requires KeywordAt(s, p', KwId, false) && p' + |KwId| <= g && All(s, p' + |KwId|, g, Space)
    ensures p <= p'
  {
    assert s[p] == '_' by {
      assert s[p + 0] == KwId[0];
    }
    assert s[p' + 1] == 'I' && s[p' + 2] == 'D' by {
      assert s[p' + 1] == KwId[1] && s[p' + 2] == KwId[2];
    }
    KeywordCharNotSpace(s[p], '_');
  }

  /** Each piece trimmed. */
  function TrimAll(parts: seq<string>): (r: seq<string>)
    ensures |r| == |parts| && forall i | 0 <= i < |parts| :: r[i] == TrimSpace(parts[i])
  {
    if |parts| == 0 then [] else [TrimSpace(parts[0])] + TrimAll(parts[1..])
  }

  /** `extractColumnNames`: the column text split at commas and trimmed, nil (here empty) without a match. */
  function ExtractColumnNames(s: string): seq<string>
  {
    match Group(s, ColumnList)
    case None => []
    case Some(text) => TrimAll(SplitOn(text, ','))
  }

  // ---------------------------------------------------------------- the statements

  /** The parsed statement: `CreateOp`, `InsertOp`, `SelectOp` or `DeleteOp`. */
  datatype Query =
    | CreateOp(document: string, schema: Schema.Entries)
    | InsertOp(document: string, value: Schema.Entries)
    | SelectOp(document: string, columns: seq<string>, id: Converters.I64)
    | DeleteOp(document: string, id: Converters.I64)

  /** `json.Unmarshal` into a map: its entries, or the decoder's error message. */
  type Decoder = string -> Result<Schema.Entries, string>

  /** `ParseCreateQuery`: the JSON body, then the document name, then the decoded schema. */
  function ParseCreateQuery(input: string, decode: Decoder): (r: Result<Query, OqlError>)
    ensures r.Ok? ==> r.value.CreateOp?
  {
    match ExtractOutermost(input)
    case Err(e) => Err(e)
    case Ok(doc) =>
      match Group(input, CreateName)
      case None => Err(SyntaxError(NoName))
      case Some(name) =>
        match decode("{" + doc + "}")
        case Err(msg) => Err(SyntaxError(BadJson + msg))
        case Ok(schema) => Ok(CreateOp(name, schema))
  }

  /** `ParseInsertQuery`: the JSON body, then the document name, then the decoded value. */
  function ParseInsertQuery(input: string, decode: Decoder): (r: Result<Query, OqlError>)
    ensures r.Ok? ==> r.value.InsertOp?
  {
    match ExtractOutermost(input)
    case Err(e) => Err(e)
    case Ok(doc) =>
      match Group(input, InsertName)
      case None => Err(SyntaxError(NoName))
      case Some(name) =>
        match decode("{" + doc + "}")
        case Err(msg) => Err(SyntaxError(BadJson + msg))
        case Ok(value) => Ok(InsertOp(name, value))
  }

  /** `ParseSelectQuery`: the document name, then the `_ID`, then the columns. */
  function ParseSelectQuery(input: string): (r: Result<Query, OqlError>)
    ensures r.Ok? ==> r.value.SelectOp?
  {
    match Group(input, SelectName)
    case None => Err(SyntaxError(NoName))
    case Some(name) =>
      match ExtractId(input)
      case Err(e) => Err(e)
      case Ok(id) => Ok(SelectOp(name, ExtractColumnNames(input), id))
  }

  /** `ParseDeleteQuery`: the document name from the whole DELETE pattern, then the `_ID`. */
  function ParseDeleteQuery(input: string): (r: Result<Query, OqlError>)
    ensures r.Ok? ==> r.value.DeleteOp?
  {
    match Group(input, DeleteName)
    case None => Err(SyntaxError(NoDeleteName))
    case Some(name) =>
      match ExtractId(input)
      case Err(e) => Err(e)
      case Ok(id) => Ok(DeleteOp(name, id))
  }

  // ---------------------------------------------------------------- dispatch

  /** `unicode.ToUpper` as far as it can produce an ASCII letter: `a`-`z`, the dotless i and the long s. */
  function UpperRune(c: char): (r: char)
    ensures IsUnicodeSpace(r) <==> IsUnicodeSpace(c)
    ensures 'A' <= r <= 'Z' ==> r == c || r as int + 32 == c as int || (r == 'I' && c == '\U{131}') || (r == 'S' && c == '\U{17F}')
  {
    if 'a' <= c <= 'z' then (c as int - 32) as char
    else if c == '\U{131}' then 'I'
    else if c == '\U{17F}' then 'S'
    else c
  }

  /**
   `strings.ToUpper` as far as the dispatch can see it: no ASCII lower-case letter is left,
   spaces stay spaces, and a character comes out an ASCII capital exactly when it is one,
   is its lower-case letter, or is the dotless i or the long s. Every other character is
   kept as it is, so "é" stays "é" where Go gives "É"; the dispatch only tests the result
   for ASCII keyword prefixes and hands the untouched statement to the sub-parsers, so no
   other mapping changes what `Parse` does.
   */
  function Upper(s: string): (r: string)
    ensures |r| == |s| && forall i | 0 <= i < |s| :: r[i] == UpperRune(s[i])
    ensures forall i | 0 <= i < |r| :: !('a' <= r[i] <= 'z')
    ensures forall i | 0 <= i < |s| :: IsUnicodeSpace(r[i]) <==> IsUnicodeSpace(s[i])
    ensures forall i | 0 <= i < |s| :: 'A' <= r[i] <= 'Z' <==>
      ('A' <= s[i] <= 'Z' || 'a' <= s[i] <= 'z' || s[i] == '\U{131}' || s[i] == '\U{17F}')
  {
    seq(|s|, i requires 0 <= i < |s| => UpperRune(s[i]))
  }

  /** Upper-casing twice is upper-casing once. */
  lemma UpperIdempotent(s: string)
    ensures Upper(Upper(s)) == Upper(s)
  {
  }

  predicate HasPrefix(s: string, prefix: string)
  {
    |prefix| <= |s| && s[..|prefix|] == prefix
  }

  /** After the leading spaces, the statement starts with `kw` once upper-cased. */
  predicate LeadingKeyword(s: string, kw: string)
  {
    exists i: nat | i + |kw| <= |s| :: Blank(s[..i]) && Upper(s)[i..i + |kw|] == kw
  }

  /** The leading spaces of a text are those of its upper-case form. */
  lemma UpperBlank(s: string, i: nat)
    requires i <= |s|
    ensures Blank(Upper(s)[..i]) <==> Blank(s[..i])
  {
    var u := Upper(s);
    forall k | 0 <= k < i ensures IsUnicodeSpace(u[..i][k]) <==> IsUnicodeSpace(s[..i][k]) {
      assert u[..i][k] == UpperRune(s[k]);
    }
  }

  /**
   The test `parse` dispatches on: the trimmed, upper-cased statement starts with the keyword
   exactly when the statement does, after its leading spaces and up to case.
   */
  lemma HasPrefixExact(s: string, kw: string)
    requires IsKeyword(kw)
    ensures HasPrefix(TrimSpace(Upper(s)), kw) <==> LeadingKeyword(s, kw)
  {
    var u := Upper(s);
    if HasPrefix(TrimSpace(u), kw) {
      var i := TrimmedPrefixStart(u, kw);
      UpperBlank(s, i);
    }
    if LeadingKeyword(s, kw) {
      var i: nat :| i + |kw| <= |s| && Blank(s[..i]) && u[i..i + |kw|] == kw;
      UpperBlank(s, i);
      TrimmedPrefix(u, i, kw);
    }
  }

  /** A prefix of the trimmed text sits right after the leading spaces. */
  lemma TrimmedPrefixStart(u: string, kw: string) returns (i: nat)
    requires HasPrefix(TrimSpace(u), kw)
    ensures i + |kw| <= |u| && Blank(u[..i]) && u[i..i + |kw|] == kw
  {
    TrimSpacePlacement(u);
    var t := TrimSpace(u);
    i := |u| - |TrimLeft(u)|;
    assert u[i..i + |kw|] == t[..|kw|];
  }

  /** A keyword right after the leading spaces is a prefix of the trimmed text. */
  lemma TrimmedPrefix(u: string, i: nat, kw: string)
    requires IsKeyword(kw) && i + |kw| <= |u| && Blank(u[..i]) && u[i..i + |kw|] == kw
    ensures HasPrefix(TrimSpace(u), kw)
  {
    var l := u[i..];
    assert TrimLeft(u) == l by {
      assert u[i] == kw[0];
      assert u == u[..i] + l;
      TrimLeftPadded(u[..i], l);
    }
    assert l[..|kw|] == kw;
    TrimRightKeeps(l, |kw|);
  }

  /** Trailing spaces end after the last character that is not one. */
  lemma TrimRightKeeps(l: string, n: nat)
    requires 0 < n <= |l| && !IsUnicodeSpace(l[n - 1])
    ensures n <= |TrimRight(l)| && TrimRight(l)[..n] == l[..n]
  {
  }

  /** The four keywords start with different letters, so a statement leads with at most one of them. */
  lemma LeadingKeywordUnique(s: string, kw: string, kw': string)
    requires IsKeyword(kw) && IsKeyword(kw') && LeadingKeyword(s, kw) && LeadingKeyword(s, kw')
    ensures kw[0] == kw'[0]
  {
    var i: nat :| i + |kw| <= |s| && Blank(s[..i]) && Upper(s)[i..i + |kw|] == kw;
    var j: nat :| j + |kw'| <= |s| && Blank(s[..j]) && Upper(s)[j..j + |kw'|] == kw';
    assert Upper(s)[i] == kw[0] && Upper(s)[j] == kw'[0];
    KeywordRuneNotSpace(s[i]);
    KeywordRuneNotSpace(s[j]);
    FirstNonBlank(s, i, j);
    FirstNonBlank(s, j, i);
  }

  /** A character that upper-cases into a keyword character is not a space. */
  lemma KeywordRuneNotSpace(c: char)
    requires 'A' <= UpperRune(c) <= 'Z' || UpperRune(c) == '_'
    ensures !IsUnicodeSpace(c)
  {
    assert !IsUnicodeSpace(UpperRune(c));
  }

  /** A character that is not a space ends the leading spaces. */
  lemma FirstNonBlank(s: string, i: nat, j: nat)
    requires i < |s| && j <= |s| && !IsUnicodeSpace(s[i]) && Blank(s[..j])
    ensures j <= i
  {
  }

  /** `Parser.Build`/`parse`: the statement kind from the trimmed, upper-cased input; the parsers see the input as given. */
  function Parse(input: string, decode: Decoder): (r: Result<Query, OqlError>)
    ensures r.Ok? ==> r.value.SelectOp? || r.value.InsertOp? || r.value.CreateOp? || r.value.DeleteOp?
  {
    var u := TrimSpace(Upper(input));
    if HasPrefix(u, KwSelect) then ParseSelectQuery(input)
    else if HasPrefix(u, KwInsert) then ParseInsertQuery(input, decode)
    else if HasPrefix(u, KwCreate) then ParseCreateQuery(input, decode)
    else if HasPrefix(u, KwDelete) then ParseDeleteQuery(input)
    else Err(SyntaxError(Unsupported))
  }

  /**
   `parse` hands a statement to the parser of the keyword it leads with, and rejects one that
   leads with none of SELECT, INSERT, CREATE and DELETE as "unsupported statement".
   */
  lemma ParseDispatch(s: string, decode: Decoder)
    ensures LeadingKeyword(s, KwSelect) ==> Parse(s, decode) == ParseSelectQuery(s)
    ensures LeadingKeyword(s, KwInsert) ==> Parse(s, decode) == ParseInsertQuery(s, decode)
    ensures LeadingKeyword(s, KwCreate) ==> Parse(s, decode) == ParseCreateQuery(s, decode)
    ensures LeadingKeyword(s, KwDelete) ==> Parse(s, decode) == ParseDeleteQuery(s)
    ensures (!LeadingKeyword(s, KwSelect) && !LeadingKeyword(s, KwInsert) && !LeadingKeyword(s, KwCreate)
             && !LeadingKeyword(s, KwDelete)) ==> Parse(s, decode) == Err(SyntaxError(Unsupported))
  {
    KeywordsAreKeywords();
    HasPrefixExact(s, KwSelect);
    HasPrefixExact(s, KwInsert);
    HasPrefixExact(s, KwCreate);
    HasPrefixExact(s, KwDelete);
    if LeadingKeyword(s, KwSelect) && LeadingKeyword(s, KwInsert) {
      LeadingKeywordUnique(s, KwSelect, KwInsert);
    }
    if LeadingKeyword(s, KwSelect) && LeadingKeyword(s, KwCreate) {
      LeadingKeywordUnique(s, KwSelect, KwCreate);
    }
    if LeadingKeyword(s, KwSelect) && LeadingKeyword(s, KwDelete) {
      LeadingKeywordUnique(s, KwSelect, KwDelete);
    }
    if LeadingKeyword(s, KwInsert) && LeadingKeyword(s, KwCreate) {
      LeadingKeywordUnique(s, KwInsert, KwCreate);
    }
    if LeadingKeyword(s, KwInsert) && LeadingKeyword(s, KwDelete) {
      LeadingKeywordUnique(s, KwInsert, KwDelete);
    }
    if LeadingKeyword(s, KwCreate) && LeadingKeyword(s, KwDelete) {
      LeadingKeywordUnique(s, KwCreate, KwDelete);
    }
  }
}

=== FILE: oql_roundtrip.dfy ===
/**
 Statements written the way the query language's own examples write them, and what the parser
 makes of them: each keyword followed by one space, a `\w+` document name, the `_ID` after
 `WHERE` and the JSON body in braces. Parsing such a statement gives back its parts.
 */
module OqlRoundTrip {
  import opened Wrappers
  import GoPath
  import opened Oql

  // ---------------------------------------------------------------- building blocks

  /** The keywords, each followed by one space. */
  function Lead(kws: seq<string>): (r: string)
    requires AreKeywords(kws)
    ensures forall k | 0 <= k < |r| :: 'A' <= r[k] <= 'Z' || r[k] == '_' || r[k] == ' '
    decreases |kws|
  {
    if |kws| == 0 then ""
    else
      assert AreKeywords(kws[1..]) by {
        forall i | 0 <= i < |kws| - 1 ensures IsKeyword(kws[1..][i]) {
          assert kws[1..][i] == kws[i + 1];
        }
      }
      var rest := Lead(kws[1..]);
      var r := kws[0] + " " + rest;
      assert forall k | |kws[0]| + 1 <= k < |r| :: r[k] == rest[k - |kws[0]| - 1];
      r
  }

  /** A document name: one or more ASCII word characters. */
  predicate IsName(name: string)
  {
    |name| > 0 && forall k | 0 <= k < |name| :: In(Word, name[k])
  }

  /** The keywords of `Lead(kws)`, found at `p`, make a chain that ends where the text after them starts. */
  lemma {:induction false} ChainAt(s: string, p: nat, kws: seq<string>)
    requires AreKeywords(kws) && p + |Lead(kws)| <= |s| && s[p..p + |Lead(kws)|] == Lead(kws)
    ensures Chain(s, p, kws, p + |Lead(kws)|)
    decreases |kws|
  {
    if |kws| > 0 {
      var L := Lead(kws);
      var k0 := kws[0];
      assert AreKeywords(kws[1..]) by {
        forall i | 0 <= i < |kws| - 1 ensures IsKeyword(kws[1..][i]) {
          assert kws[1..][i] == kws[i + 1];
        }
      }
      var T := Lead(kws[1..]);
      assert L == k0 + " " + T;
      forall i | 0 <= i < |k0| ensures s[p + i] == k0[i] {
        assert s[p..p + |L|][i] == L[i];
      }
      assert s[p + |k0|] == ' ' by {
        assert s[p..p + |L|][|k0|] == L[|k0|];
      }
      var m := p + |k0| + 1;
      assert s[m..m + |T|] == T by {
        forall i | 0 <= i < |T| ensures s[m..m + |T|][i] == T[i] {
          assert s[p..p + |L|][|k0| + 1 + i] == L[|k0| + 1 + i];
        }
      }
      ChainAt(s, m, kws[1..]);
      assert KeywordAt(s, p, k0, true);
      assert All(s, p + |k0|, m, Space);
    }
  }

  /** A chain followed by a maximal run of word characters is the match `NameAt` finds. */
  lemma NameFound(s: string, p: nat, kws: seq<string>, a: nat, b: nat)
    requires AreKeywords(kws) && p <= a < b <= |s| && Chain(s, p, kws, a)
    requires All(s, a, b, FoldedWord) && (b == |s| || !In(FoldedWord, s[b]))
    ensures NameAt(s, p, kws) == Some((a, b))
  {
    assert !In(Space, s[a]);
    ChainComplete(s, p, kws, a);
    RunEndIs(s, a, b, FoldedWord);
  }

  /** The match that starts leftmost is the one `FindStringSubmatch` reports. */
  lemma GroupAt(pat: Pattern, s: string, p: nat)
    requires p <= |s| && MatchAt(pat, s, p).Some?
    requires forall p' | 0 <= p' < p :: MatchAt(pat, s, p').None?
    ensures FindFirst(pat, s, 0) == MatchAt(pat, s, p)
  {
    var ms := MatchList(pat, s);
    assert forall q | 0 <= q <= p :: ms[q] == MatchAt(pat, s, q);
    FirstSomeAt(ms, 0, p);
  }

  /** The group of the match that starts leftmost is the one `Group` returns. */
  lemma GroupOfLeftmost(pat: Pattern, s: string, p: nat)
    requires p <= |s| && MatchAt(pat, s, p).Some?
    requires forall p' | 0 <= p' < p :: MatchAt(pat, s, p').None?
    ensures Group(s, pat) == Some(s[MatchAt(pat, s, p).value.0..MatchAt(pat, s, p).value.1])
  {
    GroupAt(pat, s, p);
  }

  /** A single `=` between two texts without one. */
  lemma OneEquals(x: string, z: string)
    requires '=' !in x && '=' !in z
    ensures forall k | 0 <= k < |x + "=" + z| && k != |x| :: (x + "=" + z)[k] != '='
  {
    var s := x + "=" + z;
    forall k | 0 <= k < |s| && k != |x| ensures s[k] != '=' {
      if k < |x| {
        assert s[k] == x[k];
      } else {
        assert s[k] == z[k - |x| - 1];
      }
    }
  }

  /** A statement that starts with the keyword leads with it. */
  lemma LeadsWith(kw: string, rest: string)
    requires IsKeyword(kw)
    ensures LeadingKeyword(kw + rest, kw)
  {
    var s := kw + rest;
    assert Blank(s[..0]);
    assert Upper(s)[0..|kw|] == kw by {
      forall k | 0 <= k < |kw| ensures Upper(s)[0..|kw|][k] == kw[k] {
        assert s[k] == kw[k];
      }
    }
  }

  // ---------------------------------------------------------------- DELETE

  const DeleteKeywords: seq<string> := [KwDelete, KwDocument, KwFrom]
  const DeleteHead: string := "DELETE DOCUMENT FROM "
  const DeleteWhere: string := " WHERE _ID = "

  lemma DeleteHeadIsLead()
    ensures AreKeywords(DeleteKeywords) && Lead(DeleteKeywords) == DeleteHead
  {
    KeywordsAreKeywords();
    DocumentFromIsLead();
    assert DeleteKeywords[1..] == [KwDocument, KwFrom];
  }

  lemma DocumentFromIsLead()
    ensures AreKeywords([KwDocument, KwFrom]) && Lead([KwDocument, KwFrom]) == "DOCUMENT FROM "
  {
    KeywordsAreKeywords();
    assert [KwFrom][1..] == [];
    assert Lead([KwFrom]) == "FROM ";
    assert [KwDocument, KwFrom][1..] == [KwFrom];
  }

  /** `DELETE DOCUMENT FROM <name> WHERE _ID = <digits>`. */
  function DeleteText(name: string, digits: string): string
  {
    DeleteHead + name + DeleteWhere + digits
  }

  /** Where the parts of a DELETE statement sit. */
  predicate DeleteLayout(s: string, name: string, digits: string)
  {
    var b := |DeleteHead| + |name|;
    |s| == b + |DeleteWhere| + |digits| && s[..|DeleteHead|] == DeleteHead && s[|DeleteHead|..b] == name
    && s[b..b + |DeleteWhere|] == DeleteWhere && s[b + |DeleteWhere|..] == digits
  }

  lemma DeleteTextLayout(name: string, digits: string)
    ensures DeleteLayout(DeleteText(name, digits), name, digits)
  {
    var s := DeleteText(name, digits);
    var b := |DeleteHead| + |name|;
    assert s[..|DeleteHead|] == DeleteHead;
    assert s[|DeleteHead|..b] == name;
    assert s[b..b + |DeleteWhere|] == DeleteWhere;
    assert s[b + |DeleteWhere|..] == digits;
  }

  /** The pattern of `extractDocumentNameFromDeleteQuery` matches at the start, around the name. */
  lemma DeleteNameFound(s: string, name: string, digits: string)
    requires IsName(name) && |digits| > 0 && IsDigits(digits) && DeleteLayout(s, name, digits)
    ensures MatchAt(DeleteName, s, 0) == Some((|DeleteHead|, |DeleteHead| + |name|))
  {
    KeywordsAreKeywords();
    DeleteHeadIsLead();
    var a := |DeleteHead|;
    var b := a + |name|;
    assert s[0..a] == DeleteHead;
    ChainAt(s, 0, DeleteKeywords);
    assert All(s, a, b, FoldedWord) by {
      forall k | a <= k < b ensures In(FoldedWord, s[k]) {
        assert s[a..b][k - a] == name[k - a];
      }
    }
    assert s[b] == ' ' by {
      assert s[b..b + |DeleteWhere|][0] == DeleteWhere[0];
    }
    NameFound(s, 0, DeleteKeywords, a, b);
    DeleteTailAt(s, b, digits);
  }

  /** The tail `\s+WHERE\s+_ID\s*=\s*[\w\d]+` of the DELETE pattern matches after the name. */
  lemma DeleteTailAt(s: string, b: nat, digits: string)
    requires |s| == b + |DeleteWhere| + |digits| && |digits| > 0 && IsDigits(digits)
    requires s[b..b + |DeleteWhere|] == DeleteWhere && s[b + |DeleteWhere|..] == digits
    ensures DeleteTail(s, b)
  {
    assert s[b..b + 13][0] == s[b];
    SubSlice(s, b, b + 13, 1, 7);
    SubSlice(s, b, b + 13, 7, 10);
    SubSlice(s, b, b + 13, 10, 13);
    assert DeleteWhere[1..7] == "WHERE " && DeleteWhere[7..10] == "_ID" && DeleteWhere[10..13] == " = ";
    assert s[b + 13] == digits[0] by {
      assert s[b + |DeleteWhere|..][0] == digits[0];
    }
    WhereAfter(s, b);
    AssignBefore(s, b + 10);
    DeleteTailFrom(s, b, b + 13);
  }

  lemma SubSlice(s: string, b: nat, e: nat, i: nat, j: nat)
    requires b <= e <= |s| && i <= j <= e - b
    ensures s[b..e][i..j] == s[b + i..b + j]
  {
    assert |s[b..e][i..j]| == |s[b + i..b + j]|;
    forall k | 0 <= k < j - i ensures s[b..e][i..j][k] == s[b + i..b + j][k] {
      assert s[b..e][i..j][k] == s[b..e][i + k] == s[b + i + k];
    }
  }

  /** `\s+WHERE\s+` and `_ID` after a space. */
  lemma WhereAfter(s: string, b: nat)
    requires b + 10 <= |s| && s[b] == ' ' && s[b + 1..b + 7] == "WHERE " && s[b + 7..b + 10] == "_ID"
    ensures RunEnd(s, b, Space) == b + 1 && ChainEnd(s, b + 1, [KwWhere]) == Some(b + 7)
    ensures KeywordAt(s, b + 7, KwId, true)
  {
    KeywordsAreKeywords();
    assert s[b + 1] == s[b + 1..b + 7][0];
    RunEndIs(s, b, b + 1, Space);
    assert [KwWhere][1..] == [];
    assert Lead([KwWhere]) == "WHERE ";
    ChainAt(s, b + 1, [KwWhere]);
    assert s[b + 7] == s[b + 7..b + 10][0];
    ChainComplete(s, b + 1, [KwWhere], b + 7);
    forall i | 0 <= i < 3 ensures s[b + 7 + i] == KwId[i] {
      assert s[b + 7..b + 10][i] == KwId[i];
    }
  }

  /** `\s*=\s*` in ` = ` followed by a digit. */
  lemma AssignBefore(s: string, q: nat)
    requires q + 4 <= |s| && s[q..q + 3] == " = " && In(Digit, s[q + 3])
    ensures AssignAt(s, q) == Some(q + 3)
  {
    assert s[q] == s[q..q + 3][0] && s[q + 1] == s[q..q + 3][1] && s[q + 2] == s[q..q + 3][2];
    RunEndIs(s, q, q + 1, Space);
    RunEndIs(s, q + 2, q + 3, Space);
  }

  lemma DeleteTailFrom(s: string, b: nat, h: nat)
    requires b + 1 <= |s| && RunEnd(s, b, Space) == b + 1 && ChainEnd(s, b + 1, [KwWhere]) == Some(b + 7)
    requires b + 10 <= |s| && KeywordAt(s, b + 7, KwId, true) && AssignAt(s, b + 10) == Some(h)
    requires h < |s| && In(FoldedWord, s[h])
    ensures DeleteTail(s, b)
  {
  }

  /** The `_ID` of the statement is the one `extractID` parses. */
  lemma DeleteIdFound(s: string, name: string, digits: string)
    requires IsName(name) && |digits| > 0 && IsDigits(digits) && DeleteLayout(s, name, digits)
    ensures ExtractId(s) == ParseId(digits)
  {
    var b := |DeleteHead| + |name|;
    DeleteIdMatch(s, name, digits);
    DeleteOneEquals(s, name, digits);
    IdUnique(s, b + 7, b + 11, b + 13, |s|);
    assert s[b + 13..|s|] == digits;
  }

  lemma DeleteIdMatch(s: string, name: string, digits: string)
    requires IsName(name) && |digits| > 0 && IsDigits(digits) && DeleteLayout(s, name, digits)
    ensures var b := |DeleteHead| + |name|; IdMatch(s, b + 7, b + 11, b + 13, |s|)
  {
    var b := |DeleteHead| + |name|;
    var w := s[b..b + |DeleteWhere|];
    assert w[7] == s[b + 7] && w[8] == s[b + 8] && w[9] == s[b + 9] && w[10] == s[b + 10];
    assert w[11] == s[b + 11] && w[12] == s[b + 12];
    assert KeywordAt(s, b + 7, KwId, false);
    assert All(s, b + 13, |s|, Digit) by {
      forall k | b + 13 <= k < |s| ensures In(Digit, s[k]) {
        assert s[b + |DeleteWhere|..][k - b - 13] == digits[k - b - 13];
      }
    }
  }

  /** The only `=` of a DELETE statement is the one after `_ID`. */
  lemma DeleteOneEquals(s: string, name: string, digits: string)
    requires IsName(name) && IsDigits(digits) && DeleteLayout(s, name, digits)
    ensures forall k | 0 <= k < |s| && k != |DeleteHead| + |name| + 11 :: s[k] != '='
  {
    var b := |DeleteHead| + |name|;
    EqualsFree(s, 0, |DeleteHead|, DeleteHead);
    EqualsFree(s, |DeleteHead|, b, name);
    assert s[b..b + 11] == DeleteWhere[..11];
    EqualsFree(s, b, b + 11, DeleteWhere[..11]);
    assert s[b + 12..|s|] == DeleteWhere[12..] + digits;
    EqualsFree(s, b + 12, |s|, DeleteWhere[12..] + digits);
  }

  /** A piece of the text without `=` puts none there. */
  lemma EqualsFree(s: string, i: nat, j: nat, t: string)
    requires i <= j <= |s| && s[i..j] == t && '=' !in t
    ensures forall k | i <= k < j :: s[k] != '='
  {
    forall k | i <= k < j ensures s[k] != '=' {
      assert t[k - i] == s[k];
    }
  }

  /**
   `ParseDeleteQuery`, reached through `parse`, gives back the document name and the `_ID` of
   `DELETE DOCUMENT FROM <name> WHERE _ID = <digits>`, or the `int64` overflow error.
   */
  lemma DeleteParses(name: string, digits: string, decode: Decoder)
    requires IsName(name) && |digits| > 0 && IsDigits(digits)
    ensures Parse(DeleteText(name, digits), decode)
            == match ParseId(digits) case Ok(n) => Ok(DeleteOp(name, n)) case Err(e) => Err(e)
  {
    KeywordsAreKeywords();
    var s := DeleteText(name, digits);
    DeleteTextLayout(name, digits);
    assert s == KwDelete + s[|KwDelete|..];
    LeadsWith(KwDelete, s[|KwDelete|..]);
    ParseDispatch(s, decode);
    DeleteNameFound(s, name, digits);
    GroupAt(DeleteName, s, 0);
    assert Group(s, DeleteName) == Some(name);
    DeleteIdFound(s, name, digits);
  }

  /** Printing a `DeleteOp` in the query language and parsing it gives it back. */
  lemma DeleteRoundTrip(name: string, id: nat, decode: Decoder)
    requires IsName(name) && id <= MaxI64
    ensures Parse(DeleteText(name, GoPath.Itoa(id)), decode) == Ok(DeleteOp(name, id))
  {
    GoPath.ParseItoa(id);
    DeleteParses(name, GoPath.Itoa(id), decode);
  }

  /** The statement of the DELETE test case parses to document `user` and `_ID` 12. */
  lemma DeleteExample(decode: Decoder)
    ensures Parse("DELETE DOCUMENT FROM user WHERE _ID = 12", decode) == Ok(DeleteOp("user", 12))
  {
    var s := DeleteText("user", "12");
    assert s == "DELETE DOCUMENT FROM user WHERE _ID = 12";
    assert IsName("user");
    assert ParseId("12") == Ok(12) by {
      assert "12"[..1] == "1" && "1"[..0] == "";
      assert GoPath.ParseDigits("12") == 12;
    }
    DeleteParses("user", "12", decode);
  }

  /** With spaces only after the one `=` of a text, `\s*=\s*` can only end at the end of the text. */
  lemma AssignToEnd(s: string, g: nat, q: nat)
    requires g < |s| && s[g] == '=' && All(s, g + 1, |s|, Space) && q <= |s|
    requires forall k | 0 <= k < |s| && k != g :: s[k] != '='
    ensures AssignAt(s, q).Some? ==> AssignAt(s, q).value == |s|
  {
    RunEndIs(s, g + 1, |s|, Space);
  }

  /** Nor can the tail of the DELETE pattern match: `[\w\d]+` finds nothing after the `=`. */
  lemma NoDeleteTail(s: string, g: nat, b: nat)
    requires g < |s| && s[g] == '=' && All(s, g + 1, |s|, Space) && b <= |s|
    requires forall k | 0 <= k < |s| && k != g :: s[k] != '='
    ensures !DeleteTail(s, b)
  {
    KeywordsAreKeywords();
    var e := RunEnd(s, b, Space);
    match ChainEnd(s, e, [KwWhere])
    case None =>
    case Some(f) =>
      if f + |KwId| <= |s| {
        AssignToEnd(s, g, f + |KwId|);
      }
  }

  /**
   A DELETE whose only `=` is followed by nothing but spaces, as in `… WHERE _ID = `, is rejected
   by `extractDocumentNameFromDeleteQuery`: its pattern needs a value after the `=`.
   */
  lemma DeleteWithoutValueRejected(s: string, g: nat, decode: Decoder)
    requires LeadingKeyword(s, KwDelete)
    requires g < |s| && s[g] == '=' && All(s, g + 1, |s|, Space)
    requires forall k | 0 <= k < |s| && k != g :: s[k] != '='
    ensures Parse(s, decode) == Err(SyntaxError(NoDeleteName))
  {
    ParseDispatch(s, decode);
    forall p | 0 <= p <= |s| ensures MatchAt(DeleteName, s, p).None? {
      NoDeleteMatch(s, g, p);
    }
    FindFirstLeftmost(DeleteName, s, 0);
  }

  lemma NoDeleteMatch(s: string, g: nat, p: nat)
    requires g < |s| && s[g] == '=' && All(s, g + 1, |s|, Space) && p <= |s|
    requires forall k | 0 <= k < |s| && k != g :: s[k] != '='
    ensures MatchAt(DeleteName, s, p).None?
  {
    var n := NameAt(s, p, [KwDelete, KwDocument, KwFrom]);
    if n.Some? {
      NoDeleteTail(s, g, n.value.1);
    }
  }

  /** The statement of the second DELETE test case, which stops after `_ID = `, is rejected. */
  lemma DeleteExampleWithoutValue(decode: Decoder)
    ensures Parse("DELETE DOCUMENT FROM user WHERE _ID = ", decode) == Err(SyntaxError(NoDeleteName))
  {
    assert DeleteText("user", "") == "DELETE DOCUMENT FROM user WHERE _ID = ";
    UserIsName();
    DeleteWithoutDigits("user", decode);
  }

  /** `user` is a run of word characters. */
  lemma UserIsName()
    ensures IsName("user")
  {
  }

  /** A DELETE statement that stops after `_ID = ` is rejected, whatever the document name. */
  lemma DeleteWithoutDigits(name: string, decode: Decoder)
    requires IsName(name)
    ensures Parse(DeleteText(name, ""), decode) == Err(SyntaxError(NoDeleteName))
  {
    var s := DeleteText(name, "");
    var g := |DeleteHead| + |name| + 11;
    DeleteTextLayout(name, "");
    DeleteOneEquals(s, name, "");
    assert s[g] == '=' && s[g + 1] == ' ' by {
      assert s[g - 11..g - 11 + |DeleteWhere|] == DeleteWhere;
    }
    assert All(s, g + 1, |s|, Space);
    KeywordsAreKeywords();
    DeleteHeadIsLead();
    assert s == KwDelete + s[6..];
    LeadsWith(KwDelete, s[6..]);
    DeleteWithoutValueRejected(s, g, decode);
  }

  // ---------------------------------------------------------------- SELECT

  const SelectHead: string := "SELECT "
  const SelectFrom: string := " FROM "
  const SelectWhere: string := " WHERE _ID="

  /** `SELECT <columns> FROM <name> WHERE _ID=<digits>`. */
  function SelectText(columns: string, name: string, digits: string): string
  {
    SelectHead + columns + SelectFrom + name + SelectWhere + digits
  }

  /**
   A column list the lazy `(.+?)\s+FROM` takes whole: it starts and ends with a character that
   is not a space, stays on one line, and holds neither FROM (in any case) nor `=`.
   */
  predicate ColumnText(columns: string)
  {
    |columns| > 0 && !In(Space, columns[0]) && !In(Space, columns[|columns| - 1])
    && '\n' !in columns && '=' !in columns && NoKeyword(columns, KwFrom, true)
  }

  /** Where the parts of a SELECT statement sit. */
  predicate SelectLayout(s: string, columns: string, name: string, digits: string)
  {
    var c := |SelectHead| + |columns|;
    var b := c + |SelectFrom| + |name|;
    |s| == b + |SelectWhere| + |digits| && s[..|SelectHead|] == SelectHead && s[|SelectHead|..c] == columns
    && s[c..c + |SelectFrom|] == SelectFrom && s[c + |SelectFrom|..b] == name
    && s[b..b + |SelectWhere|] == SelectWhere && s[b + |SelectWhere|..] == digits
  }

  lemma SelectTextLayout(columns: string, name: string, digits: string)
    ensures SelectLayout(SelectText(columns, name, digits), columns, name, digits)
  {
    var s := SelectText(columns, name, digits);
    var c := |SelectHead| + |columns|;
    var b := c + |SelectFrom| + |name|;
    assert s[..|SelectHead|] == SelectHead;
    assert s[|SelectHead|..c] == columns;
    assert s[c..c + |SelectFrom|] == SelectFrom;
    assert s[c + |SelectFrom|..b] == name;
    assert s[b..b + |SelectWhere|] == SelectWhere;
    assert s[b + |SelectWhere|..] == digits;
  }

  /** No FROM starts before the one after the columns. */
  lemma NoFromBefore(s: string, columns: string, name: string, digits: string, p: nat)
    requires ColumnText(columns) && SelectLayout(s, columns, name, digits)
    requires p <= |SelectHead| + |columns|
    ensures !KeywordAt(s, p, KwFrom, true)
  {
    var c := |SelectHead| + |columns|;
    if p < |SelectHead| {
      assert s[p + 0] == s[..|SelectHead|][p] == SelectHead[p];
      assert !Folds(SelectHead[p], KwFrom[0]);
    } else if p < c {
      if p + 4 <= c {
        assert !KeywordAt(columns, p - |SelectHead|, KwFrom, true);
        var i :| 0 <= i < 4 && !Folds(columns[p - |SelectHead| + i], KwFrom[i]);
        assert s[p + i] == s[|SelectHead|..c][p - |SelectHead| + i];
      } else if p + |KwFrom| <= |s| {
        assert s[c] == s[c..c + |SelectFrom|][0];
        assert c - p < 4;
        assert !Folds(s[p + (c - p)], KwFrom[c - p]);
      }
    } else {
      assert s[p + 0] == s[c..c + |SelectFrom|][0] == ' ';
      assert !Folds(s[p + 0], KwFrom[0]);
    }
  }

  /** `(?i)FROM\s+(\w+)` first matches at the FROM after the columns, around the name. */
  lemma SelectNameFound(s: string, columns: string, name: string, digits: string)
    requires ColumnText(columns) && IsName(name) && SelectLayout(s, columns, name, digits)
    ensures Group(s, SelectName) == Some(name)
  {
    var c := |SelectHead| + |columns|;
    var b := c + |SelectFrom| + |name|;
    forall p | 0 <= p < c + 1 ensures MatchAt(SelectName, s, p).None? {
      NoFromBefore(s, columns, name, digits, p);
    }
    SelectNameAt(s, columns, name, digits);
    GroupAt(SelectName, s, c + 1);
    assert FindFirst(SelectName, s, 0) == Some((c + 6, b));
    assert s[c + 6..b] == name;
  }

  /** `FROM\s+(\w+)` matches at the FROM after the columns, around the name. */
  lemma SelectNameAt(s: string, columns: string, name: string, digits: string)
    requires IsName(name) && SelectLayout(s, columns, name, digits)
    ensures var c := |SelectHead| + |columns|;
      MatchAt(SelectName, s, c + 1) == Some((c + 6, c + 6 + |name|))
  {
    KeywordsAreKeywords();
    var c := |SelectHead| + |columns|;
    var b := c + |SelectFrom| + |name|;
    assert [KwFrom][1..] == [];
    assert Lead([KwFrom]) == "FROM ";
    SubSlice(s, c, c + |SelectFrom|, 1, 6);
    ChainAt(s, c + 1, [KwFrom]);
    assert All(s, c + 6, b, FoldedWord) by {
      forall k | c + 6 <= k < b ensures In(FoldedWord, s[k]) {
        assert s[c + |SelectFrom|..b][k - c - 6] == name[k - c - 6];
      }
    }
    assert s[b] == s[b..b + |SelectWhere|][0];
    NameFound(s, c + 1, [KwFrom], c + 6, b);
  }

  /** The only `=` of a SELECT statement is the one after `_ID`. */
  lemma SelectOneEquals(s: string, columns: string, name: string, digits: string)
    requires ColumnText(columns) && IsName(name) && IsDigits(digits) && SelectLayout(s, columns, name, digits)
    ensures forall k | 0 <= k < |s| && k != |SelectHead| + |columns| + |SelectFrom| + |name| + 10 :: s[k] != '='
  {
    var c := |SelectHead| + |columns|;
    var b := c + |SelectFrom| + |name|;
    EqualsFree(s, 0, |SelectHead|, SelectHead);
    EqualsFree(s, |SelectHead|, c, columns);
    EqualsFree(s, c, c + |SelectFrom|, SelectFrom);
    EqualsFree(s, c + |SelectFrom|, b, name);
    assert s[b..b + 10] == SelectWhere[..10];
    EqualsFree(s, b, b + 10, SelectWhere[..10]);
    EqualsFree(s, b + 11, |s|, digits);
  }

  /** The `_ID` of the statement is the one `extractID` parses. */
  lemma SelectIdFound(s: string, columns: string, name: string, digits: string)
    requires ColumnText(columns) && IsName(name) && |digits| > 0 && IsDigits(digits)
    requires SelectLayout(s, columns, name, digits)
    ensures ExtractId(s) == ParseId(digits)
  {
    var b := |SelectHead| + |columns| + |SelectFrom| + |name|;
    SelectOneEquals(s, columns, name, digits);
    SelectIdAt(s, b, digits);
  }

  /** ` WHERE _ID=<digits>` at `b`, ending the text, with the only `=` of it. */
  lemma SelectIdAt(s: string, b: nat, digits: string)
    requires b + |SelectWhere| <= |s| && s[b..b + |SelectWhere|] == SelectWhere && s[b + |SelectWhere|..] == digits
    requires |digits| > 0 && IsDigits(digits)
    requires forall k | 0 <= k < |s| && k != b + 10 :: s[k] != '='
    ensures ExtractId(s) == ParseId(digits)
  {
    SelectIdMatch(s, b, digits);
    IdUnique(s, b + 7, b + 10, b + 11, |s|);
    assert s[b + 11..|s|] == digits;
  }

  lemma SelectIdMatch(s: string, b: nat, digits: string)
    requires b + |SelectWhere| <= |s| && s[b..b + |SelectWhere|] == SelectWhere && s[b + |SelectWhere|..] == digits
    requires |digits| > 0 && IsDigits(digits)
    ensures IdMatch(s, b + 7, b + 10, b + 11, |s|)
  {
    var w := s[b..b + |SelectWhere|];
    assert w[7] == s[b + 7] && w[8] == s[b + 8] && w[9] == s[b + 9] && w[10] == s[b + 10];
    assert KeywordAt(s, b + 7, KwId, false);
    assert All(s, b + 11, |s|, Digit) by {
      forall k | b + 11 <= k < |s| ensures In(Digit, s[k]) {
        assert s[b + |SelectWhere|..][k - b - 11] == digits[k - b - 11];
      }
    }
  }

  /** `\s+FROM` cannot follow a position inside the columns. */
  lemma NoFromInside(s: string, columns: string, name: string, digits: string, q: nat)
    requires ColumnText(columns) && SelectLayout(s, columns, name, digits)
    requires |SelectHead| < q < |SelectHead| + |columns|
    ensures !FromAfter(s, q)
  {
    var c := |SelectHead| + |columns|;
    var e := RunEnd(s, q, Space);
    assert s[c - 1] == columns[|columns| - 1] by {
      assert s[|SelectHead|..c][|columns| - 1] == columns[|columns| - 1];
    }
    assert e < c;
    NoFromBefore(s, columns, name, digits, e);
  }

  /** `(?i)SELECT\s+(.+?)\s+FROM` first matches at the start, and its group is the columns. */
  lemma SelectColumnsFound(s: string, columns: string, name: string, digits: string)
    requires ColumnText(columns) && SelectLayout(s, columns, name, digits)
    ensures Group(s, ColumnList) == Some(columns)
  {
    var c := |SelectHead| + |columns|;
    SelectColumnsMatch(s, columns, name, digits);
    ColumnsAtExact(s, 0);
    var r := ColumnsAt(s, 0).value;
    assert r.0 == 7;
    assert r.1 == c by {
      if r.1 < c {
        NoFromInside(s, columns, name, digits, r.1);
      }
    }
    GroupAt(ColumnList, s, 0);
  }

  /** `SELECT\s+(.+?)\s+FROM` matches at the start with the columns as its group. */
  lemma SelectColumnsMatch(s: string, columns: string, name: string, digits: string)
    requires ColumnText(columns) && SelectLayout(s, columns, name, digits)
    ensures ColumnsMatch(s, 0, 7, |SelectHead| + |columns|) && !In(Space, s[7])
    ensures s[7..|SelectHead| + |columns|] == columns
  {
    KeywordsAreKeywords();
    var c := |SelectHead| + |columns|;
    assert KeywordAt(s, 0, KwSelect, true) by {
      forall i | 0 <= i < 6 ensures s[i] == KwSelect[i] {
        assert s[..|SelectHead|][i] == SelectHead[i];
      }
    }
    assert s[6] == s[..|SelectHead|][6];
    assert s[7] == columns[0] by {
      assert s[|SelectHead|..c][0] == columns[0];
    }
    assert All(s, 7, c, AnyButNewline) by {
      forall k | 7 <= k < c ensures In(AnyButNewline, s[k]) {
        assert s[|SelectHead|..c][k - 7] == columns[k - 7];
      }
    }
    SelectFromAfter(s, columns, name, digits);
  }

  /** `\s+FROM` follows the columns. */
  lemma SelectFromAfter(s: string, columns: string, name: string, digits: string)
    requires SelectLayout(s, columns, name, digits)
    ensures FromAfter(s, |SelectHead| + |columns|)
  {
    KeywordsAreKeywords();
    var c := |SelectHead| + |columns|;
    assert s[c] == s[c..c + |SelectFrom|][0];
    assert s[c + 1] == s[c..c + |SelectFrom|][1];
    RunEndIs(s, c, c + 1, Space);
    forall i | 0 <= i < 4 ensures s[c + 1 + i] == KwFrom[i] {
      assert s[c..c + |SelectFrom|][1 + i] == SelectFrom[1 + i];
    }
  }

  /**
   `ParseSelectQuery`, reached through `parse`, gives back the document name, the columns split
   at the commas and trimmed, and the `_ID` of `SELECT <columns> FROM <name> WHERE _ID=<digits>`,
   or the `int64` overflow error.
   */
  lemma SelectParses(columns: string, name: string, digits: string, decode: Decoder)
    requires ColumnText(columns) && IsName(name) && |digits| > 0 && IsDigits(digits)
    ensures Parse(SelectText(columns, name, digits), decode)
            == match ParseId(digits)
               case Ok(n) => Ok(SelectOp(name, TrimAll(SplitOn(columns, ',')), n))
               case Err(e) => Err(e)
  {
    KeywordsAreKeywords();
    var s := SelectText(columns, name, digits);
    SelectTextLayout(columns, name, digits);
    assert s == KwSelect + s[|KwSelect|..];
    LeadsWith(KwSelect, s[|KwSelect|..]);
    ParseDispatch(s, decode);
    SelectNameFound(s, columns, name, digits);
    SelectIdFound(s, columns, name, digits);
    SelectColumnsFound(s, columns, name, digits);
  }

  /**
   Printing a `SelectOp` in the query language, its columns joined by commas, and parsing it
   gives it back.
   */
  lemma SelectRoundTrip(columns: seq<string>, name: string, id: nat, decode: Decoder)
    requires |columns| > 0 && forall i | 0 <= i < |columns| :: ',' !in columns[i] && Trimmed(columns[i])
    requires ColumnText(JoinWith(columns, ",")) && IsName(name) && id <= MaxI64
    ensures Parse(SelectText(JoinWith(columns, ","), name, GoPath.Itoa(id)), decode)
            == Ok(SelectOp(name, columns, id))
  {
    GoPath.ParseItoa(id);
    SelectParses(JoinWith(columns, ","), name, GoPath.Itoa(id), decode);
    ColumnsBack(columns);
  }

  /** Trimmed columns without commas come back from `extractColumnNames`'s split and trim. */
  lemma ColumnsBack(columns: seq<string>)
    requires |columns| > 0 && forall i | 0 <= i < |columns| :: ',' !in columns[i] && Trimmed(columns[i])
    ensures TrimAll(SplitOn(JoinWith(columns, ","), ',')) == columns
  {
    assert "," == [','];
    SplitJoin(columns, ',');
    TrimAllTrimmed(columns);
  }

  lemma TrimAllTrimmed(columns: seq<string>)
    requires forall i | 0 <= i < |columns| :: Trimmed(columns[i])
    ensures TrimAll(columns) == columns
  {
    forall i | 0 <= i < |columns| ensures TrimSpace(columns[i]) == columns[i] {
      TrimmedFixed(columns[i]);
    }
  }

  lemma TrimmedFixed(t: string)
    requires Trimmed(t)
    ensures TrimSpace(t) == t
  {
    TrimSpacePadded("", t, "");
    assert "" + t + "" == t;
  }

  /** A text none of whose characters can stand for the keyword's first letter does not hold the keyword. */
  lemma NoFirstLetter(t: string, kw: string, fold: bool)
    requires |kw| > 0
    requires forall k | 0 <= k < |t| :: !Folds(t[k], kw[0])
    ensures NoKeyword(t, kw, fold)
  {
    forall p: nat | p <= |t| ensures !KeywordAt(t, p, kw, fold) {
      if p < |t| {
        assert !Folds(t[p + 0], kw[0]);
      }
    }
  }

  /** The text of the SELECT test case, assembled from its pieces. */
  lemma SelectExampleText()
    ensures SelectText("name.game, abc", "users", "263920338392")
            == "SELECT name.game, abc FROM users WHERE _ID=263920338392"
  {
    SelectExampleHead();
    assert "SELECT name.game, abc FROM users" + SelectWhere == "SELECT name.game, abc FROM users WHERE _ID=";
  }

  /** The text of the SELECT test case up to the document name. */
  lemma SelectExampleHead()
    ensures SelectHead + "name.game, abc" + SelectFrom + "users" == "SELECT name.game, abc FROM users"
  {
    assert SelectHead + "name.game, abc" == "SELECT name.game, abc";
    assert "SELECT name.game, abc" + SelectFrom == "SELECT name.game, abc FROM ";
  }

  /** The `_ID` of the SELECT test case fits an `int64`. */
  lemma SelectExampleId()
    ensures ParseId("263920338392") == Ok(263920338392)
  {
    var d := "263920338392";
    assert "2"[..0] == "";
    assert GoPath.ParseDigits("2") == 2;
    assert "26"[..1] == "2";
    assert GoPath.ParseDigits("26") == 26;
    assert "263"[..2] == "26";
    assert GoPath.ParseDigits("263") == 263;
    assert "2639"[..3] == "263";
    assert GoPath.ParseDigits("2639") == 2639;
    assert "26392"[..4] == "2639";
    assert GoPath.ParseDigits("26392") == 26392;
    assert "263920"[..5] == "26392";
    assert GoPath.ParseDigits("263920") == 263920;
    assert "2639203"[..6] == "263920";
    assert GoPath.ParseDigits("2639203") == 2639203;
    assert "26392033"[..7] == "2639203";
    assert GoPath.ParseDigits("26392033") == 26392033;
    assert "263920338"[..8] == "26392033";
    assert GoPath.ParseDigits("263920338") == 263920338;
    assert "2639203383"[..9] == "263920338";
    assert GoPath.ParseDigits("2639203383") == 2639203383;
    assert "26392033839"[..10] == "2639203383";
    assert GoPath.ParseDigits("26392033839") == 26392033839;
    assert "263920338392"[..11] == "26392033839";
    assert GoPath.ParseDigits("263920338392") == 263920338392;
  }

  /** No `FROM` hides in the column list of the SELECT test case. */
  lemma SelectExampleNoFrom()
    ensures NoKeyword("name.game, abc", KwFrom, true)
  {
    var t := "name.game, abc";
    assert KwFrom[0] == 'F';
    forall k | 0 <= k < |t| ensures !Folds(t[k], KwFrom[0]) {
      assert t[k] in {'n', 'a', 'm', 'e', '.', 'g', ',', ' ', 'b', 'c'};
    }
    NoFirstLetter(t, KwFrom, true);
  }

  /** The column list of the SELECT test case splits at its comma. */
  lemma SelectExampleSplit()
    ensures SplitOn("name.game, abc", ',') == ["name.game", " abc"]
  {
    var parts := ["name.game", " abc"];
    assert JoinWith(parts, [',']) == "name.game, abc";
    SplitJoin(parts, ',');
  }

  /** Trimming a trimmed text after a single leading space gives the text. */
  lemma TrimLeadingSpace(t: string)
    requires Trimmed(t)
    ensures TrimSpace([' '] + t) == t
  {
    TrimSpacePadded([' '], t, "");
    assert [' '] + t + "" == [' '] + t;
  }

  /** Trimming a pair of texts trims each. */
  lemma TrimAllPair(a: string, b: string)
    ensures TrimAll([a, b]) == [TrimSpace(a), TrimSpace(b)]
  {
    var r := TrimAll([a, b]);
    assert |r| == 2 && r[0] == TrimSpace([a, b][0]) && r[1] == TrimSpace([a, b][1]);
  }

  /** The pieces of the SELECT test case's column list, as paddings of trimmed texts. */
  lemma ExamplePieces()
    ensures "" + "name.game" + "" == "name.game" && " abc" == [' '] + "abc"
    ensures Trimmed("name.game") && Trimmed("abc")
  {
  }

  /** Trimming the two pieces of the SELECT test case's column list. */
  lemma SelectExampleTrim()
    ensures TrimAll(["name.game", " abc"]) == ["name.game", "abc"]
  {
    ExamplePieces();
    TrimSpacePadded("", "name.game", "");
    TrimLeadingSpace("abc");
    TrimAllPair("name.game", " abc");
  }

  /** The column list of the SELECT test case is one the lazy column group takes whole. */
  lemma SelectExampleColumnText()
    ensures ColumnText("name.game, abc")
  {
    var columns := "name.game, abc";
    SelectExampleNoFrom();
    assert columns[0] == 'n' && columns[|columns| - 1] == 'c';
    assert forall k | 0 <= k < |columns| :: columns[k] != '\n' && columns[k] != '=';
  }

  /** The column list of the SELECT test case splits into two trimmed names. */
  lemma SelectExampleColumns()
    ensures TrimAll(SplitOn("name.game, abc", ',')) == ["name.game", "abc"]
  {
    SelectExampleSplit();
    SelectExampleTrim();
  }

  /** `users` is a run of word characters. */
  lemma UsersIsName()
    ensures IsName("users")
  {
  }

  /** The statement of the SELECT test case parses to document `users`, two columns and its `_ID`. */
  lemma SelectExample(decode: Decoder)
    ensures Parse("SELECT name.game, abc FROM users WHERE _ID=263920338392", decode)
            == Ok(SelectOp("users", ["name.game", "abc"], 263920338392))
  {
    SelectExampleText();
    SelectExampleId();
    SelectExampleColumnText();
    SelectExampleColumns();
    UsersIsName();
    SelectParses("name.game, abc", "users", "263920338392", decode);
  }

  /** Without an `=` there is no `_ID` assignment, so a SELECT statement is rejected. */
  lemma SelectWithoutIdRejected(s: string, decode: Decoder)
    requires LeadingKeyword(s, KwSelect) && '=' !in s
    ensures Parse(s, decode) == Err(SyntaxError(NoName)) || Parse(s, decode) == Err(SyntaxError(NoId))
    ensures Group(s, SelectName).Some? ==> Parse(s, decode) == Err(SyntaxError(NoId))
  {
    ParseDispatch(s, decode);
    ExtractIdExact(s);
    forall p: nat, g: nat, h: nat, d: nat ensures !IdMatch(s, p, g, h, d) {
      if g < |s| {
        assert s[g] in s;
      }
    }
  }

  /** The SELECT test statement without `_ID` is rejected. */
  lemma SelectExampleWithoutId(decode: Decoder)
    ensures Parse("SELECT name.game, abc FROM users", decode).Err?
  {
    var rest := " name.game, abc FROM users";
    assert '=' !in rest by {
      assert forall k | 0 <= k < |rest| :: rest[k] != '=';
    }
    SelectWithoutIdText();
    SelectKeywordWithoutId(rest, decode);
  }

  /** The SELECT test statement without `_ID`: the keyword and the rest. */
  lemma SelectWithoutIdText()
    ensures KwSelect + " name.game, abc FROM users" == "SELECT name.game, abc FROM users"
  {
  }

  /** `SELECT` followed by a text without `=`. */
  lemma SelectKeywordWithoutId(rest: string, decode: Decoder)
    requires '=' !in rest
    ensures Parse(KwSelect + rest, decode).Err?
  {
    KeywordsAreKeywords();
    LeadsWith(KwSelect, rest);
    assert '=' !in KwSelect + rest;
    SelectWithoutIdRejected(KwSelect + rest, decode);
  }

  // ---------------------------------------------------------------- INSERT and CREATE

  /** The keywords of a CREATE or INSERT statement, each followed by one space. */
  function BodyHead(pat: Pattern): string
  {
    if pat == CreateName then "CREATE DOCUMENT " else "INSERT VALUE INTO "
  }

  lemma BodyHeadIsLead(pat: Pattern)
    requires pat == CreateName || pat == InsertName
    ensures AreKeywords(NameKeywords(pat)) && Lead(NameKeywords(pat)) == BodyHead(pat)
  {
    if pat == InsertName {
      InsertHeadIsLead();
    } else {
      CreateHeadIsLead();
    }
  }

  lemma CreateHeadIsLead()
    ensures AreKeywords([KwCreate, KwDocument]) && Lead([KwCreate, KwDocument]) == "CREATE DOCUMENT "
  {
    KeywordsAreKeywords();
    assert [KwDocument][1..] == [];
    assert Lead([KwDocument]) == "DOCUMENT ";
    assert [KwCreate, KwDocument][1..] == [KwDocument];
  }

  lemma InsertHeadIsLead()
    ensures AreKeywords([KwInsert, KwValue, KwInto]) && Lead([KwInsert, KwValue, KwInto]) == "INSERT VALUE INTO "
  {
    KeywordsAreKeywords();
    assert [KwInto][1..] == [];
    assert Lead([KwInto]) == "INTO ";
    assert [KwValue, KwInto][1..] == [KwInto];
    assert Lead([KwValue, KwInto]) == "VALUE INTO ";
    assert [KwInsert, KwValue, KwInto][1..] == [KwValue, KwInto];
  }

  /** `CREATE DOCUMENT <name> {<body>}` or `INSERT VALUE INTO <name> {<body>}`. */
  function BodyText(pat: Pattern, name: string, body: string): string
  {
    BodyHead(pat) + name + " {" + body + "}"
  }

  /** Where the parts of a CREATE or INSERT statement sit. */
  predicate BodyLayout(s: string, pat: Pattern, name: string, body: string)
  {
    var a := |BodyHead(pat)|;
    var b := a + |name|;
    |s| == b + |body| + 3 && s[..a] == BodyHead(pat) && s[a..b] == name && s[b] == ' ' && s[b + 1] == '{'
    && s[b + 2..|s| - 1] == body && s[|s| - 1] == '}'
  }

  lemma BodyTextLayout(pat: Pattern, name: string, body: string)
    ensures BodyLayout(BodyText(pat, name, body), pat, name, body)
  {
    var s := BodyText(pat, name, body);
    var a := |BodyHead(pat)|;
    var b := a + |name|;
    assert s[..a] == BodyHead(pat);
    assert s[a..b] == name;
    assert s[b..b + 2] == " {";
    assert s[b + 2..|s| - 1] == body;
  }

  /** The name pattern of the statement matches at the start, around the name. */
  lemma BodyNameFound(s: string, pat: Pattern, name: string, body: string)
    requires (pat == CreateName || pat == InsertName) && IsName(name) && BodyLayout(s, pat, name, body)
    ensures Group(s, pat) == Some(name)
  {
    var kws := NameKeywords(pat);
    BodyHeadIsLead(pat);
    var a := |BodyHead(pat)|;
    var b := a + |name|;
    assert s[0..a] == BodyHead(pat);
    ChainAt(s, 0, kws);
    assert All(s, a, b, FoldedWord) by {
      forall k | a <= k < b ensures In(FoldedWord, s[k]) {
        assert s[a..b][k - a] == name[k - a];
      }
    }
    NameFound(s, 0, kws, a, b);
    assert MatchAt(pat, s, 0) == NameAt(s, 0, kws);
    GroupOfLeftmost(pat, s, 0);
    assert s[a..b] == name;
  }

  /** No `{` comes before the one after the name. */
  lemma NoBraceBefore(s: string, pat: Pattern, name: string, body: string)
    requires (pat == CreateName || pat == InsertName) && IsName(name) && BodyLayout(s, pat, name, body)
    ensures forall k | 0 <= k <= |BodyHead(pat)| + |name| :: s[k] != '{'
  {
    var a := |BodyHead(pat)|;
    var b := a + |name|;
    BodyHeadIsLead(pat);
    forall k | 0 <= k <= b ensures s[k] != '{' {
      if k < a {
        assert s[..a][k] == Lead(NameKeywords(pat))[k];
      } else if k < b {
        assert s[a..b][k - a] == name[k - a];
      }
    }
  }

  /** `extractOutermost` takes everything between the `{` after the name and the closing `}`. */
  lemma BodyFound(s: string, pat: Pattern, name: string, body: string)
    requires (pat == CreateName || pat == InsertName) && IsName(name) && BodyLayout(s, pat, name, body)
    requires '\n' !in body
    ensures ExtractOutermost(s) == Ok(body)
  {
    var h := |BodyHead(pat)| + |name| + 1;
    var e := |s| - 1;
    assert All(s, h + 1, e, AnyButNewline) by {
      forall k | h + 1 <= k < e ensures s[k] != '\n' {
        assert s[h + 1..e][k - h - 1] == body[k - h - 1];
      }
    }
    assert BraceMatch(s, h, e);
    NoBraceBefore(s, pat, name, body);
    OutermostIs(s, h, e);
  }

  /** The first `{` and the last `}`, with no line break between, bound what `extractOutermost` takes. */
  lemma OutermostIs(s: string, h: nat, e: nat)
    requires BraceMatch(s, h, e) && e == |s| - 1
    requires forall k | 0 <= k < h :: s[k] != '{'
    ensures ExtractOutermost(s) == Ok(s[h + 1..e])
  {
    NoBracesBefore(s, h);
    BracesAtExact(s, h);
    var q := BracesAt(s, h).value.1;
    assert q == e;
    assert MatchAt(Braces, s, h) == Some((h + 1, e));
    GroupAt(Braces, s, h);
  }

  /** Without a `{` before `h`, `\{(.*)\}` matches nowhere before it. */
  lemma NoBracesBefore(s: string, h: nat)
    requires h <= |s| && forall k | 0 <= k < h :: s[k] != '{'
    ensures forall p' | 0 <= p' < h :: MatchAt(Braces, s, p').None?
  {
    forall p' | 0 <= p' < h ensures MatchAt(Braces, s, p').None? {
      BracesAtExact(s, p');
    }
  }

  /** A CREATE or INSERT statement leads with its first keyword. */
  lemma BodyLeads(s: string, pat: Pattern, name: string, body: string)
    requires (pat == CreateName || pat == InsertName) && BodyLayout(s, pat, name, body)
    ensures LeadingKeyword(s, NameKeywords(pat)[0])
  {
    KeywordsAreKeywords();
    var kw := NameKeywords(pat)[0];
    assert s[..|kw|] == kw by {
      assert s[..|kw|] == s[..|BodyHead(pat)|][..|kw|];
    }
    assert s == kw + s[|kw|..];
    LeadsWith(kw, s[|kw|..]);
  }

  /** `INSERT VALUE INTO <name> {<body>}` parses to the name and the decoded `{<body>}`. */
  lemma InsertParses(name: string, body: string, decode: Decoder)
    requires IsName(name) && '\n' !in body
    ensures Parse(BodyText(InsertName, name, body), decode)
            == match decode("{" + body + "}")
               case Ok(value) => Ok(InsertOp(name, value))
               case Err(msg) => Err(SyntaxError(BadJson + msg))
  {
    var s := BodyText(InsertName, name, body);
    BodyTextLayout(InsertName, name, body);
    BodyLeads(s, InsertName, name, body);
    BodyFound(s, InsertName, name, body);
    BodyNameFound(s, InsertName, name, body);
    InsertQueryOf(s, name, body, decode);
  }

  lemma InsertQueryOf(s: string, name: string, body: string, decode: Decoder)
    requires LeadingKeyword(s, NameKeywords(InsertName)[0])
    requires ExtractOutermost(s) == Ok(body) && Group(s, InsertName) == Some(name)
    ensures Parse(s, decode)
            == match decode("{" + body + "}")
               case Ok(value) => Ok(InsertOp(name, value))
               case Err(msg) => Err(SyntaxError(BadJson + msg))
  {
    assert NameKeywords(InsertName)[0] == KwInsert;
    ParseDispatch(s, decode);
  }

  /** `CREATE DOCUMENT <name> {<body>}` parses to the name and the decoded `{<body>}`. */
  lemma CreateParses(name: string, body: string, decode: Decoder)
    requires IsName(name) && '\n' !in body
    ensures Parse(BodyText(CreateName, name, body), decode)
            == match decode("{" + body + "}")
               case Ok(schema) => Ok(CreateOp(name, schema))
               case Err(msg) => Err(SyntaxError(BadJson + msg))
  {
    var s := BodyText(CreateName, name, body);
    BodyTextLayout(CreateName, name, body);
    BodyLeads(s, CreateName, name, body);
    BodyFound(s, CreateName, name, body);
    BodyNameFound(s, CreateName, name, body);
    CreateQueryOf(s, name, body, decode);
  }

  lemma CreateQueryOf(s: string, name: string, body: string, decode: Decoder)
    requires LeadingKeyword(s, NameKeywords(CreateName)[0])
    requires ExtractOutermost(s) == Ok(body) && Group(s, CreateName) == Some(name)
    ensures Parse(s, decode)
            == match decode("{" + body + "}")
               case Ok(schema) => Ok(CreateOp(name, schema))
               case Err(msg) => Err(SyntaxError(BadJson + msg))
  {
    assert NameKeywords(CreateName)[0] == KwCreate;
    ParseDispatch(s, decode);
  }

  /** A chain needs each of its keywords somewhere in the text. */
  lemma {:induction false} ChainNeeds(s: string, p: nat, kws: seq<string>, a: nat, i: nat)
    requires i < |kws| && NoKeyword(s, kws[i], true)
    ensures !Chain(s, p, kws, a)
    decreases |kws|
  {
    if i == 0 {
      if p <= |s| {
        assert !KeywordAt(s, p, kws[0], true);
      }
    } else {
      forall m | p + |kws[0]| < m <= |s| ensures !Chain(s, m, kws[1..], a) {
        assert kws[1..][i - 1] == kws[i];
        ChainNeeds(s, m, kws[1..], a, i - 1);
      }
    }
  }

  /** An INSERT statement without `INTO` names no document: it is rejected, for want of braces or of a name. */
  lemma InsertWithoutIntoRejected(s: string, decode: Decoder)
    requires LeadingKeyword(s, KwInsert) && NoKeyword(s, KwInto, true)
    ensures Parse(s, decode) == Err(SyntaxError(NoFields)) || Parse(s, decode) == Err(SyntaxError(NoName))
    ensures ExtractOutermost(s).Ok? ==> Parse(s, decode) == Err(SyntaxError(NoName))
  {
    ParseDispatch(s, decode);
    ExtractOutermostExact(s);
    InsertNameNeedsInto(s);
  }

  /** Without `INTO` the INSERT name pattern finds no name. */
  lemma InsertNameNeedsInto(s: string)
    requires NoKeyword(s, KwInto, true)
    ensures Group(s, InsertName).None?
  {
    NameGroupExact(s, InsertName);
    forall p: nat, a: nat, b: nat ensures !NameMatch(s, p, NameKeywords(InsertName), a, b) {
      ChainNeeds(s, p, NameKeywords(InsertName), a, 2);
    }
  }
}

=== FILE: readall.dfy ===
/**
 `MemtableStore.ReadAll` (parrot/memtable/memtable.go): every live value the store holds,
 from the memtables newest first and then from every table of every level, highest id
 first. The scan is modelled in two steps: the sources it reads, as lists of payloads, and
 what it keeps of them.
 */
module StoreScan {
  import opened Keys
  import opened Wrappers
  import MT = Memtable
  import opened Levels
  import opened SstCache
  import opened MemStore

  /** The payloads of `ps` that are not tombstones and whose key is not in `hidden`, in order. */
  function Keep(ps: seq<Payload>, hidden: set<Key>): (r: seq<Payload>)
    ensures forall p :: p in r <==> p in ps && !IsDeleted(p.val) && p.key !in hidden
    ensures |r| <= |ps|
  {
    if |ps| == 0 then []
    else
      var rest := Keep(ps[1..], hidden);
      assert ps == [ps[0]] + ps[1..];
      if !IsDeleted(ps[0].val) && ps[0].key !in hidden then [ps[0]] + rest else rest
  }

  /** The keys `ps` holds tombstones for. */
  function DeletedKeys(ps: seq<Payload>): set<Key>
  {
    set i | 0 <= i < |ps| && IsDeleted(ps[i].val) :: ps[i].key
  }

  function Values(ps: seq<Payload>): (r: seq<Value>)
    ensures |r| == |ps| && forall i | 0 <= i < |ps| :: r[i] == ps[i].val
  {
    seq(|ps|, i requires 0 <= i < |ps| => ps[i].val)
  }

  /**
   What the source keeps of its sources: every live payload of every source. The set of
   tombstoned keys it gathers on the way is never consulted.
   */
  function CollectAsWritten(srcs: seq<seq<Payload>>): (r: seq<Payload>)
    ensures forall p :: p in r <==> exists i | 0 <= i < |srcs| :: p in srcs[i] && !IsDeleted(p.val)
  {
    if |srcs| == 0 then []
    else
      var rest := CollectAsWritten(srcs[1..]);
      assert forall p :: (exists i | 0 <= i < |srcs| - 1 :: p in srcs[1..][i] && !IsDeleted(p.val))
                         <==> (exists i | 1 <= i < |srcs| :: p in srcs[i] && !IsDeleted(p.val));
      Keep(srcs[0], {}) + rest
  }

  /** A payload no newer source than `i` has a tombstone for. */
  predicate Unshadowed(srcs: seq<seq<Payload>>, i: nat, p: Payload)
    requires i <= |srcs|
  {
    forall j | 0 <= j < i :: p.key !in DeletedKeys(srcs[j])
  }

  /**
   The scan with the tombstoned keys applied: a live payload is kept unless a newer source,
   or `hidden`, holds a tombstone for its key.
   */
  function Collect(srcs: seq<seq<Payload>>, hidden: set<Key>): (r: seq<Payload>)
    ensures forall p :: p in r <==> exists i | 0 <= i < |srcs| :: p in srcs[i] && !IsDeleted(p.val) && p.key !in hidden && Unshadowed(srcs, i, p)
  {
    if |srcs| == 0 then []
    else
      var rest := Collect(srcs[1..], hidden + DeletedKeys(srcs[0]));
      CollectStep(srcs, hidden, rest);
      Keep(srcs[0], hidden) + rest
  }

  /** The step of `Collect` from the sources after the first to all of them. */
  lemma CollectStep(srcs: seq<seq<Payload>>, hidden: set<Key>, rest: seq<Payload>)
    requires |srcs| > 0
    requires forall p :: p in rest <==> exists i | 0 <= i < |srcs| - 1 :: p in srcs[1..][i] && !IsDeleted(p.val)
                                          && p.key !in hidden + DeletedKeys(srcs[0]) && Unshadowed(srcs[1..], i, p)
    ensures forall p :: p in Keep(srcs[0], hidden) + rest <==>
      exists i | 0 <= i < |srcs| :: p in srcs[i] && !IsDeleted(p.val) && p.key !in hidden && Unshadowed(srcs, i, p)
  {
    forall p ensures p in Keep(srcs[0], hidden) + rest <==>
      exists i | 0 <= i < |srcs| :: p in srcs[i] && !IsDeleted(p.val) && p.key !in hidden && Unshadowed(srcs, i, p)
    {
      if p in rest {
        var i :| 0 <= i < |srcs| - 1 && p in srcs[1..][i] && !IsDeleted(p.val)
                 && p.key !in hidden + DeletedKeys(srcs[0]) && Unshadowed(srcs[1..], i, p);
        assert srcs[1..][i] == srcs[i + 1];
        forall j | 0 <= j < i + 1 ensures p.key !in DeletedKeys(srcs[j]) {
          if j > 0 { assert srcs[j] == srcs[1..][j - 1]; }
        }
      }
      if exists i | 0 <= i < |srcs| :: p in srcs[i] && !IsDeleted(p.val) && p.key !in hidden && Unshadowed(srcs, i, p) {
        var i :| 0 <= i < |srcs| && p in srcs[i] && !IsDeleted(p.val) && p.key !in hidden && Unshadowed(srcs, i, p);
        if i > 0 {
          assert srcs[i] == srcs[1..][i - 1];
          forall j | 0 <= j < i - 1 ensures p.key !in DeletedKeys(srcs[1..][j]) {
            assert srcs[1..][j] == srcs[j + 1];
          }
          assert p in rest;
        }
      }
    }
  }

  // ---------------------------------------------------------------- the store's sources

  /** `ps` lists the entries of `data`, each key once. */
  predicate Lists(ps: seq<Payload>, data: map<Key, Value>)
  {
    |ps| == |data| && KeysOf(ps) == data.Keys && MT.DistinctKeys(ps)
    && forall i | 0 <= i < |ps| :: ps[i].key in data && ps[i].val == data[ps[i].key]
  }

  /**
   The cache holds table `t`'s unit and decoding all of it panics: the index entries point
   at a record with a negative offset or size, and Go's slice expression in
   `getDecodedForAll` panics.
   */
  predicate TablePanics(c: CacheManager, t: SSTable)
  {
    t.dbPath in c.units && GetDecodedForAll(c.units[t.dbPath]) == Err(Panic)
  }

  /** Every unit the cache gained decodes without a panic. */
  predicate GrewSafely(c: CacheManager, c': CacheManager)
  {
    forall p | p in c'.units && p !in c.units :: GetDecodedForAll(c'.units[p]) != Err(Panic)
  }

  /**
   The payloads of one level's tables in the listed order; a table that cannot be read for
   any other reason is an empty source, since `ReadAll` drops the error. A panicking read
   ends the scan: the result then lists the tables before it and the flag is set.
   */
  function TablePayloads(level: Level, ids: seq<nat>, cache: CacheManager, fs: FileSystem): (r: (CacheManager, seq<seq<Payload>>, bool))
    requires forall i | 0 <= i < |ids| :: ids[i] in level.tables
    ensures Extends(cache, r.0)
    ensures !r.2 ==> |r.1| == |ids| && GrewSafely(cache, r.0)
    ensures r.2 ==> |r.1| < |ids| && TablePanics(r.0, level.tables[ids[|r.1|]])
  {
    if |ids| == 0 then (cache, [], false)
    else
      var t := level.tables[ids[0]];
      var (c, got) := GetFullPayload(cache, fs, t.dbPath, t.indexPath);
      if got == Err(Panic) then (c, [], true)
      else
        var (c', rest, panicked) := TablePayloads(level, ids[1..], c, fs);
        (c', [if got.Ok? then got.value else []] + rest, panicked)
  }

  /** A table that reads without a panic still does after the cache grew safely. */
  lemma NoPanicPersists(c1: CacheManager, c2: CacheManager, t: SSTable)
    requires Extends(c1, c2) && GrewSafely(c1, c2)
    requires !TablePanics(c1, t)
    ensures !TablePanics(c2, t)
  {
  }

  /** A scan of one level that did not panic read none of its tables with a panic. */
  lemma {:induction false} TablePayloadsNoPanic(level: Level, ids: seq<nat>, cache: CacheManager, fs: FileSystem)
    requires forall i | 0 <= i < |ids| :: ids[i] in level.tables
    ensures var r := TablePayloads(level, ids, cache, fs);
      !r.2 ==> forall i | 0 <= i < |ids| :: !TablePanics(r.0, level.tables[ids[i]])
    decreases |ids|
  {
    var r := TablePayloads(level, ids, cache, fs);
    if |ids| > 0 && !r.2 {
      var t := level.tables[ids[0]];
      var c := GetFullPayload(cache, fs, t.dbPath, t.indexPath).0;
      TablePayloadsNoPanic(level, ids[1..], c, fs);
      assert !TablePanics(c, t);
      NoPanicPersists(c, r.0, t);
      forall i | 1 <= i < |ids| ensures !TablePanics(r.0, level.tables[ids[i]]) {
        assert ids[i] == ids[1..][i - 1];
      }
    }
  }

  /**
   The payloads of the tables of levels `l`, `l + 1`, …, each level highest id first,
   stopping at the first table whose read panics.
   */
  function LevelPayloads(lsm: Lsm, l: nat, cache: CacheManager, fs: FileSystem): (r: (CacheManager, seq<seq<Payload>>, bool))
    ensures Extends(cache, r.0)
    ensures !r.2 ==> GrewSafely(cache, r.0)
    ensures r.2 ==> exists k, id | l <= k < |lsm.levels| && id in lsm.levels[k].tables :: TablePanics(r.0, lsm.levels[k].tables[id])
    decreases |lsm.levels| - l
  {
    match GetLevel(lsm, l)
    case None => (cache, [], false)
    case Some(level) =>
      var ids := Descending(level.tables.Keys);
      var (c, here, panicked) := TablePayloads(level, ids, cache, fs);
      if panicked then
        assert ids[|here|] in lsm.levels[l].tables;
        (c, here, true)
      else
        var (c', rest, panicked') := LevelPayloads(lsm, l + 1, c, fs);
        (c', here + rest, panicked')
  }

  /** The tables a scan of one level read without a panic still read so after the cache grew safely. */
  lemma LevelStaysSafe(level: Level, ids: seq<nat>, c: CacheManager, c': CacheManager)
    requires forall id | id in level.tables :: id in ids
    requires forall i | 0 <= i < |ids| :: ids[i] in level.tables && !TablePanics(c, level.tables[ids[i]])
    requires Extends(c, c') && GrewSafely(c, c')
    ensures forall id | id in level.tables :: !TablePanics(c', level.tables[id])
  {
    forall id | id in level.tables ensures !TablePanics(c', level.tables[id]) {
      var i :| 0 <= i < |ids| && ids[i] == id;
      NoPanicPersists(c, c', level.tables[id]);
    }
  }

  /** A scan of the levels that did not panic read none of their tables with a panic. */
  lemma {:induction false} LevelPayloadsNoPanic(lsm: Lsm, l: nat, cache: CacheManager, fs: FileSystem)
    ensures var r := LevelPayloads(lsm, l, cache, fs);
      !r.2 ==> forall k, id | l <= k < |lsm.levels| && id in lsm.levels[k].tables :: !TablePanics(r.0, lsm.levels[k].tables[id])
    decreases |lsm.levels| - l
  {
    var r := LevelPayloads(lsm, l, cache, fs);
    if l < |lsm.levels| && !r.2 {
      var level := lsm.levels[l];
      var ids := Descending(level.tables.Keys);
      var t := TablePayloads(level, ids, cache, fs);
      var rest := LevelPayloads(lsm, l + 1, t.0, fs);
      assert !t.2 && r.0 == rest.0 && !rest.2;
      assert forall id | id in level.tables :: !TablePanics(r.0, level.tables[id]) by {
        TablePayloadsNoPanic(level, ids, cache, fs);
        LevelStaysSafe(level, ids, t.0, rest.0);
      }
      assert forall k, id | l + 1 <= k < |lsm.levels| && id in lsm.levels[k].tables :: !TablePanics(r.0, lsm.levels[k].tables[id]) by {
        LevelPayloadsNoPanic(lsm, l + 1, t.0, fs);
      }
    }
  }

  /** Each memtable listed as a payload sequence, newest first. */
  method ListMemtables(mems: seq<MT.Memtable>) returns (srcs: seq<seq<Payload>>)
    ensures |srcs| == |mems|
    ensures forall j | 0 <= j < |mems| :: Lists(srcs[j], mems[|mems| - 1 - j].data)
  {
    var n := |mems|;
    srcs := [];
    var i := 0;
    while i < n
      invariant 0 <= i <= n && |srcs| == i
      invariant forall j | 0 <= j < i :: Lists(srcs[j], mems[n - 1 - j].data)
    {
      var pl, _ := MT.BuildPayloadList(mems[n - 1 - i]);
      srcs := srcs + [pl];
      i := i + 1;
    }
  }

  /**
   `srcs` are the sources of a scan of `s`: each memtable, newest first, listed in some
   order, then the payloads of every table of every level up to a panicking one, which
   sets `panicked`; `s'` is `s` with the decoder cache those table reads leave.
   */
  predicate SourcesOf(s: Store, srcs: seq<seq<Payload>>, s': Store, panicked: bool)
  {
    && |srcs| >= |s.mems|
    && (forall j | 0 <= j < |s.mems| :: Lists(srcs[j], s.mems[|s.mems| - 1 - j].data))
    && (s'.cache, srcs[|s.mems|..], panicked) == LevelPayloads(s.lsm, 0, s.cache, s.fs)
    && s'.mems == s.mems && s'.lsm == s.lsm && s'.fs == s.fs && s'.opts == s.opts
  }

  /**
   The sources `MemtableStore.ReadAll` reads: each memtable newest first, then every table
   of every level, and whether a table read panicked.
   */
  method ListSources(s: Store) returns (srcs: seq<seq<Payload>>, s': Store, panicked: bool)
    requires Valid(s)
    ensures SourcesOf(s, srcs, s', panicked)
  {
    var listed := ListMemtables(s.mems);
    var (c, tables, p) := LevelPayloads(s.lsm, 0, s.cache, s.fs);
    srcs := listed + tables;
    assert srcs[|s.mems|..] == tables;
    assert forall j | 0 <= j < |s.mems| :: srcs[j] == listed[j];
    s' := s.(cache := c);
    panicked := p;
  }

  /**
   `MemtableStore.ReadAll`. Each memtable is listed in an order of its own choosing (Go's
   map order); `srcs` returns the sources read, newest memtable first, then the tables.
   As written, every live value of every source is returned, so a value deleted or
   overwritten in a newer memtable is still reported; corrected, a tombstone in a newer
   source hides the older values of its key. A table read that panics ends the scan with
   no values (`None`); that happens exactly when some table of some level panics when read
   through the cache the scan leaves.
   */
  method ReadAll(s: Store, mode: Mode) returns (values: Option<seq<Value>>, srcs: seq<seq<Payload>>, s': Store)
    requires Valid(s)
    ensures SourcesOf(s, srcs, s', values.None?)
    ensures values.None? <==> exists k, id | 0 <= k < |s.lsm.levels| && id in s.lsm.levels[k].tables :: TablePanics(s'.cache, s.lsm.levels[k].tables[id])
    ensures values.Some? ==> values.value == Values(if mode == AsWritten then CollectAsWritten(srcs) else Collect(srcs, {}))
    ensures mode == AsWritten && values.Some? ==>
      forall j, k | 0 <= j < |s.mems| && k in s.mems[j].data && !IsDeleted(s.mems[j].data[k]) :: s.mems[j].data[k] in values.value
  {
    var panicked;
    srcs, s', panicked := ListSources(s);
    LevelPayloadsNoPanic(s.lsm, 0, s.cache, s.fs);
    if panicked {
      values := None;
    } else {
      values := Some(Values(if mode == AsWritten then CollectAsWritten(srcs) else Collect(srcs, {})));
      if mode == AsWritten {
        LiveMemtablesReported(s, srcs, s', panicked);
      }
    }
  }

  /** As written, every live value of every memtable is among the values reported. */
  lemma LiveMemtablesReported(s: Store, srcs: seq<seq<Payload>>, s': Store, panicked: bool)
    requires SourcesOf(s, srcs, s', panicked)
    ensures forall j, k | 0 <= j < |s.mems| && k in s.mems[j].data && !IsDeleted(s.mems[j].data[k]) :: s.mems[j].data[k] in Values(CollectAsWritten(srcs))
  {
    var mems := s.mems;
    var n := |mems|;
    forall j, k | 0 <= j < n && k in mems[j].data && !IsDeleted(mems[j].data[k]) ensures mems[j].data[k] in Values(CollectAsWritten(srcs)) {
      var x := n - 1 - j;
      assert n - 1 - x == j;
      ListedLiveIsReported(srcs, x, mems[j].data, k);
    }
  }

  /** A live entry of a listed memtable is among the values the as-written scan reports. */
  lemma ListedLiveIsReported(srcs: seq<seq<Payload>>, x: nat, data: map<Key, Value>, k: Key)
    requires x < |srcs| && Lists(srcs[x], data)
    requires k in data && !IsDeleted(data[k])
    ensures data[k] in Values(CollectAsWritten(srcs))
  {
    var src := srcs[x];
    assert k in KeysOf(src);
    var y :| 0 <= y < |src| && src[y].key == k;
    var kept := CollectAsWritten(srcs);
    assert src[y] in kept;
    var z :| 0 <= z < |kept| && kept[z] == src[y];
    assert Values(kept)[z] == data[k];
  }

  /**
   The difference on one key: an old live value under a newer tombstone is reported as
   written and hidden by the correction.
   */
  lemma AsWrittenReportsDeletedValue(k: Key, earlier: Value, tombstone: Value)
    requires !IsDeleted(earlier) && IsDeleted(tombstone)
    ensures Payload(k, earlier) in CollectAsWritten([[Payload(k, tombstone)], [Payload(k, earlier)]])
    ensures Collect([[Payload(k, tombstone)], [Payload(k, earlier)]], {}) == []
  {
    var srcs := [[Payload(k, tombstone)], [Payload(k, earlier)]];
    assert Payload(k, earlier) in srcs[1];
    assert srcs[0][0] == Payload(k, tombstone);
    assert k in DeletedKeys(srcs[0]);
    var d: set<Key> := {} + DeletedKeys(srcs[0]);
    assert k in d;
    assert Keep(srcs[0], {}) == [];
    assert Keep(srcs[1], d) == [];
    assert srcs[1..] == [srcs[1]] && srcs[1..][1..] == [];
    assert Collect(srcs[1..], d) == Keep(srcs[1], d) + Collect([], d + DeletedKeys(srcs[1]));
    assert Collect(srcs, {}) == Keep(srcs[0], {}) + Collect(srcs[1..], d);
  }
}

=== FILE: recovery.dfy ===
/**
 Write-ahead-log recovery of the memtable store (parrot/memtable/memtable.go,
 `MemtableStore.RollbackAll` and `rollback`): the WAL files of earlier runs are ordered by
 the number in their names and their events are replayed through the store's own `Write`
 and `Delete`. Listing the directory, parsing the names and decoding the files
 (parrot/wal/wal.go, `Replay`) are abstracted into the `WalFile` records given.
 */
module StoreRecovery {
  import opened Keys
  import opened Wrappers
  import MT = Memtable
  import opened Levels
  import opened SstCache
  import opened MemStore

  /**
   One WAL file: the number `fmt.Sscanf` reads from its name `wal-<n>.log` (0 when the
   name does not parse) and the events `Replay` decoded, `None` when it could not be read.
   */
  datatype WalFile = WalFile(num: int, events: Option<seq<MT.MemEvent>>)

  datatype Recovery = Recovered(store: Store) | WalDisabled | Panicked

  // ---------------------------------------------------------------- file order

  /** `a` comes no later than `b` in the order asked for. */
  predicate NoLater(a: WalFile, b: WalFile, descending: bool)
  {
    if descending then a.num >= b.num else a.num <= b.num
  }

  predicate Ordered(files: seq<WalFile>, descending: bool)
  {
    forall i, j | 0 <= i < j < |files| :: NoLater(files[i], files[j], descending)
  }

  function InsertFile(f: WalFile, files: seq<WalFile>, descending: bool): (r: seq<WalFile>)
    requires Ordered(files, descending)
    ensures Ordered(r, descending)
    ensures multiset(r) == multiset(files) + multiset{f}
    ensures forall x :: x in r <==> x == f || x in files
  {
    if |files| == 0 then [f]
    else if NoLater(f, files[0], descending) then
      OrderedCons(f, files, descending);
      [f] + files
    else
      assert files == [files[0]] + files[1..];
      OrderedTail(files, descending);
      var rest := InsertFile(f, files[1..], descending);
      forall j | 0 <= j < |rest| ensures NoLater(files[0], rest[j], descending) {
        assert rest[j] in rest;
      }
      OrderedCons(files[0], rest, descending);
      [files[0]] + rest
  }

  lemma OrderedTail(files: seq<WalFile>, descending: bool)
    requires |files| > 0 && Ordered(files, descending)
    ensures Ordered(files[1..], descending)
  {
    forall i, j | 0 <= i < j < |files| - 1 ensures NoLater(files[1..][i], files[1..][j], descending) {
      assert files[1..][i] == files[i + 1] && files[1..][j] == files[j + 1];
    }
  }

  /** A file no later than every file of an ordered list may go in front of it. */
  lemma OrderedCons(f: WalFile, files: seq<WalFile>, descending: bool)
    requires Ordered(files, descending)
    requires |files| > 0 ==> NoLater(f, files[0], descending)
    ensures Ordered([f] + files, descending)
  {
    var r := [f] + files;
    forall i, j | 0 <= i < j < |r| ensures NoLater(r[i], r[j], descending) {
      assert r[j] == files[j - 1];
      if i == 0 {
        assert NoLater(files[0], files[j - 1], descending) || j == 1;
      } else {
        assert r[i] == files[i - 1];
      }
    }
  }

  /**
   The order `sort.Slice` leaves the files in. Its comparator takes its parameters as
   `(j, i)` and answers `num(files[i]) < num(files[j])`, so the files end up in descending
   order; the corrected comparator gives ascending order. Files with equal numbers may end
   up in either order in Go; this is one of them.
   */
  function SortFiles(files: seq<WalFile>, descending: bool): (r: seq<WalFile>)
    ensures Ordered(r, descending)
    ensures multiset(r) == multiset(files)
  {
    if |files| == 0 then []
    else
      assert files == [files[0]] + files[1..];
      InsertFile(files[0], SortFiles(files[1..], descending), descending)
  }

  // ---------------------------------------------------------------- replay

  /**
   `rollback` of one event. A write event goes through `Write`. A delete event goes through
   `Delete` with the logged value as tombstone; a nil value is harmless when the active
   memtable holds the key, but for an absent key it stores nil and the `MarkDeleted` call
   on it panics. The replayed delete logs again, as the mode says.
   */
  function ReplayEvent(s: Store, ev: MT.MemEvent, mode: Mode): (r: Option<Store>)
    requires Valid(s)
    ensures r.Some? ==> Valid(r.value) && r.value.lsm == s.lsm && r.value.opts == s.opts
    ensures ev.value.Some? ==> r.Some?
  {
    match (ev.op, ev.value)
    case (WriteOp, Some(v)) => Some(Write(s, ev.key, v).0)
    case (WriteOp, None) => None
    case (DeleteOp, Some(t)) => Some(Delete(s, ev.key, t, mode))
    case (DeleteOp, None) =>
      if ev.key in Active(s).data then Some(Delete(s, ev.key, Active(s).data[ev.key], mode)) else None
  }

  /** `rollback` of one file's events in log order; `None` when one of them panics. */
  function ReplayEvents(s: Store, evs: seq<MT.MemEvent>, mode: Mode): (r: Option<Store>)
    requires Valid(s)
    ensures r.Some? ==> Valid(r.value) && r.value.lsm == s.lsm && r.value.opts == s.opts
    decreases |evs|
  {
    if |evs| == 0 then Some(s)
    else match ReplayEvent(s, evs[0], mode)
      case None => None
      case Some(s') => ReplayEvents(s', evs[1..], mode)
  }

  /** The files in the given order; an unreadable file is skipped. */
  function ReplayFiles(s: Store, files: seq<WalFile>, mode: Mode): (r: Recovery)
    requires Valid(s)
    ensures r != WalDisabled
    ensures r.Recovered? ==> Valid(r.store) && r.store.lsm == s.lsm && r.store.opts == s.opts
    decreases |files|
  {
    if |files| == 0 then Recovered(s)
    else if files[0].events.None? then ReplayFiles(s, files[1..], mode)
    else match ReplayEvents(s, files[0].events.value, mode)
      case None => Panicked
      case Some(s') => ReplayFiles(s', files[1..], mode)
  }

  /** `MemtableStore.RollbackAll`: nothing to do but an error when the WAL is off. */
  function RollbackAll(s: Store, files: seq<WalFile>, mode: Mode): (r: Recovery)
    requires Valid(s)
    ensures r == WalDisabled <==> !s.opts.turnOnWal
    ensures r.Recovered? ==> Valid(r.store) && r.store.lsm == s.lsm && r.store.opts == s.opts
  {
    if !s.opts.turnOnWal then WalDisabled
    else ReplayFiles(s, SortFiles(files, mode == AsWritten), mode)
  }

  // ---------------------------------------------------------------- properties

  /** Every event of the log carries its value. */
  predicate CarriesValues(evs: seq<MT.MemEvent>)
  {
    forall i | 0 <= i < |evs| :: evs[i].value.Some?
  }

  /** Every memtable's log carries values. */
  predicate LogsCarryValues(s: Store)
  {
    forall i | 0 <= i < |s.mems| :: CarriesValues(s.mems[i].log)
  }

  /**
   With the delete corrected, the store's own writes and deletes only ever log events that
   carry their values; as written, a delete with the WAL on logs one that does not.
   */
  lemma OperationsLogValues(s: Store, key: Key, value: Value)
    requires Valid(s) && LogsCarryValues(s)
    ensures LogsCarryValues(Write(s, key, value).0)
    ensures LogsCarryValues(Delete(s, key, value, Corrected))
    ensures s.opts.turnOnWal ==> !LogsCarryValues(Delete(s, key, value, AsWritten))
  {
    WriteLogsValues(s, key, value);
    DeleteLogsValues(s, key, value);
    if s.opts.turnOnWal {
      var d := Delete(s, key, value, AsWritten);
      var n := |s.mems| - 1;
      assert d.mems[n].log[|Active(s).log|].value.None?;
    }
  }

  lemma WriteLogsValues(s: Store, key: Key, value: Value)
    requires Valid(s) && LogsCarryValues(s)
    ensures LogsCarryValues(Write(s, key, value).0)
  {
    var w := Write(s, key, value).0;
    forall i | 0 <= i < |w.mems| ensures CarriesValues(w.mems[i].log) {
      if i < |s.mems| - 1 {
        assert w.mems[i] == s.mems[i];
      }
    }
  }

  lemma DeleteLogsValues(s: Store, key: Key, value: Value)
    requires Valid(s) && LogsCarryValues(s)
    ensures LogsCarryValues(Delete(s, key, value, Corrected))
  {
    var d := Delete(s, key, value, Corrected);
    forall i | 0 <= i < |d.mems| ensures CarriesValues(d.mems[i].log) {
      if i < |s.mems| - 1 {
        assert d.mems[i] == s.mems[i];
      }
    }
  }

  /** Replaying a log whose events carry their values never panics. */
  lemma {:induction false} ValuedLogReplays(s: Store, evs: seq<MT.MemEvent>, mode: Mode)
    requires Valid(s) && CarriesValues(evs)
    ensures ReplayEvents(s, evs, mode).Some?
    decreases |evs|
  {
    if |evs| > 0 {
      var s' := ReplayEvent(s, evs[0], mode).value;
      assert CarriesValues(evs[1..]) by {
        forall i | 0 <= i < |evs| - 1 ensures evs[1..][i].value.Some? {
          assert evs[1..][i] == evs[i + 1];
        }
      }
      ValuedLogReplays(s', evs[1..], mode);
    }
  }

  /** A fresh store with the WAL on and no levels. */
  function FreshStore(): (s: Store)
    ensures Valid(s) && s.opts.turnOnWal
  {
    NewStore(MT.MemtableOpts(1024, true), Lsm([]), map[])
  }

  /**
   The delete event as the source logs it has no value: replaying it into a store whose
   active memtable lacks the key panics, while the event carrying the tombstone replays to
   a store that reads the key as not found.
   */
  lemma AsWrittenDeleteLogPanics(k: Key, tombstone: Value)
    ensures Active(Delete(FreshStore(), k, tombstone, AsWritten)).log == [MT.DeleteEventAsWritten(k)]
    ensures ReplayEvents(FreshStore(), [MT.DeleteEventAsWritten(k)], AsWritten).None?
    ensures Active(Delete(FreshStore(), k, tombstone, Corrected)).log == [MT.DeleteEvent(k, tombstone)]
    ensures ReplayEvents(FreshStore(), [MT.DeleteEvent(k, tombstone)], Corrected).Some?
    ensures Read(ReplayEvents(FreshStore(), [MT.DeleteEvent(k, tombstone)], Corrected).value, k).1 == Absent
  {
    var s := FreshStore();
    assert [MT.DeleteEventAsWritten(k)][1..] == [];
    assert [MT.DeleteEvent(k, tombstone)][1..] == [];
    assert ReplayEvents(s, [MT.DeleteEvent(k, tombstone)], Corrected) == Some(Delete(s, k, tombstone, Corrected));
    DeleteThenRead(s, k, tombstone, k, Corrected, Corrected);
  }

  /** Two WAL files, the older one writing `a` under `k` and the newer one `b`. */
  function TwoWals(k: Key, a: Value, b: Value): seq<WalFile>
  {
    [WalFile(1, Some([MT.MemEvent(k, Some(a), MT.WriteOp)])), WalFile(2, Some([MT.MemEvent(k, Some(b), MT.WriteOp)]))]
  }

  /** The store after one write that fits. */
  lemma ReplayOneWrite(s: Store, k: Key, v: Value, mode: Mode)
    requires Valid(s)
    ensures ReplayEvents(s, [MT.MemEvent(k, Some(v), MT.WriteOp)], mode) == Some(Write(s, k, v).0)
  {
    assert [MT.MemEvent(k, Some(v), MT.WriteOp)][1..] == [];
  }

  /**
   The recovery order as written replays the newest WAL first, so the older value wins: with
   `wal-1.log` writing `a` and `wal-2.log` writing `b` under the same key, the recovered store
   reads `a`; with the corrected order it reads `b`.
   */
  lemma NewestWalReplayedFirst(k: Key, a: Int32, b: Int32)
    ensures RollbackAll(FreshStore(), TwoWals(k, IntValue(a, false), IntValue(b, false)), AsWritten).Recovered?
    ensures Read(RollbackAll(FreshStore(), TwoWals(k, IntValue(a, false), IntValue(b, false)), AsWritten).store, k).1
      == Answer(Some(IntValue(a, false)), true)
    ensures RollbackAll(FreshStore(), TwoWals(k, IntValue(a, false), IntValue(b, false)), Corrected).Recovered?
    ensures Read(RollbackAll(FreshStore(), TwoWals(k, IntValue(a, false), IntValue(b, false)), Corrected).store, k).1
      == Answer(Some(IntValue(b, false)), true)
  {
    var va, vb := IntValue(a, false), IntValue(b, false);
    var files := TwoWals(k, va, vb);
    var s := FreshStore();
    TwoWalsSorted(k, va, vb);
    MT.OverflowsPlain(0, 4, 1024);
    ReplayTwoWrites(s, k, vb, va, files[1], files[0], AsWritten);
    ReplayTwoWrites(s, k, va, vb, files[0], files[1], Corrected);
  }

  /** Sorting the two WAL files: newest first as written, oldest first corrected. */
  lemma TwoWalsSorted(k: Key, a: Value, b: Value)
    ensures SortFiles(TwoWals(k, a, b), true) == [TwoWals(k, a, b)[1], TwoWals(k, a, b)[0]]
    ensures SortFiles(TwoWals(k, a, b), false) == TwoWals(k, a, b)
  {
    var files := TwoWals(k, a, b);
    var f1, f2 := files[0], files[1];
    assert files[1..] == [f2];
    assert SortFiles([f2], true) == [f2] by { assert [f2][1..] == []; }
    assert SortFiles([f2], false) == [f2] by { assert [f2][1..] == []; }
  }

  /**
   Replaying two files that each write one value under the same key: the value of the file
   replayed last is read back, provided it fits a fresh memtable.
   */
  lemma ReplayTwoWrites(s: Store, k: Key, x: Value, y: Value, f: WalFile, g: WalFile, mode: Mode)
    requires Valid(s)
    requires f.events == Some([MT.MemEvent(k, Some(x), MT.WriteOp)])
    requires g.events == Some([MT.MemEvent(k, Some(y), MT.WriteOp)])
    requires !MT.Overflows(0, SizeOf(y), s.opts.softLimit)
    ensures ReplayFiles(s, [f, g], mode).Recovered?
    ensures Read(ReplayFiles(s, [f, g], mode).store, k).1 == Settle(y)
  {
    ReplayOneWrite(s, k, x, mode);
    var sx := Write(s, k, x).0;
    ReplayOneWrite(sx, k, y, mode);
    var sxy := Write(sx, k, y).0;
    assert [f, g][1..] == [g] && [g][1..] == [];
    assert ReplayFiles(sx, [g], mode) == ReplayFiles(sxy, [], mode);
    assert ReplayFiles(s, [f, g], mode) == ReplayFiles(sx, [g], mode);
    WriteThenRead(sx, k, y, Corrected);
  }
}

=== FILE: schema.dfy ===
/**
 The schema checks of the document layer (internal/schema/schema.go): `VerifySchema`, which
 checks a document schema before it is saved, and `VerifyAndCastData`, which checks a
 document against its schema and casts its fields in place.

 A schema or a document is a Go `map[string]interface{}`; here it is the list of its
 entries in the order one `range` over the map visits them, keys distinct. Go leaves that
 order unspecified and may change it from run to run, so every statement about an outcome
 that may depend on it is made for every listing. `types.AllTypes` and `types.TypeCast`
 are generated code that is not part of this model: they are the parameters `allTypes`
 and `cast`.
 */
module Schema {
  import opened Wrappers
  import opened Converters

  type Entries = seq<(string, Dyn)>

  /** `errors.SchemaValidationError` with its message. */
  datatype SchemaError = SchemaValidationError(msg: string)

  /** The error of the data caster: a failed converter, or a field that cannot be cast. */
  datatype DataError = CastFailed(e: CastError) | NotCastable(key: string)

  const IdKey: string := "_ID"

  /** `m[key]`: the value stored under `key`, `None` when there is none (Go's nil). */
  function Lookup(es: Entries, key: string): (r: Option<Dyn>)
    ensures r.Some? <==> exists i | 0 <= i < |es| :: es[i].0 == key
    ensures r.Some? ==> exists i | 0 <= i < |es| :: es[i] == (key, r.value)
  {
    if |es| == 0 then None
    else if es[0].0 == key then Some(es[0].1)
    else
      var r := Lookup(es[1..], key);
      assert forall i | 0 <= i < |es| - 1 :: es[1..][i] == es[i + 1];
      r
  }

  /** The value of `key` seen as Go's `interface{}`: nil both when absent and when stored nil. */
  function Field(es: Entries, key: string): Dyn
  {
    match Lookup(es, key)
    case None => GoNil
    case Some(v) => v
  }

  // ---------------------------------------------------------------- _ID settings

  /**
   `loadSchemaId`: a present, non-nil `_ID` must be a map whose `auto_increment`, when
   present, is a bool. As written the map is assigned to a variable declared inside the `if`
   (`id_map, ok := ...` shadows the outer `id_map`), so the function always returns nil;
   corrected, it returns the `_ID` settings.
   */
  function LoadSchemaId(schema: Entries, mode: Mode): (r: Result<Option<Entries>, SchemaError>)
    ensures r.Err? <==> match Field(schema, IdKey)
                        case GoNil => false
                        case GoMap(id) => Lookup(id, "auto_increment").Some? && !Lookup(id, "auto_increment").value.GoBool?
                        case _ => true
    ensures r.Ok? && mode == Corrected ==> (r.value.Some? <==> Field(schema, IdKey).GoMap?)
    ensures r.Ok? && r.value.Some? ==> Field(schema, IdKey) == GoMap(r.value.value)
  {
    match Field(schema, IdKey)
    case GoNil => Ok(None)
    case GoMap(id) =>
      var ai := Lookup(id, "auto_increment");
      if ai.Some? && !ai.value.GoBool? then Err(SchemaValidationError("auto_increment field should be bool"))
      else if mode == AsWritten then Ok(None)
      else Ok(Some(id))
    case _ => Err(SchemaValidationError("_ID properties missing"))
  }

  /** As written, `loadSchemaId` hands back nil even for a well-formed `_ID` map. */
  lemma LoadSchemaIdLosesSettings()
    ensures LoadSchemaId([(IdKey, GoMap([("auto_increment", GoBool(true))]))], AsWritten) == Ok(None)
    ensures LoadSchemaId([(IdKey, GoMap([("auto_increment", GoBool(true))]))], Corrected)
      == Ok(Some([("auto_increment", GoBool(true))]))
  {
  }

  // ---------------------------------------------------------------- the schema verifier

  /** A field type the verifier accepts: a known type name, or a nested schema it accepts. */
  predicate ValidType(v: Dyn, allTypes: set<string>)
    decreases v, 2
  {
    match v
    case GoString(t) => t in allTypes
    case GoMap(es) => ValidSchema(es, allTypes)
    case _ => false
  }

  /** A schema whose every field other than `_ID` has a valid type; an empty one is not valid. */
  predicate ValidSchema(es: Entries, allTypes: set<string>)
    decreases GoMap(es), 1
  {
    |es| > 0 && forall i | 0 <= i < |es| :: ValidField(es, i, allTypes)
  }

  predicate ValidField(es: Entries, i: nat, allTypes: set<string>)
    requires i < |es|
    decreases GoMap(es), 0
  {
    assert es[i] in es;
    es[i].0 == IdKey || ValidType(es[i].1, allTypes)
  }

  /** The error `recursiveSchemaVerifier` gives for a field it rejects, if it rejects it itself. */
  function TypeError(v: Dyn, allTypes: set<string>): Option<SchemaError>
  {
    match v
    case GoString(t) => if t in allTypes then None else Some(SchemaValidationError("invalid data type " + t))
    case GoMap(_) => None
    case _ => Some(SchemaValidationError("invalid data type"))
  }

  /**
   `recursiveSchemaVerifier`: a nil or empty schema is rejected, then the fields are checked
   in iteration order.
   */
  function VerifyMap(es: Entries, allTypes: set<string>, mode: Mode): (r: Result<(), SchemaError>)
    decreases GoMap(es), |es| + 1
  {
    if |es| == 0 then Err(SchemaValidationError("missing data type"))
    else VerifyFields(es, 0, allTypes, mode)
  }

  /**
   The loop of `recursiveSchemaVerifier` from the `i`-th field on. `_ID` is skipped; a type
   name must be in `allTypes`; anything but a string or a map is rejected. On a nested map
   the source returns the nested verdict at once, so the fields after it are never checked;
   corrected, a nested map that passes lets the loop go on.
   */
  function VerifyFields(es: Entries, i: nat, allTypes: set<string>, mode: Mode): (r: Result<(), SchemaError>)
    requires i <= |es|
    decreases GoMap(es), |es| - i
  {
    if i == |es| then Ok(())
    else
      var key, v := es[i].0, es[i].1;
      assert es[i] in es;
      if key == IdKey then VerifyFields(es, i + 1, allTypes, mode)
      else if TypeError(v, allTypes).Some? then Err(TypeError(v, allTypes).value)
      else if v.GoMap? then
        match VerifyMap(v.entries, allTypes, mode)
        case Err(e) => Err(e)
        case Ok(_) => if mode == AsWritten then Ok(()) else VerifyFields(es, i + 1, allTypes, mode)
      else VerifyFields(es, i + 1, allTypes, mode)
  }

  /** The corrected loop accepts exactly the field lists whose every remaining field has a valid type. */
  lemma {:induction false} VerifyFieldsExact(es: Entries, i: nat, allTypes: set<string>)
    requires i <= |es|
    ensures VerifyFields(es, i, allTypes, Corrected).Ok? <==> forall j | i <= j < |es| :: ValidField(es, j, allTypes)
    decreases GoMap(es), |es| - i
  {
    if i < |es| {
      var v := es[i].1;
      assert es[i] in es;
      VerifyFieldsExact(es, i + 1, allTypes);
      if v.GoMap? {
        VerifyMapExact(v.entries, allTypes);
      }
      assert ValidField(es, i, allTypes) <==> es[i].0 == IdKey || ValidType(v, allTypes);
      assert (forall j | i <= j < |es| :: ValidField(es, j, allTypes))
        <==> ValidField(es, i, allTypes) && forall j | i + 1 <= j < |es| :: ValidField(es, j, allTypes);
    }
  }

  /** The corrected verifier accepts exactly the valid schemas, whatever the iteration order. */
  lemma {:induction false} VerifyMapExact(es: Entries, allTypes: set<string>)
    ensures VerifyMap(es, allTypes, Corrected).Ok? <==> ValidSchema(es, allTypes)
    decreases GoMap(es), |es| + 1
  {
    if |es| > 0 {
      VerifyFieldsExact(es, 0, allTypes);
      assert VerifyMap(es, allTypes, Corrected) == VerifyFields(es, 0, allTypes, Corrected);
      if VerifyMap(es, allTypes, Corrected).Ok? {
        assert forall j | 0 <= j < |es| :: ValidField(es, j, allTypes);
      }
      if ValidSchema(es, allTypes) {
        assert forall j | 0 <= j < |es| :: ValidField(es, j, allTypes);
      }
    }
  }

  /** Whatever the corrected verifier accepts, the verifier as written accepts too. */
  lemma {:induction false} AsWrittenAcceptsMore(es: Entries, allTypes: set<string>)
    ensures VerifyMap(es, allTypes, Corrected).Ok? ==> VerifyMap(es, allTypes, AsWritten).Ok?
    decreases GoMap(es), |es| + 1
  {
    if |es| > 0 {
      AsWrittenFieldsAcceptMore(es, 0, allTypes);
    }
  }

  lemma {:induction false} AsWrittenFieldsAcceptMore(es: Entries, i: nat, allTypes: set<string>)
    requires i <= |es|
    ensures VerifyFields(es, i, allTypes, Corrected).Ok? ==> VerifyFields(es, i, allTypes, AsWritten).Ok?
    decreases GoMap(es), |es| - i
  {
    if i < |es| {
      var v := es[i].1;
      assert es[i] in es;
      AsWrittenFieldsAcceptMore(es, i + 1, allTypes);
      if v.GoMap? {
        AsWrittenAcceptsMore(v.entries, allTypes);
      }
    }
  }

  /** `VerifySchema`: the `_ID` settings first, then the fields. */
  function VerifySchema(schema: Entries, allTypes: set<string>, mode: Mode): (r: Result<(), SchemaError>)
    ensures LoadSchemaId(schema, mode).Err? ==> r == Err(LoadSchemaId(schema, mode).error)
    ensures LoadSchemaId(schema, mode).Ok? ==> r == VerifyMap(schema, allTypes, mode)
  {
    match LoadSchemaId(schema, mode)
    case Err(e) => Err(e)
    case Ok(_) => VerifyMap(schema, allTypes, mode)
  }

  /**
   The verdict as written depends on the iteration order: a nested map followed by an
   unknown type name passes when the map is visited first and fails the other way round,
   while the corrected verifier rejects both listings.
   */
  lemma VerifierDependsOnOrder(allTypes: set<string>)
    requires "INT" in allTypes && "COUNTRY" !in allTypes
    ensures VerifyMap([("a", GoMap([("x", GoString("INT"))])), ("b", GoString("COUNTRY"))], allTypes, AsWritten).Ok?
    ensures VerifyMap([("b", GoString("COUNTRY")), ("a", GoMap([("x", GoString("INT"))]))], allTypes, AsWritten)
      == Err(SchemaValidationError("invalid data type COUNTRY"))
    ensures VerifyMap([("a", GoMap([("x", GoString("INT"))])), ("b", GoString("COUNTRY"))], allTypes, Corrected)
      == Err(SchemaValidationError("invalid data type COUNTRY"))
  {
    var inner: Entries := [("x", GoString("INT"))];
    var es: Entries := [("a", GoMap(inner)), ("b", GoString("COUNTRY"))];
    assert es[1..] == [("b", GoString("COUNTRY"))];
    assert inner[1..] == [];
    assert VerifyMap(inner, allTypes, AsWritten) == Ok(());
    assert VerifyMap(inner, allTypes, Corrected) == Ok(());
    assert es[1..][1..] == [];
    assert "invalid data type " + "COUNTRY" == "invalid data type COUNTRY";
  }

  /** The valid schema of the package's verifier tests passes, given the type names it uses. */
  lemma VerifierAcceptsExample(allTypes: set<string>, mode: Mode)
    requires "DATETIME" in allTypes && "BYTE" in allTypes
    ensures VerifySchema([(IdKey, GoMap([("auto_increment", GoBool(false))])), ("name", GoString("DATETIME")),
                          ("age", GoMap([("name", GoString("BYTE"))]))], allTypes, mode).Ok?
  {
    var id: Entries := [("auto_increment", GoBool(false))];
    var age: Entries := [("name", GoString("BYTE"))];
    var valid: Entries := [(IdKey, GoMap(id)), ("name", GoString("DATETIME")), ("age", GoMap(age))];
    assert Field(valid, IdKey) == GoMap(id);
    assert Lookup(id, "auto_increment") == Some(GoBool(false));
    assert LoadSchemaId(valid, mode).Ok?;
    assert VerifyMap(age, allTypes, mode).Ok? by {
      assert VerifyFields(age, 1, allTypes, mode) == Ok(());
    }
    assert VerifyFields(valid, 3, allTypes, mode) == Ok(());
    assert VerifyFields(valid, 2, allTypes, mode) == Ok(());
    assert VerifyFields(valid, 1, allTypes, mode) == Ok(());
    assert VerifyFields(valid, 0, allTypes, mode) == Ok(());
  }

  /** The schemas of the package's verifier tests that carry no nested map. */
  lemma VerifierFlatExamples(allTypes: set<string>, mode: Mode)
    requires "COUNTRY" !in allTypes
    ensures VerifySchema([("name", GoString("COUNTRY"))], allTypes, mode)
      == Err(SchemaValidationError("invalid data type COUNTRY"))
    ensures VerifySchema([(IdKey, GoMap([("auto_increment", GoBool(true))]))], allTypes, mode).Ok?
    ensures VerifySchema([(IdKey, GoString("STRING"))], allTypes, mode)
      == Err(SchemaValidationError("_ID properties missing"))
    ensures VerifySchema([("active", GoInt(123))], allTypes, mode) == Err(SchemaValidationError("invalid data type"))
  {
    assert "invalid data type " + "COUNTRY" == "invalid data type COUNTRY";
    var settings: Entries := [("auto_increment", GoBool(true))];
    var id: Entries := [(IdKey, GoMap(settings))];
    assert Field(id, IdKey) == GoMap(settings);
    assert Lookup(settings, "auto_increment") == Some(GoBool(true));
    assert LoadSchemaId(id, mode).Ok?;
    assert VerifyFields(id, 1, allTypes, mode) == Ok(());
    assert VerifyFields(id, 0, allTypes, mode) == Ok(());
  }

  /** A non-bool `auto_increment` is rejected before any field is looked at. */
  lemma VerifierRejectsAutoIncrement(allTypes: set<string>, mode: Mode)
    ensures VerifySchema([(IdKey, GoMap([("auto_increment", GoString("int"))])), ("name", GoString("FLOAT64")),
                          ("age", GoMap([("name", GoString("BYTE"))]))], allTypes, mode)
      == Err(SchemaValidationError("auto_increment field should be bool"))
  {
    var bad: Entries := [("auto_increment", GoString("int"))];
    var schema: Entries := [(IdKey, GoMap(bad)), ("name", GoString("FLOAT64")), ("age", GoMap([("name", GoString("BYTE"))]))];
    assert Field(schema, IdKey) == GoMap(bad);
    assert Lookup(bad, "auto_increment") == Some(GoString("int"));
  }

  // ---------------------------------------------------------------- the data caster

  /** `types.TypeCast`: the cast a type name selects, abstract. */
  type Caster = (string, Dyn) -> Result<Dyn, CastError>

  /** The schema of a nested document: the schema field when it is a map, nil (no fields) otherwise. */
  function SubSchema(field: Dyn): Entries
  {
    if field.GoMap? then field.entries else []
  }

  /**
   `recursiveDataCaster` from the `i`-th field of `data` on: the new values of those fields
   and the error, if any. `_ID` is replaced by its `ToID`; a field whose schema entry is a
   type name by its cast; any other field must be a nested document, cast against the
   schema entry's map (nil when the entry is not a map). The first error stops the loop and
   leaves the fields from there on as they were. As written, a nested document ends the loop
   with its own outcome, so the fields after it are never cast; corrected, the loop goes on.
   */
  function CastFields(schema: Entries, data: Entries, i: nat, cast: Caster, mode: Mode): (r: (Entries, Option<DataError>))
    requires i <= |data|
    ensures |r.0| == |data| - i
    ensures forall j | 0 <= j < |r.0| :: r.0[j].0 == data[i + j].0
    decreases GoMap(data), |data| - i
  {
    if i == |data| then ([], None)
    else
      var key, v := data[i].0, data[i].1;
      assert data[i] in data;
      var field := Field(schema, key);
      var scalar :=
        if key == IdKey then Some(ToID(v))
        else if field.GoString? then Some(cast(field.s, v))
        else None;
      if scalar.Some? then
        match scalar.value
        case Err(e) => (data[i..], Some(CastFailed(e)))
        case Ok(c) =>
          var rest := CastFields(schema, data, i + 1, cast, mode);
          ([(key, c)] + rest.0, rest.1)
      else if !v.GoMap? then (data[i..], Some(NotCastable(key)))
      else
        var sub := CastMap(SubSchema(field), v.entries, cast, mode);
        if mode == AsWritten || sub.1.Some? then ([(key, GoMap(sub.0))] + data[i + 1..], sub.1)
        else
          var rest := CastFields(schema, data, i + 1, cast, mode);
          ([(key, GoMap(sub.0))] + rest.0, rest.1)
  }

  /** `VerifyAndCastData`: the document with its fields cast in place, and the error. */
  function CastMap(schema: Entries, data: Entries, cast: Caster, mode: Mode): (r: (Entries, Option<DataError>))
    ensures |r.0| == |data|
    ensures forall j | 0 <= j < |data| :: r.0[j].0 == data[j].0
    decreases GoMap(data), |data| + 1
  {
    CastFields(schema, data, 0, cast, mode)
  }

  /** A field that casts without error hands the outcome on to the next field. */
  lemma CastStepPasses(schema: Entries, data: Entries, i: nat, cast: Caster, mode: Mode)
    requires i < |data|
    requires data[i].0 == IdKey ==> ToID(data[i].1).Ok?
    requires data[i].0 != IdKey ==> Field(schema, data[i].0).GoString? && cast(Field(schema, data[i].0).s, data[i].1).Ok?
    ensures CastFields(schema, data, i, cast, mode).1 == CastFields(schema, data, i + 1, cast, mode).1
  {
  }

  /** A nested document that casts without error ends the loop as written, and hands on when corrected. */
  lemma NestedStepPasses(schema: Entries, data: Entries, i: nat, cast: Caster, mode: Mode)
    requires i < |data| && data[i].0 != IdKey && !Field(schema, data[i].0).GoString? && data[i].1.GoMap?
    requires CastMap(SubSchema(Field(schema, data[i].0)), data[i].1.entries, cast, mode).1 == None
    ensures CastFields(schema, data, i, cast, mode).1
            == if mode == AsWritten then None else CastFields(schema, data, i + 1, cast, mode).1
  {
  }

  /**
   `out` is `data` with every field cast: `_ID` to its `ToID`, a field with a type name to
   its cast, and a nested document, field by field, against its sub-schema. The keys and
   their order stay as they are.
   */
  predicate CastTo(schema: Entries, data: Entries, out: Entries, cast: Caster)
    decreases GoMap(data), 2
  {
    CastFrom(schema, data, 0, out, cast)
  }

  /** `out` is the cast of the fields of `data` from the `i`-th on. */
  predicate CastFrom(schema: Entries, data: Entries, i: nat, out: Entries, cast: Caster)
    requires i <= |data|
    decreases GoMap(data), 1
  {
    |out| == |data| - i && forall k | 0 <= k < |out| :: FieldCastTo(schema, data, i + k, out[k], cast)
  }

  predicate FieldCastTo(schema: Entries, data: Entries, j: nat, o: (string, Dyn), cast: Caster)
    requires j < |data|
    decreases GoMap(data), 0
  {
    assert data[j] in data;
    o.0 == data[j].0 && ValueCastTo(Field(schema, data[j].0), data[j].0, data[j].1, o.1, cast)
  }

  predicate ValueCastTo(field: Dyn, key: string, v: Dyn, w: Dyn, cast: Caster)
    decreases v, 3
  {
    if key == IdKey then ToID(v) == Ok(w)
    else if field.GoString? then cast(field.s, v) == Ok(w)
    else v.GoMap? && w.GoMap? && CastTo(SubSchema(field), v.entries, w.entries, cast)
  }

  /** The cast of the fields from `i` on is the cast of field `i` followed by the cast of the rest. */
  lemma CastFromStep(schema: Entries, data: Entries, i: nat, out: Entries, cast: Caster)
    requires i < |data|
    ensures CastFrom(schema, data, i, out, cast)
        <==> |out| > 0 && FieldCastTo(schema, data, i, out[0], cast) && CastFrom(schema, data, i + 1, out[1..], cast)
  {
    if |out| > 0 {
      if CastFrom(schema, data, i, out, cast) {
        assert FieldCastTo(schema, data, i + 0, out[0], cast);
        forall k | 0 <= k < |out| - 1 ensures FieldCastTo(schema, data, i + 1 + k, out[1..][k], cast) {
          assert FieldCastTo(schema, data, i + (k + 1), out[k + 1], cast);
        }
      }
      if FieldCastTo(schema, data, i, out[0], cast) && CastFrom(schema, data, i + 1, out[1..], cast) {
        forall k | 0 <= k < |out| ensures FieldCastTo(schema, data, i + k, out[k], cast) {
          if k > 0 {
            assert FieldCastTo(schema, data, i + 1 + (k - 1), out[1..][k - 1], cast);
          }
        }
      }
    }
  }

  /**
   The corrected loop from field `i` on succeeds exactly when the remaining fields have a
   cast, and then returns it: whatever it returns on success is their cast, and it succeeds
   with `out` whenever `out` is.
   */
  lemma {:induction false} CastFieldsExact(schema: Entries, data: Entries, i: nat, cast: Caster, out: Entries)
    requires i <= |data|
    ensures CastFields(schema, data, i, cast, Corrected).1.None?
      ==> CastFrom(schema, data, i, CastFields(schema, data, i, cast, Corrected).0, cast)
    ensures CastFrom(schema, data, i, out, cast) ==> CastFields(schema, data, i, cast, Corrected) == (out, None)
    decreases GoMap(data), |data| - i
  {
    if i < |data| {
      var key, v := data[i].0, data[i].1;
      assert data[i] in data;
      var field := Field(schema, key);
      var r := CastFields(schema, data, i, cast, Corrected);
      var out' := if |out| > 0 then out[1..] else [];
      CastFieldsExact(schema, data, i + 1, cast, out');
      CastFromStep(schema, data, i, r.0, cast);
      CastFromStep(schema, data, i, out, cast);
      if key != IdKey && !field.GoString? && v.GoMap? {
        var w := if |out| > 0 && out[0].1.GoMap? then out[0].1.entries else [];
        CastMapExact(SubSchema(field), v.entries, cast, w);
      }
      if r.1.None? {
        assert r.0[1..] == CastFields(schema, data, i + 1, cast, Corrected).0;
      }
      if CastFrom(schema, data, i, out, cast) {
        assert out == [out[0]] + out';
      }
    }
  }

  /** The corrected caster succeeds exactly on the documents that have a cast, and returns that cast. */
  lemma {:induction false} CastMapExact(schema: Entries, data: Entries, cast: Caster, out: Entries)
    ensures CastMap(schema, data, cast, Corrected).1.None? ==> CastTo(schema, data, CastMap(schema, data, cast, Corrected).0, cast)
    ensures CastTo(schema, data, out, cast) ==> CastMap(schema, data, cast, Corrected) == (out, None)
    decreases GoMap(data), |data| + 1
  {
    CastFieldsExact(schema, data, 0, cast, out);
  }

  /** Whatever the corrected caster casts without error, the caster as written passes without error too. */
  lemma {:induction false} AsWrittenCastsWithoutError(schema: Entries, data: Entries, cast: Caster)
    ensures CastMap(schema, data, cast, Corrected).1.None? ==> CastMap(schema, data, cast, AsWritten).1.None?
    decreases GoMap(data), |data| + 1
  {
    AsWrittenFieldsWithoutError(schema, data, 0, cast);
  }

  lemma {:induction false} AsWrittenFieldsWithoutError(schema: Entries, data: Entries, i: nat, cast: Caster)
    requires i <= |data|
    ensures CastFields(schema, data, i, cast, Corrected).1.None? ==> CastFields(schema, data, i, cast, AsWritten).1.None?
    decreases GoMap(data), |data| - i
  {
    if i < |data| {
      var key, v := data[i].0, data[i].1;
      assert data[i] in data;
      AsWrittenFieldsWithoutError(schema, data, i + 1, cast);
      if v.GoMap? {
        AsWrittenCastsWithoutError(SubSchema(Field(schema, key)), v.entries, cast);
      }
    }
  }

  /**
   As written, the fields after a nested document are never cast: with the nested document
   listed first, a string that is no INT passes uncast and without error, while the
   corrected caster rejects it.
   */
  lemma CasterSkipsFieldsAfterNested()
    ensures var schema: Entries := [("a", GoMap([("x", GoString("INT"))])), ("b", GoString("INT"))];
            var data: Entries := [("a", GoMap([("x", GoInt(1))])), ("b", GoString("false"))];
            CastMap(schema, data, KnownCast, AsWritten)
              == ([("a", GoMap([("x", Typed("INT", Int64Value(1)))])), ("b", GoString("false"))], None)
            && CastMap(schema, data, KnownCast, Corrected).1 == Some(CastFailed(TypeCastError))
  {
    var inner: Entries := [("x", GoString("INT"))];
    var schema: Entries := [("a", GoMap(inner)), ("b", GoString("INT"))];
    var sub: Entries := [("x", GoInt(1))];
    var data: Entries := [("a", GoMap(sub)), ("b", GoString("false"))];
    assert "x" != IdKey && "a" != IdKey && "b" != IdKey && "a" != "b";
    assert Field(schema, "a") == GoMap(inner);
    assert schema[1..] == [("b", GoString("INT"))];
    assert Field(schema, "b") == GoString("INT") by {
      assert Lookup(schema[1..], "b") == Some(GoString("INT"));
    }
    assert Field(inner, "x") == GoString("INT");
    assert KnownCast("INT", GoInt(1)) == Ok(Typed("INT", Int64Value(1)));
    assert KnownCast("INT", GoString("false")) == Err(TypeCastError);
    // the nested document casts alike in both modes
    var subOut: Entries := [("x", Typed("INT", Int64Value(1)))];
    forall mode: Mode ensures CastMap(inner, sub, KnownCast, mode) == (subOut, None) {
      assert CastFields(inner, sub, 1, KnownCast, mode) == ([], None);
      assert CastFields(inner, sub, 0, KnownCast, mode).0[0] == subOut[0];
      assert |CastFields(inner, sub, 0, KnownCast, mode).0| == 1;
      assert CastFields(inner, sub, 0, KnownCast, mode).1 == None;
      assert CastFields(inner, sub, 0, KnownCast, mode).0 == subOut;
    }
    var out: Entries := [("a", GoMap(subOut)), ("b", GoString("false"))];
    assert data[1..] == [("b", GoString("false"))];
    assert CastFields(schema, data, 0, KnownCast, AsWritten).0 == out by {
      assert |CastFields(schema, data, 0, KnownCast, AsWritten).0| == 2;
      assert CastFields(schema, data, 0, KnownCast, AsWritten).0[1] == out[1];
    }
    assert CastFields(schema, data, 1, KnownCast, Corrected).1 == Some(CastFailed(TypeCastError));
  }

  /** No value of the document is itself a document. */
  predicate Flat(data: Entries)
  {
    forall j | 0 <= j < |data| :: !data[j].1.GoMap?
  }

  /** On a document without nested documents the early return never fires: both casters agree. */
  lemma {:induction false} FlatCastAgrees(schema: Entries, data: Entries, i: nat, cast: Caster)
    requires i <= |data| && Flat(data)
    ensures CastFields(schema, data, i, cast, AsWritten) == CastFields(schema, data, i, cast, Corrected)
    decreases |data| - i
  {
    if i < |data| {
      FlatCastAgrees(schema, data, i + 1, cast);
    }
  }

  /** The schema of the caster's accepted test document: an id, a string and a nested INT8. */
  function AcceptedSchema(): Entries
  {
    [("_ID", GoMap([("auto_increment", GoBool(false))])), ("name", GoString("STRING")), ("age", GoMap(AgeSchema()))]
  }

  function AgeSchema(): Entries
  {
    [("name", GoString("INT8"))]
  }

  /** The caster's accepted test document. */
  function AcceptedData(): Entries
  {
    [("_ID", GoInt(90102)), ("name", GoString("hello")), ("age", GoMap(AgeData()))]
  }

  function AgeData(): Entries
  {
    [("name", GoInt(12))]
  }

  lemma AcceptedSchemaFields()
    ensures Field(AcceptedSchema(), "name") == GoString("STRING")
    ensures Field(AcceptedSchema(), "age") == GoMap(AgeSchema())
    ensures Field(AgeSchema(), "name") == GoString("INT8")
  {
    var schema := AcceptedSchema();
    assert "name" != IdKey && "age" != IdKey && "name" != "age";
    assert schema[1..][0] == ("name", GoString("STRING"));
    assert schema[1..][1..] == [("age", GoMap(AgeSchema()))];
    assert Lookup(schema[1..][1..], "age") == Some(GoMap(AgeSchema()));
  }

  lemma AcceptedCasts()
    ensures KnownCast("INT8", GoInt(12)).Ok? && KnownCast("STRING", GoString("hello")).Ok?
    ensures ToID(GoInt(90102)).Ok?
  {
  }

  lemma AgeCasts(mode: Mode)
    ensures CastMap(AgeSchema(), AgeData(), KnownCast, mode).1 == None
  {
    AcceptedSchemaFields();
    AcceptedCasts();
    assert "name" != IdKey;
    CastStepPasses(AgeSchema(), AgeData(), 0, KnownCast, mode);
  }

  /** The caster's accepted test document casts without error in both modes. */
  lemma CasterAcceptsExample(mode: Mode)
    ensures CastMap(AcceptedSchema(), AcceptedData(), KnownCast, mode).1 == None
  {
    var schema, data := AcceptedSchema(), AcceptedData();
    AcceptedSchemaFields();
    AcceptedCasts();
    AgeCasts(mode);
    assert "name" != IdKey && "age" != IdKey;
    assert data[2].1.entries == AgeData() && SubSchema(GoMap(AgeSchema())) == AgeSchema();
    NestedStepPasses(schema, data, 2, KnownCast, mode);
    CastStepPasses(schema, data, 1, KnownCast, mode);
    CastStepPasses(schema, data, 0, KnownCast, mode);
  }

  /** The schema `young: DECIMAL, old: BOOL, name: INT` of the caster's tests. */
  function DecimalSchema(): Entries
  {
    [("young", GoString("DECIMAL")), ("old", GoString("BOOL")), ("name", GoString("INT"))]
  }

  /** A document for `DecimalSchema` with the given `young`. */
  function DecimalData(young: Text): Entries
  {
    [("_ID", GoInt(0)), ("young", GoString(young)), ("old", GoString("false")), ("name", GoInt(819282))]
  }

  /** The type names of `DecimalSchema` as `Field` finds them. */
  lemma DecimalSchemaFields()
    ensures Field(DecimalSchema(), "young") == GoString("DECIMAL")
    ensures Field(DecimalSchema(), "old") == GoString("BOOL")
    ensures Field(DecimalSchema(), "name") == GoString("INT")
  {
    var es := DecimalSchema();
    assert "young" != "old" && "young" != "name" && "old" != "name";
    assert es[1..] == [("old", GoString("BOOL")), ("name", GoString("INT"))];
    assert es[1..][1..] == [("name", GoString("INT"))];
  }

  /** Past `young`, the rest of a `DecimalData` document casts without error. */
  lemma DecimalDataTail(young: Text, mode: Mode)
    ensures CastFields(DecimalSchema(), DecimalData(young), 2, KnownCast, mode).1 == None
  {
    var schema, data := DecimalSchema(), DecimalData(young);
    DecimalSchemaFields();
    assert "old" != IdKey && "name" != IdKey;
    assert KnownCast("BOOL", GoString("false")).Ok?;
    assert KnownCast("INT", GoInt(819282)).Ok?;
    assert CastFields(schema, data, 4, KnownCast, mode).1 == None;
    assert CastFields(schema, data, 3, KnownCast, mode).1 == None;
  }

  /** A decimal with two points is rejected with the decimal format error. */
  lemma CasterRejectsTwoPoints(young: Text, mode: Mode)
    requires young == "16282929292.19191.1092"
    ensures CastMap(DecimalSchema(), DecimalData(young), KnownCast, mode).1 == Some(CastFailed(InvalidDecimal(young)))
  {
    var schema, data := DecimalSchema(), DecimalData(young);
    DecimalSchemaFields();
    DecimalExampleRejected(young);
    assert "young" != IdKey;
    assert KnownCast("DECIMAL", GoString(young)) == Err(InvalidDecimal(young));
    assert CastFields(schema, data, 1, KnownCast, mode).1 == Some(CastFailed(InvalidDecimal(young)));
  }

  /** With one point the same document casts: the decimal, the bool from its text and the int. */
  lemma CasterAcceptsDecimal(young: Text, mode: Mode)
    requires young == "16282929292.192"
    ensures CastMap(DecimalSchema(), DecimalData(young), KnownCast, mode).1 == None
  {
    var schema, data := DecimalSchema(), DecimalData(young);
    DecimalSchemaFields();
    DecimalExampleAccepted(young);
    DecimalDataTail(young, mode);
    assert "young" != IdKey;
    assert KnownCast("DECIMAL", GoString(young)).Ok?;
    assert CastFields(schema, data, 1, KnownCast, mode).1 == None;
  }

  /** A string that is no number does not cast to INT. */
  lemma CasterRejectsTextAsInt(mode: Mode)
    ensures var schema: Entries := [("young", GoString("INT")), ("old", GoString("BOOL"))];
            var data: Entries := [("_ID", GoInt(0)), ("young", GoString("false")), ("old", GoString("false"))];
            CastMap(schema, data, KnownCast, mode).1 == Some(CastFailed(TypeCastError))
  {
    var schema: Entries := [("young", GoString("INT")), ("old", GoString("BOOL"))];
    var data: Entries := [("_ID", GoInt(0)), ("young", GoString("false")), ("old", GoString("false"))];
    assert "young" != IdKey;
    assert Field(schema, "young") == GoString("INT");
    assert KnownCast("INT", GoString("false")) == Err(TypeCastError);
    assert CastFields(schema, data, 1, KnownCast, mode).1 == Some(CastFailed(TypeCastError));
  }
}

=== FILE: sstcache.dfy ===
/**
 Reading SSTables back (parrot/cache/v2/index.go): a cache unit decodes an SSTable's index
 once, finds a key by binary search over it and decodes the record the entry points at; the
 cache manager keeps one unit per data-file path. `sync.Once` and `sync.Map` only make the
 decoding and the insertion happen once under concurrency; here every call is one step.
 */
module SstCache {
  import opened Keys
  import opened Wrappers
  import opened SstLayout

  /** The memory-mapped contents of one SSTable's data file and index file. */
  datatype CacheUnit = CacheUnit(db: seq<Cell>, index: seq<Cell>)

  /** Why a read from a cache unit failed; `Panic` is a Go runtime panic (index or slice bounds). */
  datatype Failure = OpenFailed | IndexCorrupt | OutOfBound | Undecodable | Panic

  /** The outcome of `GetDecodedForKey`: the payload, the tombstone, not found, or an error. */
  datatype Lookup = Found(entry: Payload) | Deleted(entry: Payload) | NotFound | Failed(why: Failure)

  /** Where the binary search ended: at an entry with the key, without one, or out of range. */
  datatype Probe = Hit(at: nat) | Miss | OutOfRange

  /** The index is in ascending key order (ties allowed). */
  predicate SortedIndex(idx: seq<IndexEntry>)
  {
    forall i, j | 0 <= i < j < |idx| :: !Less(idx[j].key, idx[i].key)
  }

  /** Every key of the index has the type of `key`, as Go's type parameter `K` guarantees. */
  predicate KindsMatch(idx: seq<IndexEntry>, key: Key)
  {
    forall i | 0 <= i < |idx| :: SameKind(idx[i].key, key)
  }

  function IndexKeys(idx: seq<IndexEntry>): set<Key>
  {
    set i | 0 <= i < |idx| :: idx[i].key
  }

  // ---------------------------------------------------------------- binary search

  /**
   The search loop of `GetDecodedForKey` as written: it starts with `right = len(index)`, so
   a key above every entry drives `mid` to `len(index)` and the read of `index[mid]` is out
   of range.
   */
  function SearchAsWritten(idx: seq<IndexEntry>, key: Key, left: int, right: int): (r: Probe)
    requires 0 <= left && right <= |idx|
    ensures r.Hit? ==> r.at < |idx| && idx[r.at].key == key
    ensures r.OutOfRange? ==> right == |idx| && (left == |idx| || AboveAll(idx, key))
    ensures r.Miss? && SortedIndex(idx) && KindsMatch(idx, key) ==>
      forall j | left <= j <= right && j < |idx| :: idx[j].key != key
    decreases right - left
  {
    if left > right then Miss
    else
      var mid := left + (right - left) / 2;
      if mid >= |idx| then OutOfRange
      else if Less(idx[mid].key, key) then
        LeftPartMisses(idx, key, mid, left);
        SearchAsWritten(idx, key, mid + 1, right)
      else if idx[mid].key == key then Hit(mid)
      else
        RightPartMisses(idx, key, mid, right);
        SearchAsWritten(idx, key, left, mid - 1)
  }

  /** The key is above every entry of the index: the case the as-written search runs off the end. */
  predicate AboveAll(idx: seq<IndexEntry>, key: Key)
  {
    |idx| == 0 || Less(idx[|idx| - 1].key, key)
  }

  /** A search whose remaining entries are all below the key walks right until it leaves the index. */
  lemma {:induction false} SearchAsWrittenRunsOff(idx: seq<IndexEntry>, key: Key, left: int)
    requires 0 <= left <= |idx|
    requires forall j | left <= j < |idx| :: Less(idx[j].key, key)
    ensures SearchAsWritten(idx, key, left, |idx|) == OutOfRange
    decreases |idx| - left
  {
    if left < |idx| {
      SearchAsWrittenRunsOff(idx, key, left + (|idx| - left) / 2 + 1);
    }
  }

  /**
   On a sorted index the as-written search over the whole index leaves it exactly when the
   key is above every entry, and otherwise misses exactly when no entry has the key.
   */
  lemma SearchAsWrittenExact(idx: seq<IndexEntry>, key: Key)
    requires SortedIndex(idx) && KindsMatch(idx, key)
    ensures SearchAsWritten(idx, key, 0, |idx|).OutOfRange? <==> AboveAll(idx, key)
    ensures SearchAsWritten(idx, key, 0, |idx|).Miss? <==> !AboveAll(idx, key) && key !in IndexKeys(idx)
  {
    if AboveAll(idx, key) {
      forall j | 0 <= j < |idx| ensures Less(idx[j].key, key) {
        BelowLast(idx, key, j);
      }
      SearchAsWrittenRunsOff(idx, key, 0);
    }
  }

  /** In a sorted index every entry is at most the last one, so below a key the last one is below. */
  lemma BelowLast(idx: seq<IndexEntry>, key: Key, j: nat)
    requires SortedIndex(idx) && KindsMatch(idx, key) && j < |idx|
    requires Less(idx[|idx| - 1].key, key)
    ensures Less(idx[j].key, key)
  {
    var last := idx[|idx| - 1].key;
    if j < |idx| - 1 && idx[j].key != last {
      LessTrichotomous(idx[j].key, last);
      LessTransitive(idx[j].key, last, key);
    }
  }

  /** Entries up to `mid` are below a key that `idx[mid]` is below. */
  lemma LeftPartMisses(idx: seq<IndexEntry>, key: Key, mid: nat, left: int)
    requires mid < |idx| && Less(idx[mid].key, key)
    ensures SortedIndex(idx) ==> forall j | left <= j <= mid && 0 <= j :: idx[j].key != key
  {
    LessIrreflexive(key);
    forall j | left <= j <= mid && 0 <= j && SortedIndex(idx) ensures idx[j].key != key {
      if j < mid {
        assert !Less(idx[mid].key, idx[j].key);
      }
    }
  }

  /** Entries from `mid` on are above a key that `idx[mid]` is above. */
  lemma RightPartMisses(idx: seq<IndexEntry>, key: Key, mid: nat, right: int)
    requires mid < |idx| && !Less(idx[mid].key, key) && idx[mid].key != key
    ensures SortedIndex(idx) && KindsMatch(idx, key) ==> forall j | mid <= j <= right && j < |idx| :: idx[j].key != key
  {
    if SortedIndex(idx) && KindsMatch(idx, key) {
      LessTrichotomous(idx[mid].key, key);
      forall j | mid < j <= right && j < |idx| ensures idx[j].key != key {
        assert !Less(idx[j].key, idx[mid].key);
      }
    }
  }

  /**
   The search with `right = len(index) - 1`: it never leaves the index, a hit names an entry
   with the key, and on a sorted index a miss means no entry in the range has the key.
   */
  function SearchIn(idx: seq<IndexEntry>, key: Key, left: int, right: int): (r: Probe)
    requires 0 <= left && left - 1 <= right < |idx|
    ensures !r.OutOfRange?
    ensures r.Hit? ==> left <= r.at <= right && idx[r.at].key == key
    ensures r.Miss? && SortedIndex(idx) && KindsMatch(idx, key) ==>
      forall j | left <= j <= right :: idx[j].key != key
    decreases right - left
  {
    if left > right then Miss
    else
      var mid := left + (right - left) / 2;
      if Less(idx[mid].key, key) then
        LeftPartMisses(idx, key, mid, left);
        SearchIn(idx, key, mid + 1, right)
      else if idx[mid].key == key then Hit(mid)
      else
        RightPartMisses(idx, key, mid, right);
        SearchIn(idx, key, left, mid - 1)
  }

  /** The corrected binary search over the whole index. */
  function Search(idx: seq<IndexEntry>, key: Key): (r: Probe)
    ensures !r.OutOfRange?
    ensures r.Hit? ==> r.at < |idx| && idx[r.at].key == key
    ensures SortedIndex(idx) && KindsMatch(idx, key) ==> (r.Miss? <==> key !in IndexKeys(idx))
  {
    SearchIn(idx, key, 0, |idx| - 1)
  }

  // ---------------------------------------------------------------- records

  /**
   Reading the record an index entry points at: past the end of the data file is an error,
   a negative offset or size makes Go's slice expression panic, and a record marked deleted
   comes back as a tombstone.
   */
  function Fetch(db: seq<Cell>, e: IndexEntry): (r: Lookup)
    ensures r != NotFound
    ensures r.Failed? <==> e.offset < 0 || e.size <= 0 || e.offset + e.size > |db| || !db[e.offset].PayloadHead?
    ensures r.Found? || r.Deleted? ==> db[e.offset] == PayloadHead(r.entry)
    ensures r.Found? ==> !IsDeleted(r.entry.val)
    ensures r.Deleted? ==> IsDeleted(r.entry.val)
  {
    if e.offset + e.size > |db| then Failed(OutOfBound)
    else if e.offset < 0 || e.size < 0 then Failed(Panic)
    else match DecodePayload(db[e.offset..e.offset + e.size])
      case Err(_) => Failed(Undecodable)
      case Ok(p) => if IsDeleted(p.val) then Deleted(p) else Found(p)
  }

  /** `CacheUnit.GetDecodedForKey` with the corrected search. */
  function GetDecodedForKey(u: CacheUnit, key: Key): (r: Lookup)
  {
    match DecodeIndex(u.index)
    case Err(_) => Failed(IndexCorrupt)
    case Ok(idx) =>
      match Search(idx, key)
      case Hit(i) => Fetch(u.db, idx[i])
      case _ => NotFound
  }

  /** `CacheUnit.GetDecodedForKey` as written: the out-of-range read is a panic. */
  function GetDecodedForKeyAsWritten(u: CacheUnit, key: Key): (r: Lookup)
  {
    match DecodeIndex(u.index)
    case Err(_) => Failed(IndexCorrupt)
    case Ok(idx) =>
      match SearchAsWritten(idx, key, 0, |idx|)
      case Hit(i) => Fetch(u.db, idx[i])
      case Miss => NotFound
      case OutOfRange => Failed(Panic)
  }

  /** Decoding every record the entries point at, in index order, stopping at the first failure. */
  function FetchAll(db: seq<Cell>, es: seq<IndexEntry>): (r: Result<seq<Payload>, Failure>)
    ensures r.Ok? ==> |r.value| == |es|
    ensures r.Ok? ==> forall i | 0 <= i < |es| :: Fetch(db, es[i]) == (if IsDeleted(r.value[i].val) then Deleted(r.value[i]) else Found(r.value[i]))
  {
    if |es| == 0 then Ok([])
    else match Fetch(db, es[0])
      case Failed(why) => Err(why)
      case NotFound => Err(Undecodable)
      case Found(p) =>
        (match FetchAll(db, es[1..])
         case Err(why) => Err(why)
         case Ok(ps) => FetchAllCons(db, es, p, ps); Ok([p] + ps))
      case Deleted(p) =>
        (match FetchAll(db, es[1..])
         case Err(why) => Err(why)
         case Ok(ps) => FetchAllCons(db, es, p, ps); Ok([p] + ps))
  }

  lemma FetchAllCons(db: seq<Cell>, es: seq<IndexEntry>, p: Payload, ps: seq<Payload>)
    requires |es| > 0 && |ps| == |es| - 1
    requires Fetch(db, es[0]) == (if IsDeleted(p.val) then Deleted(p) else Found(p))
    requires forall i | 0 <= i < |es| - 1 :: Fetch(db, es[1..][i]) == (if IsDeleted(ps[i].val) then Deleted(ps[i]) else Found(ps[i]))
    ensures forall i | 0 <= i < |es| :: Fetch(db, es[i]) == (if IsDeleted(([p] + ps)[i].val) then Deleted(([p] + ps)[i]) else Found(([p] + ps)[i]))
  {
    forall i | 1 <= i < |es| ensures Fetch(db, es[i]) == (if IsDeleted(([p] + ps)[i].val) then Deleted(([p] + ps)[i]) else Found(([p] + ps)[i])) {
      assert es[i] == es[1..][i - 1];
    }
  }

  /** `CacheUnit.getDecodedForAll`: every payload of the table, tombstones included, in index order. */
  function GetDecodedForAll(u: CacheUnit): (r: Result<seq<Payload>, Failure>)
  {
    match DecodeIndex(u.index)
    case Err(_) => Err(IndexCorrupt)
    case Ok(idx) => FetchAll(u.db, idx)
  }

  // ---------------------------------------------------------------- round trips

  /** The SSTable `Encode` writes into two fresh files. */
  function Written(kv: seq<Payload>): CacheUnit
  {
    CacheUnit(Records(kv), IndexCells(Entries(0, kv)))
  }

  lemma IndexCellsDecode(es: seq<IndexEntry>)
    ensures DecodeIndex(IndexCells(es)) == Ok(es)
  {
    var cells := IndexCells(es);
    var r := DecodeIndex(cells);
    assert r.Ok? by {
      forall i | 0 <= i < |cells| ensures cells[i].IndexHead? {
        IndexCellsAt(es, i);
      }
    }
    forall i | 0 <= i < |es| ensures r.value[i] == es[i] {
      IndexCellsAt(es, i);
    }
    assert r.value == es;
  }

  lemma {:induction false} IndexCellsAt(es: seq<IndexEntry>, i: nat)
    requires i < |es|
    ensures IndexCells(es)[i] == IndexHead(es[i])
    decreases |es|
  {
    if i < |es| - 1 {
      IndexCellsAt(es[..|es| - 1], i);
    }
  }

  /** Every entry `Encode` wrote leads back to its payload. */
  lemma FetchWritten(kv: seq<Payload>, j: nat)
    requires j < |kv|
    ensures Fetch(Records(kv), Entries(0, kv)[j]) == (if IsDeleted(kv[j].val) then Deleted(kv[j]) else Found(kv[j]))
  {
    EntryAt(0, kv, j);
    HeadAt(kv, j);
    FetchRecord(Records(kv), Entries(0, kv)[j], kv[j], |Records(kv[..j])|);
  }

  /** An entry that spans exactly one payload's record fetches that payload. */
  lemma FetchRecord(db: seq<Cell>, e: IndexEntry, p: Payload, o: nat)
    requires e == IndexEntry(p.key, o, RecordWidth(p))
    requires o + RecordWidth(p) <= |db| && db[o] == PayloadHead(p)
    ensures Fetch(db, e) == (if IsDeleted(p.val) then Deleted(p) else Found(p))
  {
    assert db[o..o + RecordWidth(p)][0] == PayloadHead(p);
  }

  /** Decoding a freshly written SSTable gives back exactly the payloads written, in order. */
  lemma DecodeAllAfterEncode(kv: seq<Payload>)
    ensures GetDecodedForAll(Written(kv)) == Ok(kv)
  {
    IndexCellsDecode(Entries(0, kv));
    var es := Entries(0, kv);
    forall j | 0 <= j < |kv|
      ensures Fetch(Records(kv), es[j]) == (if IsDeleted(kv[j].val) then Deleted(kv[j]) else Found(kv[j]))
    {
      FetchWritten(kv, j);
    }
    FetchAllOfGood(Records(kv), es, kv);
  }

  lemma {:induction false} FetchAllOfGood(db: seq<Cell>, es: seq<IndexEntry>, kv: seq<Payload>)
    requires |es| == |kv|
    requires forall j | 0 <= j < |kv| :: Fetch(db, es[j]) == (if IsDeleted(kv[j].val) then Deleted(kv[j]) else Found(kv[j]))
    ensures FetchAll(db, es) == Ok(kv)
    decreases |es|
  {
    if |es| > 0 {
      forall j | 0 <= j < |kv| - 1
        ensures Fetch(db, es[1..][j]) == (if IsDeleted(kv[1..][j].val) then Deleted(kv[1..][j]) else Found(kv[1..][j]))
      {
        assert es[1..][j] == es[j + 1] && kv[1..][j] == kv[j + 1];
      }
      FetchAllOfGood(db, es[1..], kv[1..]);
      assert kv == [kv[0]] + kv[1..];
    }
  }

  lemma EntriesKeys(kv: seq<Payload>, j: nat)
    requires j < |kv|
    ensures Entries(0, kv)[j].key == kv[j].key
  {
    EntryLocatesRecord(0, kv, j);
  }

  /**
   A point lookup in a freshly written SSTable of payloads sorted by key: the key's payload
   or tombstone when the table holds the key, not found otherwise, and never an error.
   */
  lemma LookupAfterEncode(kv: seq<Payload>, key: Key)
    requires Sorted(kv)
    requires forall i | 0 <= i < |kv| :: SameKind(kv[i].key, key)
    ensures var r := GetDecodedForKey(Written(kv), key);
      && !r.Failed?
      && (r.NotFound? <==> key !in KeysOf(kv))
      && (r.Found? || r.Deleted? ==> r.entry in kv && r.entry.key == key)
  {
    var es := Entries(0, kv);
    IndexCellsDecode(es);
    WrittenIndexOrder(kv, key);
    var p := Search(es, key);
    if p.Hit? {
      FetchWritten(kv, p.at);
      EntriesKeys(kv, p.at);
    }
  }

  /** The payload keys are all below `key`: the as-written search runs off the end of their table. */
  predicate KeysBelow(kv: seq<Payload>, key: Key)
  {
    |kv| == 0 || Less(kv[|kv| - 1].key, key)
  }

  /**
   The as-written point lookup in a freshly written SSTable of key-sorted payloads: a Go
   panic exactly when the key is above every key of the table (any key, for an empty table),
   and otherwise the answer of the corrected lookup: the key's payload or tombstone when the
   table holds it, not found when it does not.
   */
  lemma LookupAfterEncodeAsWritten(kv: seq<Payload>, key: Key)
    requires Sorted(kv)
    requires forall i | 0 <= i < |kv| :: SameKind(kv[i].key, key)
    ensures var r := GetDecodedForKeyAsWritten(Written(kv), key);
      && (r.Failed? <==> KeysBelow(kv, key))
      && (r.Failed? ==> r.why == Panic)
      && (r.NotFound? <==> !KeysBelow(kv, key) && key !in KeysOf(kv))
      && (r.Found? || r.Deleted? <==> key in KeysOf(kv))
      && (r.Found? || r.Deleted? ==> r.entry in kv && r.entry.key == key)
  {
    if key in KeysOf(kv) {
      var j :| 0 <= j < |kv| && kv[j].key == key;
      LessIrreflexive(key);
      assert !Less(kv[|kv| - 1].key, kv[j].key);
    }
    var es := Entries(0, kv);
    IndexCellsDecode(es);
    WrittenIndexOrder(kv, key);
    SearchAsWrittenExact(es, key);
    if |kv| > 0 {
      EntriesKeys(kv, |kv| - 1);
    }
    var p := SearchAsWritten(es, key, 0, |es|);
    if p.Hit? {
      FetchWritten(kv, p.at);
      EntriesKeys(kv, p.at);
    }
  }

  /** The index `Encode` writes lists the keys of `kv` in the order of `kv`. */
  lemma WrittenIndexOrder(kv: seq<Payload>, key: Key)
    requires Sorted(kv)
    requires forall i | 0 <= i < |kv| :: SameKind(kv[i].key, key)
    ensures IndexKeys(Entries(0, kv)) == KeysOf(kv)
    ensures SortedIndex(Entries(0, kv))
    ensures KindsMatch(Entries(0, kv), key)
  {
    EntriesKeysAll(kv);
  }

  lemma EntriesKeysAll(kv: seq<Payload>)
    ensures forall j | 0 <= j < |kv| :: Entries(0, kv)[j].key == kv[j].key
  {
    forall j | 0 <= j < |kv| ensures Entries(0, kv)[j].key == kv[j].key {
      EntriesKeys(kv, j);
    }
  }

  /** An SSTable with one entry, keyed 1. */
  function OneEntryTable(): CacheUnit
  {
    Written([Payload(IntKey(1), IntValue(7, false))])
  }

  /** The as-written search panics on a key above every key of the table... */
  lemma AsWrittenPanicsAboveLastKey()
    ensures GetDecodedForKeyAsWritten(OneEntryTable(), IntKey(2)) == Failed(Panic)
    ensures GetDecodedForKey(OneEntryTable(), IntKey(2)) == NotFound
  {
    var kv := [Payload(IntKey(1), IntValue(7, false))];
    IndexCellsDecode(Entries(0, kv));
  }

  /** ...and on any key of an empty table. */
  lemma AsWrittenPanicsOnEmptyTable(key: Key)
    ensures GetDecodedForKeyAsWritten(Written([]), key) == Failed(Panic)
    ensures GetDecodedForKey(Written([]), key) == NotFound
  {
  }

  // ---------------------------------------------------------------- cache manager

  /** The files on disk by path. */
  type FileSystem = map<string, seq<Cell>>

  /** `CacheManager`: one cache unit per data-file path. */
  datatype CacheManager = CacheManager(units: map<string, CacheUnit>)

  /** The cache only gains units, and keeps the ones it had. */
  predicate Extends(c: CacheManager, c': CacheManager)
  {
    forall p | p in c.units :: p in c'.units && c'.units[p] == c.units[p]
  }

  /**
   The unit `CacheManager.Get` and `GetFullPayload` use: the cached one when the data path is
   known (the index path is then not looked at), otherwise a new one built from both files,
   which is remembered. Opening a missing file is an error and caches nothing.
   */
  function Load(m: CacheManager, fs: FileSystem, dbPath: string, indexPath: string): (r: (CacheManager, Result<CacheUnit, Failure>))
    ensures dbPath in m.units ==> r == (m, Ok(m.units[dbPath]))
    ensures dbPath !in m.units && (dbPath !in fs || indexPath !in fs) ==> r == (m, Err(OpenFailed))
    ensures dbPath !in m.units && dbPath in fs && indexPath in fs ==>
      r.1 == Ok(CacheUnit(fs[dbPath], fs[indexPath])) && r.0.units == m.units[dbPath := r.1.value]
  {
    if dbPath in m.units then (m, Ok(m.units[dbPath]))
    else if dbPath !in fs || indexPath !in fs then (m, Err(OpenFailed))
    else
      var u := CacheUnit(fs[dbPath], fs[indexPath]);
      (m.(units := m.units[dbPath := u]), Ok(u))
  }

  /** The point lookup of a unit: the search as written, or with the corrected bound. */
  function GetDecodedForKeyIn(u: CacheUnit, key: Key, mode: Mode): Lookup
  {
    if mode == AsWritten then GetDecodedForKeyAsWritten(u, key) else GetDecodedForKey(u, key)
  }

  /** `CacheManager.Get`, with the point lookup of the mode. */
  function Get(m: CacheManager, fs: FileSystem, dbPath: string, indexPath: string, key: Key, mode: Mode): (r: (CacheManager, Lookup))
    ensures forall p | p in m.units :: p in r.0.units && r.0.units[p] == m.units[p]
    ensures r.0.units.Keys <= m.units.Keys + {dbPath}
    ensures dbPath in r.0.units && mode == AsWritten ==> r.1 == GetDecodedForKeyAsWritten(r.0.units[dbPath], key)
    ensures dbPath in r.0.units && mode == Corrected ==> r.1 == GetDecodedForKey(r.0.units[dbPath], key)
    ensures dbPath !in r.0.units ==> r.1 == Failed(OpenFailed)
  {
    match Load(m, fs, dbPath, indexPath)
    case (m', Err(why)) => (m', Failed(why))
    case (m', Ok(u)) => (m', GetDecodedForKeyIn(u, key, mode))
  }

  /** `CacheManager.GetFullPayload`. */
  function GetFullPayload(m: CacheManager, fs: FileSystem, dbPath: string, indexPath: string): (r: (CacheManager, Result<seq<Payload>, Failure>))
    ensures forall p | p in m.units :: p in r.0.units && r.0.units[p] == m.units[p]
    ensures r.0.units.Keys <= m.units.Keys + {dbPath}
    ensures dbPath in r.0.units ==> r.1 == GetDecodedForAll(r.0.units[dbPath])
    ensures dbPath !in r.0.units ==> r.1 == Err(OpenFailed)
  {
    match Load(m, fs, dbPath, indexPath)
    case (m', Err(why)) => (m', Err(why))
    case (m', Ok(u)) => (m', GetDecodedForAll(u))
  }

  /**
   Once a data path is cached, reads through the manager see the cached contents whatever
   the files now hold: a file replaced under the same path is not re-read.
   */
  lemma CachedUnitIgnoresFiles(m: CacheManager, fs1: FileSystem, fs2: FileSystem, dbPath: string, indexPath: string, key: Key, mode: Mode)
    requires dbPath in m.units
    ensures Get(m, fs1, dbPath, indexPath, key, mode) == Get(m, fs2, dbPath, indexPath, key, mode) == (m, GetDecodedForKeyIn(m.units[dbPath], key, mode))
  {
  }
}

=== FILE: sstlayout.dfy ===
/**
 The on-disk layout of one SSTable (parrot/utils/utils.go): a data file of gob-encoded
 payloads written back to back and an index file holding one `IndexPayload` per payload
 with the key, the offset of its record in the data file and the record's length.

 gob itself is abstracted. A file is a sequence of cells; the encoding of one payload is a
 head cell carrying the payload followed by filler cells, `RecordWidth` cells in all, and an
 index record is a single head cell. What the proofs use is only that the encoding is
 self-delimiting and decodable, which gob guarantees.
 */
module SstLayout {
  import opened Keys
  import opened Wrappers

  datatype IndexEntry = IndexEntry(key: Key, offset: int, size: int)

  datatype Cell = PayloadHead(payload: Payload) | IndexHead(entry: IndexEntry) | Fill

  /** A stand-in for the length of the gob encoding of a payload; any positive width would do. */
  function RecordWidth(p: Payload): nat
  {
    1 + SizeOf(p.val)
  }

  function Fills(n: nat): (r: seq<Cell>)
    ensures |r| == n && forall i | 0 <= i < n :: r[i] == Fill
  {
    if n == 0 then [] else Fills(n - 1) + [Fill]
  }

  /** The encoding of one payload by a fresh gob encoder. */
  function Record(p: Payload): (r: seq<Cell>)
    ensures |r| == RecordWidth(p) && r[0] == PayloadHead(p)
  {
    [PayloadHead(p)] + Fills(RecordWidth(p) - 1)
  }

  /** The data file body for `kv`: the records one after the other. */
  function Records(kv: seq<Payload>): seq<Cell>
  {
    if |kv| == 0 then [] else Records(kv[..|kv| - 1]) + Record(kv[|kv| - 1])
  }

  /** The index entries `Encode` produces for `kv` written from offset `start`. */
  function Entries(start: int, kv: seq<Payload>): (r: seq<IndexEntry>)
    ensures |r| == |kv|
  {
    if |kv| == 0 then []
    else Entries(start, kv[..|kv| - 1]) + [IndexEntry(kv[|kv| - 1].key, start + |Records(kv[..|kv| - 1])|, RecordWidth(kv[|kv| - 1]))]
  }

  /** The index file body for a list of entries. */
  function IndexCells(es: seq<IndexEntry>): (r: seq<Cell>)
    ensures |r| == |es|
  {
    if |es| == 0 then [] else IndexCells(es[..|es| - 1]) + [IndexHead(es[|es| - 1])]
  }

  datatype DecodeFailure = DecodeFailure

  /** Decoding one payload from a slice of the data file: the first record is read, the rest ignored. */
  function DecodePayload(cells: seq<Cell>): (r: Result<Payload, DecodeFailure>)
    ensures r.Ok? <==> |cells| > 0 && cells[0].PayloadHead?
    ensures r.Ok? ==> cells[0] == PayloadHead(r.value)
  {
    if |cells| > 0 && cells[0].PayloadHead? then Ok(cells[0].payload) else Err(DecodeFailure)
  }

  /** Decoding the index file until its end; any record that is not an index entry is an error. */
  function DecodeIndex(cells: seq<Cell>): (r: Result<seq<IndexEntry>, DecodeFailure>)
    ensures r.Ok? <==> forall i | 0 <= i < |cells| :: cells[i].IndexHead?
    ensures r.Ok? ==> |r.value| == |cells| && forall i | 0 <= i < |cells| :: cells[i] == IndexHead(r.value[i])
  {
    if |cells| == 0 then Ok([])
    else if !cells[0].IndexHead? then Err(DecodeFailure)
    else match DecodeIndex(cells[1..])
      case Err(e) =>
        assert !forall i | 0 <= i < |cells| :: cells[i].IndexHead? by {
          var i :| 0 <= i < |cells[1..]| && !cells[1..][i].IndexHead?;
          assert cells[i + 1] == cells[1..][i];
        }
        Err(e)
      case Ok(rest) =>
        assert forall i | 0 <= i < |cells| :: cells[i].IndexHead? by {
          forall i | 1 <= i < |cells| ensures cells[i].IndexHead? {
            assert cells[i] == cells[1..][i - 1];
          }
        }
        Ok([cells[0].entry] + rest)
  }

  // ---------------------------------------------------------------- files

  /** An open file: its contents and the current offset. */
  datatype File = File(content: seq<Cell>, pos: nat)

  /** Writing one cell at offset `pos`; a hole before `pos` reads as filler, as a sparse file reads zeros. */
  function Put(content: seq<Cell>, pos: nat, c: Cell): (r: seq<Cell>)
    ensures |r| == if pos < |content| then |content| else pos + 1
  {
    if pos < |content| then content[pos := c] else content + Fills(pos - |content|) + [c]
  }

  /** Writing `data` at offset `pos`, one cell after the other; an empty write changes nothing. */
  function WriteAt(content: seq<Cell>, pos: nat, data: seq<Cell>): seq<Cell>
    decreases |data|
  {
    if |data| == 0 then content else WriteAt(Put(content, pos, data[0]), pos + 1, data[1..])
  }

  function Write(f: File, data: seq<Cell>): (r: File)
    ensures r.pos == f.pos + |data|
  {
    File(WriteAt(f.content, f.pos, data), f.pos + |data|)
  }

  lemma {:induction false} WriteAtCompose(content: seq<Cell>, pos: nat, a: seq<Cell>, b: seq<Cell>)
    ensures WriteAt(WriteAt(content, pos, a), pos + |a|, b) == WriteAt(content, pos, a + b)
    decreases |a|
  {
    if |a| == 0 {
      assert a + b == b;
    } else {
      assert (a + b)[0] == a[0] && (a + b)[1..] == a[1..] + b;
      WriteAtCompose(Put(content, pos, a[0]), pos + 1, a[1..], b);
    }
  }

  /** Writing at the end of a file appends. */
  lemma {:induction false} WriteAtEnd(content: seq<Cell>, data: seq<Cell>)
    ensures WriteAt(content, |content|, data) == content + data
    decreases |data|
  {
    if |data| > 0 {
      assert Put(content, |content|, data[0]) == content + [data[0]] by {
        assert Fills(0) == [];
      }
      WriteAtEnd(content + [data[0]], data[1..]);
      assert content + [data[0]] + data[1..] == content + data;
    }
  }

  // ---------------------------------------------------------------- Encode

  /** An I/O failure injected at one step of `Encode`; `item` is the index of the payload being written. */
  datatype Fault =
    | SeekFails(item: nat)
    | BufferEncodeFails(item: nat)
    | WriteFails(item: nat)
    | IndexEncodeFails(item: nat)
    | DbRewindFails
    | IndexRewindFails

  datatype EncodeError = OffsetError | BufferError | DbWriteError | IndexEncodeError | DbRewindError | IndexRewindError

  /** The error `Encode` reports under `fault`, when the fault strikes at all. */
  function ErrorOf(fault: Option<Fault>, n: nat): Option<EncodeError>
  {
    match fault
    case None => None
    case Some(SeekFails(i)) => if i < n then Some(OffsetError) else None
    case Some(BufferEncodeFails(i)) => if i < n then Some(BufferError) else None
    case Some(WriteFails(i)) => if i < n then Some(DbWriteError) else None
    case Some(IndexEncodeFails(i)) => if i < n then Some(IndexEncodeError) else None
    case Some(DbRewindFails) => Some(DbRewindError)
    case Some(IndexRewindFails) => Some(IndexRewindError)
  }

  /** How many payloads were indexed before `Encode` stopped. */
  function Indexed(fault: Option<Fault>, n: nat): (k: nat)
    ensures k <= n
  {
    match fault
    case Some(SeekFails(i)) => if i < n then i else n
    case Some(BufferEncodeFails(i)) => if i < n then i else n
    case Some(WriteFails(i)) => if i < n then i else n
    case Some(IndexEncodeFails(i)) => if i < n then i else n
    case _ => n
  }

  /** How many records reached the data file: one more than indexed when the index write failed. */
  function Stored(fault: Option<Fault>, n: nat): (k: nat)
    ensures k <= n
  {
    match fault
    case Some(IndexEncodeFails(i)) => if i < n then i + 1 else n
    case _ => Indexed(fault, n)
  }

  /** The error the item loop of `Encode` stops with, if any. */
  function ItemError(fault: Option<Fault>, n: nat): Option<EncodeError>
  {
    match fault
    case Some(SeekFails(i)) => if i < n then Some(OffsetError) else None
    case Some(BufferEncodeFails(i)) => if i < n then Some(BufferError) else None
    case Some(WriteFails(i)) => if i < n then Some(DbWriteError) else None
    case Some(IndexEncodeFails(i)) => if i < n then Some(IndexEncodeError) else None
    case _ => None
  }

  /** The error, if any, that `fault` raises while payload `i` is written. */
  function StepError(fault: Option<Fault>, i: nat): Option<EncodeError>
  {
    match fault
    case Some(SeekFails(j)) => if j == i then Some(OffsetError) else None
    case Some(BufferEncodeFails(j)) => if j == i then Some(BufferError) else None
    case Some(WriteFails(j)) => if j == i then Some(DbWriteError) else None
    case Some(IndexEncodeFails(j)) => if j == i then Some(IndexEncodeError) else None
    case _ => None
  }

  /** What the files hold after the first `i` payloads were encoded from the original files. */
  predicate EncodedUpTo(db: File, index: File, kv: seq<Payload>, i: nat, data: File, idx: File)
    requires i <= |kv|
  {
    && data == File(WriteAt(db.content, db.pos, Records(kv[..i])), db.pos + |Records(kv[..i])|)
    && idx == File(WriteAt(index.content, index.pos, IndexCells(Entries(db.pos, kv[..i]))), index.pos + i)
  }

  /**
   One iteration of the loop of `utils.Encode` for payload `i`: the record goes to the data
   file unless an earlier step fails, and the index entry follows it unless a step up to the
   index write fails.
   */
  method EncodeItem(db: File, index: File, kv: seq<Payload>, i: nat, data: File, idx: File, fault: Option<Fault>)
    returns (data': File, idx': File, err: Option<EncodeError>)
    requires i < |kv|
    requires EncodedUpTo(db, index, kv, i, data, idx)
    ensures err == StepError(fault, i)
    ensures err == None ==> EncodedUpTo(db, index, kv, i + 1, data', idx')
    ensures err == Some(IndexEncodeError) ==> data'.content == WriteAt(db.content, db.pos, Records(kv[..i + 1]))
    ensures err != None && err != Some(IndexEncodeError) ==> data' == data
    ensures err != None ==> idx' == idx
  {
    data', idx' := data, idx;
    StepErrorCases(fault, i);
    if fault == Some(SeekFails(i)) {
      return data', idx', Some(OffsetError);
    }
    var offset := data.pos;
    assert offset == db.pos + |Records(kv[..i])|;
    if fault == Some(BufferEncodeFails(i)) {
      return data', idx', Some(BufferError);
    }
    var buf := Record(kv[i]);
    if fault == Some(WriteFails(i)) {
      return data', idx', Some(DbWriteError);
    }
    EncodeStep(db, kv, i, data);
    data' := Write(data, buf);
    if fault == Some(IndexEncodeFails(i)) {
      return data', idx', Some(IndexEncodeError);
    }
    var entry := IndexEntry(kv[i].key, offset, |buf|);
    IndexStep(db.pos, index, kv, i, entry, idx);
    idx' := Write(idx, [IndexHead(entry)]);
    err := None;
  }

  lemma StepErrorCases(fault: Option<Fault>, i: nat)
    ensures StepError(fault, i) == if fault == Some(SeekFails(i)) then Some(OffsetError)
                                   else if fault == Some(BufferEncodeFails(i)) then Some(BufferError)
                                   else if fault == Some(WriteFails(i)) then Some(DbWriteError)
                                   else if fault == Some(IndexEncodeFails(i)) then Some(IndexEncodeError)
                                   else None
  {
  }

  /** The loop of `utils.Encode`: one record and one index entry per payload, in order. */
  method EncodeItems(db: File, index: File, kv: seq<Payload>, fault: Option<Fault>)
    returns (db': File, index': File, err: Option<EncodeError>)
    ensures err == ItemError(fault, |kv|)
    ensures db'.content == WriteAt(db.content, db.pos, Records(kv[..Stored(fault, |kv|)]))
    ensures index'.content == WriteAt(index.content, index.pos, IndexCells(Entries(db.pos, kv[..Indexed(fault, |kv|)])))
  {
    db', index' := db, index;
    var i := 0;
    assert kv[..0] == [];
    while i < |kv|
      invariant 0 <= i <= |kv|
      invariant i <= Indexed(fault, |kv|)
      invariant EncodedUpTo(db, index, kv, i, db', index')
    {
      var data, idx, e := EncodeItem(db, index, kv, i, db', index', fault);
      if e != None {
        StopsAt(fault, |kv|, i);
        assert idx.content == WriteAt(index.content, index.pos, IndexCells(Entries(db.pos, kv[..i])));
        if e != Some(IndexEncodeError) {
          assert data.content == WriteAt(db.content, db.pos, Records(kv[..i]));
        }
        return data, idx, e;
      }
      NoStop(fault, |kv|, i);
      db', index' := data, idx;
      i := i + 1;
    }
    assert kv[..|kv|] == kv;
    RunsThrough(fault, |kv|);
    err := None;
  }

  /** The loop stops at the first item whose step fails. */
  lemma StopsAt(fault: Option<Fault>, n: nat, i: nat)
    requires i < n && StepError(fault, i) != None
    ensures ItemError(fault, n) == StepError(fault, i)
    ensures Indexed(fault, n) == i
    ensures Stored(fault, n) == if StepError(fault, i) == Some(IndexEncodeError) then i + 1 else i
  {
  }

  /** A step that does not fail leaves the loop running. */
  lemma NoStop(fault: Option<Fault>, n: nat, i: nat)
    requires i < n && i <= Indexed(fault, n) && StepError(fault, i) == None
    ensures i + 1 <= Indexed(fault, n)
  {
  }

  /** When no step fails, every item is stored and indexed. */
  lemma RunsThrough(fault: Option<Fault>, n: nat)
    requires Indexed(fault, n) == n
    ensures ItemError(fault, n) == None
    ensures Stored(fault, n) == n
  {
  }

  /**
   `utils.Encode`: writes each payload's record at the data file's current offset and an
   index entry recording that offset and the record's length, then rewinds both files.
   On a failure it stops at once and reports which step failed; what was written stays.
   */
  method Encode(db: File, index: File, kv: seq<Payload>, fault: Option<Fault>)
    returns (db': File, index': File, err: Option<EncodeError>)
    ensures err == ErrorOf(fault, |kv|)
    ensures db'.content == WriteAt(db.content, db.pos, Records(kv[..Stored(fault, |kv|)]))
    ensures index'.content == WriteAt(index.content, index.pos, IndexCells(Entries(db.pos, kv[..Indexed(fault, |kv|)])))
    ensures err == None ==> db'.pos == 0 && index'.pos == 0
  {
    db', index', err := EncodeItems(db, index, kv, fault);
    ErrorOfCases(fault, |kv|);
    if err != None {
      return;
    }
    if fault == Some(DbRewindFails) {
      return db', index', Some(DbRewindError);
    }
    db' := db'.(pos := 0);
    if fault == Some(IndexRewindFails) {
      return db', index', Some(IndexRewindError);
    }
    index' := index'.(pos := 0);
  }

  /** The error of `Encode` is that of its item loop, else that of a rewind. */
  lemma ErrorOfCases(fault: Option<Fault>, n: nat)
    ensures ErrorOf(fault, n) == if ItemError(fault, n) != None then ItemError(fault, n)
                                 else if fault == Some(DbRewindFails) then Some(DbRewindError)
                                 else if fault == Some(IndexRewindFails) then Some(IndexRewindError)
                                 else None
  {
  }

  /** Writing entry `i` extends the index file by exactly that entry. */
  lemma IndexStep(start: int, index: File, kv: seq<Payload>, i: nat, entry: IndexEntry, idx: File)
    requires i < |kv|
    requires entry == IndexEntry(kv[i].key, start + |Records(kv[..i])|, |Record(kv[i])|)
    requires idx == File(WriteAt(index.content, index.pos, IndexCells(Entries(start, kv[..i]))), index.pos + i)
    ensures Write(idx, [IndexHead(entry)]) == File(WriteAt(index.content, index.pos, IndexCells(Entries(start, kv[..i + 1]))), index.pos + i + 1)
  {
    var before := Entries(start, kv[..i]);
    EntriesAppend(start, kv, i);
    IndexCellsAppend(before, entry);
    WriteAtCompose(index.content, index.pos, IndexCells(before), [IndexHead(entry)]);
  }

  lemma EntriesAppend(start: int, kv: seq<Payload>, i: nat)
    requires i < |kv|
    ensures Entries(start, kv[..i + 1]) == Entries(start, kv[..i]) + [IndexEntry(kv[i].key, start + |Records(kv[..i])|, |Record(kv[i])|)]
  {
    assert kv[..i + 1][..i] == kv[..i];
  }

  lemma IndexCellsAppend(es: seq<IndexEntry>, e: IndexEntry)
    ensures IndexCells(es + [e]) == IndexCells(es) + [IndexHead(e)]
  {
    assert (es + [e])[..|es|] == es;
  }

  /** Writing record `i` extends the data file by exactly that record. */
  lemma EncodeStep(db: File, kv: seq<Payload>, i: nat, data: File)
    requires i < |kv|
    requires data == File(WriteAt(db.content, db.pos, Records(kv[..i])), db.pos + |Records(kv[..i])|)
    ensures Write(data, Record(kv[i])) == File(WriteAt(db.content, db.pos, Records(kv[..i + 1])), db.pos + |Records(kv[..i + 1])|)
  {
    assert kv[..i + 1][..i] == kv[..i];
    WriteAtCompose(db.content, db.pos, Records(kv[..i]), Record(kv[i]));
  }

  // ---------------------------------------------------------------- layout facts

  lemma {:induction false} RecordsPrefix(kv: seq<Payload>, j: nat)
    requires j <= |kv|
    ensures Records(kv[..j]) <= Records(kv)
    decreases |kv| - j
  {
    if j < |kv| {
      RecordsPrefix(kv, j + 1);
      assert kv[..j + 1][..j] == kv[..j];
    } else {
      assert kv[..j] == kv;
    }
  }

  /** Record `j` sits at the offset its index entry names, with the length it names. */
  lemma EntryLocatesRecord(start: int, kv: seq<Payload>, j: nat)
    requires j < |kv|
    ensures Entries(start, kv)[j] == IndexEntry(kv[j].key, start + |Records(kv[..j])|, RecordWidth(kv[j]))
    ensures |Records(kv[..j])| + RecordWidth(kv[j]) <= |Records(kv)|
    ensures Records(kv)[|Records(kv[..j])|..|Records(kv[..j])| + RecordWidth(kv[j])] == Record(kv[j])
  {
    EntryAt(start, kv, j);
    RecordAt(kv, j);
  }

  lemma {:induction false} EntryAt(start: int, kv: seq<Payload>, j: nat)
    requires j < |kv|
    ensures Entries(start, kv)[j] == IndexEntry(kv[j].key, start + |Records(kv[..j])|, RecordWidth(kv[j]))
    decreases |kv|
  {
    var n := |kv|;
    if j < n - 1 {
      EntryAt(start, kv[..n - 1], j);
      assert kv[..n - 1][..j] == kv[..j];
      assert kv[..n - 1][j] == kv[j];
    }
  }

  /** The `j`-th record starts with the `j`-th payload's head cell. */
  lemma HeadAt(kv: seq<Payload>, j: nat)
    requires j < |kv|
    ensures |Records(kv[..j])| + RecordWidth(kv[j]) <= |Records(kv)|
    ensures Records(kv)[|Records(kv[..j])|] == PayloadHead(kv[j])
  {
    RecordAt(kv, j);
    var o := |Records(kv[..j])|;
    assert Records(kv)[o..o + RecordWidth(kv[j])][0] == Records(kv)[o];
  }

  lemma RecordAt(kv: seq<Payload>, j: nat)
    requires j < |kv|
    ensures |Records(kv[..j])| + RecordWidth(kv[j]) <= |Records(kv)|
    ensures Records(kv)[|Records(kv[..j])|..|Records(kv[..j])| + RecordWidth(kv[j])] == Record(kv[j])
  {
    RecordsPrefix(kv, j + 1);
    var m := kv[..j + 1];
    assert m[..|m| - 1] == kv[..j];
    assert Records(m) == Records(kv[..j]) + Record(kv[j]);
    var a, b := |Records(kv[..j])|, |Records(kv[..j])| + RecordWidth(kv[j]);
    assert Records(kv)[a..b] == Records(m)[a..b];
  }
}

=== FILE: storage.dfy ===
/**
 The storage facade of parrot/storage.go: `Storage.Get`, `Put` and `Delete` hand the call to
 a reader and a writer over the memtable store and wrap the outcome in a status. Building
 the store, the manifest and the compactor goroutine (`NewStorage`) is setup and is not
 modelled.
 */
module Storage {
  import opened Keys
  import opened Wrappers
  import opened Levels
  import MS = MemStore
  import MT = Memtable

  datatype StorageError = KeyNotFound

  /** `ReadStatus`: the value (nil as `None`) and the error. */
  datatype ReadStatus = ReadStatus(value: Option<Value>, err: Option<StorageError>)

  /** `WriteStatus`: only an error. */
  datatype WriteStatus = WriteStatus(err: Option<StorageError>)

  /**
   `Storage.Get` through `Reader.Get`: a key the store reports as not found is a not-found
   error with a nil value, anything else its value with no error, and `None` when the
   store's read panicked, so that `Get` returns no status at all. As written, the store's
   read can report a key found with a nil value (see `MemStore.ReadIn`), and so can `Get`.
   */
  function Get(s: MS.Store, key: Key, mode: Mode): (r: (MS.Store, Option<ReadStatus>))
    ensures r.0.mems == s.mems && r.0.lsm == s.lsm && r.0.fs == s.fs && r.0.opts == s.opts
    ensures r.1.None? <==> MS.ReadIn(s, key, mode).1.ReadPanic?
    ensures r.1.Some? && r.1.value.err.Some? ==> r.1.value == ReadStatus(None, Some(KeyNotFound))
    ensures r.1.Some? && r.1.value.err.None? && r.1.value.value.Some? ==> !IsDeleted(r.1.value.value.value)
    ensures mode == Corrected && r.1.Some? && r.1.value.err.None? ==> r.1.value.value.Some?
    ensures r.1.Some? && r.1.value.err.None? <==> MS.ReadIn(s, key, mode).1.Answer? && MS.ReadIn(s, key, mode).1.ok
  {
    var (s', a) := MS.ReadIn(s, key, mode);
    (s', if a.ReadPanic? then None
         else if a.ok then Some(ReadStatus(a.value, None))
         else Some(ReadStatus(None, Some(KeyNotFound))))
  }

  /** `Storage.Put` through `Writer.Put`: the store's rollover flag is dropped and no error is ever reported. */
  function Put(s: MS.Store, key: Key, value: Value): (r: (MS.Store, WriteStatus))
    requires MS.Valid(s)
    ensures MS.Valid(r.0) && r.1.err.None?
    ensures r.0.lsm == s.lsm && r.0.fs == s.fs && r.0.opts == s.opts
  {
    (MS.Write(s, key, value).0, WriteStatus(None))
  }

  /** `Storage.Delete` through `Writer.Delete`: never reports an error; the mode is that of the logged event. */
  function Delete(s: MS.Store, key: Key, tombstone: Value, mode: Mode): (r: (MS.Store, WriteStatus))
    requires MS.Valid(s)
    ensures MS.Valid(r.0) && r.1.err.None?
    ensures r.0.lsm == s.lsm && r.0.fs == s.fs && r.0.opts == s.opts
  {
    (MS.Delete(s, key, tombstone, mode), WriteStatus(None))
  }

  /**
   Put then Get: a live value that fits, in the active memtable or in a fresh one, is read
   back without error; other keys read as before.
   */
  lemma PutThenGet(s: MS.Store, key: Key, value: Value, k: Key, mode: Mode)
    requires MS.Valid(s) && !IsDeleted(value)
    requires !MT.Overflows(|MS.Active(s).data|, SizeOf(value), s.opts.softLimit) || !MT.Overflows(0, SizeOf(value), s.opts.softLimit)
    ensures Get(Put(s, key, value).0, key, mode).1 == Some(ReadStatus(Some(value), None))
    ensures k != key ==> Get(Put(s, key, value).0, k, mode).1 == Get(s, k, mode).1
  {
    MS.WriteThenRead(s, key, value, mode);
    if k != key {
      MS.WriteKeepsOtherKeys(s, key, value, k, mode);
    }
  }

  /** Delete then Get: the key is a not-found error whatever the store held; other keys read as before. */
  lemma DeleteThenGet(s: MS.Store, key: Key, tombstone: Value, k: Key, mode: Mode)
    requires MS.Valid(s)
    ensures Get(Delete(s, key, tombstone, mode).0, key, mode).1 == Some(ReadStatus(None, Some(KeyNotFound)))
    ensures k != key ==> Get(Delete(s, key, tombstone, mode).0, k, mode).1 == Get(s, k, mode).1
  {
    MS.DeleteThenRead(s, key, tombstone, k, mode, mode);
  }

  /**
   The facade's put-and-get test, extended with a delete: on a fresh store with a 2048-byte
   soft limit, putting 278 under key 278 reads back 278 without error (what the test checks),
   and after deleting the key it reads as an error, a step the test does not take.
   */
  lemma PutGetDeleteScenario(mode: Mode)
    ensures var s := MS.NewStore(MT.MemtableOpts(2048, true), Lsm([]), map[]);
      var k, v := IntKey(278), IntValue(278, false);
      && Get(Put(s, k, v).0, k, mode).1 == Some(ReadStatus(Some(v), None))
      && Get(Delete(Put(s, k, v).0, k, IntValue(0, false), mode).0, k, mode).1 == Some(ReadStatus(None, Some(KeyNotFound)))
  {
    var s := MS.NewStore(MT.MemtableOpts(2048, true), Lsm([]), map[]);
    var k, v := IntKey(278), IntValue(278, false);
    assert !MT.Overflows(|MS.Active(s).data|, SizeOf(v), s.opts.softLimit) by {
      MT.OverflowsPlain(0, 4, 2048);
    }
    var s1 := Put(s, k, v).0;
    assert Get(s1, k, mode).1 == Some(ReadStatus(Some(v), None)) by {
      PutThenGet(s, k, v, k, mode);
    }
    assert Get(Delete(s1, k, IntValue(0, false), mode).0, k, mode).1 == Some(ReadStatus(None, Some(KeyNotFound))) by {
      DeleteThenGet(s1, k, IntValue(0, false), k, mode);
    }
  }

  /**
   As written, `Get` of `IntKey{0}` over a table whose files are missing returns a nil value
   and no error; corrected it is a not-found error.
   */
  lemma AsWrittenGetNilValue()
    ensures Get(MS.OneMissingTable(), IntKey(0), AsWritten).1 == Some(ReadStatus(None, None))
    ensures Get(MS.OneMissingTable(), IntKey(0), Corrected).1 == Some(ReadStatus(None, Some(KeyNotFound)))
  {
    MS.AsWrittenZeroKeyFoundOnFailure();
  }

  /**
   As written, `Get` of a key above the only table's last key panics and returns no status;
   corrected it is a not-found error.
   */
  lemma AsWrittenGetPanicsAboveLastKey()
    ensures Get(MS.OneCachedTable(), IntKey(2), AsWritten).1 == None
    ensures Get(MS.OneCachedTable(), IntKey(2), Corrected).1 == Some(ReadStatus(None, Some(KeyNotFound)))
  {
    MS.AsWrittenReadPanicsAboveLastKey(Corrected);
  }
}

=== FILE: wrappers.dfy ===
/** Failure-carrying results shared by every module of the model. */
module Wrappers {

  /** A value that may be absent; `None` also stands for a Go `nil`. */
  datatype Option<+T> = None | Some(value: T)

  /** The outcome of an operation that returns a Go `error`. */
  datatype Result<+T, +E> = Ok(value: T) | Err(error: E)

  /**
   Where the source has a bug, an operation takes a mode: the source as it is written, or
   with the finding listed in README corrected.
   */
  datatype Mode = AsWritten | Corrected
}
